=== FILE: README.md ===
# Moderation-ai core, modelled in Dafny

This project models the deterministic core of Moderation-ai, a comment-moderation toolkit, and proves properties of that model. The core has five parts.

- **The standards engine.** `StandardsEngine` decides each comment. It runs a density check for every metric of every enabled standard. It emits at most one violation per standard and scores the violations by standard weight. Severity comes from fixed bands. The first matching rule picks the action: approve, flag, hide or remove. The engine also blends a confidence and renders a reasoning text.
- **The data model and registries.** The data model is `Comment`, `Violation`, `ModerationResult` and `Post`, with their dictionary codecs. The registries hold standards and metrics, and the built-in default catalogue ships five standards.
- **The stand-alone metrics validator.** This is `MetricsValidator`, with custom validators that override the default check by metric name. Its text helpers are in `TextAnalyzer`.
- **The keyword and threshold analyzers.** These are abuse detection, sentiment, categorisation, FAQ extraction, content ideation, community metrics and extractive summarisation. `CompositeAnalyzer` merges their results.
- **The token-bucket rate limiter.** It is modelled per limiter and per platform and endpoint.

The model is written with immutable datatypes and pure functions.
- A Python dict is an ordered sequence of (key, value) pairs with unique keys (`Registry`), so insertion order is kept wherever the program depends on it.
- Floats are modelled as reals.
- Regular-expression matching is a function parameter (`Matcher`, `Searcher`). Its result is either the list of matches, or None when the pattern raises.
- The wall clock is a parameter: a `DateTime` value for timestamps, and seconds as a real for the rate limiter.
- `math.log` is a parameter.
- A Python exception is a None result or, for the known crash paths, a precondition.

Module layout:
- **Support modules.** `Wrappers`, `Text` (Python whitespace, `split`, `strip`, ASCII `lower`, substring search), `Seqs` (`Counter`, `most_common`, stable descending sort), `Registry`, and `Values` (dictionary payloads and ISO timestamps).
- **`src/core`.** `Base`, `Standards`, `Engine`, `DefaultCatalogue`, `Sharing`, `Metrics` and `TextAnalyzer`.
- **`src/analysis`.** `AnalysisBase`, `Abuse`, `Sentiment`, `Categorizer`, `Lexicon`, `Grouping`, `Faq`, `Ideation`, `Community` and `Summarizer`. `Lexicon` and `Grouping` hold the keyword counting and first-fit grouping that several analyzers share.
- **`src/utils/rate_limiter.py`.** `RateLimiting`.

## Model

| member | source | states |
|---|---|---|
| Base.ActionFromValue | src/core/base.py:17-23 | an action found by its value string has exactly that value; any other string is rejected |
| Base.ActionValueRoundTrip | src/core/base.py:17-23 | every action is found again from its own value |
| Base.SeverityFromValue | src/core/base.py:26-32 | a severity found by its value string has exactly that value; any other string is rejected |
| Base.SeverityValueRoundTrip | src/core/base.py:26-32 | every severity is found again from its own value |
| Base.HasViolations | src/core/base.py:129-132 | a result has violations exactly when its violation list is non-empty |
| Base.AnySevere | src/core/base.py:134-139 | true exactly when some violation is HIGH or CRITICAL |
| Base.CommentFromDict | src/core/base.py:45-81 | decoding succeeds only on keys among the eleven fields; every field is the value under its key (the timestamp parsed from its ISO text, a null parent_id being None); an absent likes, replies_count, parent_id or metadata takes its default |
| Base.ViolationFromDict | src/core/base.py:85-113 | decoding succeeds only on keys among the seven fields; each field is read from its key, the severity from its value string, the position from its integer or null, an absent position being None |
| Base.CommentToDict | src/core/base.py:60-74 | the dictionary holds the eleven comment keys, each once, in declaration order (id, text, author_id, author_name, created_at, platform, post_id, parent_id, likes, replies_count, metadata), and no other key |
| Base.CommentRoundTrip | src/core/base.py:60-81 | decoding an encoded comment gives the same comment back, the timestamp surviving its ISO text |
| Base.ViolationToDict | src/core/base.py:96-106 | the seven violation keys, each once, in declaration order and no other, the severity stored as its value string |
| Base.ViolationRoundTrip | src/core/base.py:96-113 | decoding an encoded violation gives it back, severity parsed from its value |
| Base.ViolationListRoundTrip | src/core/base.py:163-164 | a list of encoded violations decodes item by item to the original list |
| Base.ResultToDict | src/core/base.py:141-154 | ten entries, the last two the derived `has_violations` and `is_severe`, which agree with the result; the action stored as its value |
| Base.ResultFromDictRejectsToDict | src/core/base.py:141-167 | the decoder as written rejects every dictionary the encoder produces, because of the two derived keys |
| Base.ResultFromDict | src/core/base.py:117-167 | a dictionary with `has_violations` or `is_severe` is rejected; a decoded result has only result keys; comment, violations, score, confidence, reasoning, the action (from its value string), metadata and a present timestamp are read from their keys; an absent timestamp is the caller's time and an absent metadata empty |
| Base.ResultDerived | src/core/base.py:130-155 | the encoded result stores the action as its value string, and its has_violations and is_severe entries agree with the result |
| Base.ResultRoundTrip | src/core/base.py:141-167 | with the derived keys dropped first, decoding an encoded result gives it back |
| Base.PostToDict | src/core/base.py:217-232 | the twelve post keys, each once, in declaration order and no other |
| Base.PostFromDict | src/core/base.py:201-239 | decoding succeeds only on keys among the twelve post fields; the string fields and the parsed created_at are read from their keys; likes, shares, comments_count and metadata are the values under their keys, or 0, 0, 0 and empty when absent |
| Base.PostRoundTrip | src/core/base.py:217-239 | decoding an encoded post gives it back |
| Values.IsoFormat | src/core/base.py:67 | the ISO text is 19 characters, or 26 when there are microseconds |
| Values.FromIsoFormat | src/core/base.py:79-80 | on the two layouts `isoformat` writes, whatever parses is a datetime with every field in range; other layouts are rejected (see Left out) |
| Values.IsoRoundTrip | src/core/base.py:79-80 | parsing the ISO text of a datetime gives the same datetime |
| Standards.StandardToDict | src/core/standards.py:36-46 | the seven standard keys, each once, in declaration order and no other |
| Standards.StandardFromDict | src/core/standards.py:24-51 | decoding succeeds only on keys among the seven standard fields; name, description and the metric names are read from their keys; enabled, weight, severity_threshold and metadata are the values under their keys, or True, 1.0, 0.7 and empty when absent |
| Standards.StandardRoundTrip | src/core/standards.py:36-51 | decoding an encoded standard gives it back |
| Standards.MetricToDict | src/core/standards.py:66-76 | the seven metric keys, each once, in declaration order and no other |
| Standards.MetricFromDict | src/core/standards.py:54-83 | decoding succeeds only on keys among the seven metric fields; name, description, check_pattern and threshold are read from their keys and the severity from its value string; enabled and metadata are the values under their keys, or True and empty when absent |
| Standards.MetricRoundTrip | src/core/standards.py:66-83 | decoding an encoded metric gives it back, the severity parsed from its value |
| Standards.DefaultStandardsWellFormed | src/core/standards.py:95-131 | five built-in standards with distinct names, each filed under its own name, positive weights, thresholds in [0, 1], four metrics each |
| Standards.DefaultMetricsWellFormed | src/core/standards.py:133-274 | the twenty built-in metrics, in order, each filed under its own name, thresholds in [0, 1] |
| Standards.DefaultReferencesResolve | src/core/standards.py:95-274 | every metric a built-in standard lists is a built-in metric |
| Engine.NewEngine | src/core/standards.py:276-295 | an empty standards or metrics dict falls back to the built-in one; threshold and auto-moderation kept |
| Engine.CheckMetric | src/core/standards.py:397-424 | a pattern error or no match passes with score 0 and the matching text; otherwise the reasoning counts the matches; the score is never negative |
| Engine.CheckMetricDensity | src/core/standards.py:416-418 | the score is the match count over max(1, word count) of the lower-cased text, and the metric fails exactly when that reaches its threshold |
| Engine.ViolatedMetricsSpec | src/core/standards.py:364-378 | a name is reported exactly when the standard lists it and its metric is defined, enabled and fails |
| Engine.MaxThreshold | src/core/standards.py:381-383 | the largest threshold among the named metrics: no smaller than any, equal to one |
| Engine.DetermineSeverity | src/core/standards.py:426-444 | CRITICAL exactly at 0.9 or above, HIGH or CRITICAL exactly at 0.7 or above, LOW exactly below 0.5 |
| Engine.SeverityMonotone | src/core/standards.py:426-444 | a higher confidence never gives a lower severity |
| Engine.CheckStandard | src/core/standards.py:353-395 | at most one violation, naming the standard and its failing metrics, with the severity banded from its confidence |
| Engine.CheckStandardSpec | src/core/standards.py:353-395 | the violation exists exactly when some listed metric fails, and its confidence is the largest threshold of the failing metrics |
| Engine.CheckStandardInRange | src/core/standards.py:380-383 | with thresholds in [0, 1] the violation's confidence lies in [0, 1] |
| Engine.ScanBounds | src/core/standards.py:308-326 | the score the loop accumulates is the weighted sum (each enabled failing standard contributing its weight times the largest threshold of its failing metrics), and lies between 0 and the total weight of the enabled standards; at most one violation per enabled standard, each confidence in [0, 1] |
| Engine.ScanTotals | src/core/standards.py:309-326 | the loop yields exactly the violations of the enabled standards in order, the weighted sum as score and the enabled weight as total |
| Engine.ScanEmptyIff | src/core/standards.py:312-324 | no violation exactly when no enabled standard has a failing metric |
| Engine.ScanProvenance | src/core/standards.py:312-317 | every violation was raised by an enabled standard of the registry |
| Engine.ScanIncludes | src/core/standards.py:312-317 | the violation an enabled standard raises is among the scan's violations |
| Engine.ScanIgnoresDisabled | src/core/standards.py:313-314 | removing a disabled standard changes nothing in the scan |
| Engine.DetermineAction | src/core/standards.py:446-475 | APPROVE exactly without violations, REMOVE exactly with a HIGH or CRITICAL one, HIDE exactly when otherwise the score reaches the threshold with auto-moderation on |
| Engine.MaxConfidence | src/core/standards.py:492 | the largest violation confidence: no smaller than any, equal to one |
| Engine.CalculateConfidence | src/core/standards.py:477-495 | 1 without violations; otherwise twice the confidence is the largest violation confidence plus min(n/5, 1): plus 1 exactly from five violations on, plus n/5 below; in [0, 1] when the confidences are |
| Engine.ReasoningLines | src/core/standards.py:497-517 | split at newlines, the reasoning is the count header, one line per violation in order, and the score line |
| Engine.Moderate | src/core/standards.py:298-339 | the violations are those of every enabled standard in order; the score is the weighted sum over the enabled weight, 0 when that weight is 0; APPROVE iff no violations, REMOVE iff severe, HIDE iff neither, auto-moderation on and the score at the threshold; the confidence is `_calculate_confidence` of the violations and the reasoning is `_generate_reasoning` of them and the score (1 and the pass text for a clean comment) |
| Engine.ModerateBatch | src/core/standards.py:341-351 | one result per comment, in order, each the single-comment result |
| Engine.ModerateBounds | src/core/standards.py:298-339 | with in-range thresholds and positive weights, score and confidence lie in [0, 1] and there is at most one violation per enabled standard |
| Engine.ModerateApprovesIff | src/core/standards.py:298-339 | a comment is approved exactly when no enabled standard has a failing metric |
| Engine.AddStandard | src/core/standards.py:519-526 | the standard is found under its name, every other name is unchanged, names stay unique |
| Engine.RemoveStandard | src/core/standards.py:528-541 | true exactly when the name was present; then it is gone and every other name is unchanged; otherwise nothing changes |
| Engine.SetStandardEnabled | src/core/standards.py:567-595 | true exactly when the name is present; then only that standard's flag changes; otherwise nothing changes |
| Engine.AddMetric | src/core/standards.py:543-550 | the metric is found under its name, every other name is unchanged, names stay unique |
| Engine.RemoveMetric | src/core/standards.py:552-565 | true exactly when the name was present; then it is gone and every other name is unchanged; otherwise nothing changes |
| Engine.DisableIsRemove | src/core/standards.py:313-314 | moderating with a standard disabled gives the same result as with it removed |
| Engine.SparseCheckPasses | src/core/standards.py:416-418 | a metric passes when no pattern matches more often per word than a bound below its threshold |
| Engine.SparseMatchesApprove | src/core/standards.py:298-339 | when every threshold exceeds the per-word match density of every pattern, the comment is approved |
| Engine.HighThresholdFailureIsSevere | src/core/standards.py:380-388 | a failing metric with threshold 0.7 or more makes its standard's violation HIGH or CRITICAL |
| Engine.SevereStandardRemoves | src/core/standards.py:459-468 | one enabled standard with a HIGH or CRITICAL violation is enough for REMOVE |
| DefaultCatalogue.DefaultThresholdsAbove | src/core/standards.py:133-274 | every built-in threshold lies above 0.4 |
| DefaultCatalogue.MildInsultApproved | src/core/standards.py:137-221 | "You are stupid and idiot" is approved by the default engine: two matches in five words stay below every threshold |
| DefaultCatalogue.RelevanceFails | src/core/standards.py:176-182 | on a text of at most one word that the catch-all pattern matches, `relevance` fails |
| DefaultCatalogue.OneWordRemoved | src/core/standards.py:103-109 | a one-word comment is removed by the default engine, because `relevance` (threshold 0.7) makes the quality violation HIGH |
| Sharing.NewDeep | src/core/standards.py:292 | an engine owning copies of the built-in objects sees the built-in standards |
| Sharing.SetEnabled | src/core/standards.py:567-595 | the flag is set on the object the name refers to; true exactly when the name is present |
| Sharing.SetEnabledOwnView | src/core/standards.py:577-579 | through its own references an engine sees only the named standard's flag change |
| Sharing.DisjointIsolates | src/core/standards.py:577-579 | an engine sharing no object with the one changed sees nothing change |
| Sharing.ShallowCopyLeaks | src/core/standards.py:292 | as written, disabling `safety` on one default engine disables it for every default engine, later ones included |
| Sharing.DeepCopyIsolates | src/core/standards.py:292 | corrected, a new default engine always sees the built-in standards |
| Metrics.NewValidator | src/core/metrics.py:26-34 | the validator holds the given metrics and no custom validators |
| Metrics.CalculateScore | src/core/metrics.py:108-132 | a score in [0, 1]: 0 without matches, 1 for matches in a wordless text, otherwise matches per word capped at 1, reaching 1 exactly when matches are at least the words |
| Metrics.Shown | src/core/metrics.py:149 | at most the first three matches, each a prefix of at most 20 characters |
| Metrics.MatchText | src/core/metrics.py:149-151 | the quoted matches, followed by " and N more" exactly when more than three matched |
| Metrics.DefaultValidate | src/core/metrics.py:79-106 | a pattern error passes with score 0 and the error reasoning; no match passes with score 0 and the no-violation text; otherwise the score is the capped density and the check passes exactly below the threshold |
| Metrics.Validate | src/core/metrics.py:36-57 | an unknown metric passes with score 0 and the not-found message; a known metric without a custom validator gets exactly the default check of that metric |
| Metrics.CustomOverrides | src/core/metrics.py:52-54 | for a known metric with a custom validator, the result is that validator's result unchanged |
| Metrics.ValidateAll | src/core/metrics.py:59-77 | one entry per distinct requested name and no other, each that name's validate result |
| Metrics.DefaultAgreesWithEngine | src/core/metrics.py:127-130 | the validator's score is the engine's capped at 1, and for thresholds up to 1 both give the same verdict |
| Metrics.AddCustomValidator | src/core/metrics.py:158-167 | the validator is found under the name; other names unchanged |
| Metrics.RemoveCustomValidator | src/core/metrics.py:169-182 | true exactly when a validator was registered; then it is gone and others unchanged; otherwise nothing changes |
| Metrics.AddMetric | src/core/metrics.py:184-191 | the metric is found under its name; other names unchanged |
| Metrics.RemoveMetric | src/core/metrics.py:193-206 | true exactly when the metric was present; then it is gone and others unchanged; otherwise nothing changes |
| Metrics.AddedValidatorDecides | src/core/metrics.py:158-167 | after registering a validator for a known metric, validate returns exactly what it returns |
| Metrics.RemovedValidatorRestoresDefault | src/core/metrics.py:169-182 | after removing a metric's validator, validate falls back to the default check |
| Metrics.RemovedMetricNotFound | src/core/metrics.py:193-206 | after removing a metric, validate reports it not found even with a custom validator registered |
| TextAnalyzer.CountWordsJoin | src/core/metrics.py:218-228 | words joined by single spaces are counted one each |
| TextAnalyzer.CountRunsSplit | src/core/metrics.py:231-242 | the sentence-end runs found are one fewer than the pieces cutting at them leaves |
| TextAnalyzer.CountRunsZero | src/core/metrics.py:231-242 | no sentence is counted exactly when no character ends a sentence |
| TextAnalyzer.LetterCounts | src/core/metrics.py:325-329 | capitals never outnumber letters, equal them exactly when every letter is a capital, and letters exist exactly when counted (ASCII letters; see Left out) |
| TextAnalyzer.CapsAbuseSpec | src/core/metrics.py:311-332 | caps abuse exactly when there are letters and the capitals reach the threshold share of them; letterless text never is |
| TextAnalyzer.AllCapsSpec | src/core/metrics.py:393-411 | all caps exactly when there is a letter and every letter is a capital |
| TextAnalyzer.AllCapsIsAbuse | src/core/metrics.py:311-411 | all-caps text is caps abuse for every threshold up to 1 |
| TextAnalyzer.SameRun | src/core/metrics.py:347-348 | the maximal run of the first character at the start of a text |
| TextAnalyzer.HasRepeatIff | src/core/metrics.py:347-349 | the run scan finds a run exactly when some character other than a newline repeats the required number of times in a row |
| TextAnalyzer.RepetitionSpec | src/core/metrics.py:335-359 | repetition exactly when a character repeats more than min_repeats times in a row, or some lower-cased word occurs min_repeats times |
| TextAnalyzer.RepetitionMonotone | src/core/metrics.py:335-359 | lowering min_repeats keeps a repetition a repetition |
| TextAnalyzer.Readability | src/core/metrics.py:362-390 | one of the four bands 0, 0.3, 0.6, 1 |
| TextAnalyzer.ReadabilityBands | src/core/metrics.py:372-390 | each band holds exactly for its range of words per sentence, and 0 also when there is no sentence |
| TextAnalyzer.Clean | src/core/metrics.py:447 | a cleaned word holds only letters and digits and is no longer than the word |
| TextAnalyzer.CleanIdempotent | src/core/metrics.py:447 | cleaning a clean word changes nothing |
| TextAnalyzer.ProfanitySpec | src/core/metrics.py:414-451 | profane exactly when some lower-cased word, cleaned, is on the given list, or the built-in list when none is given |
| TextAnalyzer.EmptyListFindsNothing | src/core/metrics.py:427 | an explicit empty list finds nothing; it does not fall back to the built-in list |
| TextAnalyzer.MildInsultProfane | src/core/metrics.py:427-440 | the comment the default engine approves is profane by the built-in word list |
| TextAnalyzer.Candidates | src/core/metrics.py:525-529 | the kept words hold only letters and digits |
| TextAnalyzer.ExtractKeywords | src/core/metrics.py:454-532 | for top_n >= 0 exactly min(top_n, number of distinct candidates) keywords, none for top_n at most 0, in non-increasing count order |
| TextAnalyzer.KeywordsCounted | src/core/metrics.py:525-532 | every reported keyword is a candidate, reported with its true count |
| TextAnalyzer.KeywordsDominate | src/core/metrics.py:531-532 | a candidate left out is no more frequent than any keyword reported |
| AnalysisBase.NewAnalyzer | src/analysis/base.py:22-30 | a new analyzer is enabled, with the given configuration or an empty one |
| AnalysisBase.ConfigureOverwrites | src/analysis/base.py:58-65 | after configure a given key reads its new value and every other key reads what it did before |
| AnalysisBase.SetEnabled | src/analysis/base.py:76-82 | enable and disable change the switch and nothing else |
| AnalysisBase.ValidateComment | src/analysis/base.py:138-154 | a comment is valid exactly when its text has a character other than whitespace |
| AnalysisBase.Preprocess | src/analysis/base.py:156-175 | surrounding whitespace removed: empty exactly for blank text, otherwise starting and ending with a non-space |
| AnalysisBase.CreateResult | src/analysis/base.py:93-118 | successful exactly when no error is given; every other field as passed |
| AnalysisBase.CreateErrorResult | src/analysis/base.py:120-136 | a failure carrying the error, no data and confidence 0 |
| AnalysisBase.ParseStrategy | src/analysis/base.py:257-260 | "merge" and "replace" select their strategies; any other string neither |
| AnalysisBase.Applicable | src/analysis/base.py:207-211 | for a valid comment exactly the enabled analyzers take part; for an invalid one none |
| AnalysisBase.CombineResults | src/analysis/base.py:227-271 | no results give the no-analyzer error, one result is returned as is; otherwise success exactly when all succeeded, the mean confidence, and data merged, replaced by the last, or empty for an unknown strategy |
| AnalysisBase.Analyze | src/analysis/base.py:197-213 | the applicable analyzers' results, in order, combined; none applicable gives the no-analyzer error |
| AnalysisBase.AnalyzeBatch | src/analysis/base.py:215-225 | one result per comment, in order |
| AnalysisBase.BlankCommentFails | src/analysis/base.py:207-243 | a blank comment reaches no analyzer, so the composite reports the no-analyzer error |
| AnalysisBase.MergeLastWins | src/analysis/base.py:257-258 | with the merge strategy a key holds the value of the last result that has it, and is absent when none has it |
| AnalysisBase.CombinedConfidenceInRange | src/analysis/base.py:262-264 | the combined confidence lies within any bounds every part's confidence respects |
| AnalysisBase.AddAnalyzer | src/analysis/base.py:273-280 | the analyzer is appended at the end |
| AnalysisBase.RemoveAnalyzer | src/analysis/base.py:282-295 | true exactly when the analyzer is present; then the list is the old one with its first occurrence cut out, order kept; otherwise nothing changes |
| AnalysisBase.AddThenRemove | src/analysis/base.py:273-295 | adding an analyzer and removing it again restores the composite |
| Abuse.Hits | src/analysis/abuse_detector.py:187-192 | a pattern is reported exactly when it is one of the detector's patterns and it matches; never more hits than patterns |
| Abuse.HitsCount | src/analysis/abuse_detector.py:187-192 | a pattern occurs among the hits as often as it is listed when it matches, and not at all otherwise |
| Abuse.HitsInOrder | src/analysis/abuse_detector.py:187-192 | the hits keep the order of the pattern list |
| Abuse.DetectPatterns | src/analysis/abuse_detector.py:177-277 | the count is the number of listed patterns that match the lower-cased text and the matches are the first three of them; detected exactly when the count is positive, which is exactly when some pattern matches |
| Abuse.KeywordHits | src/analysis/abuse_detector.py:235-246 | every reported (category, keyword) pair has its keyword occurring in the text |
| Abuse.KeywordHitsSpec | src/analysis/abuse_detector.py:238-246 | a (category, keyword) pair is a hit exactly when the category lists the keyword and the keyword occurs in the text |
| Abuse.Tag | src/analysis/abuse_detector.py:238-246 | each keyword is paired with its category, position for position |
| Abuse.FoundIn | src/analysis/abuse_detector.py:238-246 | a keyword is found exactly when it is listed and occurs in the text |
| Abuse.DetectHateSpeech | src/analysis/abuse_detector.py:225-253 | the count is the number of (category, keyword) hits in the lower-cased text and the matches the first five of them; detected exactly when the count is positive; each reported keyword occurs in the lower-cased text |
| Abuse.HateSpeechIff | src/analysis/abuse_detector.py:225-253 | hate speech is detected exactly when some listed keyword occurs in the lower-cased text |
| Abuse.Frequent | src/analysis/abuse_detector.py:291-294 | a word is kept exactly when its tally is at least three |
| Abuse.DetectRepetition | src/analysis/abuse_detector.py:279-301 | the count is the number of distinct lower-cased words tallied three times or more and the matches the first five of them; detected exactly when the count is positive |
| Abuse.RepetitionIff | src/analysis/abuse_detector.py:279-301 | repetition is detected exactly when some lower-cased word occurs three times or more |
| Abuse.RepetitionFlagsFrequentWords | src/analysis/abuse_detector.py:279-301 | a lower-cased whitespace token is flagged exactly when it occurs three times or more |
| Abuse.Normalized | src/analysis/abuse_detector.py:330 | min(count/5, 1) lies in [0, 1], is 1 exactly from five hits on, and is positive for any hit |
| Abuse.TotalsBounds | src/analysis/abuse_detector.py:322-332 | the weighted sum never exceeds the total weight, and the weight is positive exactly when some detector fired |
| Abuse.TotalsPositive | src/analysis/abuse_detector.py:322-332 | a detector that fired with a hit makes the weighted sum positive |
| Abuse.TotalsSaturated | src/analysis/abuse_detector.py:322-332 | when every detector that fired had five hits, the weighted sum equals the weight |
| Abuse.TotalsBetween | src/analysis/abuse_detector.py:322-332 | when every detector that fired has its normalised count within [lo, hi], the weighted sum lies between lo and hi times the total weight |
| Abuse.AbuseScoreSpec | src/analysis/abuse_detector.py:303-337 | the abuse score lies in [0, 1]; it is 0 when nothing fired, positive when a detector fired with a hit, and 1 when every detector that fired had five hits |
| Abuse.AbuseScore | src/analysis/abuse_detector.py:322-337 | the score times the total weight of the detectors that fired is their weighted sum of normalised counts; 0 when none fired |
| Abuse.AbuseScoreMean | src/analysis/abuse_detector.py:322-337 | the score is a weighted mean: it lies between the least and the greatest normalised count of the detectors that fired |
| Abuse.ClassifySeverity | src/analysis/abuse_detector.py:339-358 | no severity below 0.3, then LOW, MEDIUM, HIGH and CRITICAL in the bands [0.3,0.5), [0.5,0.7), [0.7,0.9), [0.9,∞), each an if-and-only-if |
| Abuse.SeverityMonotone | src/analysis/abuse_detector.py:339-358 | a higher score never gets a lower severity |
| Abuse.AbuseThreshold | src/analysis/abuse_detector.py:360-367 | the threshold is 0.4 in strict mode and 0.6 otherwise |
| Abuse.StrictFlagsMore | src/analysis/abuse_detector.py:360-367 | a score abusive in normal mode is abusive in strict mode |
| Abuse.AllMatches | src/analysis/abuse_detector.py:369-397 | the first min(10, all) of the matching patterns followed by the occurring hate-speech keywords, as a prefix of that list; each match is a matching pattern or an occurring keyword |
| Abuse.Signals | src/analysis/abuse_detector.py:314-332 | five signals in the order direct abuse, harassment, hate speech, threats, repetition, with the weights 1.0, 0.8, 1.2, 1.5 and 0.5, each carrying its detector's signal |
| Abuse.SignalsTotals | src/analysis/abuse_detector.py:314-332 | the totals of the five signals are the sums of each detector's weighted normalised count and weight, weights 1.0, 0.8, 1.2, 1.5, 0.5 |
| Abuse.ReportSpec | src/analysis/abuse_detector.py:122-163 | the score is the weighted abuse score of the five detections, which the report carries unchanged with the matches; the indicator count is the number of detectors that fired (at most 5); abusive exactly when the score reaches the threshold; severity by the bands; score in [0, 1] and equal to the confidence; score 0 with no indicator |
| Abuse.Analyze | src/analysis/abuse_detector.py:99-163 | a blank or empty comment gets the error result; any other comment gets the report of the five detectors run on its text and of the matches in its lower-cased text, at most ten |
| Abuse.SevereAbuseIff | src/analysis/abuse_detector.py:457-477 | a comment is severe abuse exactly when it is valid and scores 0.7 or more, in either mode |
| Abuse.AnalyzeBatch | src/analysis/abuse_detector.py:165-175 | one result per comment in order, an error result exactly for the blank comments |
| Sentiment.Tallies | src/analysis/sentiment.py:225-234 | at most one hit per word: the two counts together never exceed the number of words |
| Sentiment.TalliesCount | src/analysis/sentiment.py:228-234 | the positive count is the number of positive-lexicon words and the negative count the number of words only in the negative lexicon, so a word in both counts as positive |
| Sentiment.Polarity | src/analysis/sentiment.py:215-241 | polarity lies in [-1, 1], is 0 with no lexicon word, is positive exactly when positives outnumber negatives and negative exactly when negatives do, and times the hit total gives pos - neg |
| Sentiment.PolarityBounds | src/analysis/sentiment.py:236-241 | (pos - neg)/(pos + neg) lies in [-1, 1] and has the sign of pos - neg |
| Sentiment.NoLexiconWordNeutral | src/analysis/sentiment.py:238-239 | words outside both lexicons give polarity 0 |
| Sentiment.Classify | src/analysis/sentiment.py:277-292 | POSITIVE exactly above 0.1, NEGATIVE exactly below -0.1, NEUTRAL exactly in between |
| Sentiment.TenthBands | src/analysis/sentiment.py:287-290 | the 0.1 band on pos - neg over the hit total is the integer comparison 9 pos > 11 neg (and symmetrically) |
| Sentiment.ClassifyByCounts | src/analysis/sentiment.py:215-292 | a comment is POSITIVE exactly when 9 pos > 11 neg and NEGATIVE exactly when 9 neg > 11 pos |
| Sentiment.Confidence | src/analysis/sentiment.py:193-200 | min(abs(polarity) + 0.5, 1) lies in [0.5, 1] and is 1 exactly when the polarity is at least 0.5 in size |
| Sentiment.ConfidenceMonotone | src/analysis/sentiment.py:193-200 | a stronger polarity of the same sign never lowers the confidence |
| Sentiment.Subjectivity | src/analysis/sentiment.py:243-275 | subjectivity lies in [0, 1], is 0 exactly when no indicator phrase occurs, and for texts of at most 100 characters is 0 or 1 |
| Sentiment.DensityFacts | src/analysis/sentiment.py:274 | matches over a divisor of at least 1 is non-negative, zero exactly without matches, and the count itself for divisor 1 |
| Sentiment.CategoryHits | src/analysis/sentiment.py:306-311 | no increment at all exactly when no word is listed in the table |
| Sentiment.Distribution | src/analysis/sentiment.py:304-318 | the normalised counts are empty exactly when no word is listed |
| Sentiment.DistributionShares | src/analysis/sentiment.py:313-318 | a non-empty distribution has unique keys and positive values summing to 1 |
| Sentiment.DistributionValues | src/analysis/sentiment.py:304-318 | a category is a key exactly when some word hit it, and its value is its hit count over all hits |
| Sentiment.DetectEmotions | src/analysis/sentiment.py:294-318 | emotions are empty exactly when no emotion keyword occurs |
| Sentiment.EmotionsShares | src/analysis/sentiment.py:294-318 | emotions are empty or a distribution of positive shares summing to 1 |
| Sentiment.DetectTone | src/analysis/sentiment.py:336-360 | the tone is exactly {"neutral": 1.0} when no indicator word occurs |
| Sentiment.NoNeutralTone | src/analysis/sentiment.py:136-148 | "neutral" is never a counted tone, so the fallback cannot be produced by counting |
| Sentiment.ToneShares | src/analysis/sentiment.py:336-360 | the tone is always a distribution of positive shares summing to 1 |
| Sentiment.DominantEmotion | src/analysis/sentiment.py:320-334 | no dominant emotion exactly for an empty map; otherwise a key of the map whose share is the largest |
| Sentiment.Report | src/analysis/sentiment.py:174-201 | polarity, subjectivity, emotions, dominant emotion and tone are those of the words and text; polarity in [-1, 1], subjectivity in [0, 1], confidence in [0.5, 1]; sentiment and confidence follow the polarity; emotions and tone are shares; no dominant emotion exactly without emotions; word count is the number of words |
| Sentiment.Analyze | src/analysis/sentiment.py:161-201 | an error result exactly for a blank comment; otherwise the report of the stripped text and its whitespace-separated words, with at least one word, polarity in [-1, 1] and the matching classification |
| Sentiment.AnalyzeBatch | src/analysis/sentiment.py:203-213 | one result per comment in order, each with polarity in [-1, 1] |
| Sentiment.Polarities | src/analysis/sentiment.py:398-401 | the polarities of the successful results: every successful result contributes its polarity and every polarity is one of theirs; none exactly when every result failed; each in [-1, 1] when the results are |
| Sentiment.AveragePolarity | src/analysis/sentiment.py:388-406 | 0 when no result succeeded, otherwise the mean of the collected polarities (MeanReal: mean times count equals the sum); in [-1, 1]; 0 when no comment is valid |
| Sentiment.MeanInRange | src/analysis/sentiment.py:406 | the mean of values in [-1, 1] lies in [-1, 1] |
| Sentiment.Dominants | src/analysis/sentiment.py:424-428 | at most one emotion per result; every successful result with a non-empty dominant emotion contributes it |
| Sentiment.DominantsFromResults | src/analysis/sentiment.py:424-428 | every collected emotion is the non-empty dominant emotion of some successful result |
| Sentiment.Trending | src/analysis/sentiment.py:430-440 | at most top_n entries, min(top_n, distinct emotions) of them when there are emotions, none when there are none; ordered by non-increasing share; each an emotion that occurred, with share its count over all emotions |
| Sentiment.TrendingDominates | src/analysis/sentiment.py:430-440 | an emotion left out has no larger share than any emotion kept |
| Sentiment.TrendingEmotions | src/analysis/sentiment.py:408-440 | the trending list of the dominant emotions of the results: min(top_n, distinct dominants) entries, ordered by non-increasing share, each a dominant emotion with share its count over all dominants; none when no result has one |
| Sentiment.TrendingFacts | src/analysis/sentiment.py:435-438 | dividing most-common counts by the total keeps their order and puts each share in (0, 1] |
| Categorizer.TopicScores | src/analysis/categorizer.py:274-275 | one score per declared topic, each the number of words that topic lists |
| Categorizer.TopicNamesUnique | src/analysis/categorizer.py:25-110 | the topic names are distinct, so looking a topic up by name finds its own keywords |
| Categorizer.CategorizeTopic | src/analysis/categorizer.py:262-288 | ("general", 0) when no topic reaches min_matches; otherwise the winning topic with its hits over max(5, word count), a confidence in [0, 1] |
| Categorizer.TopicIsEarliestBest | src/analysis/categorizer.py:272-283 | the primary topic is "general" when no topic qualifies; otherwise a qualifying topic with the most hits, and no earlier-declared topic has as many (ties go to declaration order) |
| Categorizer.TypeScores | src/analysis/categorizer.py:303-304 | one score per content type, each the number of its indicator phrases that occur in the lower-cased text |
| Categorizer.CategorizeContentType | src/analysis/categorizer.py:290-317 | ("general", 0) exactly when no indicator occurs; otherwise the winning type with confidence 1 exactly when 20 times its phrase count reaches the text length, and 20 · count / length below that |
| Categorizer.TypeConfidence | src/analysis/categorizer.py:316 | min(m / max(1, len/20), 1) lies in (0, 1], is 1 exactly when 20 m reaches len, and is 20 m / len below |
| Categorizer.LengthCategory | src/analysis/categorizer.py:319-338 | very_short up to 50, short up to 100, medium up to 250, long up to 500, very_long above, each an if-and-only-if |
| Categorizer.LengthMonotone | src/analysis/categorizer.py:319-338 | a longer text never falls in a shorter band |
| Categorizer.SecondaryTopics | src/analysis/categorizer.py:340-367 | at most three topics, none the primary one, each with at least min_matches - 1 hits, in non-increasing order of hits |
| Categorizer.SecondaryTopicsDominate | src/analysis/categorizer.py:353-367 | a qualifying topic other than the primary that is left out has no more hits than any topic kept |
| Categorizer.SecondaryTopicsComplete | src/analysis/categorizer.py:353-367 | when fewer than three topics are returned, every qualifying topic other than the primary is among them |
| Categorizer.SecondaryFacts | src/analysis/categorizer.py:353-367 | the first three of the candidates sorted by hits are other topics with enough hits, in non-increasing order |
| Categorizer.Analyze | src/analysis/categorizer.py:206-248 | an error result exactly for a blank comment; otherwise the topic and its confidence come from the lower-cased words of the stripped text, the content type from that text, the length band from its length, the secondary topics (only with multi_label) from the words; the confidence is the mean of the topic and type confidences and lies in [0, 1]; secondary topics never hold the primary topic |
| Categorizer.AnalyzeBatch | src/analysis/categorizer.py:250-260 | one result per comment, in order |
| Categorizer.PrimaryTopics | src/analysis/categorizer.py:422-425 | at most one topic per result; every successful result contributes its primary topic and every collected topic is one of theirs |
| Categorizer.TopTopics | src/analysis/categorizer.py:406-427 | for limit >= 0 exactly min(limit, number of distinct primary topics) pairs, non-increasing counts, each a primary topic paired with its number of occurrences |
| Categorizer.TopTopicsDominate | src/analysis/categorizer.py:406-427 | no primary topic left out of the result is more common than one returned |
| Categorizer.TopicDistribution | src/analysis/categorizer.py:383-399 | empty for no comments; otherwise a topic is a key exactly when some successful result has it as primary topic, its value being its count over all comments, and the shares add up to the successful results over all comments |
| Categorizer.ContentTypesOf | src/analysis/categorizer.py:386-392 | every successful result contributes its content type and every collected type is one of theirs |
| Categorizer.TypesMatchTopics | src/analysis/categorizer.py:386-392 | as many content types as primary topics are collected |
| Categorizer.CategoryDistribution | src/analysis/categorizer.py:369-404 | empty halves for no comments; the topic half is the topic distribution; a content type is a key of the type half exactly when some successful result has it, its value being its count over all comments; both halves carry the same mass |
| Lexicon.CountIn | src/analysis/categorizer.py:275 | the number of listed words: at most the word count, zero exactly when no word is listed, all exactly when every word is |
| Lexicon.Filtered | src/analysis/faq_extractor.py:256-259 | a word is kept exactly when it is one of the words, not a stop word and longer than the minimum |
| Lexicon.WordScores | src/analysis/categorizer.py:274-277 | one score per category, each the number of words the category lists |
| Lexicon.Present | src/analysis/categorizer.py:304 | the number of phrases occurring in the text: zero exactly when none occurs |
| Lexicon.Categories | src/analysis/sentiment.py:309-311 | the categories listing a word: none exactly when the word is not listed, and each one does list it |
| Lexicon.Kept | src/analysis/categorizer.py:274-277 | the ascending positions of exactly the scores that reach the minimum |
| Lexicon.Winner | src/analysis/categorizer.py:279-283 | none exactly when no score reaches the minimum; otherwise a qualifying position with the largest score, before which no qualifying score is as large |
| Lexicon.WinnerFacts | src/analysis/categorizer.py:283 | the first maximum among the kept positions is the earliest maximum of all qualifying scores |
| Lexicon.WordSet | src/analysis/faq_extractor.py:354-358 | the word set is empty exactly when the text is blank |
| Faq.IsQuestion | src/analysis/faq_extractor.py:117-143 | a question exactly when the text has "?", or its lower-cased form opens with a question starter, or some question pattern matches it |
| Faq.IsQuestionIgnoresCase | src/analysis/faq_extractor.py:127-141 | whether a text is a question does not depend on letter case |
| Faq.TypeNameInjective | src/analysis/faq_extractor.py:180-216 | the nine type labels are distinct |
| Faq.ClassifyQuestionType | src/analysis/faq_extractor.py:167-216 | how_to, what, why, when, where and who each exactly when the lower-cased text opens with that word; yes_no exactly without such an opening and with a marker substring; multiple_choice exactly without either and with "or" and a comma; open_ended exactly in the remaining case |
| Faq.ClassifyIgnoresCase | src/analysis/faq_extractor.py:177 | the question type does not depend on letter case |
| Faq.QuestionParts | src/analysis/faq_extractor.py:145-165 | the first min(5, n) of the n stripped pieces longer than three characters, each delimiter-free |
| Faq.UndelimitedText | src/analysis/faq_extractor.py:156-165 | a text without '.', '?' or ';' is one part, itself stripped, when long enough |
| Faq.KeyTerms | src/analysis/faq_extractor.py:218-261 | the first min(10, n) of the n filtered words, each a lower-cased word longer than two characters and not a stop word |
| Faq.AreSimilar | src/analysis/faq_extractor.py:341-365 | similar exactly when both texts have words and their Jaccard index reaches the threshold; never for a blank text |
| Faq.JaccardScale | src/analysis/faq_extractor.py:360-365 | the ratio test equals the cross-multiplied test |
| Faq.SimilarSymmetric | src/analysis/faq_extractor.py:341-365 | similarity does not depend on argument order |
| Faq.SimilarReflexive | src/analysis/faq_extractor.py:341-365 | a text with a word is similar to itself for every threshold up to 1 |
| Faq.Examples | src/analysis/faq_extractor.py:321 | the examples are the member questions' texts, one each |
| Faq.GroupSimilar | src/analysis/faq_extractor.py:299-339 | the first-fit groups of the questions with at least min_occurrences members, in order (Frequent of Group); each FAQ has frequency equal to its example count, its first example is its own text and every later example is similar to it; no question is used twice |
| Faq.FaqsWellFormed | src/analysis/faq_extractor.py:316-334 | well-formed groups report frequency equal to example count and examples similar to the lead |
| Faq.GroupSimilarTotal | src/analysis/faq_extractor.py:299-339 | the frequencies of the FAQs add up to at most the number of questions |
| Faq.SameWordsGroup | src/analysis/faq_extractor.py:313-323 | two questions with the same words fall in one group |
| Faq.Analyze | src/analysis/faq_extractor.py:66-103 | an error result exactly for a blank comment; a question gets its type, its parts and confidence 0.9; a non-question gets no type, no parts and 0.1; key terms, length and the number of whitespace-separated words (positive) either way |
| Faq.AnalyzeBatch | src/analysis/faq_extractor.py:105-115 | one result per comment, in order |
| Faq.Questions | src/analysis/faq_extractor.py:279-289 | exactly the successful results that are questions are collected |
| Faq.ExtractFaqs | src/analysis/faq_extractor.py:263-297 | for limit >= 0 exactly min(limit, number of groups) FAQs, drawn without repetition from the grouped FAQs, in non-increasing frequency |
| Faq.ExtractFaqsDominates | src/analysis/faq_extractor.py:295 | an FAQ left out is no more frequent than any FAQ returned |
| Faq.TypeNames | src/analysis/faq_extractor.py:383-387 | the type labels of the successful questions: every successful question contributes its label and every label is one of theirs; none exactly when there is no successful question |
| Faq.QuestionTypesDistribution | src/analysis/faq_extractor.py:367-393 | empty exactly when no valid comment is a question; otherwise shares summing to 1, a label being a key exactly when some question has it, with its count over all labels |
| Faq.AllTerms | src/analysis/faq_extractor.py:412-416 | every key term of every successful result is collected, and every collected term is one of them |
| Faq.CommonKeyTerms | src/analysis/faq_extractor.py:395-418 | min(limit, distinct terms) terms for a positive limit, none otherwise; non-increasing counts, each a key term (not a stop word, longer than two) paired with its number of occurrences |
| Faq.CommonKeyTermsDominate | src/analysis/faq_extractor.py:395-418 | a key term left out occurs no more often than any term kept |
| Grouping.FirstSimilar | src/analysis/faq_extractor.py:316-323 | the first group whose leading item the new item is similar to, and none before it is |
| Grouping.Place | src/analysis/faq_extractor.py:313-334 | one loop step keeps the groups well formed, opens at most one group, and adds exactly the new item to the members |
| Grouping.Group | src/analysis/faq_extractor.py:311-334 | the groups are well formed, no leading item is similar to an earlier one, and the members are exactly the items (as a multiset) |
| Grouping.SimilarPairGroups | src/analysis/faq_extractor.py:316-323 | a second item similar to the first joins it: one group of frequency 2 |
| Grouping.DissimilarPairSplits | src/analysis/faq_extractor.py:325-334 | a second item not similar to the first opens a second group |
| Grouping.Frequent | src/analysis/faq_extractor.py:337 | exactly the groups with frequency at least min survive, in order |
| Grouping.GroupFrequent | src/analysis/faq_extractor.py:311-339 | the first-fit groups with frequency at least min, in order (Frequent of Group): each well formed, every qualifying group kept; no item appears more often than it was given |
| Grouping.GroupFrequentMembers | src/analysis/faq_extractor.py:311-339 | every member of a surviving group is one of the items |
| Grouping.GroupFrequentTotal | src/analysis/faq_extractor.py:311-339 | the frequencies of the surviving groups add up to at most the number of items |
| Grouping.Rank | src/analysis/faq_extractor.py:295 | for limit >= 0 exactly min(limit, number of groups) groups, drawn without repetition from the groups (sub-multiset), ordered by non-increasing key |
| Grouping.RankDominates | src/analysis/faq_extractor.py:295 | a group left out has no larger key than any group kept |
| Ideation.IsContentRequest | src/analysis/content_ideation.py:108-126 | a content request exactly when some request pattern is found in the lower-cased text |
| Ideation.FirstMentioned | src/analysis/content_ideation.py:140-143 | the first category with an entry occurring in the text, and none before it has one |
| Ideation.ExtractTopic | src/analysis/content_ideation.py:128-145 | None exactly when no topic indicator occurs; otherwise the first declared topic with an indicator in the lower-cased text |
| Ideation.TutorialFirst | src/analysis/content_ideation.py:140-143 | a text mentioning "tutorial" has topic tutorial, whatever else it mentions |
| Ideation.Themes | src/analysis/content_ideation.py:147-187 | the first min(10, n) of the n filtered words, each a lower-cased word longer than three characters and not a stop word |
| Ideation.ClassifyContentType | src/analysis/content_ideation.py:189-220 | question exactly with "?"; else feedback exactly with a feedback word; else complaint exactly with a complaint word; else appreciation exactly with an appreciation word |
| Ideation.FeedbackBeforeComplaint | src/analysis/content_ideation.py:205-213 | a text holding both "should" and "bug" and no "?" is feedback |
| Ideation.ThemeBonus | src/analysis/content_ideation.py:247-249 | the theme bonus lies in [0, 0.2] and is positive for any theme |
| Ideation.IdeationScore | src/analysis/content_ideation.py:222-256 | the ideation score lies in [0, 1] |
| Ideation.CapNeverBinds | src/analysis/content_ideation.py:256 | the bonuses add up to at most 1, so the score is their plain sum |
| Ideation.ThemeBonusSaturates | src/analysis/content_ideation.py:249 | 0.05 per theme up to three themes, 0.2 from four on |
| Ideation.ScoreMonotone | src/analysis/content_ideation.py:239-256 | a request, a topic or more themes never lower the score |
| Ideation.NonRequestCeiling | src/analysis/content_ideation.py:239-256 | without a request the score is at most 0.6 |
| Ideation.Analyze | src/analysis/content_ideation.py:53-94 | an error result exactly for a blank comment; otherwise request flag, topic, themes and type as defined, score in [0, 1] from them, confidence equal to the score, the length and the number of whitespace-separated words (positive) |
| Ideation.AnalyzeBatch | src/analysis/content_ideation.py:96-106 | one result per comment, in order |
| Ideation.Ideas | src/analysis/content_ideation.py:273-291 | exactly the successful requests scoring at least min_score are collected |
| Ideation.TopicsSimilar | src/analysis/content_ideation.py:345-359 | similar exactly when both topics are present and equal; never with a missing topic |
| Ideation.TopicsSimilarSymmetric | src/analysis/content_ideation.py:345-359 | topic similarity does not depend on argument order |
| Ideation.IdeaGroupsTopical | src/analysis/content_ideation.py:317-339 | a well-formed idea group counts its ideas, and all of them share the lead's present topic |
| Ideation.GroupIdeas | src/analysis/content_ideation.py:305-343 | the first-fit topic groups of the ideas with at least min_requests members, in order (Frequent of Group); each has frequency equal to its size and its ideas share one present topic; no idea is used twice |
| Ideation.LeadsQualify | src/analysis/content_ideation.py:305-343 | every group of qualifying ideas is led by a qualifying idea |
| Ideation.UntopicalIdeasStayAlone | src/analysis/content_ideation.py:356-357 | an idea without a topic stays a group of one |
| Ideation.LeadTopicsDistinct | src/analysis/content_ideation.py:317-339 | before filtering, no two groups lead with the same present topic |
| Ideation.SuggestContentIdeas | src/analysis/content_ideation.py:258-303 | for limit >= 0 exactly min(limit, number of groups) groups, drawn without repetition from the grouped qualifying ideas, ordered by non-increasing 10 * score + frequency, each with at least min_requests ideas sharing a topic and a lead scoring at least min_score |
| Ideation.SuggestionsDominate | src/analysis/content_ideation.py:297-303 | a group left out ranks no higher than any suggestion |
| Ideation.TopicsOf | src/analysis/content_ideation.py:375-380 | every successful result with a topic contributes it and every collected topic is one of theirs; none exactly when no successful result has one |
| Ideation.TopicDistribution | src/analysis/content_ideation.py:361-385 | empty exactly when no valid comment has a topic; otherwise shares summing to 1, a topic being a key exactly when some result has it, with its count over all collected topics |
| Ideation.AllThemes | src/analysis/content_ideation.py:404-408 | every theme of every successful result is collected, and every collected theme is one of them |
| Ideation.TopThemes | src/analysis/content_ideation.py:387-410 | min(limit, distinct themes) themes for a positive limit, none otherwise; non-increasing counts, each a theme (not a stop word, longer than three) paired with its number of occurrences |
| Ideation.TopThemesDominate | src/analysis/content_ideation.py:387-410 | a theme left out occurs no more often than any theme kept |
| Community.Ratio | src/analysis/community_metrics.py:247 | a share of k out of n lies in [0, 1], is 0 exactly for none and 1 exactly for all |
| Community.Average | src/analysis/community_metrics.py:240-241 | the mean times the count gives the total; non-negative for a non-negative total |
| Community.CountWhere | src/analysis/community_metrics.py:244-246 | the count is zero exactly when no item qualifies and full exactly when every item does |
| Community.EngagementScore | src/analysis/community_metrics.py:123-141 | the score is at most 1, non-negative for non-negative engagement and 0 for none; it reaches 1 exactly from 9 engagements inside the 50 to 500 length band and from 10 outside it, where it is a tenth of the engagement |
| Community.EngagementScoreMonotone | src/analysis/community_metrics.py:123-141 | more engagement never lowers the engagement score |
| Community.LengthBonusHelps | src/analysis/community_metrics.py:137-141 | the length bonus never lowers the score of a non-negative engagement |
| Community.InfluenceScore | src/analysis/community_metrics.py:143-164 | 0 without engagement; otherwise the log ratio capped at 1 |
| Community.LengthScore | src/analysis/community_metrics.py:177-188 | 0.3 below five words, 1.0 for five to twenty, 0.8 up to fifty, 0.6 beyond, each an if-and-only-if |
| Community.LengthScorePeak | src/analysis/community_metrics.py:177-188 | the length score lies between 0.3 and its peak |
| Community.ContributionQuality | src/analysis/community_metrics.py:166-196 | quality is at most 1 and at least 0.15 for non-negative engagement; twice the quality is the length score plus the engagement per ten-words-plus-length, capped at 1 |
| Community.BehaviorNameInjective | src/analysis/community_metrics.py:209-221 | the four behaviour labels are distinct |
| Community.ClassifyBehavior | src/analysis/community_metrics.py:198-221 | contributory exactly for more than 10 likes or 5 replies; else casual exactly below 30 characters without likes; else substantial exactly above 200 characters; else regular |
| Community.BehaviorByLength | src/analysis/community_metrics.py:209-221 | a text of at most 200 characters is never substantial, and a short one without likes or many replies is casual |
| Community.Analyze | src/analysis/community_metrics.py:34-67 | an error result exactly for a blank comment; otherwise the raw counts and lengths, the behaviour class, the engagement, influence and contribution scores of the comment, and a confidence that is their mean, at most 1 |
| Community.AnalyzeBatch | src/analysis/community_metrics.py:69-79 | one result per comment, in order |
| Community.EngagementMetricsOf | src/analysis/community_metrics.py:223-255 | empty exactly for no comments; totals, means, and an engagement rate in [0, 1] that is 0 exactly when no comment is engaged and 1 exactly when all are |
| Community.Behaviors | src/analysis/community_metrics.py:274-277 | a label is present exactly when some successful result has that behaviour |
| Community.Dominant | src/analysis/community_metrics.py:285 | the dominant behaviour is one of the labels |
| Community.DominantWins | src/analysis/community_metrics.py:285 | no behaviour occurs more often than the dominant one |
| Community.BehaviorMetricsOf | src/analysis/community_metrics.py:257-286 | empty exactly for no results; exactly the behaviours that occur are keys, each share in (0, 1], the shares adding up to the successful results over all results, and a dominant behaviour that occurs |
| Community.BehaviorShare | src/analysis/community_metrics.py:281-284 | a behaviour's share is its count over all results |
| Community.Median | src/analysis/community_metrics.py:306 | the median is one of the lengths, with at most half the lengths below it and more than half at or below it: the element at position n // 2 of the sorted lengths |
| Community.MedianSplits | src/analysis/community_metrics.py:306 | the median is no larger than any length in the upper half of the sorted lengths |
| Community.QualityMetricsOf | src/analysis/community_metrics.py:288-310 | empty exactly for no comments; means of the lengths and word counts; the median length is the upper median of the lengths; the short (< 50) and long (> 200) counts are the numbers of such lengths, zero exactly when no comment is short or long, together at most the count |
| Community.ShortLongDisjoint | src/analysis/community_metrics.py:308-309 | no length is counted both short and long |
| Community.ActivityMetricsOf | src/analysis/community_metrics.py:312-339 | empty exactly for no comments; the unique-user count is the number of distinct authors, the mean per user is comments over users and at least 1, and the most active list has min(users, 5) entries in non-increasing order |
| Community.MostActiveDominates | src/analysis/community_metrics.py:337 | an author left out of the most active list has no more comments than any author in it |
| Community.MostActiveCounts | src/analysis/community_metrics.py:337 | each most active user is an author paired with their number of comments |
| Community.UniqueCountBound | src/analysis/community_metrics.py:325-335 | there are no more distinct authors than comments |
| Community.HealthComponents | src/analysis/community_metrics.py:392-407 | the engagement rate when known, then the long share of short-or-long comments when there are any, then the contributory share (0 when absent) when behaviour is known; each in [0, 1] |
| Community.HealthScore | src/analysis/community_metrics.py:374-412 | 0.5 without components; otherwise the score times the number of components is their sum, and it lies in [0, 1] |
| Community.CommunityHealth | src/analysis/community_metrics.py:81-121 | empty exactly for no comments; otherwise the engagement, behaviour, quality and activity groups are exactly those computed from the comments (and their analyses), the comment count, and the overall score from them, in [0, 1] |
| Community.ZeroHealth | src/analysis/community_metrics.py:392-412 | no engagement rate, no long comments and no contributory share give a health score of 0 |
| Community.NoContributory | src/analysis/community_metrics.py:209-210 | without likes or replies no comment is contributory |
| Community.QuietCommunityScoresZero | src/analysis/community_metrics.py:81-121 | a community with no likes, no replies and no text above 200 characters scores 0 |
| Community.Interactions | src/analysis/community_metrics.py:429-431 | each comment contributes its author and its engagement |
| Community.InteractionsSum | src/analysis/community_metrics.py:429-431 | summing the interactions of an author gives that author's engagement |
| Community.TopContributors | src/analysis/community_metrics.py:414-436 | for limit >= 0 exactly min(limit, number of distinct authors) authors, non-increasing totals, each an author paired with their summed engagement |
| Community.TopContributorsDominate | src/analysis/community_metrics.py:434-436 | an author left out has no more engagement than any author kept |
| Summarizer.ExtractSentences | src/analysis/summarizer.py:100-122 | the sentences are the stripped, long-enough pieces between runs of '.', '!' and '?' |
| Summarizer.UnpunctuatedText | src/analysis/summarizer.py:113-122 | a text without sentence ends is one sentence, itself stripped, when long enough |
| Summarizer.FreqOfText | src/analysis/summarizer.py:137 | a word of the text has frequency between 1 and the word count; any other word has 0 |
| Summarizer.FreqSumBounds | src/analysis/summarizer.py:150 | the frequency sum of a sentence lies between 0 and its length times the text's word count, and is 0 exactly when none of its words is in the text |
| Summarizer.Boost | src/analysis/summarizer.py:156-160 | the length boost lies in [1, 1.2] |
| Summarizer.BaseScore | src/analysis/summarizer.py:151-154 | the mean frequency over the word count lies in [0, 1] and is 0 exactly for a zero sum |
| Summarizer.SentenceScore | src/analysis/summarizer.py:142-162 | a sentence score lies in [0, 1.2] |
| Summarizer.ScoreWords | src/analysis/summarizer.py:143-162 | a sentence score lies in [0, 1.2] and is 0 exactly when none of its words occurs in the text |
| Summarizer.ScoreSentences | src/analysis/summarizer.py:124-164 | one scored pair per sentence, in order, each the sentence with its score |
| Summarizer.SelectTop | src/analysis/summarizer.py:61-63 | for max_sentences >= 0 exactly min(max_sentences, number scored) pairs, drawn without repetition from the scored (sub-multiset), ordered by non-increasing score; all of them when there are few enough |
| Summarizer.SelectTopDominates | src/analysis/summarizer.py:61-63 | a sentence left out scores no higher than any sentence selected |
| Summarizer.BuildSummary | src/analysis/summarizer.py:166-179 | each selected sentence appears in the summary in selection order, after the sentences before it and one space each, followed by a space unless it is the last; the length is the sentences' lengths plus the spaces; empty for no selection |
| Summarizer.SummaryPieces | src/analysis/summarizer.py:177-179 | each sentence of the selection occupies its place in the space-joined text, with a space after all but the last |
| Summarizer.SummaryEmpty | src/analysis/summarizer.py:177-179 | with non-empty sentences the summary is empty exactly when nothing is selected |
| Summarizer.WithWords | src/analysis/summarizer.py:200-207 | exactly the phrases that split into n words are kept |
| Summarizer.Bigrams | src/analysis/summarizer.py:198-199 | one bigram per adjacent pair of words |
| Summarizer.Trigrams | src/analysis/summarizer.py:204-205 | one trigram per adjacent triple of words |
| Summarizer.NGramsUnfiltered | src/analysis/summarizer.py:198-207 | the word-count checks never drop an n-gram of split words |
| Summarizer.KeyPhrases | src/analysis/summarizer.py:181-215 | exactly min(5, number of distinct n-grams) key phrases, each an n-gram of the lower-cased words |
| Summarizer.KeyPhrasesDominate | src/analysis/summarizer.py:213 | an n-gram left out occurs no more often than any key phrase |
| Summarizer.Reduction | src/analysis/summarizer.py:234-235 | a reduction is at most 1, non-negative when nothing grew, 0 exactly when nothing changed, 1 exactly when everything went |
| Summarizer.SummaryStats | src/analysis/summarizer.py:217-236 | the word counts of both texts and the word and character reductions between them |
| Summarizer.Confidence | src/analysis/summarizer.py:238-259 | confidence lies in [0, 1]; 0 for an empty summary; otherwise 1 exactly when the summary uses every word of the original and 0 exactly when it shares none |
| Summarizer.Coverage | src/analysis/summarizer.py:252-259 | coverage lies in [0, 1], is 1 exactly when the first set is contained in the second, and 0 exactly when they are disjoint |
| Summarizer.OverlapFull | src/analysis/summarizer.py:256-257 | the overlap is at most the first set, and all of it exactly when the first set is contained in the second |
| Summarizer.Analyze | src/analysis/summarizer.py:39-86 | an error result exactly for a blank comment; otherwise the summary is built from the top max_sentences of the scored sentences and the selected count is their number (at most max_sentences), an empty summary exactly for no selection, no full stop in the summary; the compression ratio, statistics, key phrases and a confidence in [0, 1] are those of the text and summary |
| Summarizer.CompressionRatio | src/analysis/summarizer.py:78 | the ratio times max(1, text length) is the summary length; in [0, 1] when the summary is no longer than the text |
| Summarizer.SelectionKept | src/analysis/summarizer.py:58-63 | the selected sentences are kept sentences |
| Summarizer.SelectionFacts | src/analysis/summarizer.py:166-179 | a summary of kept sentences holds no full stop, and is empty exactly for no selection |
| Summarizer.AnalyzeBatch | src/analysis/summarizer.py:88-98 | one result per comment, in order |
| Summarizer.Summaries | src/analysis/summarizer.py:275-277 | every successful result contributes its summary and every collected summary is one of theirs |
| Summarizer.KeyPointsAreSummaries | src/analysis/summarizer.py:280-283 | splitting summaries without a full stop at ". " gives the summaries back |
| Summarizer.Truncate | src/analysis/summarizer.py:288-290 | a short enough text is unchanged; a longer one keeps its first limit - 3 characters and is exactly limit long for limits from 3 |
| Summarizer.TinyLimitOvershoots | src/analysis/summarizer.py:289-290 | below a limit of 3, truncation yields a result longer than the limit |
| Summarizer.SummarizeBatch | src/analysis/summarizer.py:261-292 | the first ten summaries joined by ". " and truncated; no longer than the limit when it is at least 3 |
| Summarizer.SummariesAvoidPeriod | src/analysis/summarizer.py:275-277 | summaries without full stops stay without full stops when collected |
| Summarizer.TopKeyPhrases | src/analysis/summarizer.py:294-316 | min(limit, distinct phrases) phrases for a positive limit, none otherwise; non-increasing counts, each a key phrase paired with its number of occurrences |
| Summarizer.AllPhrases | src/analysis/summarizer.py:308-313 | every key phrase of every successful result is collected, and every collected phrase is one of them |
| Summarizer.TopKeyPhrasesDominate | src/analysis/summarizer.py:294-316 | a key phrase left out occurs no more often than any phrase kept |
| RateLimiting.NewLimiter | src/utils/rate_limiter.py:26-48 | a new limiter has both buckets at the burst size, the given settings and the creation time as its last refill; it satisfies the invariant for non-negative settings |
| RateLimiting.Cap | src/utils/rate_limiter.py:123-125 | the capped level is the smaller of the level and the burst size |
| RateLimiting.Added | src/utils/rate_limiter.py:119-122 | a non-negative rate over a non-negative time adds a non-negative amount |
| RateLimiting.Refill | src/utils/rate_limiter.py:110-134 | no change when the clock did not move forward; otherwise the refill time becomes now and neither bucket exceeds the burst size; the invariant is kept and no bucket shrinks |
| RateLimiting.RefillIdempotent | src/utils/rate_limiter.py:112-116 | a second refill at the same moment changes nothing |
| RateLimiting.RefillKeepsFull | src/utils/rate_limiter.py:123-132 | a full limiter stays full |
| RateLimiting.RefillFillsAfterWait | src/utils/rate_limiter.py:118-132 | with positive rates, waiting an hour per token of burst size refills both buckets completely |
| RateLimiting.Acquire | src/utils/rate_limiter.py:50-68 | after the refill, success exactly when both buckets hold the tokens; on success both drop by exactly the tokens, on failure the refilled limiter is unchanged |
| RateLimiting.AcquireKeepsValid | src/utils/rate_limiter.py:50-68 | a non-negative request keeps both buckets in [0, burst] |
| RateLimiting.OverBurstRefused | src/utils/rate_limiter.py:50-68 | a request for more than the burst size never succeeds |
| RateLimiting.NegativeRequestOverfills | src/utils/rate_limiter.py:63-66 | a request for -5 tokens on a fresh 60/1000/10 limiter succeeds and leaves 15 tokens in the minute bucket |
| RateLimiting.Trunc | src/utils/rate_limiter.py:101 | int() truncates toward zero |
| RateLimiting.Available | src/utils/rate_limiter.py:92-101 | the refilled limiter and its levels truncated to whole tokens, each between 0 and the burst size |
| RateLimiting.AvailablePredictsAcquire | src/utils/rate_limiter.py:50-101 | a request succeeds exactly when the available tokens reported at the same moment are at least the request in both buckets |
| RateLimiting.Reset | src/utils/rate_limiter.py:103-108 | both buckets full, refill time now, settings unchanged |
| RateLimiting.ResetThenAcquire | src/utils/rate_limiter.py:50-108 | right after a reset a request succeeds exactly when it is at most the burst size |
| RateLimiting.Run | src/utils/rate_limiter.py:50-108 | a sequence of calls never changes the limiter's settings |
| RateLimiting.RunKeepsValid | src/utils/rate_limiter.py:44-134 | from a valid limiter, any sequence of non-negative requests, queries and resets keeps both buckets in [0, burst] |
| RateLimiting.NeverAboveBurst | src/utils/rate_limiter.py:44-68 | a limiter built with non-negative settings never grants more than its burst size, whatever calls came before |
| RateLimiting.Initial | src/utils/rate_limiter.py:145-183 | six platform limiters, each full and valid, and no endpoint limiters |
| RateLimiting.EndpointsOf | src/utils/rate_limiter.py:325-327 | a platform's endpoint limiters, none when it has none |
| RateLimiting.Locate | src/utils/rate_limiter.py:311-336 | the endpoint limiter exactly when a non-empty endpoint is named and registered; otherwise the platform limiter exactly when the platform is registered; otherwise a fresh one |
| RateLimiting.LimiterAt | src/utils/rate_limiter.py:324-336 | the registered limiter of the slot, or a new 60/1000/10 limiter for a fresh slot |
| RateLimiting.Store | src/utils/rate_limiter.py:311-336 | updating a registered slot replaces exactly that limiter; a fresh limiter is not kept |
| RateLimiting.StoreFrame | src/utils/rate_limiter.py:311-336 | updating one platform's limiter leaves every other platform's alone |
| RateLimiting.PlatformAcquire | src/utils/rate_limiter.py:185-200 | the answer is the located limiter's acquire, and a registered limiter is updated to its state after the acquire |
| RateLimiting.UnknownPlatformForgets | src/utils/rate_limiter.py:333-336 | for an unconfigured platform nothing is remembered and a request succeeds exactly when it is at most the default burst of 10 |
| RateLimiting.EndpointPreferred | src/utils/rate_limiter.py:324-327 | a registered endpoint limiter is used in preference to its platform's |
| RateLimiting.PlatformAvailable | src/utils/rate_limiter.py:219-233 | the available tokens of the located limiter, whose refill is kept when it is registered |
| RateLimiting.AddPlatformLimiter | src/utils/rate_limiter.py:265-285 | the platform now has a new limiter with the given settings; other platforms and all endpoints are unchanged |
| RateLimiting.AddEndpointLimiter | src/utils/rate_limiter.py:287-309 | the endpoint now has a new limiter with the given settings; platform limiters and the platform's other endpoints are unchanged |
| RateLimiting.ResetEach | src/utils/rate_limiter.py:247-251 | every limiter of a registry is reset in place |
| RateLimiting.ResetEachGet | src/utils/rate_limiter.py:247-251 | every name stays registered and its limiter is full |
| RateLimiting.ResetEachEndpoint | src/utils/rate_limiter.py:249-251 | every platform's endpoint limiters are reset in place |
| RateLimiting.ResetEachEndpointGet | src/utils/rate_limiter.py:249-251 | every platform keeps its endpoints, each reset |
| RateLimiting.PlatformReset | src/utils/rate_limiter.py:235-263 | no platform resets everything; a platform alone resets its limiter and leaves other platforms' limiters alone; a platform and endpoint reset the located limiter |
| RateLimiting.ResetAllFull | src/utils/rate_limiter.py:245-251 | reset() leaves every platform and endpoint limiter full and forgets none |
| RateLimiting.ResetPlatformFull | src/utils/rate_limiter.py:252-259 | reset(platform) leaves that platform's limiter and all its endpoint limiters full and forgets none |
| RateLimiting.ResetPlatformFrame | src/utils/rate_limiter.py:252-259 | reset(platform) does not touch another platform's endpoint limiters |
| RateLimiting.EmptyEndpointResetsPlatformOnly | src/utils/rate_limiter.py:252-263 | reset(platform, "") resets only the platform limiter, leaving its endpoint limiters as they were |
| Seqs.TallySpec | src/analysis/abuse_detector.py:291-292 | a Counter over words has one key per distinct word, exactly the words, each mapped to its number of occurrences |
| Seqs.SortDesc | src/analysis/community_metrics.py:434 | sorting by a key in reverse gives a permutation ordered by non-increasing key |
| Seqs.SortDescStable | src/analysis/community_metrics.py:434 | the sort is stable: the items sharing any one key keep their original order |
| Seqs.MostCommon | src/analysis/categorizer.py:427 | most_common(n) gives min(n, size) entries of the counter, ordered by non-increasing count; none for n at most 0 |
| Seqs.MostCommonDominates | src/analysis/categorizer.py:427 | an entry left out of most_common(n) has no larger count than any entry in it |
| Seqs.MostCommonCounts | src/analysis/categorizer.py:420-427 | each entry of most_common over a word Counter is a word paired with its number of occurrences |
| Seqs.TallySize | src/analysis/abuse_detector.py:291-292 | a Counter has one entry per distinct word |
| Seqs.MostCommonTally | src/analysis/categorizer.py:420-427 | most_common(n) of a word Counter has min(n, distinct words) entries for positive n, each a word paired with its number of occurrences |
| Seqs.TallyTopDominates | src/analysis/categorizer.py:420-427 | a word left out of most_common(n) occurs no more often than any word in it |
| Seqs.AccumulateReads | src/analysis/community_metrics.py:429-431 | after adding up (key, amount) pairs into a dict, each key reads the sum of its amounts, 0 for an absent one |
| Text.Split | src/analysis/abuse_detector.py:291 | str.split() yields words without whitespace, no more than there are characters |
| Text.JoinPieces | src/analysis/summarizer.py:179 | in a join with a one-character separator, piece i starts after the pieces before it and one separator each, and the separator follows every piece but the last |
| Text.Strip | src/analysis/summarizer.py:118 | str.strip() is empty exactly for blank text and otherwise starts and ends with a non-space |
| Text.KeptStrippedSound | src/analysis/summarizer.py:115-122 | each kept piece is the stripped form of one of the pieces and at least the minimum length |
| Text.KeptStrippedComplete | src/analysis/summarizer.py:117-120 | no piece that is long enough once stripped is dropped |
| Text.KeptStrippedAvoids | src/analysis/faq_extractor.py:156-163 | pieces free of the delimiters stay free of them once stripped and kept |
| Registry.BumpIsPut | src/analysis/community_metrics.py:429-431 | `d[k] = d.get(k, 0) + w` is the ordinary dict update: a new key is appended, an existing key is updated in place |
| Registry.BumpGet | src/analysis/community_metrics.py:429-431 | after the update the key reads its old amount (0 when absent) plus w, and every other key is unchanged |
| Registry.BumpUnique | src/analysis/community_metrics.py:429-431 | the update keeps the keys unique |
| Registry.KeySetSize | src/analysis/community_metrics.py:336 | a dict with unique keys has as many distinct keys as entries |

## Left out

- `AnalysisResult` (src/core/base.py:171-197): its `to_dict` writes only the comment's id, and its `from_dict` passes that dictionary to the constructor, so it cannot rebuild the comment. The analyzers' results are modelled as typed report records instead.
- The abstract interfaces `ModerationEngine`, `Analyzer`, `MetricsValidator` and `Configurable` (src/core/base.py:242-350) have no behaviour of their own.
- `StandardsEngine.get_standards`, `StandardsEngine.get_metrics`, `Analyzer.get_config`, `Analyzer.is_enabled` and `CompositeAnalyzer.get_analyzers` are left out. They are plain accessors: the model's state records are the values they return.
- The analyzers' constructors are replaced by `Config` records holding the defaults that each `__init__` reads.
- `TextAnalyzer.count_links`, `count_mentions`, `count_hashtags` and `count_emojis` each return the length of one `re.findall`. They are fully determined by the regular-expression engine, which is a parameter here.
- The regular-expression engine itself is left out. Matching is a parameter, and a concrete lemma states in its `requires` the match facts it needs for specific patterns.
- `AbuseDetector.get_abuse_statistics` and `_get_common_indicators` are left out. At src/analysis/abuse_detector.py:430-433 they divide by the number of abusive results, which is zero when severities exist only for non-abusive results.
- The abuse detector's `REPETITION_INDICATORS`, `min_indicators` and `context_window` are left out, because the detector never reads them.
- `SentimentAnalyzer.get_sentiment_distribution` (src/analysis/sentiment.py:362-386) is left out. It calls `.value` on the string stored under "sentiment", so it raises for any successful result.
- Community.BehaviorMetricsOf requires that some result be valid whenever the list is non-empty (`BehaviorDefined`). Otherwise the source indexes `most_common(1)[0]` of an empty counter at src/analysis/community_metrics.py:285 and raises.
- Community.CommunityHealth requires, for a non-empty list, that some comment be valid, and that every valid comment have a non-negative engagement. The first stands for the same `most_common(1)[0]` crash at src/analysis/community_metrics.py:285 that BehaviorMetricsOf requires away; the second for the `math.log` crash at src/analysis/community_metrics.py:162. The model promises nothing for such lists, where the source raises.
- Community.Analyze requires a non-negative engagement for a valid comment (`Analysable`). Otherwise `math.log` at src/analysis/community_metrics.py:162 raises on a non-positive argument.
- `math.log(engagement + 1) / math.log(100)` in the influence score is the `logRatio` parameter, because floating-point logarithms are not modelled.
- `CommunityMetrics._calculate_user_distribution` is left out, because it relies on the `statistics` module's floating-point mean and median. So is the `user_distribution` entry of the activity metrics.
- `CommunityMetrics.get_engagement_trend` and the `time_window_hours` setting are left out, because they group results by wall-clock timestamps.
- Result timestamps and `analyzed_at` fields are left out. `ModerationResult` and `Comment` carry a caller-supplied `DateTime`.
- The summarizer's `include_reasoning` setting is left out, because the summarizer never reads it.
- Summarizer.SummarizeBatch bounds the output length only when the limit is at least 3. Below 3, the "..." marker alone exceeds the limit (Summarizer.TinyLimitOvershoots).
- RateLimiting.RunKeepsValid and RateLimiting.NeverAboveBurst require non-negative token requests. A negative request is granted and overfills both buckets above the burst size (RateLimiting.NegativeRequestOverfills).
- `RateLimiter.wait_for_token`, the `rate_limit` decorator and `get_global_rate_limiter` are left out, because they sleep and read the wall clock. The `threading.Lock` is left out too: calls are modelled one at a time, with the current time as a parameter.
- `PlatformRateLimiter` reads `get_config()`, which is not used by the modelled operations. src/core/config.py is not part of this model.
- FromIsoFormat: parses only the two layouts `isoformat` writes (19 characters, or 26 with microseconds). `datetime.fromisoformat` also accepts date-only text, UTC offsets and shorter fractions; the model rejects those, which never come out of the matching encoders.
- CommentFromDict: rejects a value of the wrong type (for example `"likes": "3"`), which `cls(**data)` accepts because dataclasses do not check types. Typed fields are the model's choice.
- ViolationFromDict: rejects values of the wrong type, as CommentFromDict does.
- ResultFromDict: rejects values of the wrong type, as CommentFromDict does.
- The `from_dict` methods (src/core/base.py:79-80, 110-111, 159-166) write the converted values back into the caller's dict. The model's decoders are pure functions, so that side effect is not modelled.
- LetterCounts: counts ASCII letters and capitals only. Python's `isalpha` and `isupper` are Unicode-aware, so on "ÉÉÉa" Python counts three capitals among four letters where the model counts none among one.
- CapsAbuseSpec: uses the ASCII-only letter and capital counts of LetterCounts.
- AllCapsSpec: uses the ASCII-only letter and capital counts of LetterCounts.
- Clean: keeps ASCII letters and digits only. Python's `isalnum` is Unicode-aware, so "café" cleans to "café" in Python and to "caf" in the model.
- Candidates: uses the ASCII-only `isalnum` of Clean.
- Lower: lower-cases ASCII capitals only. Python's `str.lower` also maps non-ASCII capitals.
- DefaultValidate: the error reasoning stops at "': ". The source appends the exception's own text (`str(e)`, src/core/metrics.py:106), but the pattern engine is a parameter that reports a failure without a message.
- Sentiment.Polarities: states membership in both directions, not the order or the multiplicity of the collected polarities. The counts that the distributions and rankings report are stated over this collected list.
- Sentiment.Dominants: states membership in both directions, not the order or the multiplicity of the collected dominant emotions. The counts that the distributions and rankings report are stated over this collected list.
- Categorizer.PrimaryTopics: states membership in both directions, not the order or the multiplicity of the collected primary topics. The counts that the distributions and rankings report are stated over this collected list.
- Categorizer.ContentTypesOf: states membership in both directions, not the order or the multiplicity of the collected content types. The counts that the distributions and rankings report are stated over this collected list.
- Faq.TypeNames: states membership in both directions, not the order or the multiplicity of the collected type labels. The counts that the distributions and rankings report are stated over this collected list.
- Faq.AllTerms: states membership in both directions, not the order or the multiplicity of the collected key terms. The counts that the distributions and rankings report are stated over this collected list.
- Ideation.TopicsOf: states membership in both directions, not the order or the multiplicity of the collected topics. The counts that the distributions and rankings report are stated over this collected list.
- Ideation.AllThemes: states membership in both directions, not the order or the multiplicity of the collected themes. The counts that the distributions and rankings report are stated over this collected list.
- Summarizer.Summaries: states membership in both directions, not the order or the multiplicity of the collected summaries. The counts that the distributions and rankings report are stated over this collected list.
- Summarizer.AllPhrases: states membership in both directions, not the order or the multiplicity of the collected key phrases. The counts that the distributions and rankings report are stated over this collected list.
- Floating-point rounding is not modelled: Python floats are reals.

Behaviours the model keeps as the code has them:
- Code-versus-documentation: the repository's documentation treats an empty registry as an engine with no standards. The constructor's `standards or DEFAULT_STANDARDS.copy()` falls back to the defaults instead, and the model follows the code (Engine.NewEngine).
- Code-versus-documentation: the documentation's scenario of a custom evaluator forcing a violation through `moderate()` does not apply. `StandardsEngine` never calls `MetricsValidator`, so custom validators only affect `MetricsValidator.validate`.
- A metric's own `severity` is never read. Violation severity comes only from the violation's confidence bands.
- Several unit tests disagree with the code: on the abuse severity bands, the "how_to" question label and the community length bands. The model follows the code.
- The "stereotypes" hate-speech keywords such as "all.*are" are looked up as literal substrings, not as patterns.
- The third threat pattern escapes `+`, so it needs literal plus signs between its words.
- The tone indicator "shut up" is compared with single words, so it can never match.
- The FAQ yes/no markers are substring tests, so "this" contains "is".
- The caps at 1 in the categorizer's topic confidence and in the ideation score never change the value.
- The category distribution divides by all comments, including those whose analysis failed, so its shares need not sum to 1.
- The summary joins the selected sentences in descending score order, not in text order.

## Findings

| source | as written | input that shows it | evidently intended | confidence | as-written member | corrected member |
|---|---|---|---|---|---|---|
| src/core/base.py:141-167 | `ModerationResult.to_dict` adds the derived keys `has_violations` and `is_severe`, and `from_dict` passes every key to the constructor | any result, e.g. an approve with no violations: the constructor rejects the keyword `has_violations` | `from_dict(to_dict(r))` rebuilds `r`, ignoring the derived keys | not executed | Base.ResultFromDictRejectsToDict | Base.ResultRoundTrip |
| src/core/standards.py:292 | `DEFAULT_STANDARDS.copy()` is a shallow copy, so every default engine shares the same `Standard` objects | two default engines; `disable_standard("safety")` on one also disables "safety" in the other and in the class-level defaults | each engine owns its standards, so enabling or disabling affects that engine only | not executed | Sharing.ShallowCopyLeaks | Sharing.DeepCopyIsolates |

=== FILE: abuse.dfy ===
/** The abuse detector: four keyword and pattern detectors plus a repeated
    word check, a weighted abuse score, severity bands and the abusive
    verdict. Patterns are searched through a caller-supplied `Searcher`;
    hate-speech keywords are plain substrings. */
module Abuse {
  import opened Wrappers
  import opened Text
  import opened Seqs
  import opened Base
  import Registry
  import AnalysisBase

  const DirectAttackPatterns: seq<string> := [
    "\\b(you are|you\\'re|ur)\\s+(stupid|idiot|moron|loser|pathetic|useless|worthless)",
    "\\b(everyone knows|everyone sees)\\s+(that you|you are|you\\'re)",
    "\\b(nobody likes|no one likes)\\s+you"
  ]

  const HarassmentPatterns: seq<string> := [
    "\\b(follow|stop|leave)\\s+(me|us)\\s+(alone|alone already)",
    "\\b(still|again|stop)\\s+(doing this|talking|posting)",
    "\\b(get a life|shut up|go away|leave)",
    "\\b(stupid|idiot|loser)\\s+(comment|post|message)"
  ]

  /** The hate-speech keyword lists, by category, in declaration order. */
  const HateSpeechIndicators: seq<(string, seq<string>)> := [
    ("slurs", ["racist", "sexist", "homophobic", "transphobic", "xenophobic", "islamophobic", "antisemitic"]),
    ("discrimination", ["inferior", "subhuman", "degenerate", "filth", "scum", "trash", "vermin", "animals"]),
    ("stereotypes", ["all.*are", "typical.*", "just like.*"])
  ]

  const ThreatPatterns: seq<string> := [
    "\\b(kill|murder|destroy|hurt|harm)\\s+(you|your)",
    "\\b(find|hunt|track)\\s+(you|you\\s+down)",
    "\\b(will\\+be\\+sorry|you\\'ll\\+regret|going to get you)",
    "\\b(doxxing|dox|expose)\\s+(you|your\\s+address)"
  ]

  /** One detector's report: whether it fired, how many hits, and the first few. */
  datatype Detection<T> = Detection(detected: bool, matchCount: nat, matches: seq<T>)

  // ---------------------------------------------------------------------
  // Detectors

  /** The patterns that match `text`, each once, in declaration order. */
  function Hits(ps: seq<string>, text: string, search: Searcher): (hs: seq<string>)
    ensures |hs| <= |ps|
    ensures forall p :: p in hs <==> p in ps && search(p, text)
  {
    if |ps| == 0 then []
    else
      var rest := Hits(ps[1..], text, search);
      assert forall p :: p in ps <==> p == ps[0] || p in ps[1..];
      if search(ps[0], text) then [ps[0]] + rest else rest
  }

  /** A matching pattern is kept as often as it is listed, any other is
      dropped: a list without repeats gives hits without repeats. */
  lemma {:induction false} HitsCount(ps: seq<string>, text: string, search: Searcher, p: string)
    ensures Count(Hits(ps, text, search), p) == if search(p, text) then Count(ps, p) else 0
    decreases |ps|
  {
    if |ps| == 0 {
    } else {
      var rest := Hits(ps[1..], text, search);
      HitsCount(ps[1..], text, search, p);
      assert ps == [ps[0]] + ps[1..];
      CountCons(ps[0], ps[1..], p);
      if search(ps[0], text) {
        CountCons(ps[0], rest, p);
      }
    }
  }

  /** The hits keep the order in which the patterns are declared. */
  lemma {:induction false} HitsInOrder(ps: seq<string>, text: string, search: Searcher)
    ensures Subsequence(Hits(ps, text, search), ps)
    decreases |ps|
  {
    if |ps| > 0 {
      HitsInOrder(ps[1..], text, search);
      var hs := Hits(ps, text, search);
      var rest := Hits(ps[1..], text, search);
      if search(ps[0], text) {
        assert hs[0] == ps[0] && hs[1..] == rest;
      } else {
        assert hs == rest;
      }
    }
  }

  /** A pattern detector: the lower-cased text is searched with every
      pattern; up to three matching patterns are reported. */
  function DetectPatterns(ps: seq<string>, text: string, search: Searcher): (d: Detection<string>)
    ensures d.detected <==> d.matchCount > 0
    ensures d.matchCount <= |ps|
    ensures d.detected <==> exists p :: p in ps && search(p, Lower(text))
    ensures |d.matches| <= 3 && forall p :: p in d.matches ==> p in ps && search(p, Lower(text))
    ensures d.matchCount == |Hits(ps, Lower(text), search)|
    ensures d.matches == PyTake(Hits(ps, Lower(text), search), 3)
  {
    var hs := Hits(ps, Lower(text), search);
    assert hs != [] ==> hs[0] in hs;
    Detection(|hs| > 0, |hs|, PyTake(hs, 3))
  }

  function DetectDirectAttack(text: string, search: Searcher): Detection<string> {
    DetectPatterns(DirectAttackPatterns, text, search)
  }

  function DetectHarassment(text: string, search: Searcher): Detection<string> {
    DetectPatterns(HarassmentPatterns, text, search)
  }

  function DetectThreats(text: string, search: Searcher): Detection<string> {
    DetectPatterns(ThreatPatterns, text, search)
  }

  /** (category, keyword) for every keyword that occurs in `text`, by
      category and then keyword order. */
  function KeywordHits(cats: seq<(string, seq<string>)>, text: string): (hs: seq<(string, string)>)
    ensures forall h :: h in hs ==> Contains(text, h.1)
  {
    if |cats| == 0 then [] else Tag(cats[0].0, FoundIn(cats[0].1, text)) + KeywordHits(cats[1..], text)
  }

  function Tag(c: string, ks: seq<string>): (r: seq<(string, string)>)
    ensures |r| == |ks|
    ensures forall i :: 0 <= i < |ks| ==> r[i] == (c, ks[i])
  {
    seq(|ks|, i requires 0 <= i < |ks| => (c, ks[i]))
  }

  /** The keywords that occur in `text`, in order. */
  function FoundIn(ks: seq<string>, text: string): (r: seq<string>)
    ensures |r| <= |ks|
    ensures forall k :: k in r <==> k in ks && Contains(text, k)
  {
    if |ks| == 0 then []
    else
      var rest := FoundIn(ks[1..], text);
      assert forall k :: k in ks <==> k == ks[0] || k in ks[1..];
      if Contains(text, ks[0]) then [ks[0]] + rest else rest
  }

  /** A (category, keyword) pair is a hit exactly when the keyword is listed
      under that category and occurs in the text. */
  lemma {:induction false} KeywordHitsSpec(cats: seq<(string, seq<string>)>, text: string, h: (string, string))
    ensures h in KeywordHits(cats, text) <==>
      (exists i :: 0 <= i < |cats| && cats[i].0 == h.0 && h.1 in cats[i].1) && Contains(text, h.1)
    decreases |cats|
  {
    if |cats| > 0 {
      KeywordHitsSpec(cats[1..], text, h);
      var tag := Tag(cats[0].0, FoundIn(cats[0].1, text));
      var rest := KeywordHits(cats[1..], text);
      assert KeywordHits(cats, text) == tag + rest;
      assert h in tag <==> h.0 == cats[0].0 && h.1 in FoundIn(cats[0].1, text) by {
        if h in tag {
          var j :| 0 <= j < |tag| && tag[j] == h;
        }
        if h.0 == cats[0].0 && h.1 in FoundIn(cats[0].1, text) {
          var j :| 0 <= j < |FoundIn(cats[0].1, text)| && FoundIn(cats[0].1, text)[j] == h.1;
          assert tag[j] == h;
        }
      }
      if h in rest {
        var i :| 0 <= i < |cats[1..]| && cats[1..][i].0 == h.0 && h.1 in cats[1..][i].1;
        assert cats[i + 1] == cats[1..][i];
      }
      if exists i :: 0 <= i < |cats| && cats[i].0 == h.0 && h.1 in cats[i].1 {
        var i :| 0 <= i < |cats| && cats[i].0 == h.0 && h.1 in cats[i].1;
        if i > 0 {
          assert cats[1..][i - 1] == cats[i];
        }
      }
    }
  }

  /** `_detect_hate_speech`: up to five (category, keyword) hits reported. */
  function DetectHateSpeech(text: string): (d: Detection<(string, string)>)
    ensures d.detected <==> d.matchCount > 0
    ensures |d.matches| <= 5
    ensures forall h :: h in d.matches ==> Contains(Lower(text), h.1)
    ensures d.matchCount == |KeywordHits(HateSpeechIndicators, Lower(text))|
    ensures d.matches == PyTake(KeywordHits(HateSpeechIndicators, Lower(text)), 5)
  {
    var hs := KeywordHits(HateSpeechIndicators, Lower(text));
    Detection(|hs| > 0, |hs|, PyTake(hs, 5))
  }

  /** Some keyword hit exists exactly when some listed keyword occurs. */
  lemma KeywordHitsNonEmpty(cats: seq<(string, seq<string>)>, text: string)
    ensures |KeywordHits(cats, text)| > 0 <==>
      exists i, k :: 0 <= i < |cats| && k in cats[i].1 && Contains(text, k)
  {
    var hs := KeywordHits(cats, text);
    if |hs| > 0 {
      KeywordHitsSpec(cats, text, hs[0]);
    }
    if exists i, k :: 0 <= i < |cats| && k in cats[i].1 && Contains(text, k) {
      var i, k :| 0 <= i < |cats| && k in cats[i].1 && Contains(text, k);
      KeywordHitsSpec(cats, text, (cats[i].0, k));
    }
  }

  /** Hate speech is detected exactly when some listed keyword occurs in the
      lower-cased text. */
  lemma HateSpeechIff(text: string)
    ensures DetectHateSpeech(text).detected <==>
      exists i, k :: 0 <= i < |HateSpeechIndicators| && k in HateSpeechIndicators[i].1 && Contains(Lower(text), k)
  {
    KeywordHitsNonEmpty(HateSpeechIndicators, Lower(text));
  }

  /** The words of a tally that occur at least three times, in first-seen order. */
  function Frequent(t: Registry.Registry<int>): (ws: seq<string>)
    ensures forall w :: w in ws <==> exists i :: 0 <= i < |t| && t[i].0 == w && t[i].1 >= 3
  {
    if |t| == 0 then []
    else
      var rest := Frequent(t[1..]);
      assert forall i :: 1 <= i < |t| ==> t[i] == t[1..][i - 1];
      if t[0].1 >= 3 then [t[0].0] + rest else rest
  }

  /** `_detect_repetition`: the lower-cased words used three times or more;
      up to five reported. */
  function DetectRepetition(text: string): (d: Detection<string>)
    ensures d.detected <==> d.matchCount > 0
    ensures |d.matches| <= 5
    ensures d.matchCount == |Frequent(Tally(Split(Lower(text))))|
    ensures d.matches == PyTake(Frequent(Tally(Split(Lower(text)))), 5)
  {
    var ws := Frequent(Tally(Split(Lower(text))));
    Detection(|ws| > 0, |ws|, PyTake(ws, 5))
  }

  /** The repeated words are exactly those that occur at least three times. */
  lemma RepetitionFlagsFrequentWords(text: string, w: string)
    ensures var ws := Split(Lower(text));
      w in Frequent(Tally(ws)) <==> Count(ws, w) >= 3
  {
    var ws := Split(Lower(text));
    var t := Tally(ws);
    TallySpec(ws);
    Registry.GetUnique(t);
    if w in Frequent(t) {
      var i :| 0 <= i < |t| && t[i].0 == w && t[i].1 >= 3;
      assert Registry.Get(t, w) == Some(t[i].1);
    }
    if Count(ws, w) >= 3 {
      var i := Registry.IndexOf(t, w);
      assert t[i] == (w, Count(ws, w));
    }
  }

  /** Repetition is detected exactly when some word of the lower-cased text
      occurs three times or more. */
  lemma RepetitionIff(text: string)
    ensures var ws := Split(Lower(text));
      DetectRepetition(text).detected <==> exists i :: 0 <= i < |ws| && Count(ws, ws[i]) >= 3
  {
    var ws := Split(Lower(text));
    var f := Frequent(Tally(ws));
    if |f| > 0 {
      RepetitionFlagsFrequentWords(text, f[0]);
      var i :| 0 <= i < |ws| && ws[i] == f[0];
    }
    if exists i :: 0 <= i < |ws| && Count(ws, ws[i]) >= 3 {
      var i :| 0 <= i < |ws| && Count(ws, ws[i]) >= 3;
      RepetitionFlagsFrequentWords(text, ws[i]);
    }
  }

  // ---------------------------------------------------------------------
  // Scoring

  /** What the score reads of a detector. */
  datatype Signal = Signal(detected: bool, matchCount: nat)

  function SignalOf<T>(d: Detection<T>): Signal {
    Signal(d.detected, d.matchCount)
  }

  /** min(match_count / 5, 1). */
  function Normalized(n: nat): (x: real)
    ensures 0.0 <= x <= 1.0
    ensures n >= 5 <==> x == 1.0
    ensures n >= 1 ==> x > 0.0
  {
    if n as real / 5.0 < 1.0 then n as real / 5.0 else 1.0
  }

  /** Weighted score and weight summed over the detected signals. */
  function Totals(ws: seq<(real, Signal)>): (t: (real, real))
    decreases |ws|
  {
    if |ws| == 0 then (0.0, 0.0)
    else
      var t := Totals(ws[..|ws| - 1]);
      var e := ws[|ws| - 1];
      if e.1.detected then (t.0 + Normalized(e.1.matchCount) * e.0, t.1 + e.0) else t
  }

  predicate PositiveWeights(ws: seq<(real, Signal)>) {
    forall i :: 0 <= i < |ws| ==> ws[i].0 > 0.0
  }

  predicate AnyDetected(ws: seq<(real, Signal)>) {
    exists i :: 0 <= i < |ws| && ws[i].1.detected
  }

  /** Detectors that fire have a hit. */
  predicate Honest(ws: seq<(real, Signal)>) {
    forall i :: 0 <= i < |ws| ==> (ws[i].1.detected ==> ws[i].1.matchCount >= 1)
  }

  predicate Saturated(ws: seq<(real, Signal)>) {
    forall i :: 0 <= i < |ws| ==> (ws[i].1.detected ==> ws[i].1.matchCount >= 5)
  }

  lemma AddWeighted(a: real, b: real, x: real, w: real)
    requires 0.0 <= a <= b && 0.0 <= x <= 1.0 && w > 0.0
    ensures 0.0 <= a + x * w <= b + w
  {
    WeightedBelow(x, w);
  }

  lemma WeightedBelow(x: real, w: real)
    requires 0.0 <= x <= 1.0 && w > 0.0
    ensures 0.0 <= x * w <= w
    ensures x > 0.0 ==> x * w > 0.0
    ensures x == 1.0 ==> x * w == w
  {
  }

  /** The weighted score never exceeds the weight, and the weight is
      positive exactly when something was detected. */
  lemma {:induction false} TotalsBounds(ws: seq<(real, Signal)>)
    requires PositiveWeights(ws)
    ensures 0.0 <= Totals(ws).0 <= Totals(ws).1
    ensures Totals(ws).1 > 0.0 <==> AnyDetected(ws)
    ensures Totals(ws).1 == 0.0 <==> !AnyDetected(ws)
    decreases |ws|
  {
    if |ws| > 0 {
      var pre := ws[..|ws| - 1];
      assert forall i :: 0 <= i < |pre| ==> pre[i] == ws[i];
      TotalsBounds(pre);
      var e := ws[|ws| - 1];
      if e.1.detected {
        AddWeighted(Totals(pre).0, Totals(pre).1, Normalized(e.1.matchCount), e.0);
      } else if AnyDetected(ws) {
        var i :| 0 <= i < |ws| && ws[i].1.detected;
        assert pre[i] == ws[i];
      }
    }
  }

  /** A detector with a hit that fired makes the weighted score positive. */
  lemma {:induction false} TotalsPositive(ws: seq<(real, Signal)>)
    requires PositiveWeights(ws) && Honest(ws) && AnyDetected(ws)
    ensures Totals(ws).0 > 0.0
    decreases |ws|
  {
    var pre := ws[..|ws| - 1];
    assert forall i :: 0 <= i < |pre| ==> pre[i] == ws[i];
    TotalsBounds(pre);
    var e := ws[|ws| - 1];
    if e.1.detected {
      WeightedBelow(Normalized(e.1.matchCount), e.0);
    } else {
      var i :| 0 <= i < |ws| && ws[i].1.detected;
      assert pre[i] == ws[i];
      TotalsPositive(pre);
    }
  }

  /** When every detector that fired had five hits, score equals weight. */
  lemma {:induction false} TotalsSaturated(ws: seq<(real, Signal)>)
    requires PositiveWeights(ws) && Saturated(ws)
    ensures Totals(ws).0 == Totals(ws).1
    decreases |ws|
  {
    if |ws| > 0 {
      var pre := ws[..|ws| - 1];
      assert forall i :: 0 <= i < |pre| ==> pre[i] == ws[i];
      TotalsSaturated(pre);
      var e := ws[|ws| - 1];
      if e.1.detected {
        WeightedBelow(Normalized(e.1.matchCount), e.0);
      }
    }
  }

  /** `_calculate_abuse_score`: the weighted mean of the normalised match
      counts of the detectors that fired; 0 when none fired. */
  function AbuseScore(ws: seq<(real, Signal)>): (r: real)
    ensures Totals(ws).1 != 0.0 ==> r * Totals(ws).1 == Totals(ws).0
    ensures Totals(ws).1 == 0.0 ==> r == 0.0
  {
    var t := Totals(ws);
    if t.1 == 0.0 then 0.0 else t.0 / t.1
  }

  lemma RatioBounds(s: real, w: real)
    requires 0.0 <= s <= w && w > 0.0
    ensures 0.0 <= s / w <= 1.0
    ensures s > 0.0 ==> s / w > 0.0
    ensures s == w ==> s / w == 1.0
  {
  }

  /** The abuse score lies in [0, 1]; it is 0 exactly when nothing fired
      (for detectors that only fire on a hit); it is 1 when every detector
      that fired had five hits or more. */
  lemma AbuseScoreSpec(ws: seq<(real, Signal)>)
    requires PositiveWeights(ws)
    ensures 0.0 <= AbuseScore(ws) <= 1.0
    ensures !AnyDetected(ws) ==> AbuseScore(ws) == 0.0
    ensures Honest(ws) && AnyDetected(ws) ==> AbuseScore(ws) > 0.0
    ensures AnyDetected(ws) && Saturated(ws) ==> AbuseScore(ws) == 1.0
  {
    TotalsBounds(ws);
    if Honest(ws) && AnyDetected(ws) { TotalsPositive(ws); }
    if Saturated(ws) { TotalsSaturated(ws); }
    var t := Totals(ws);
    if t.1 != 0.0 {
      RatioBounds(t.0, t.1);
    }
  }

  lemma MulBelow(a: real, b: real, w: real)
    requires a <= b && w > 0.0
    ensures a * w <= b * w
  {
  }

  /** Every fired detector's normalised count lies in [lo, hi]. */
  predicate FiredWithin(ws: seq<(real, Signal)>, lo: real, hi: real) {
    forall i :: 0 <= i < |ws| ==> (ws[i].1.detected ==> lo <= Normalized(ws[i].1.matchCount) <= hi)
  }

  /** A weighted sum `t.0` over a weight `t.1` lies between `lo` and `hi` times the weight. */
  predicate Between(t: (real, real), lo: real, hi: real) {
    lo * t.1 <= t.0 <= hi * t.1
  }

  /** The weighted sum lies between `lo` and `hi` times the fired weight. */
  lemma {:induction false} TotalsBetween(ws: seq<(real, Signal)>, lo: real, hi: real)
    requires PositiveWeights(ws) && FiredWithin(ws, lo, hi)
    ensures Between(Totals(ws), lo, hi)
    decreases |ws|
  {
    if |ws| == 0 {
      assert lo * 0.0 == 0.0 && hi * 0.0 == 0.0;
    } else {
      var pre := ws[..|ws| - 1];
      PrefixWithin(ws, lo, hi);
      TotalsBetween(pre, lo, hi);
      var e := ws[|ws| - 1];
      if e.1.detected {
        TotalsFired(ws);
        FiredStep(Totals(pre), Totals(ws), Normalized(e.1.matchCount), e.0, lo, hi);
      }
    }
  }

  /** One fired step of `Totals`. */
  lemma TotalsFired(ws: seq<(real, Signal)>)
    requires |ws| > 0 && ws[|ws| - 1].1.detected
    ensures var t, e := Totals(ws[..|ws| - 1]), ws[|ws| - 1];
      Totals(ws).0 == t.0 + Normalized(e.1.matchCount) * e.0 && Totals(ws).1 == t.1 + e.0
  {
  }

  lemma PrefixWithin(ws: seq<(real, Signal)>, lo: real, hi: real)
    requires |ws| > 0 && PositiveWeights(ws) && FiredWithin(ws, lo, hi)
    ensures PositiveWeights(ws[..|ws| - 1]) && FiredWithin(ws[..|ws| - 1], lo, hi)
    ensures ws[|ws| - 1].0 > 0.0
    ensures ws[|ws| - 1].1.detected ==> lo <= Normalized(ws[|ws| - 1].1.matchCount) <= hi
  {
    var pre := ws[..|ws| - 1];
    assert forall i :: 0 <= i < |pre| ==> pre[i] == ws[i];
  }

  lemma FiredStep(t: (real, real), t': (real, real), x: real, w: real, lo: real, hi: real)
    requires Between(t, lo, hi) && lo <= x <= hi && w > 0.0
    requires t'.0 == t.0 + x * w && t'.1 == t.1 + w
    ensures Between(t', lo, hi)
  {
    StepBetween(t.0, t.1, x, w, lo, hi);
  }

  lemma StepBetween(s: real, t: real, x: real, w: real, lo: real, hi: real)
    requires lo * t <= s <= hi * t && lo <= x <= hi && w > 0.0
    ensures lo * (t + w) <= s + x * w <= hi * (t + w)
  {
    MulBelow(lo, x, w);
    MulBelow(x, hi, w);
    assert lo * (t + w) == lo * t + lo * w;
    assert hi * (t + w) == hi * t + hi * w;
  }

  lemma DivBetween(s: real, w: real, lo: real, hi: real)
    requires w > 0.0 && lo * w <= s <= hi * w
    ensures lo <= s / w <= hi
  {
    assert s / w * w == s;
    if s / w < lo {
      MulBelow(s / w, lo, w);
    }
    if s / w > hi {
      MulBelow(hi, s / w, w);
    }
  }

  /** The score is a weighted mean: when something fired, it lies between
      the least and the greatest normalised count of the detectors that fired. */
  lemma AbuseScoreMean(ws: seq<(real, Signal)>, lo: real, hi: real)
    requires PositiveWeights(ws) && AnyDetected(ws) && FiredWithin(ws, lo, hi)
    ensures lo <= AbuseScore(ws) <= hi
  {
    TotalsBounds(ws);
    TotalsBetween(ws, lo, hi);
    assert Between(Totals(ws), lo, hi);
    DivBetween(Totals(ws).0, Totals(ws).1, lo, hi);
  }

  /** `_classify_severity`: no severity below 0.3, then LOW, MEDIUM, HIGH
      and CRITICAL from 0.5, 0.7 and 0.9. */
  function ClassifySeverity(score: real): (s: Option<Severity>)
    ensures s.None? <==> score < 0.3
    ensures s == Some(Critical) <==> score >= 0.9
    ensures s == Some(High) <==> 0.7 <= score < 0.9
    ensures s == Some(Medium) <==> 0.5 <= score < 0.7
    ensures s == Some(Low) <==> 0.3 <= score < 0.5
  {
    if score < 0.3 then None
    else if score < 0.5 then Some(Low)
    else if score < 0.7 then Some(Medium)
    else if score < 0.9 then Some(High)
    else Some(Critical)
  }

  /** No severity ranks below LOW. */
  function LevelRank(s: Option<Severity>): int {
    if s.None? then -1 else SeverityRank(s.value)
  }

  lemma SeverityMonotone(a: real, b: real)
    requires a <= b
    ensures LevelRank(ClassifySeverity(a)) <= LevelRank(ClassifySeverity(b))
  {
  }

  /** `_get_abuse_threshold`. */
  function AbuseThreshold(strict: bool): (t: real)
    ensures t == if strict then 0.4 else 0.6
  {
    if strict then 0.4 else 0.6
  }

  /** Strict mode flags whatever the normal mode flags. */
  lemma StrictFlagsMore(score: real)
    requires score >= AbuseThreshold(false)
    ensures score >= AbuseThreshold(true)
  {
  }

  // ---------------------------------------------------------------------
  // The analysis

  /** Every keyword of every category, in order. */
  function AllKeywords(cats: seq<(string, seq<string>)>): seq<string> {
    if |cats| == 0 then [] else cats[0].1 + AllKeywords(cats[1..])
  }

  /** `_get_all_matches`: matching patterns, then occurring keywords; at most ten. */
  function AllMatches(text: string, search: Searcher): (ms: seq<string>)
    ensures |ms| <= 10
    ensures forall m :: m in ms ==>
      (m in DirectAttackPatterns + HarassmentPatterns + ThreatPatterns && search(m, text)) ||
      (m in AllKeywords(HateSpeechIndicators) && Contains(text, m))
    ensures var all := Hits(DirectAttackPatterns + HarassmentPatterns + ThreatPatterns, text, search) +
      FoundIn(AllKeywords(HateSpeechIndicators), text);
      |ms| == (if |all| < 10 then |all| else 10) && ms == all[..|ms|]
  {
    var ps := Hits(DirectAttackPatterns + HarassmentPatterns + ThreatPatterns, text, search);
    var ks := FoundIn(AllKeywords(HateSpeechIndicators), text);
    var all := ps + ks;
    var r := PyTake(all, 10);
    assert forall m :: m in r ==> m in all;
    r
  }

  datatype AbuseReport = AbuseReport(
    isAbusive: bool, abuseScore: real, severity: Option<Severity>,
    directAttack: Detection<string>, harassment: Detection<string>,
    hateSpeech: Detection<(string, string)>, threats: Detection<string>,
    repetition: Detection<string>, indicatorCount: nat, matches: seq<string>,
    confidence: real)

  const Weights: seq<real> := [1.0, 0.8, 1.2, 1.5, 0.5]

  function B(b: bool): nat { if b then 1 else 0 }

  /** The five signals with their weights, in scoring order. */
  function Signals(da: Detection<string>, ha: Detection<string>, hs: Detection<(string, string)>,
                   th: Detection<string>, re: Detection<string>): (ws: seq<(real, Signal)>)
    ensures |ws| == 5 && PositiveWeights(ws)
    ensures forall i :: 0 <= i < 5 ==> ws[i].0 == Weights[i]
    ensures ws[0].1 == SignalOf(da) && ws[1].1 == SignalOf(ha) && ws[2].1 == SignalOf(hs)
    ensures ws[3].1 == SignalOf(th) && ws[4].1 == SignalOf(re)
  {
    [(1.0, SignalOf(da)), (0.8, SignalOf(ha)), (1.2, SignalOf(hs)), (1.5, SignalOf(th)), (0.5, SignalOf(re))]
  }

  /** What one detector adds to the weighted sum, and to the weight. */
  function Part(s: Signal, w: real): (real, real) {
    if s.detected then (Normalized(s.matchCount) * w, w) else (0.0, 0.0)
  }

  /** Each detector that fired adds its normalised count times its weight,
      1.0 for direct attacks, 0.8 for harassment, 1.2 for hate speech, 1.5
      for threats and 0.5 for repetition, and adds the weight to the total. */
  lemma SignalsTotals(da: Detection<string>, ha: Detection<string>, hs: Detection<(string, string)>,
                      th: Detection<string>, re: Detection<string>)
    ensures var t := Totals(Signals(da, ha, hs, th, re));
      var a, b, c, d, e := Part(SignalOf(da), 1.0), Part(SignalOf(ha), 0.8), Part(SignalOf(hs), 1.2),
        Part(SignalOf(th), 1.5), Part(SignalOf(re), 0.5);
      t == (a.0 + b.0 + c.0 + d.0 + e.0, a.1 + b.1 + c.1 + d.1 + e.1)
  {
    var ws := Signals(da, ha, hs, th, re);
    var a, b, c, d, e := Part(SignalOf(da), 1.0), Part(SignalOf(ha), 0.8), Part(SignalOf(hs), 1.2),
      Part(SignalOf(th), 1.5), Part(SignalOf(re), 0.5);
    assert ws[..1][..0] == [] && ws[..2][..1] == ws[..1] && ws[..3][..2] == ws[..2];
    assert ws[..4][..3] == ws[..3] && ws[..4] == ws[..|ws| - 1];
    TotalsParts(ws[..1]);
    assert Totals(ws[..1]) == (0.0 + a.0, 0.0 + a.1);
    TotalsParts(ws[..2]);
    assert Totals(ws[..2]) == (a.0 + b.0, a.1 + b.1);
    TotalsParts(ws[..3]);
    assert Totals(ws[..3]) == (a.0 + b.0 + c.0, a.1 + b.1 + c.1);
    TotalsParts(ws[..4]);
    assert Totals(ws[..4]) == (a.0 + b.0 + c.0 + d.0, a.1 + b.1 + c.1 + d.1);
    TotalsParts(ws);
  }

  /** One step of `Totals`, through `Part`. */
  lemma TotalsParts(ws: seq<(real, Signal)>)
    requires |ws| > 0
    ensures var t := Totals(ws[..|ws| - 1]);
      var p := Part(ws[|ws| - 1].1, ws[|ws| - 1].0);
      Totals(ws) == (t.0 + p.0, t.1 + p.1)
  {
  }

  /** The report built from the five detections. */
  function Report(strict: bool, da: Detection<string>, ha: Detection<string>, hs: Detection<(string, string)>,
                  th: Detection<string>, re: Detection<string>, ms: seq<string>): AbuseReport
  {
    var score := AbuseScore(Signals(da, ha, hs, th, re));
    AbuseReport(
      score >= AbuseThreshold(strict), score, ClassifySeverity(score),
      da, ha, hs, th, re,
      B(da.detected) + B(ha.detected) + B(hs.detected) + B(th.detected) + B(re.detected),
      ms,
      if score < 1.0 then score else 1.0)
  }

  /** `indicator_count` counts the detectors that fired; the verdict is the
      threshold test on the score; severity follows the bands; the score lies
      in [0, 1], so the confidence `min(score, 1)` equals it; with no
      detector firing the score is 0. */
  lemma ReportSpec(strict: bool, da: Detection<string>, ha: Detection<string>, hs: Detection<(string, string)>,
                   th: Detection<string>, re: Detection<string>, ms: seq<string>)
    ensures var a := Report(strict, da, ha, hs, th, re, ms);
      a.indicatorCount <= 5 &&
      a.indicatorCount == B(a.directAttack.detected) + B(a.harassment.detected) + B(a.hateSpeech.detected)
        + B(a.threats.detected) + B(a.repetition.detected) &&
      (a.isAbusive <==> a.abuseScore >= AbuseThreshold(strict)) &&
      a.severity == ClassifySeverity(a.abuseScore) &&
      0.0 <= a.abuseScore <= 1.0 &&
      a.confidence == a.abuseScore &&
      (a.indicatorCount == 0 ==> a.abuseScore == 0.0)
    ensures var a := Report(strict, da, ha, hs, th, re, ms);
      a.abuseScore == AbuseScore(Signals(da, ha, hs, th, re)) &&
      a.directAttack == da && a.harassment == ha && a.hateSpeech == hs && a.threats == th &&
      a.repetition == re && a.matches == ms
  {
    var ws := Signals(da, ha, hs, th, re);
    AbuseScoreSpec(ws);
    if !(da.detected || ha.detected || hs.detected || th.detected || re.detected) {
      assert !AnyDetected(ws);
    }
  }

  /** `AbuseDetector.analyze`: None for an empty or blank comment (the
      "Invalid comment" error result), otherwise the report. */
  function Analyze(strict: bool, c: Comment, search: Searcher): (r: Option<AbuseReport>)
    ensures r.None? <==> !AnalysisBase.ValidateComment(c)
    ensures r.Some? ==> |r.value.matches| <= 10
    ensures r.Some? ==> r.value == Report(strict, DetectDirectAttack(c.text, search),
      DetectHarassment(c.text, search), DetectHateSpeech(c.text), DetectThreats(c.text, search),
      DetectRepetition(c.text), AllMatches(Lower(c.text), search))
  {
    if !AnalysisBase.ValidateComment(c) then None
    else
      Some(Report(strict, DetectDirectAttack(c.text, search), DetectHarassment(c.text, search),
        DetectHateSpeech(c.text), DetectThreats(c.text, search), DetectRepetition(c.text),
        AllMatches(Lower(c.text), search)))
  }

  /** `analyze_batch`: one result per comment, in order. */
  function AnalyzeBatch(strict: bool, comments: seq<Comment>, search: Searcher): (rs: seq<Option<AbuseReport>>)
    ensures |rs| == |comments|
    ensures forall i :: 0 <= i < |rs| ==> rs[i] == Analyze(strict, comments[i], search)
    ensures forall i :: 0 <= i < |rs| ==> (rs[i].None? <==> !AnalysisBase.ValidateComment(comments[i]))
  {
    seq(|comments|, i requires 0 <= i < |comments| => Analyze(strict, comments[i], search))
  }

  /** `is_severe_abuse`: abusive and of severity HIGH or CRITICAL. */
  function IsSevereAbuse(strict: bool, c: Comment, search: Searcher): bool {
    match Analyze(strict, c, search)
    case None => false
    case Some(a) => a.isAbusive && a.severity.Some? && SevereLevel(a.severity.value)
  }

  /** A report whose verdict and severity follow its score is severe exactly
      when the score reaches 0.7: both thresholds lie below HIGH. */
  lemma SevereReportIff(strict: bool, a: AbuseReport)
    requires a.isAbusive <==> a.abuseScore >= AbuseThreshold(strict)
    requires a.severity == ClassifySeverity(a.abuseScore)
    ensures (a.isAbusive && a.severity.Some? && SevereLevel(a.severity.value)) <==> a.abuseScore >= 0.7
  {
  }

  /** Both thresholds lie below HIGH, so a comment is severe abuse exactly
      when it scores 0.7 or more, in either mode. */
  lemma SevereAbuseIff(strict: bool, c: Comment, search: Searcher)
    ensures IsSevereAbuse(strict, c, search) <==>
      AnalysisBase.ValidateComment(c) && Analyze(strict, c, search).value.abuseScore >= 0.7
  {
    if AnalysisBase.ValidateComment(c) {
      var da := DetectDirectAttack(c.text, search);
      var ha := DetectHarassment(c.text, search);
      var hs := DetectHateSpeech(c.text);
      var th := DetectThreats(c.text, search);
      var re := DetectRepetition(c.text);
      var ms := AllMatches(Lower(c.text), search);
      var a := Report(strict, da, ha, hs, th, re, ms);
      assert Analyze(strict, c, search) == Some(a);
      ReportSpec(strict, da, ha, hs, th, re, ms);
      SevereReportIff(strict, a);
    }
  }
}

=== FILE: analysis_base.dfy ===
/** The analyzer base class and the composite analyzer that runs several
    analyzers over one comment and folds their results into one. What a
    concrete analyzer computes is a caller-supplied function. */
module AnalysisBase {
  import opened Wrappers
  import opened Text
  import opened Values
  import opened Base
  import Registry

  /** An analyzer object: its identity, its configuration and its switch. */
  datatype Analyzer = Analyzer(id: nat, config: Data, enabled: bool)

  /** `analyzer.analyze(comment)` of the concrete subclass. */
  type Runner = (Analyzer, Comment) -> AnalysisResult

  /** `Analyzer(config)`: a missing or empty configuration is `{}`; enabled. */
  function NewAnalyzer(id: nat, config: Option<Data>): (a: Analyzer)
    ensures a.enabled && a.id == id
    ensures a.config == if config.None? then [] else config.value
  {
    Analyzer(id, if config.None? then [] else config.value, true)
  }

  /** `configure(**kwargs)`: the keyword arguments overwrite the configuration. */
  function Configure(a: Analyzer, kwargs: Data): (a': Analyzer)
    ensures a'.id == a.id && a'.enabled == a.enabled
  {
    a.(config := Registry.Update(a.config, kwargs))
  }

  /** After `configure` a given key reads the new value; every other key
      reads what it did before. */
  lemma ConfigureOverwrites(a: Analyzer, kwargs: Data, k: string)
    requires Registry.UniqueKeys(kwargs)
    ensures Registry.Get(Configure(a, kwargs).config, k) ==
      if Registry.Has(kwargs, k) then Registry.Get(kwargs, k) else Registry.Get(a.config, k)
  {
    Registry.UpdateGet(a.config, kwargs, k);
  }

  /** `enable()` / `disable()`: only the switch changes. */
  function SetEnabled(a: Analyzer, flag: bool): (a': Analyzer)
    ensures a' == Analyzer(a.id, a.config, flag)
  {
    a.(enabled := flag)
  }

  /** `validate_comment`: the text has a character other than whitespace. */
  function ValidateComment(c: Comment): (ok: bool)
    ensures ok <==> !AllSpace(c.text)
  {
    if |c.text| == 0 then false
    else |Strip(c.text)| != 0
  }

  /** `preprocess_text`: surrounding whitespace removed. */
  function Preprocess(text: string): (r: string)
    ensures |r| <= |text|
    ensures r == [] <==> AllSpace(text)
    ensures |r| > 0 ==> !IsSpace(r[0]) && !IsSpace(r[|r| - 1])
  {
    Strip(text)
  }

  /** `_create_result`: successful exactly when no error is given. */
  function CreateResult(c: Comment, data: Data, error: Option<string>, confidence: real): (r: AnalysisResult)
    ensures r.success <==> error.None?
    ensures r.comment == c && r.data == data && r.error == error && r.confidence == confidence
  {
    AnalysisResult(c, error.None?, data, error, confidence)
  }

  /** `_create_error_result`: a failure with no data and confidence 0. */
  function CreateErrorResult(c: Comment, error: string): (r: AnalysisResult)
    ensures !r.success && r.data == [] && r.confidence == 0.0 && r.error == Some(error)
  {
    CreateResult(c, [], Some(error), 0.0)
  }

  // ---------------------------------------------------------------------
  // CompositeAnalyzer

  datatype Strategy = Merge | Replace | Other(name: string)

  /** The constructor's `combine_strategy` string. */
  function ParseStrategy(s: string): (st: Strategy)
    ensures st == Merge <==> s == "merge"
    ensures st == Replace <==> s == "replace"
  {
    if s == "merge" then Merge else if s == "replace" then Replace else Other(s)
  }

  datatype Composite = Composite(analyzers: seq<Analyzer>, strategy: Strategy)

  /** The analyzers that take part: enabled and accepting the comment. */
  function Applicable(az: seq<Analyzer>, c: Comment): (r: seq<Analyzer>)
    ensures |r| <= |az|
    ensures forall i :: 0 <= i < |r| ==> r[i] in az && r[i].enabled
    ensures ValidateComment(c) ==> forall a :: a in r <==> a in az && a.enabled
    ensures !ValidateComment(c) ==> r == []
  {
    if |az| == 0 then []
    else
      var rest := Applicable(az[1..], c);
      assert forall a :: a in az <==> a == az[0] || a in az[1..];
      if az[0].enabled && ValidateComment(c) then [az[0]] + rest else rest
  }

  function RunAll(az: seq<Analyzer>, c: Comment, run: Runner): (rs: seq<AnalysisResult>)
    ensures |rs| == |az|
    ensures forall i :: 0 <= i < |az| ==> rs[i] == run(az[i], c)
  {
    seq(|az|, i requires 0 <= i < |az| => run(az[i], c))
  }

  const NoAnalyzers := "No valid analyzers or all analyzers failed"

  /** The data of several results merged left to right. */
  function MergeData(rs: seq<AnalysisResult>): Data
    decreases |rs|
  {
    if |rs| == 0 then [] else Registry.Update(MergeData(rs[..|rs| - 1]), rs[|rs| - 1].data)
  }

  function SumConfidence(rs: seq<AnalysisResult>): real
    decreases |rs|
  {
    if |rs| == 0 then 0.0 else SumConfidence(rs[..|rs| - 1]) + rs[|rs| - 1].confidence
  }

  lemma MeanScales(s: real, n: real)
    requires n > 0.0
    ensures (s / n) * n == s
  {
  }

  /** The mean confidence of at least one result. */
  function Mean(rs: seq<AnalysisResult>): (m: real)
    requires |rs| > 0
    ensures m * |rs| as real == SumConfidence(rs)
  {
    MeanScales(SumConfidence(rs), |rs| as real);
    SumConfidence(rs) / |rs| as real
  }

  predicate AllSucceeded(rs: seq<AnalysisResult>) {
    forall i :: 0 <= i < |rs| ==> rs[i].success
  }

  /** `_combine_results`: an error result when nothing ran, the single
      result itself when one ran, and otherwise one result whose data follow
      the strategy, which succeeds only when every part did, and whose
      confidence is the mean. */
  function CombineResults(st: Strategy, c: Comment, rs: seq<AnalysisResult>): (r: AnalysisResult)
    ensures rs == [] ==> r == CreateErrorResult(c, NoAnalyzers)
    ensures |rs| == 1 ==> r == rs[0]
    ensures |rs| >= 2 ==>
      r.comment == c &&
      (r.success <==> AllSucceeded(rs)) &&
      (r.error == if AllSucceeded(rs) then None else Some("Some analyzers failed")) &&
      r.confidence == Mean(rs)
    ensures |rs| >= 2 && st == Replace ==> r.data == rs[|rs| - 1].data
    ensures |rs| >= 2 && st == Merge ==> r.data == MergeData(rs)
    ensures |rs| >= 2 && st.Other? ==> r.data == []
  {
    if rs == [] then CreateErrorResult(c, NoAnalyzers)
    else if |rs| == 1 then rs[0]
    else
      var data := match st
        case Merge => MergeData(rs)
        case Replace => rs[|rs| - 1].data
        case Other(_) => [];
      CreateResult(c, data, if AllSucceeded(rs) then None else Some("Some analyzers failed"), Mean(rs))
  }

  /** `CompositeAnalyzer.analyze`: run the applicable analyzers in order and
      combine what they return. */
  function Analyze(ca: Composite, c: Comment, run: Runner): (r: AnalysisResult)
    ensures r == CombineResults(ca.strategy, c, RunAll(Applicable(ca.analyzers, c), c, run))
    ensures Applicable(ca.analyzers, c) == [] ==> !r.success && r.error == Some(NoAnalyzers)
  {
    CombineResults(ca.strategy, c, RunAll(Applicable(ca.analyzers, c), c, run))
  }

  /** `CompositeAnalyzer.analyze_batch`: `analyze` on each comment, in order. */
  function AnalyzeBatch(ca: Composite, cs: seq<Comment>, run: Runner): (rs: seq<AnalysisResult>)
    ensures |rs| == |cs|
    ensures forall i :: 0 <= i < |cs| ==> rs[i] == Analyze(ca, cs[i], run)
  {
    seq(|cs|, i requires 0 <= i < |cs| => Analyze(ca, cs[i], run))
  }

  /** An empty or blank comment reaches no analyzer, so the composite
      reports the no-analyzer error. */
  lemma BlankCommentFails(ca: Composite, c: Comment, run: Runner)
    requires AllSpace(c.text)
    ensures Analyze(ca, c, run) == CreateErrorResult(c, NoAnalyzers)
  {
  }

  /** Some result's data has key `k`. */
  predicate AnyHas(rs: seq<AnalysisResult>, k: string) {
    exists i :: 0 <= i < |rs| && Registry.Has(rs[i].data, k)
  }

  lemma AnyHasLast(rs: seq<AnalysisResult>, k: string)
    requires |rs| > 0 && !Registry.Has(rs[|rs| - 1].data, k)
    ensures AnyHas(rs, k) <==> AnyHas(rs[..|rs| - 1], k)
  {
    var pre := rs[..|rs| - 1];
    if AnyHas(rs, k) {
      var i :| 0 <= i < |rs| && Registry.Has(rs[i].data, k);
      assert pre[i] == rs[i];
    }
    if AnyHas(pre, k) {
      var i :| 0 <= i < |pre| && Registry.Has(pre[i].data, k);
      assert pre[i] == rs[i];
    }
  }

  /** With the merge strategy a key holds the value of the last result that
      has it, and is absent when no result has it. */
  lemma {:induction false} MergeLastWins(rs: seq<AnalysisResult>, k: string)
    requires forall i :: 0 <= i < |rs| ==> Registry.UniqueKeys(rs[i].data)
    ensures !AnyHas(rs, k) ==> Registry.Get(MergeData(rs), k) == None
    ensures AnyHas(rs, k) ==> Registry.Get(MergeData(rs), k) == Registry.Get(rs[LastWith(rs, k)].data, k)
    decreases |rs|
  {
    if |rs| > 0 {
      var pre := rs[..|rs| - 1];
      var last := rs[|rs| - 1];
      assert forall i :: 0 <= i < |pre| ==> pre[i] == rs[i];
      MergeLastWins(pre, k);
      Registry.UpdateGet(MergeData(pre), last.data, k);
      if Registry.Has(last.data, k) {
        assert AnyHas(rs, k);
      } else {
        AnyHasLast(rs, k);
        if AnyHas(pre, k) {
          assert LastWith(rs, k) == LastWith(pre, k);
        }
      }
    }
  }

  /** The position of the last result whose data has `k`. */
  function LastWith(rs: seq<AnalysisResult>, k: string): (i: nat)
    requires AnyHas(rs, k)
    ensures i < |rs| && Registry.Has(rs[i].data, k)
    ensures forall j :: i < j < |rs| ==> !Registry.Has(rs[j].data, k)
    decreases |rs|
  {
    if Registry.Has(rs[|rs| - 1].data, k) then |rs| - 1
    else
      AnyHasLast(rs, k);
      LastWith(rs[..|rs| - 1], k)
  }

  /** The combined confidence is the mean: within any bounds every part
      respects. */
  lemma {:induction false} SumConfidenceBounds(rs: seq<AnalysisResult>, lo: real, hi: real)
    requires forall i :: 0 <= i < |rs| ==> lo <= rs[i].confidence <= hi
    ensures lo * |rs| as real <= SumConfidence(rs) <= hi * |rs| as real
    decreases |rs|
  {
    if |rs| > 0 {
      SumConfidenceBounds(rs[..|rs| - 1], lo, hi);
      assert forall i :: 0 <= i < |rs| - 1 ==> rs[..|rs| - 1][i] == rs[i];
    }
  }

  lemma MeanBounds(s: real, n: real, m: real, lo: real, hi: real)
    requires n > 0.0 && m * n == s && lo * n <= s <= hi * n
    ensures lo <= m <= hi
  {
  }

  lemma CombinedConfidenceInRange(st: Strategy, c: Comment, rs: seq<AnalysisResult>, lo: real, hi: real)
    requires |rs| >= 1 && lo <= hi
    requires forall i :: 0 <= i < |rs| ==> lo <= rs[i].confidence <= hi
    ensures lo <= CombineResults(st, c, rs).confidence <= hi
  {
    if |rs| >= 2 {
      SumConfidenceBounds(rs, lo, hi);
      MeanBounds(SumConfidence(rs), |rs| as real, Mean(rs), lo, hi);
    }
  }

  // ---------------------------------------------------------------------
  // Membership of the composite

  /** `add_analyzer`: appended at the end. */
  function AddAnalyzer(ca: Composite, a: Analyzer): (ca': Composite)
    ensures ca'.analyzers == ca.analyzers + [a] && ca'.strategy == ca.strategy
  {
    ca.(analyzers := ca.analyzers + [a])
  }

  function FirstWithId(az: seq<Analyzer>, id: nat): (i: nat)
    ensures i <= |az|
    ensures i < |az| ==> az[i].id == id
    ensures forall j :: 0 <= j < i ==> az[j].id != id
  {
    if |az| == 0 then 0 else if az[0].id == id then 0 else 1 + FirstWithId(az[1..], id)
  }

  /** `remove_analyzer`: the first occurrence of the analyzer (the same
      object) goes; `false` and no change when it is absent. */
  function RemoveAnalyzer(ca: Composite, a: Analyzer): (res: (Composite, bool))
    ensures res.1 <==> exists j :: 0 <= j < |ca.analyzers| && ca.analyzers[j].id == a.id
    ensures !res.1 ==> res.0 == ca
    ensures res.1 ==> (|res.0.analyzers| == |ca.analyzers| - 1 &&
      multiset(res.0.analyzers) + multiset{ca.analyzers[FirstWithId(ca.analyzers, a.id)]} == multiset(ca.analyzers))
    ensures res.1 ==> (var i := FirstWithId(ca.analyzers, a.id);
      i < |ca.analyzers| && res.0.analyzers == ca.analyzers[..i] + ca.analyzers[i + 1..])
    ensures res.0.strategy == ca.strategy
  {
    var az := ca.analyzers;
    var i := FirstWithId(az, a.id);
    if i == |az| then (ca, false)
    else
      assert az == az[..i] + [az[i]] + az[i + 1..];
      (ca.(analyzers := az[..i] + az[i + 1..]), true)
  }

  lemma {:induction false} FirstWithIdAppend(az: seq<Analyzer>, a: Analyzer)
    requires forall j :: 0 <= j < |az| ==> az[j].id != a.id
    ensures FirstWithId(az + [a], a.id) == |az|
  {
    if |az| > 0 {
      assert (az + [a])[1..] == az[1..] + [a];
      FirstWithIdAppend(az[1..], a);
    }
  }

  /** Adding an analyzer and removing it again restores the composite. */
  lemma AddThenRemove(ca: Composite, a: Analyzer)
    requires forall j :: 0 <= j < |ca.analyzers| ==> ca.analyzers[j].id != a.id
    ensures RemoveAnalyzer(AddAnalyzer(ca, a), a) == (ca, true)
  {
    var az := ca.analyzers + [a];
    FirstWithIdAppend(ca.analyzers, a);
    assert az[..|ca.analyzers|] + az[|ca.analyzers| + 1..] == ca.analyzers;
  }
}

=== FILE: base.dfy ===
/** The shared data model: enumerations, comments, violations, moderation
    and analysis results, posts, and their dictionary codecs. */
module Base {
  import opened Wrappers
  import opened Values
  import Registry

  /** A `datetime` the program can hold: every field in range. */
  type Instant = d: DateTime | Valid(d) witness DateTime(1, 1, 1, 0, 0, 0, 0)

  type Data = seq<(string, Value)>

  datatype Action = Approve | Flag | Hide | Remove

  datatype Severity = Low | Medium | High | Critical

  datatype Sentiment = Positive | Negative | Neutral | Mixed

  /** `action.value`. */
  function ActionValue(a: Action): string {
    match a
    case Approve => "approve"
    case Flag => "flag"
    case Hide => "hide"
    case Remove => "remove"
  }

  /** `ModerationAction(s)`: lookup by value; `None` is the `ValueError`. */
  function ActionFromValue(s: string): (o: Option<Action>)
    ensures o.Some? ==> ActionValue(o.value) == s
  {
    if s == "approve" then Some(Approve)
    else if s == "flag" then Some(Flag)
    else if s == "hide" then Some(Hide)
    else if s == "remove" then Some(Remove)
    else None
  }

  lemma ActionValueRoundTrip(a: Action)
    ensures ActionFromValue(ActionValue(a)) == Some(a)
  {
  }

  function SeverityValue(s: Severity): string {
    match s
    case Low => "low"
    case Medium => "medium"
    case High => "high"
    case Critical => "critical"
  }

  /** `Severity(s)`: lookup by the lower-case value. */
  function SeverityFromValue(s: string): (o: Option<Severity>)
    ensures o.Some? ==> SeverityValue(o.value) == s
  {
    if s == "low" then Some(Low)
    else if s == "medium" then Some(Medium)
    else if s == "high" then Some(High)
    else if s == "critical" then Some(Critical)
    else None
  }

  lemma SeverityValueRoundTrip(s: Severity)
    ensures SeverityFromValue(SeverityValue(s)) == Some(s)
  {
  }

  function SentimentValue(s: Sentiment): string {
    match s
    case Positive => "positive"
    case Negative => "negative"
    case Neutral => "neutral"
    case Mixed => "mixed"
  }

  datatype Comment = Comment(
    id: string, text: string, authorId: string, authorName: string,
    createdAt: Instant, platform: string, postId: string,
    parentId: Option<string>, likes: int, repliesCount: int, metadata: Data)

  datatype Violation = Violation(
    standard: string, description: string, severity: Severity, confidence: real,
    violatedMetrics: seq<string>, reasoning: string, position: Option<int>)

  /** The timestamp is an input: the default `utcnow()` is the caller's clock. */
  datatype ModerationResult = ModerationResult(
    comment: Comment, action: Action, violations: seq<Violation>, score: real,
    confidence: real, reasoning: string, timestamp: Instant, metadata: Data)

  datatype AnalysisResult = AnalysisResult(
    comment: Comment, success: bool, data: Data, error: Option<string>, confidence: real)

  datatype Post = Post(
    id: string, title: string, content: string, authorId: string, authorName: string,
    createdAt: Instant, platform: string, url: string,
    likes: int, shares: int, commentsCount: int, metadata: Data)

  /** The order LOW < MEDIUM < HIGH < CRITICAL. */
  function SeverityRank(s: Severity): nat {
    match s
    case Low => 0
    case Medium => 1
    case High => 2
    case Critical => 3
  }

  predicate SevereLevel(s: Severity) {
    s == High || s == Critical
  }

  /** `ModerationResult.has_violations`. */
  function HasViolations(r: ModerationResult): (b: bool)
    ensures b <==> r.violations != []
  {
    |r.violations| > 0
  }

  /** `any(v.severity in (HIGH, CRITICAL) for v in vs)`. */
  function AnySevere(vs: seq<Violation>): (b: bool)
    ensures b <==> exists i :: 0 <= i < |vs| && SevereLevel(vs[i].severity)
  {
    if |vs| == 0 then false
    else SevereLevel(vs[0].severity) || AnySevere(vs[1..])
  }

  /** `ModerationResult.is_severe`. */
  function IsSevere(r: ModerationResult): bool {
    AnySevere(r.violations)
  }

  // ---------------------------------------------------------------------
  // Codecs. `cls(**data)` fails (None) on an unexpected key or a missing
  // required field; absent optional fields take their declared defaults.

  /** `data.get(k)`: the value of the first entry for `k`. */
  function Lookup(data: Data, k: string): Option<Value> {
    if |data| == 0 then None
    else if data[0].0 == k then Some(data[0].1)
    else Lookup(data[1..], k)
  }

  /** The entry at `i` is the first one for `k`, so that is what `k` looks up. */
  lemma {:induction false} LookupAt(data: Data, i: nat, k: string)
    requires i < |data| && data[i].0 == k
    requires forall j :: 0 <= j < i ==> data[j].0 != k
    ensures Lookup(data, k) == Some(data[i].1)
  {
    if i > 0 {
      LookupAt(data[1..], i - 1, k);
    }
  }

  /** In a dict without repeated keys, each entry is what its key looks up. */
  lemma LookupUnique(data: Data, i: nat)
    requires i < |data| && Registry.UniqueKeys(data)
    ensures Lookup(data, data[i].0) == Some(data[i].1)
  {
    LookupAt(data, i, data[i].0);
  }

  predicate OnlyKeys(data: Data, names: set<string>) {
    forall i :: 0 <= i < |data| ==> data[i].0 in names
  }

  function ReqStr(data: Data, k: string): Option<string> {
    match Lookup(data, k)
    case Some(Str(s)) => Some(s)
    case _ => None
  }

  function ReqNum(data: Data, k: string): Option<real> {
    match Lookup(data, k)
    case Some(Num(r)) => Some(r)
    case _ => None
  }

  function ReqBool(data: Data, k: string): Option<bool> {
    match Lookup(data, k)
    case Some(Bool(b)) => Some(b)
    case _ => None
  }

  function ReqStrList(data: Data, k: string): Option<seq<string>> {
    match Lookup(data, k)
    case Some(List(xs)) => StrList(xs)
    case _ => None
  }

  function StrList(xs: seq<Value>): (o: Option<seq<string>>)
    ensures o.Some? ==> |o.value| == |xs|
  {
    if |xs| == 0 then Some([])
    else match xs[0]
      case Str(s) =>
        (match StrList(xs[1..])
         case Some(rest) => Some([s] + rest)
         case None => None)
      case _ => None
  }

  function StrValues(xs: seq<string>): (vs: seq<Value>)
    ensures |vs| == |xs|
  {
    seq(|xs|, i requires 0 <= i < |xs| => Str(xs[i]))
  }

  lemma {:induction false} StrListRoundTrip(xs: seq<string>)
    ensures StrList(StrValues(xs)) == Some(xs)
  {
    if |xs| > 0 {
      assert StrValues(xs)[1..] == StrValues(xs[1..]);
      StrListRoundTrip(xs[1..]);
      assert StrValues(xs)[0] == Str(xs[0]);
      assert [xs[0]] + xs[1..] == xs;
    }
  }

  /** An optional field with default `dflt`. */
  function OptInt(data: Data, k: string, dflt: int): (o: Option<int>)
    ensures o.Some? && Lookup(data, k).Some? ==> Lookup(data, k) == Some(Int(o.value))
  {
    match Lookup(data, k)
    case None => Some(dflt)
    case Some(Int(i)) => Some(i)
    case _ => None
  }

  function OptBool(data: Data, k: string, dflt: bool): (o: Option<bool>)
    ensures o.Some? && Lookup(data, k).Some? ==> Lookup(data, k) == Some(Bool(o.value))
  {
    match Lookup(data, k)
    case None => Some(dflt)
    case Some(Bool(b)) => Some(b)
    case _ => None
  }

  function OptNum(data: Data, k: string, dflt: real): (o: Option<real>)
    ensures o.Some? && Lookup(data, k).Some? ==> Lookup(data, k) == Some(Num(o.value))
  {
    match Lookup(data, k)
    case None => Some(dflt)
    case Some(Num(r)) => Some(r)
    case _ => None
  }

  /** `Optional[str] = None`. */
  function OptStr(data: Data, k: string): (o: Option<Option<string>>)
    ensures o.Some? && Lookup(data, k).Some? ==> Lookup(data, k) == Some(OptionStrValue(o.value))
  {
    match Lookup(data, k)
    case None => Some(None)
    case Some(Null) => Some(None)
    case Some(Str(s)) => Some(Some(s))
    case _ => None
  }

  /** `Optional[int] = None`. */
  function OptIntOrNone(data: Data, k: string): (o: Option<Option<int>>)
    ensures o.Some? && Lookup(data, k).Some? ==> Lookup(data, k) == Some(OptionIntValue(o.value))
  {
    match Lookup(data, k)
    case None => Some(None)
    case Some(Null) => Some(None)
    case Some(Int(i)) => Some(Some(i))
    case _ => None
  }

  /** `Dict[str, Any] = field(default_factory=dict)`. */
  function OptDict(data: Data, k: string): (o: Option<Data>)
    ensures o.Some? && Lookup(data, k).Some? ==> Lookup(data, k) == Some(Dict(o.value))
  {
    match Lookup(data, k)
    case None => Some([])
    case Some(Dict(d)) => Some(d)
    case _ => None
  }

  /** A string timestamp goes through `datetime.fromisoformat`. */
  function ReqTime(data: Data, k: string): Option<Instant> {
    match Lookup(data, k)
    case Some(Str(s)) =>
      (match FromIsoFormat(s)
       case Some(d) => Some(d)
       case None => None)
    case _ => None
  }

  function OptionStrValue(o: Option<string>): Value {
    match o
    case None => Null
    case Some(s) => Str(s)
  }

  function OptionIntValue(o: Option<int>): Value {
    match o
    case None => Null
    case Some(i) => Int(i)
  }

  // ----- Comment

  const CommentKeys: set<string> := {"id", "text", "author_id", "author_name", "created_at",
    "platform", "post_id", "parent_id", "likes", "replies_count", "metadata"}
  const CommentKeyOrder: seq<string> :=
    ["id", "text", "author_id", "author_name", "created_at", "platform", "post_id",
     "parent_id", "likes", "replies_count", "metadata"]

  function CommentToDict(c: Comment): (d: Data)
    ensures OnlyKeys(d, CommentKeys) && |d| == 11 && Registry.UniqueKeys(d)
    ensures Registry.Keys(d) == CommentKeyOrder
  {
    [("id", Str(c.id)), ("text", Str(c.text)), ("author_id", Str(c.authorId)),
     ("author_name", Str(c.authorName)), ("created_at", Str(IsoFormat(c.createdAt))),
     ("platform", Str(c.platform)), ("post_id", Str(c.postId)),
     ("parent_id", OptionStrValue(c.parentId)), ("likes", Int(c.likes)),
     ("replies_count", Int(c.repliesCount)), ("metadata", Dict(c.metadata))]
  }

  function CommentFromDict(data: Data): (o: Option<Comment>)
    ensures o.Some? ==> OnlyKeys(data, CommentKeys)
    ensures o.Some? ==>
      ReqStr(data, "id") == Some(o.value.id) && ReqStr(data, "text") == Some(o.value.text) &&
      ReqStr(data, "author_id") == Some(o.value.authorId) &&
      ReqStr(data, "author_name") == Some(o.value.authorName) &&
      ReqTime(data, "created_at") == Some(o.value.createdAt) &&
      ReqStr(data, "platform") == Some(o.value.platform) &&
      ReqStr(data, "post_id") == Some(o.value.postId)
    ensures o.Some? && Lookup(data, "likes").None? ==> o.value.likes == 0
    ensures o.Some? && Lookup(data, "replies_count").None? ==> o.value.repliesCount == 0
    ensures o.Some? && Lookup(data, "parent_id").None? ==> o.value.parentId.None?
    ensures o.Some? && Lookup(data, "metadata").None? ==> o.value.metadata == []
    ensures o.Some? && Lookup(data, "likes").Some? ==> Lookup(data, "likes") == Some(Int(o.value.likes))
    ensures o.Some? && Lookup(data, "replies_count").Some? ==>
      Lookup(data, "replies_count") == Some(Int(o.value.repliesCount))
    ensures o.Some? && Lookup(data, "parent_id").Some? ==>
      Lookup(data, "parent_id") == Some(OptionStrValue(o.value.parentId))
    ensures o.Some? && Lookup(data, "metadata").Some? ==> Lookup(data, "metadata") == Some(Dict(o.value.metadata))
  {
    if !OnlyKeys(data, CommentKeys) then None
    else
      var id :- ReqStr(data, "id");
      var text :- ReqStr(data, "text");
      var authorId :- ReqStr(data, "author_id");
      var authorName :- ReqStr(data, "author_name");
      var createdAt :- ReqTime(data, "created_at");
      var platform :- ReqStr(data, "platform");
      var postId :- ReqStr(data, "post_id");
      var parentId :- OptStr(data, "parent_id");
      var likes :- OptInt(data, "likes", 0);
      var replies :- OptInt(data, "replies_count", 0);
      var metadata :- OptDict(data, "metadata");
      Some(Comment(id, text, authorId, authorName, createdAt, platform, postId,
                   parentId, likes, replies, metadata))
  }

  lemma CommentKeysUnique(c: Comment)
    ensures Registry.UniqueKeys(CommentToDict(c))
  {
  }

  lemma CommentFields(c: Comment)
    ensures var d := CommentToDict(c);
      ReqStr(d, "id") == Some(c.id) && ReqStr(d, "text") == Some(c.text) &&
      ReqStr(d, "author_id") == Some(c.authorId) && ReqStr(d, "author_name") == Some(c.authorName) &&
      Lookup(d, "created_at") == Some(Str(IsoFormat(c.createdAt))) &&
      ReqStr(d, "platform") == Some(c.platform)
  {
    var d := CommentToDict(c);
    CommentKeysUnique(c);
    LookupUnique(d, 0);
    LookupUnique(d, 1);
    LookupUnique(d, 2);
    LookupUnique(d, 3);
    LookupUnique(d, 4);
    LookupUnique(d, 5);
  }

  lemma CommentFieldsRest(c: Comment)
    ensures var d := CommentToDict(c);
      ReqStr(d, "post_id") == Some(c.postId) &&
      OptStr(d, "parent_id") == Some(c.parentId) && OptInt(d, "likes", 0) == Some(c.likes) &&
      OptInt(d, "replies_count", 0) == Some(c.repliesCount) && OptDict(d, "metadata") == Some(c.metadata)
  {
    var d := CommentToDict(c);
    CommentKeysUnique(c);
    LookupUnique(d, 6);
    LookupUnique(d, 7);
    LookupUnique(d, 8);
    LookupUnique(d, 9);
    LookupUnique(d, 10);
  }

  /** `Comment.from_dict(c.to_dict()) == c`: the timestamp survives its ISO text. */
  lemma CommentRoundTrip(c: Comment)
    ensures CommentFromDict(CommentToDict(c)) == Some(c)
  {
    var d := CommentToDict(c);
    CommentFields(c);
    CommentFieldsRest(c);
    IsoRoundTrip(c.createdAt);
    assert ReqTime(d, "created_at") == Some(c.createdAt);
  }

  // ----- Violation

  const ViolationKeys: set<string> := {"standard", "description", "severity", "confidence",
    "violated_metrics", "reasoning", "position"}
  const ViolationKeyOrder: seq<string> :=
    ["standard", "description", "severity", "confidence", "violated_metrics", "reasoning",
     "position"]

  function ViolationToDict(v: Violation): (d: Data)
    ensures OnlyKeys(d, ViolationKeys) && |d| == 7 && Registry.UniqueKeys(d)
    ensures Registry.Keys(d) == ViolationKeyOrder
    ensures Lookup(d, "severity") == Some(Str(SeverityValue(v.severity)))
  {
    var d := [("standard", Str(v.standard)), ("description", Str(v.description)),
     ("severity", Str(SeverityValue(v.severity))), ("confidence", Num(v.confidence)),
     ("violated_metrics", List(StrValues(v.violatedMetrics))), ("reasoning", Str(v.reasoning)),
     ("position", OptionIntValue(v.position))];
    LookupAt(d, 2, "severity");
    d
  }

  function ViolationFromDict(data: Data): (o: Option<Violation>)
    ensures o.Some? ==> OnlyKeys(data, ViolationKeys)
    ensures o.Some? ==>
      ReqStr(data, "standard") == Some(o.value.standard) &&
      ReqStr(data, "description") == Some(o.value.description) &&
      ReqStr(data, "severity") == Some(SeverityValue(o.value.severity)) &&
      ReqNum(data, "confidence") == Some(o.value.confidence) &&
      ReqStrList(data, "violated_metrics") == Some(o.value.violatedMetrics) &&
      ReqStr(data, "reasoning") == Some(o.value.reasoning)
    ensures o.Some? && Lookup(data, "position").None? ==> o.value.position.None?
    ensures o.Some? && Lookup(data, "position").Some? ==>
      Lookup(data, "position") == Some(OptionIntValue(o.value.position))
  {
    if !OnlyKeys(data, ViolationKeys) then None
    else
      var standard :- ReqStr(data, "standard");
      var description :- ReqStr(data, "description");
      var sev :- ReqStr(data, "severity");
      var severity :- SeverityFromValue(sev);
      var confidence :- ReqNum(data, "confidence");
      var metrics :- ReqStrList(data, "violated_metrics");
      var reasoning :- ReqStr(data, "reasoning");
      var position :- OptIntOrNone(data, "position");
      Some(Violation(standard, description, severity, confidence, metrics, reasoning, position))
  }

  lemma ViolationFields(v: Violation)
    ensures var d := ViolationToDict(v);
      ReqStr(d, "standard") == Some(v.standard) &&
      ReqStr(d, "description") == Some(v.description) &&
      ReqStr(d, "severity") == Some(SeverityValue(v.severity)) &&
      ReqNum(d, "confidence") == Some(v.confidence) &&
      ReqStrList(d, "violated_metrics") == StrList(StrValues(v.violatedMetrics)) &&
      ReqStr(d, "reasoning") == Some(v.reasoning) &&
      OptIntOrNone(d, "position") == Some(v.position)
  {
    var d := ViolationToDict(v);
    LookupAt(d, 0, "standard");
    LookupAt(d, 1, "description");
    LookupAt(d, 2, "severity");
    LookupAt(d, 3, "confidence");
    LookupAt(d, 4, "violated_metrics");
    LookupAt(d, 5, "reasoning");
    LookupAt(d, 6, "position");
  }

  /** `Violation.from_dict(v.to_dict()) == v`. */
  lemma ViolationRoundTrip(v: Violation)
    ensures ViolationFromDict(ViolationToDict(v)) == Some(v)
  {
    ViolationFields(v);
    StrListRoundTrip(v.violatedMetrics);
    SeverityValueRoundTrip(v.severity);
  }

  function ViolationValues(vs: seq<Violation>): (xs: seq<Value>)
    ensures |xs| == |vs|
  {
    seq(|vs|, i requires 0 <= i < |vs| => Dict(ViolationToDict(vs[i])))
  }

  function ViolationList(xs: seq<Value>): (o: Option<seq<Violation>>)
    ensures o.Some? ==> |o.value| == |xs|
  {
    if |xs| == 0 then Some([])
    else match xs[0]
      case Dict(d) =>
        (match (ViolationFromDict(d), ViolationList(xs[1..]))
         case (Some(v), Some(rest)) => Some([v] + rest)
         case _ => None)
      case _ => None
  }

  lemma ViolationValuesCons(vs: seq<Violation>)
    requires |vs| > 0
    ensures ViolationValues(vs)[1..] == ViolationValues(vs[1..])
    ensures ViolationValues(vs)[0] == Dict(ViolationToDict(vs[0]))
  {
  }

  lemma {:induction false} ViolationListRoundTrip(vs: seq<Violation>)
    ensures ViolationList(ViolationValues(vs)) == Some(vs)
  {
    if |vs| > 0 {
      ViolationValuesCons(vs);
      ViolationRoundTrip(vs[0]);
      ViolationListRoundTrip(vs[1..]);
      assert [vs[0]] + vs[1..] == vs;
    }
  }

  // ----- ModerationResult

  /** A nested comment dict goes through `Comment.from_dict`. */
  function ReqComment(data: Data, k: string): Option<Comment> {
    match Lookup(data, k)
    case Some(Dict(c)) => CommentFromDict(c)
    case _ => None
  }

  /** A list of violation dicts goes through `Violation.from_dict` item by item. */
  function ReqViolations(data: Data, k: string): Option<seq<Violation>> {
    match Lookup(data, k)
    case Some(List(xs)) => ViolationList(xs)
    case _ => None
  }

  /** A timestamp with `default_factory`: absent means `now`. */
  function OptTime(data: Data, k: string, now: Instant): Option<Instant> {
    match Lookup(data, k)
    case None => Some(now)
    case _ => ReqTime(data, k)
  }

  const ResultFields: set<string> := {"comment", "action", "violations", "score", "confidence",
    "reasoning", "timestamp", "metadata"}

  /** `ModerationResult.to_dict`: the dataclass fields followed by the two
      derived properties. */
  function ResultToDict(r: ModerationResult): (d: Data)
    ensures |d| == 10 && d[8].0 == "has_violations" && d[9].0 == "is_severe"
  {
    [("comment", Dict(CommentToDict(r.comment))), ("action", Str(ActionValue(r.action))),
     ("violations", List(ViolationValues(r.violations))), ("score", Num(r.score)),
     ("confidence", Num(r.confidence)), ("reasoning", Str(r.reasoning)),
     ("timestamp", Str(IsoFormat(r.timestamp))), ("metadata", Dict(r.metadata)),
     ("has_violations", Bool(HasViolations(r))), ("is_severe", Bool(IsSevere(r)))]
  }

  lemma ResultKeysUnique(r: ModerationResult)
    ensures Registry.UniqueKeys(ResultToDict(r))
  {
  }

  /** The stored action is its value; the derived keys agree with the result. */
  lemma ResultDerived(r: ModerationResult)
    ensures var d := ResultToDict(r);
      Lookup(d, "action") == Some(Str(ActionValue(r.action))) &&
      Lookup(d, "has_violations") == Some(Bool(HasViolations(r))) &&
      Lookup(d, "is_severe") == Some(Bool(IsSevere(r)))
  {
    var d := ResultToDict(r);
    ResultKeysUnique(r);
    LookupUnique(d, 1);
    LookupUnique(d, 8);
    LookupUnique(d, 9);
  }

  /** `ModerationResult.from_dict` as written: every key goes to the
      constructor, so the derived `has_violations`/`is_severe` keys are
      rejected as unexpected keyword arguments. A missing timestamp defaults
      to `now`. */
  function ResultFromDict(data: Data, now: Instant): (o: Option<ModerationResult>)
    ensures Registry.Has(data, "has_violations") || Registry.Has(data, "is_severe") ==> o == None
    ensures o.Some? ==> OnlyKeys(data, ResultFields)
    ensures o.Some? ==>
      ReqComment(data, "comment") == Some(o.value.comment) &&
      ReqViolations(data, "violations") == Some(o.value.violations) &&
      ReqNum(data, "score") == Some(o.value.score) &&
      ReqNum(data, "confidence") == Some(o.value.confidence) &&
      ReqStr(data, "reasoning") == Some(o.value.reasoning)
    ensures o.Some? && Lookup(data, "timestamp").None? ==> o.value.timestamp == now
    ensures o.Some? && Lookup(data, "timestamp").Some? ==> ReqTime(data, "timestamp") == Some(o.value.timestamp)
    ensures o.Some? ==> ReqStr(data, "action") == Some(ActionValue(o.value.action))
    ensures o.Some? && Lookup(data, "metadata").None? ==> o.value.metadata == []
    ensures o.Some? && Lookup(data, "metadata").Some? ==> Lookup(data, "metadata") == Some(Dict(o.value.metadata))
  {
    if !OnlyKeys(data, ResultFields) then None
    else
      DerivedKeysOutside(data);
      var comment :- ReqComment(data, "comment");
      var act :- ReqStr(data, "action");
      var action :- ActionFromValue(act);
      var vs :- ReqViolations(data, "violations");
      var score :- ReqNum(data, "score");
      var confidence :- ReqNum(data, "confidence");
      var reasoning :- ReqStr(data, "reasoning");
      var timestamp :- OptTime(data, "timestamp", now);
      var metadata :- OptDict(data, "metadata");
      Some(ModerationResult(comment, action, vs, score, confidence, reasoning, timestamp, metadata))
  }

  /** Neither derived key is a dataclass field. */
  lemma DerivedKeysOutside(data: Data)
    requires OnlyKeys(data, ResultFields)
    ensures !Registry.Has(data, "has_violations") && !Registry.Has(data, "is_severe")
  {
    assert "has_violations" !in ResultFields && "is_severe" !in ResultFields;
  }

  /** The output of `to_dict` never decodes with the as-written `from_dict`. */
  lemma ResultFromDictRejectsToDict(r: ModerationResult, now: Instant)
    ensures ResultFromDict(ResultToDict(r), now) == None
  {
    var d := ResultToDict(r);
    assert d[8].0 == "has_violations" && "has_violations" !in ResultFields;
  }

  /** The decoder `to_dict` calls for: drop the two derived keys first. */
  function ResultFromDictFixed(data: Data, now: Instant): Option<ModerationResult> {
    ResultFromDict(Registry.Remove(Registry.Remove(data, "has_violations"), "is_severe"), now)
  }

  /** Dropping the derived keys leaves exactly the eight dataclass fields. */
  lemma ResultStripped(r: ModerationResult)
    ensures Registry.Remove(Registry.Remove(ResultToDict(r), "has_violations"), "is_severe") == ResultToDict(r)[..8]
  {
    var d := ResultToDict(r);
    ResultKeysUnique(r);
    var d1 := Registry.Remove(d, "has_violations");
    assert Registry.IndexOf(d, "has_violations") == 8 by { Registry.IndexOfUnique(d, "has_violations", 8); }
    assert d1 == d[..8] + d[9..];
    assert Registry.IndexOf(d1, "is_severe") == 8 by { Registry.IndexOfUnique(d1, "is_severe", 8); }
  }

  lemma ResultFieldsHead(r: ModerationResult)
    ensures var d := ResultToDict(r)[..8];
      OnlyKeys(d, ResultFields) &&
      ReqComment(d, "comment") == CommentFromDict(CommentToDict(r.comment))
  {
    var d := ResultToDict(r)[..8];
    ResultKeysUnique(r);
    assert Registry.UniqueKeys(d);
    LookupUnique(d, 0);
  }

  lemma ResultFieldsMiddle(r: ModerationResult)
    ensures var d := ResultToDict(r)[..8];
      ReqStr(d, "action") == Some(ActionValue(r.action)) &&
      ReqViolations(d, "violations") == ViolationList(ViolationValues(r.violations)) &&
      ReqNum(d, "score") == Some(r.score)
  {
    var d := ResultToDict(r)[..8];
    ResultKeysUnique(r);
    assert Registry.UniqueKeys(d);
    LookupUnique(d, 1);
    LookupUnique(d, 2);
    LookupUnique(d, 3);
  }

  lemma ResultFieldsTail(r: ModerationResult)
    ensures var d := ResultToDict(r)[..8];
      ReqNum(d, "confidence") == Some(r.confidence) &&
      ReqStr(d, "reasoning") == Some(r.reasoning) &&
      Lookup(d, "timestamp") == Some(Str(IsoFormat(r.timestamp))) &&
      OptDict(d, "metadata") == Some(r.metadata)
  {
    var d := ResultToDict(r)[..8];
    ResultKeysUnique(r);
    assert Registry.UniqueKeys(d);
    LookupUnique(d, 4);
    LookupUnique(d, 5);
    LookupUnique(d, 6);
    LookupUnique(d, 7);
  }

  /** With the derived keys dropped, `from_dict(to_dict(r)) == r`. */
  lemma ResultRoundTrip(r: ModerationResult, now: Instant)
    ensures ResultFromDictFixed(ResultToDict(r), now) == Some(r)
  {
    var d2 := ResultToDict(r)[..8];
    ResultStripped(r);
    ResultFieldsHead(r);
    ResultFieldsMiddle(r);
    ResultFieldsTail(r);
    CommentRoundTrip(r.comment);
    ActionValueRoundTrip(r.action);
    ViolationListRoundTrip(r.violations);
    IsoRoundTrip(r.timestamp);
    assert OptTime(d2, "timestamp", now) == Some(r.timestamp);
  }

  // ----- Post

  const PostKeys: set<string> := {"id", "title", "content", "author_id", "author_name",
    "created_at", "platform", "url", "likes", "shares", "comments_count", "metadata"}
  const PostKeyOrder: seq<string> :=
    ["id", "title", "content", "author_id", "author_name", "created_at", "platform", "url",
     "likes", "shares", "comments_count", "metadata"]

  function PostToDict(p: Post): (d: Data)
    ensures OnlyKeys(d, PostKeys) && |d| == 12 && Registry.UniqueKeys(d)
    ensures Registry.Keys(d) == PostKeyOrder
  {
    [("id", Str(p.id)), ("title", Str(p.title)), ("content", Str(p.content)),
     ("author_id", Str(p.authorId)), ("author_name", Str(p.authorName)),
     ("created_at", Str(IsoFormat(p.createdAt))), ("platform", Str(p.platform)),
     ("url", Str(p.url)), ("likes", Int(p.likes)), ("shares", Int(p.shares)),
     ("comments_count", Int(p.commentsCount)), ("metadata", Dict(p.metadata))]
  }

  function PostFromDict(data: Data): (o: Option<Post>)
    ensures o.Some? ==> OnlyKeys(data, PostKeys)
    ensures o.Some? ==>
      ReqStr(data, "id") == Some(o.value.id) && ReqStr(data, "title") == Some(o.value.title) &&
      ReqStr(data, "content") == Some(o.value.content) &&
      ReqStr(data, "author_id") == Some(o.value.authorId) &&
      ReqStr(data, "author_name") == Some(o.value.authorName) &&
      ReqTime(data, "created_at") == Some(o.value.createdAt) &&
      ReqStr(data, "platform") == Some(o.value.platform) && ReqStr(data, "url") == Some(o.value.url)
    ensures o.Some? && Lookup(data, "likes").None? ==> o.value.likes == 0
    ensures o.Some? && Lookup(data, "shares").None? ==> o.value.shares == 0
    ensures o.Some? && Lookup(data, "comments_count").None? ==> o.value.commentsCount == 0
    ensures o.Some? && Lookup(data, "metadata").None? ==> o.value.metadata == []
    ensures o.Some? && Lookup(data, "likes").Some? ==> Lookup(data, "likes") == Some(Int(o.value.likes))
    ensures o.Some? && Lookup(data, "shares").Some? ==> Lookup(data, "shares") == Some(Int(o.value.shares))
    ensures o.Some? && Lookup(data, "comments_count").Some? ==>
      Lookup(data, "comments_count") == Some(Int(o.value.commentsCount))
    ensures o.Some? && Lookup(data, "metadata").Some? ==> Lookup(data, "metadata") == Some(Dict(o.value.metadata))
  {
    if !OnlyKeys(data, PostKeys) then None
    else
      var id :- ReqStr(data, "id");
      var title :- ReqStr(data, "title");
      var content :- ReqStr(data, "content");
      var authorId :- ReqStr(data, "author_id");
      var authorName :- ReqStr(data, "author_name");
      var createdAt :- ReqTime(data, "created_at");
      var platform :- ReqStr(data, "platform");
      var url :- ReqStr(data, "url");
      var likes :- OptInt(data, "likes", 0);
      var shares :- OptInt(data, "shares", 0);
      var comments :- OptInt(data, "comments_count", 0);
      var metadata :- OptDict(data, "metadata");
      Some(Post(id, title, content, authorId, authorName, createdAt, platform, url,
                likes, shares, comments, metadata))
  }

  lemma PostKeysUnique(p: Post)
    ensures Registry.UniqueKeys(PostToDict(p))
  {
  }

  lemma PostFields(p: Post)
    ensures var d := PostToDict(p);
      ReqStr(d, "id") == Some(p.id) && ReqStr(d, "title") == Some(p.title) &&
      ReqStr(d, "content") == Some(p.content) && ReqStr(d, "author_id") == Some(p.authorId) &&
      ReqStr(d, "author_name") == Some(p.authorName) &&
      Lookup(d, "created_at") == Some(Str(IsoFormat(p.createdAt)))
  {
    var d := PostToDict(p);
    PostKeysUnique(p);
    LookupUnique(d, 0);
    LookupUnique(d, 1);
    LookupUnique(d, 2);
    LookupUnique(d, 3);
    LookupUnique(d, 4);
    LookupUnique(d, 5);
  }

  lemma PostFieldsRest(p: Post)
    ensures var d := PostToDict(p);
      ReqStr(d, "platform") == Some(p.platform) && ReqStr(d, "url") == Some(p.url) &&
      OptInt(d, "likes", 0) == Some(p.likes) && OptInt(d, "shares", 0) == Some(p.shares) &&
      OptInt(d, "comments_count", 0) == Some(p.commentsCount) && OptDict(d, "metadata") == Some(p.metadata)
  {
    var d := PostToDict(p);
    PostKeysUnique(p);
    LookupUnique(d, 6);
    LookupUnique(d, 7);
    LookupUnique(d, 8);
    LookupUnique(d, 9);
    LookupUnique(d, 10);
    LookupUnique(d, 11);
  }

  /** `Post.from_dict(p.to_dict()) == p`. */
  lemma PostRoundTrip(p: Post)
    ensures PostFromDict(PostToDict(p)) == Some(p)
  {
    var d := PostToDict(p);
    PostFields(p);
    PostFieldsRest(p);
    IsoRoundTrip(p.createdAt);
    assert ReqTime(d, "created_at") == Some(p.createdAt);
  }
}

=== FILE: categorizer.dfy ===
/** The keyword categorizer: a primary topic from whole-word keyword hits,
    a content type from phrase occurrences, a length band, optional
    secondary topics, and the batch aggregates over primary topics. */
module Categorizer {
  import opened Wrappers
  import opened Text
  import opened Seqs
  import opened Base
  import opened Registry
  import opened Lexicon
  import AnalysisBase

  // Keywords per topic.
  const TechKeywords: seq<string> := ["software", "app", "code", "programming", "developer",
                                      "api", "technology", "tech", "digital", "hardware",
                                      "update", "version", "feature", "bug", "fix"]
  const EntertainmentKeywords: seq<string> := ["movie", "music", "game", "video", "show",
                                               "entertainment", "fun", "funny", "cool",
                                               "amazing"]
  const PoliticsKeywords: seq<string> := ["politics", "government", "policy", "election",
                                          "democrat", "republican", "congress", "president",
                                          "vote", "campaign", "political", "legislation"]
  const SportsKeywords: seq<string> := ["sport", "team", "game", "player", "coach", "score",
                                        "win", "loss", "championship", "league"]
  const BusinessKeywords: seq<string> := ["business", "company", "market", "stock", "investment",
                                          "economy", "finance", "startup", "entrepreneur",
                                          "profit", "revenue", "customer", "product"]
  const ScienceKeywords: seq<string> := ["science", "research", "study", "experiment",
                                         "discovery", "theory", "hypothesis", "data", "analysis",
                                         "scientific", "laboratory", "finding"]
  const HealthKeywords: seq<string> := ["health", "medical", "doctor", "medicine", "treatment",
                                        "symptom", "disease", "wellness", "fitness", "exercise",
                                        "diet", "nutrition"]
  const EducationKeywords: seq<string> := ["education", "school", "student", "teacher", "learn",
                                           "study", "course", "university", "college",
                                           "knowledge", "academic", "curriculum"]

  const TopicCategories: Table := [
    ("tech", TechKeywords),
    ("entertainment", EntertainmentKeywords),
    ("politics", PoliticsKeywords),
    ("sports", SportsKeywords),
    ("business", BusinessKeywords),
    ("science", ScienceKeywords),
    ("health", HealthKeywords),
    ("education", EducationKeywords)]

  // Indicator phrases per content type.
  const QuestionIndicators: seq<string> := ["?", "how", "what", "when", "where", "why", "who",
                                            "which", "can someone", "anyone know"]
  const OpinionIndicators: seq<string> := ["i think", "in my opinion", "imo", "imho", "believe",
                                           "feel that", "seems to me"]
  const ComplaintIndicators: seq<string> := ["problem", "issue", "broken", "not working",
                                             "frustrating", "disappointed", "unhappy",
                                             "fix this", "why not", "should be"]
  const ComplimentIndicators: seq<string> := ["great", "awesome", "love", "excellent", "amazing",
                                              "wonderful", "good job", "well done"]
  const SuggestionIndicators: seq<string> := ["should", "could", "would be nice", "suggest",
                                              "recommend", "consider", "add"]

  const ContentTypes: Table := [
    ("question", QuestionIndicators),
    ("opinion", OpinionIndicators),
    ("complaint", ComplaintIndicators),
    ("compliment", ComplimentIndicators),
    ("suggestion", SuggestionIndicators)]

  /** `multi_label` (default off) and `min_matches` (default 2). */
  datatype Config = Config(multiLabel: bool, minMatches: int)

  const DefaultConfig := Config(false, 2)

  // ---------------------------------------------------------------------
  // Primary topic

  /** Keyword hits per topic, in declaration order. */
  function TopicScores(words: seq<string>): (s: seq<int>)
    ensures |s| == |TopicCategories|
    ensures forall j :: 0 <= j < |s| ==> s[j] == CountIn(words, TopicCategories[j].1)
  {
    WordScores(TopicCategories, words)
  }

  /** How many of the words a topic lists. */
  function TopicHits(words: seq<string>, topic: string): nat {
    HitsOf(TopicCategories, words, topic)
  }

  lemma TopicNamesUnique()
    ensures UniqueKeys(TopicCategories)
    ensures forall j :: 0 <= j < |TopicCategories| ==> Get(TopicCategories, TopicCategories[j].0) == Some(TopicCategories[j].1)
  {
    GetUnique(TopicCategories);
  }

  /** `_categorize_topic`: ("general", 0) when no topic reaches `min_matches`;
      otherwise the winning topic, with its hits over max(5, word count). The
      hits never exceed the word count, so the cap at 1 never applies. */
  function CategorizeTopic(words: seq<string>, minMatches: int): (r: (string, real))
    ensures 0.0 <= r.1 <= 1.0
    ensures Winner(TopicScores(words), minMatches).None? ==> r == ("general", 0.0)
    ensures var k := Winner(TopicScores(words), minMatches);
      k.Some? ==> (r.0 == TopicCategories[k.value].0 &&
        r.1 == TopicScores(words)[k.value] as real / (if |words| < 5 then 5 else |words|) as real)
  {
    var scores := TopicScores(words);
    match Winner(scores, minMatches)
    case None => ("general", 0.0)
    case Some(k) =>
      var m := scores[k];
      assert m == CountIn(words, TopicCategories[k].1) <= |words|;
      var d := if |words| < 5 then 5 else |words|;
      var c := m as real / d as real;
      RatioAtMostOne(m, d);
      (TopicCategories[k].0, if c < 1.0 then c else 1.0)
  }

  lemma RatioAtMostOne(m: int, d: int)
    requires 0 <= m <= d && d > 0
    ensures 0.0 <= m as real / d as real <= 1.0
  {
    var q := m as real / d as real;
    assert q * d as real == m as real;
  }

  /** The primary topic as the source's loop defines it: no qualifying topic
      gives "general"; otherwise a qualifying topic with the most hits, and
      no earlier-declared topic has as many. */
  lemma TopicIsEarliestBest(words: seq<string>, minMatches: int)
    ensures var scores := TopicScores(words);
      var t := CategorizeTopic(words, minMatches).0;
      ((forall j :: 0 <= j < |scores| ==> scores[j] < minMatches) ==> t == "general") &&
      ((exists j :: 0 <= j < |scores| && scores[j] >= minMatches) ==>
        exists k :: 0 <= k < |scores| && t == TopicCategories[k].0 && scores[k] >= minMatches &&
          forall j :: 0 <= j < |scores| && scores[j] >= minMatches ==>
            scores[j] <= scores[k] && (j < k ==> scores[j] < scores[k]))
  {
    var scores := TopicScores(words);
    var w := Winner(scores, minMatches);
    if w.Some? {
      var k := w.value;
      assert TopicCategories[k].0 == CategorizeTopic(words, minMatches).0;
    }
  }

  // ---------------------------------------------------------------------
  // Content type and length

  /** Indicator phrases found per content type, in declaration order. */
  function TypeScores(text: string): (s: seq<int>)
    ensures |s| == |ContentTypes|
    ensures forall j :: 0 <= j < |s| ==> s[j] == Present(Lower(text), ContentTypes[j].1)
  {
    seq(|ContentTypes|, j requires 0 <= j < |ContentTypes| => Present(Lower(text), ContentTypes[j].1))
  }

  /** `_categorize_content_type`: ("general", 0) when no indicator phrase
      occurs; otherwise the winning type. Its confidence is its phrase count
      per twenty characters: 1 once the count reaches |text| / 20, otherwise
      20 * count / |text|. */
  function CategorizeContentType(text: string): (r: (string, real))
    ensures 0.0 <= r.1 <= 1.0
    ensures r == ("general", 0.0) <==> forall j :: 0 <= j < |ContentTypes| ==> TypeScores(text)[j] == 0
    ensures var k := Winner(TypeScores(text), 1);
      k.Some? ==> (r.0 == ContentTypes[k.value].0 && r.1 > 0.0 &&
        (|text| <= 20 ==> r.1 == 1.0))
    ensures var k := Winner(TypeScores(text), 1);
      k.Some? ==> var m := TypeScores(text)[k.value];
        (r.1 == 1.0 <==> 20 * m >= |text|) &&
        r.1 == if 20 * m >= |text| then 1.0 else (20 * m) as real / |text| as real
  {
    ContentTypeNames();
    TypeOf(ContentTypes, TypeScores(text), |text|)
  }

  lemma ContentTypeNames()
    ensures forall j :: 0 <= j < |ContentTypes| ==> ContentTypes[j].0 != "general"
  {
  }

  /** The content-type choice over any table of types none of which is
      called "general", given each type's phrase count. */
  function TypeOf(types: Table, scores: seq<int>, len: nat): (r: (string, real))
    requires |scores| == |types|
    requires forall j :: 0 <= j < |types| ==> types[j].0 != "general"
    ensures 0.0 <= r.1 <= 1.0
    ensures r == ("general", 0.0) <==> forall j :: 0 <= j < |scores| ==> scores[j] < 1
    ensures var k := Winner(scores, 1);
      k.Some? ==> (r.0 == types[k.value].0 && r.1 > 0.0 && (len <= 20 ==> r.1 == 1.0) &&
        r.1 == TypeConfidence(scores[k.value], len))
  {
    match Winner(scores, 1)
    case None => ("general", 0.0)
    case Some(k) => (types[k].0, TypeConfidence(scores[k], len))
  }

  /** `min(max_matches / max(1, len(text) / 20), 1.0)`. */
  function TypeConfidence(m: int, len: nat): (c: real)
    requires m >= 1
    ensures 0.0 < c <= 1.0
    ensures len <= 20 ==> c == 1.0
    ensures (c == 1.0 <==> 20 * m >= len) && c == if 20 * m >= len then 1.0 else (20 * m) as real / len as real
  {
    var per := len as real / 20.0;
    var d := if 1.0 < per then per else 1.0;
    var q := m as real / d;
    PositiveRatio(m, d);
    PerTwentyChars(m, len);
    if q < 1.0 then q else 1.0
  }

  /** min(m / max(1, len / 20), 1) in whole numbers. */
  lemma PerTwentyChars(m: int, len: nat)
    requires m >= 1
    ensures var per := len as real / 20.0;
      var d := if 1.0 < per then per else 1.0;
      var c := m as real / d;
      var r := if c < 1.0 then c else 1.0;
      (r == 1.0 <==> 20 * m >= len) && r == if 20 * m >= len then 1.0 else (20 * m) as real / len as real
  {
    var per := len as real / 20.0;
    if 1.0 < per {
      var c := m as real / per;
      assert c * per == m as real;
      assert per * 20.0 == len as real;
      assert c == (20 * m) as real / len as real by {
        assert c * len as real == 20.0 * m as real;
      }
      if c >= 1.0 {
        assert m as real >= per;
      } else {
        assert m as real < per;
      }
    }
  }

  lemma PositiveRatio(m: int, d: real)
    requires m >= 1 && d >= 1.0
    ensures m as real / d > 0.0
    ensures d == 1.0 ==> m as real / d >= 1.0
  {
    var q := m as real / d;
    assert q * d == m as real;
  }

  /** `_categorize_length`: the band of a length in characters. */
  function LengthCategory(length: int): (band: string)
    ensures band == "very_short" <==> length <= 50
    ensures band == "short" <==> 50 < length <= 100
    ensures band == "medium" <==> 100 < length <= 250
    ensures band == "long" <==> 250 < length <= 500
    ensures band == "very_long" <==> length > 500
  {
    if length <= 50 then "very_short"
    else if length <= 100 then "short"
    else if length <= 250 then "medium"
    else if length <= 500 then "long"
    else "very_long"
  }

  function BandRank(band: string): nat {
    if band == "very_short" then 0 else if band == "short" then 1 else if band == "medium" then 2
    else if band == "long" then 3 else 4
  }

  /** A longer text never falls in a shorter band. */
  lemma LengthMonotone(a: int, b: int)
    requires a <= b
    ensures BandRank(LengthCategory(a)) <= BandRank(LengthCategory(b))
  {
  }

  // ---------------------------------------------------------------------
  // Secondary topics

  /** The categories at the kept positions other than `primary`, with their hits. */
  function Others(table: Table, idx: seq<nat>, scores: seq<int>, primary: string): (cs: seq<(string, int)>)
    requires |scores| == |table|
    requires forall i :: 0 <= i < |idx| ==> idx[i] < |scores|
    ensures forall p :: p in cs ==> (p.0 != primary &&
      exists i :: 0 <= i < |idx| && p == (table[idx[i]].0, scores[idx[i]]))
  {
    if |idx| == 0 then []
    else
      var rest := Others(table, idx[..|idx| - 1], scores, primary);
      var j := idx[|idx| - 1];
      assert forall i :: 0 <= i < |idx| - 1 ==> idx[..|idx| - 1][i] == idx[i];
      if table[j].0 == primary then rest else rest + [(table[j].0, scores[j])]
  }

  /** `_get_secondary_categories`: the other topics with at least
      `min_matches - 1` hits, most hits first (ties in declaration order),
      at most three. */
  function SecondaryTopics(words: seq<string>, primary: string, minMatches: int): (r: seq<string>)
    ensures |r| <= 3
    ensures forall i :: 0 <= i < |r| ==> r[i] != primary && TopicHits(words, r[i]) >= minMatches - 1
    ensures forall i, j :: 0 <= i < j < |r| ==> TopicHits(words, r[i]) >= TopicHits(words, r[j])
  {
    TopicNamesUnique();
    SecondaryOf(TopicCategories, words, primary, minMatches)
  }

  /** A qualifying topic left out of the secondary topics has no more hits
      than any topic listed. */
  lemma SecondaryTopicsDominate(words: seq<string>, primary: string, minMatches: int, j: nat, i: nat)
    requires j < |TopicCategories|
    requires TopicCategories[j].0 != primary && TopicHits(words, TopicCategories[j].0) >= minMatches - 1
    requires TopicCategories[j].0 !in SecondaryTopics(words, primary, minMatches)
    requires i < |SecondaryTopics(words, primary, minMatches)|
    ensures TopicHits(words, SecondaryTopics(words, primary, minMatches)[i]) >= TopicHits(words, TopicCategories[j].0)
  {
    TopicNamesUnique();
    SecondaryOfDominates(TopicCategories, words, primary, minMatches, j, i);
  }

  /** Fewer than three secondary topics means every qualifying topic is listed. */
  lemma SecondaryTopicsComplete(words: seq<string>, primary: string, minMatches: int, j: nat)
    requires j < |TopicCategories|
    requires TopicCategories[j].0 != primary && TopicHits(words, TopicCategories[j].0) >= minMatches - 1
    requires |SecondaryTopics(words, primary, minMatches)| < 3
    ensures TopicCategories[j].0 in SecondaryTopics(words, primary, minMatches)
  {
    TopicNamesUnique();
    SecondaryOfComplete(TopicCategories, words, primary, minMatches, j);
  }

  /** The same selection over any table with distinct names. */
  function SecondaryOf(table: Table, words: seq<string>, primary: string, minMatches: int): (r: seq<string>)
    requires UniqueKeys(table)
    ensures |r| <= 3
    ensures forall i :: 0 <= i < |r| ==> r[i] != primary && HitsOf(table, words, r[i]) >= minMatches - 1
    ensures forall i, j :: 0 <= i < j < |r| ==> HitsOf(table, words, r[i]) >= HitsOf(table, words, r[j])
  {
    var scores := WordScores(table, words);
    var idx := Kept(scores, minMatches - 1);
    var cands := Others(table, idx, scores, primary);
    var top := PyTake(SortDesc(cands, CountOf), 3);
    var r := seq(|top|, i requires 0 <= i < |top| => top[i].0);
    SecondaryFacts(table, words, minMatches, primary, idx, cands, top, r);
    r
  }

  /** Every kept category other than `primary` is a candidate. */
  lemma {:induction false} OthersComplete(table: Table, idx: seq<nat>, scores: seq<int>, primary: string, i: nat)
    requires |scores| == |table|
    requires forall a :: 0 <= a < |idx| ==> idx[a] < |scores|
    requires i < |idx| && table[idx[i]].0 != primary
    ensures (table[idx[i]].0, scores[idx[i]]) in Others(table, idx, scores, primary)
    decreases |idx|
  {
    var n := |idx| - 1;
    var pre := idx[..n];
    var rest := Others(table, pre, scores, primary);
    var e := (table[idx[n]].0, scores[idx[n]]);
    if i < n {
      assert pre[i] == idx[i];
      OthersComplete(table, pre, scores, primary, i);
      if table[idx[n]].0 != primary {
        InLeft((table[idx[i]].0, scores[idx[i]]), rest, [e]);
      }
    } else {
      assert Others(table, idx, scores, primary) == rest + [e];
      assert (rest + [e])[|rest|] == e;
    }
  }

  /** A category that qualifies as secondary, with its true hit count, is a candidate. */
  lemma QualifierIsCandidate(table: Table, words: seq<string>, minMatches: int, primary: string, j: nat)
    requires UniqueKeys(table) && j < |table|
    requires table[j].0 != primary && HitsOf(table, words, table[j].0) >= minMatches - 1
    ensures var scores := WordScores(table, words);
      (table[j].0, HitsOf(table, words, table[j].0)) in
        Others(table, Kept(scores, minMatches - 1), scores, primary)
  {
    var scores := WordScores(table, words);
    GetUnique(table);
    assert scores[j] == HitsOf(table, words, table[j].0);
    var idx := Kept(scores, minMatches - 1);
    var i :| 0 <= i < |idx| && idx[i] == j;
    OthersComplete(table, idx, scores, primary, i);
  }

  /** What the first three of a sorted permutation leave out counts no more
      than what they hold; when they are fewer than three they hold everything. */
  lemma TopThreeDominates(cands: seq<(string, int)>, q: (string, int), i: nat)
    requires q in cands && q !in PyTake(SortDesc(cands, CountOf), 3)
    requires i < |PyTake(SortDesc(cands, CountOf), 3)|
    ensures PyTake(SortDesc(cands, CountOf), 3)[i] in cands
    ensures PyTake(SortDesc(cands, CountOf), 3)[i].1 >= q.1
  {
    var srt := SortDesc(cands, CountOf);
    var top := PyTake(srt, 3);
    assert q in multiset(srt);
    TopOfSorted(srt, |top|, CountOf, top[i], q);
    assert srt[i] == top[i];
    assert top[i] in multiset(cands);
  }

  lemma TopThreeComplete(cands: seq<(string, int)>, q: (string, int))
    requires q in cands && |PyTake(SortDesc(cands, CountOf), 3)| < 3
    ensures q in PyTake(SortDesc(cands, CountOf), 3)
  {
    var srt := SortDesc(cands, CountOf);
    assert q in multiset(srt);
    assert PyTake(srt, 3) == srt;
  }

  /** The secondary topics are the names of the first three sorted candidates. */
  lemma SecondaryOfNames(table: Table, words: seq<string>, primary: string, minMatches: int)
    requires UniqueKeys(table)
    ensures var scores := WordScores(table, words);
      var top := PyTake(SortDesc(Others(table, Kept(scores, minMatches - 1), scores, primary), CountOf), 3);
      var r := SecondaryOf(table, words, primary, minMatches);
      |r| == |top| && forall a :: 0 <= a < |r| ==> r[a] == top[a].0
  {
  }

  /** A qualifying category left out of the secondary topics has no more
      hits than any category listed. */
  lemma SecondaryOfDominates(table: Table, words: seq<string>, primary: string, minMatches: int, j: nat, i: nat)
    requires UniqueKeys(table) && j < |table|
    requires table[j].0 != primary && HitsOf(table, words, table[j].0) >= minMatches - 1
    requires table[j].0 !in SecondaryOf(table, words, primary, minMatches)
    requires i < |SecondaryOf(table, words, primary, minMatches)|
    ensures HitsOf(table, words, SecondaryOf(table, words, primary, minMatches)[i]) >= HitsOf(table, words, table[j].0)
  {
    var scores := WordScores(table, words);
    var cands := Others(table, Kept(scores, minMatches - 1), scores, primary);
    var top := PyTake(SortDesc(cands, CountOf), 3);
    var r := SecondaryOf(table, words, primary, minMatches);
    var q := (table[j].0, HitsOf(table, words, table[j].0));
    SecondaryOfNames(table, words, primary, minMatches);
    QualifierIsCandidate(table, words, minMatches, primary, j);
    forall a | 0 <= a < |top| ensures top[a] != q {
      assert r[a] == top[a].0;
    }
    TopThreeDominates(cands, q, i);
    CandidateFacts(table, words, minMatches, primary, top[i]);
  }

  /** When fewer than three categories are listed, every qualifying one is. */
  lemma SecondaryOfComplete(table: Table, words: seq<string>, primary: string, minMatches: int, j: nat)
    requires UniqueKeys(table) && j < |table|
    requires table[j].0 != primary && HitsOf(table, words, table[j].0) >= minMatches - 1
    requires |SecondaryOf(table, words, primary, minMatches)| < 3
    ensures table[j].0 in SecondaryOf(table, words, primary, minMatches)
  {
    var scores := WordScores(table, words);
    var cands := Others(table, Kept(scores, minMatches - 1), scores, primary);
    var top := PyTake(SortDesc(cands, CountOf), 3);
    var r := SecondaryOf(table, words, primary, minMatches);
    var q := (table[j].0, HitsOf(table, words, table[j].0));
    SecondaryOfNames(table, words, primary, minMatches);
    QualifierIsCandidate(table, words, minMatches, primary, j);
    TopThreeComplete(cands, q);
    var a :| 0 <= a < |top| && top[a] == q;
    assert r[a] == q.0;
  }

  /** A candidate names another category, with that category's true hit count. */
  lemma CandidateFacts(table: Table, words: seq<string>, minMatches: int, primary: string, p: (string, int))
    requires UniqueKeys(table)
    requires p in Others(table, Kept(WordScores(table, words), minMatches - 1), WordScores(table, words), primary)
    ensures p.0 != primary && HitsOf(table, words, p.0) == p.1 >= minMatches - 1
  {
    var scores := WordScores(table, words);
    var idx := Kept(scores, minMatches - 1);
    var i :| 0 <= i < |idx| && p == (table[idx[i]].0, scores[idx[i]]);
    IndexOfUnique(table, p.0, idx[i]);
  }

  /** What the first three of a sorted permutation hold: candidates, in
      non-increasing order of hits. */
  lemma {:induction false} TakeSorted(cands: seq<(string, int)>, top: seq<(string, int)>)
    requires top == PyTake(SortDesc(cands, CountOf), 3)
    ensures forall i :: 0 <= i < |top| ==> top[i] in cands
    ensures forall i, j :: 0 <= i < j < |top| ==> top[i].1 >= top[j].1
  {
    var s := SortDesc(cands, CountOf);
    forall i | 0 <= i < |top| ensures top[i] in cands {
      assert top[i] == s[i];
      assert s[i] in multiset(s);
    }
    forall i, j | 0 <= i < j < |top| ensures top[i].1 >= top[j].1 {
      assert top[i] == s[i] && top[j] == s[j];
      assert CountOf(s[i]) >= CountOf(s[j]);
    }
  }

  lemma {:induction false} SecondaryFacts(table: Table, words: seq<string>, minMatches: int, primary: string,
                       idx: seq<nat>, cands: seq<(string, int)>, top: seq<(string, int)>, r: seq<string>)
    requires UniqueKeys(table)
    requires idx == Kept(WordScores(table, words), minMatches - 1)
    requires cands == Others(table, idx, WordScores(table, words), primary)
    requires top == PyTake(SortDesc(cands, CountOf), 3)
    requires |r| == |top| && forall i :: 0 <= i < |top| ==> r[i] == top[i].0
    ensures forall i :: 0 <= i < |r| ==> r[i] != primary && HitsOf(table, words, r[i]) >= minMatches - 1
    ensures forall i, j :: 0 <= i < j < |r| ==> HitsOf(table, words, r[i]) >= HitsOf(table, words, r[j])
  {
    TakeSorted(cands, top);
    forall i | 0 <= i < |top| ensures top[i].0 != primary && HitsOf(table, words, top[i].0) == top[i].1 >= minMatches - 1 {
      CandidateFacts(table, words, minMatches, primary, top[i]);
    }
  }

  // ---------------------------------------------------------------------
  // The analysis

  datatype CategoryReport = CategoryReport(
    primaryTopic: string, topicConfidence: real, secondaryTopics: seq<string>,
    contentType: string, typeConfidence: real, lengthCategory: string,
    wordCount: nat, multiLabel: bool, confidence: real)

  /** `analyze`: None stands for the "Invalid comment" error result. Topics
      are matched on the lower-cased words, the content type on the text,
      the length band on the stripped text's length. */
  function Analyze(cfg: Config, c: Comment): (r: Option<CategoryReport>)
    ensures r.None? <==> !AnalysisBase.ValidateComment(c)
    ensures r.Some? ==> (0.0 <= r.value.confidence <= 1.0 &&
      r.value.confidence == (r.value.topicConfidence + r.value.typeConfidence) / 2.0)
    ensures r.Some? && !cfg.multiLabel ==> r.value.secondaryTopics == []
    ensures r.Some? ==> r.value.primaryTopic !in r.value.secondaryTopics
    ensures r.Some? ==> var text := AnalysisBase.Preprocess(c.text); var words := Split(Lower(text));
      (r.value.primaryTopic, r.value.topicConfidence) == CategorizeTopic(words, cfg.minMatches) &&
      (r.value.contentType, r.value.typeConfidence) == CategorizeContentType(text) &&
      r.value.lengthCategory == LengthCategory(|text|) && r.value.wordCount == |words| &&
      r.value.multiLabel == cfg.multiLabel &&
      (cfg.multiLabel ==> r.value.secondaryTopics == SecondaryTopics(words, r.value.primaryTopic, cfg.minMatches))
  {
    if !AnalysisBase.ValidateComment(c) then None
    else
      var text := AnalysisBase.Preprocess(c.text);
      var words := Split(Lower(text));
      var (topic, tc) := CategorizeTopic(words, cfg.minMatches);
      var (ctype, yc) := CategorizeContentType(text);
      var secondary := if cfg.multiLabel then SecondaryTopics(words, topic, cfg.minMatches) else [];
      Some(CategoryReport(topic, tc, secondary, ctype, yc, LengthCategory(|text|), |words|,
        cfg.multiLabel, (tc + yc) / 2.0))
  }

  /** `analyze_batch`: one result per comment, in order. */
  function AnalyzeBatch(cfg: Config, comments: seq<Comment>): (rs: seq<Option<CategoryReport>>)
    ensures |rs| == |comments|
    ensures forall i :: 0 <= i < |rs| ==> rs[i] == Analyze(cfg, comments[i])
  {
    seq(|comments|, i requires 0 <= i < |comments| => Analyze(cfg, comments[i]))
  }

  /** The primary topics of the successful results, in order. */
  function PrimaryTopics(rs: seq<Option<CategoryReport>>): (ts: seq<string>)
    ensures |ts| <= |rs|
    ensures forall j :: 0 <= j < |rs| && rs[j].Some? ==> rs[j].value.primaryTopic in ts
    ensures forall t :: t in ts ==> exists j :: 0 <= j < |rs| && rs[j].Some? && rs[j].value.primaryTopic == t
  {
    if |rs| == 0 then []
    else
      assert forall j :: 0 <= j < |rs| - 1 ==> rs[..|rs| - 1][j] == rs[j];
      var ts := PrimaryTopics(rs[..|rs| - 1]);
      match rs[|rs| - 1]
      case None => ts
      case Some(r) => ts + [r.primaryTopic]
  }

  /** `get_top_topics`: the `limit` most common primary topics with their
      counts, most common first. */
  function TopTopics(cfg: Config, comments: seq<Comment>, limit: int): (r: seq<(string, int)>)
    ensures |r| <= if limit < 0 then 0 else limit
    ensures SortedBy(r, CountOf)
    ensures var ts := PrimaryTopics(AnalyzeBatch(cfg, comments));
      forall p :: p in r ==> p.0 in ts && p.1 == Count(ts, p.0)
    ensures var d := Distinct(PrimaryTopics(AnalyzeBatch(cfg, comments)));
      limit >= 0 ==> |r| == if limit < |d| then limit else |d|
  {
    var ts := PrimaryTopics(AnalyzeBatch(cfg, comments));
    MostCommonTally(ts, limit);
    TallySpec(ts);
    GetUnique(Tally(ts));
    MostCommon(Tally(ts), limit)
  }

  /** Nothing left out of `get_top_topics` is more common than what it returns. */
  lemma TopTopicsDominate(cfg: Config, comments: seq<Comment>, limit: int, p: (string, int), t: string)
    requires p in TopTopics(cfg, comments, limit)
    requires t in PrimaryTopics(AnalyzeBatch(cfg, comments))
    requires forall q :: q in TopTopics(cfg, comments, limit) ==> q.0 != t
    ensures p.1 >= Count(PrimaryTopics(AnalyzeBatch(cfg, comments)), t)
  {
    var ts := PrimaryTopics(AnalyzeBatch(cfg, comments));
    TallySpec(ts);
    var q := (t, Count(ts, t));
    var i :| 0 <= i < |Tally(ts)| && Tally(ts)[i].0 == t;
    GetUnique(Tally(ts));
    assert Tally(ts)[i] == q;
    MostCommonDominates(Tally(ts), limit, p, q);
  }

  /** `get_category_distribution` for topics: each primary topic's count over
      ALL comments, failures included, so the shares add up to the fraction
      of comments that analysed successfully. */
  function TopicDistribution(cfg: Config, comments: seq<Comment>): (d: Registry<real>)
    ensures comments == [] ==> d == []
    ensures comments != [] ==>
      Mass(d) == |PrimaryTopics(AnalyzeBatch(cfg, comments))| as real / |comments| as real
    ensures var ts := PrimaryTopics(AnalyzeBatch(cfg, comments));
      comments != [] ==> ((forall k :: Has(d, k) <==> k in ts) &&
        (forall k :: k in ts ==> Get(d, k) == Some(Count(ts, k) as real / |comments| as real)))
  {
    if |comments| == 0 then []
    else
      var ts := PrimaryTopics(AnalyzeBatch(cfg, comments));
      TallyShares(ts, |comments|);
      TallyTotal(ts);
      MassNormalize(Tally(ts), |comments|);
      Normalize(Tally(ts), |comments|)
  }

  /** The content types of the successful results, in order. */
  function ContentTypesOf(rs: seq<Option<CategoryReport>>): (ts: seq<string>)
    ensures forall j :: 0 <= j < |rs| && rs[j].Some? ==> rs[j].value.contentType in ts
    ensures forall t :: t in ts ==> exists j :: 0 <= j < |rs| && rs[j].Some? && rs[j].value.contentType == t
  {
    if |rs| == 0 then []
    else
      assert forall j :: 0 <= j < |rs| - 1 ==> rs[..|rs| - 1][j] == rs[j];
      var ts := ContentTypesOf(rs[..|rs| - 1]);
      match rs[|rs| - 1]
      case None => ts
      case Some(r) => ts + [r.contentType]
  }

  /** Every successful result adds one topic and one content type. */
  lemma {:induction false} TypesMatchTopics(rs: seq<Option<CategoryReport>>)
    ensures |ContentTypesOf(rs)| == |PrimaryTopics(rs)|
  {
    if |rs| > 0 {
      TypesMatchTopics(rs[..|rs| - 1]);
    }
  }

  /** `get_category_distribution`: topic shares and content-type shares,
      both over ALL comments; every successful result adds one topic and
      one type, so the two halves carry the same mass. */
  function CategoryDistribution(cfg: Config, comments: seq<Comment>): (d: (Registry<real>, Registry<real>))
    ensures comments == [] ==> d == ([], [])
    ensures Mass(d.0) == Mass(d.1)
    ensures comments != [] ==>
      Mass(d.1) == |PrimaryTopics(AnalyzeBatch(cfg, comments))| as real / |comments| as real
    ensures d.0 == TopicDistribution(cfg, comments)
    ensures var ks := ContentTypesOf(AnalyzeBatch(cfg, comments));
      comments != [] ==> ((forall k :: Has(d.1, k) <==> k in ks) &&
        (forall k :: k in ks ==> Get(d.1, k) == Some(Count(ks, k) as real / |comments| as real)))
  {
    if |comments| == 0 then ([], [])
    else
      var ks := ContentTypesOf(AnalyzeBatch(cfg, comments));
      TypesMatchTopics(AnalyzeBatch(cfg, comments));
      TallyShares(ks, |comments|);
      TallyTotal(ks);
      MassNormalize(Tally(ks), |comments|);
      (TopicDistribution(cfg, comments), Normalize(Tally(ks), |comments|))
  }
}

=== FILE: community.dfy ===
/** Community metrics: per-comment engagement, influence, contribution
    quality and behaviour, and the community-wide aggregates built from them
    (engagement, behaviour, quality and activity metrics, the overall health
    score, the top contributors). */
module Community {
  import opened Wrappers
  import opened Text
  import opened Registry
  import opened Seqs
  import opened Base
  import AnalysisBase

  /** Likes plus replies. */
  function Engagement(c: Comment): int { c.likes + c.repliesCount }

  function Min1(x: real): real { if x < 1.0 then x else 1.0 }

  lemma DivMul(a: real, n: real)
    requires n > 0.0
    ensures (a / n) * n == a
  {
  }

  /** `k / n` for `k` of `n` items: a share in [0, 1] that is 0 exactly for
      none and 1 exactly for all. */
  function Ratio(k: nat, n: nat): (r: real)
    requires k <= n && n > 0
    ensures 0.0 <= r <= 1.0
    ensures r == 0.0 <==> k == 0
    ensures r == 1.0 <==> k == n
    ensures r * n as real == k as real
  {
    var r := k as real / n as real;
    DivMul(k as real, n as real);
    r
  }

  /** `a` is the mean of `n` values adding up to `total`. */
  predicate MeanOf(a: real, total: int, n: nat) { a * n as real == total as real }

  /** `total / n`: the mean of `n` values adding up to `total`. */
  function Average(total: int, n: nat): (a: real)
    requires n > 0
    ensures MeanOf(a, total, n)
    ensures total >= n ==> a >= 1.0
    ensures total >= 0 ==> a >= 0.0
  {
    DivMul(total as real, n as real);
    total as real / n as real
  }

  /** How many items satisfy `p`. */
  function CountWhere<T>(xs: seq<T>, p: T -> bool): (n: nat)
    ensures n <= |xs|
    ensures n == 0 <==> forall i :: 0 <= i < |xs| ==> !p(xs[i])
    ensures n == |xs| <==> forall i :: 0 <= i < |xs| ==> p(xs[i])
  {
    if |xs| == 0 then 0
    else
      var pre := xs[..|xs| - 1];
      assert forall i :: 0 <= i < |pre| ==> pre[i] == xs[i];
      CountWhere(pre, p) + (if p(xs[|xs| - 1]) then 1 else 0)
  }

  // ---------------------------------------------------------------------
  // One comment

  /** `_calculate_engagement_score`: a tenth of the engagement, capped at 1,
      with a 20% bonus for a text of 50 to 500 characters, capped again. */
  function EngagementScore(engagement: int, length: nat): (s: real)
    ensures s <= 1.0
    ensures engagement >= 0 ==> 0.0 <= s
    ensures engagement == 0 ==> s == 0.0
    ensures 50 <= length <= 500 ==> (s == 1.0 <==> engagement >= 9)
    ensures !(50 <= length <= 500) ==> (s == 1.0 <==> engagement >= 10)
    ensures !(50 <= length <= 500) && engagement <= 10 ==> s * 10.0 == engagement as real
  {
    var base := Min1(engagement as real / 10.0);
    var bonus := if 50 <= length <= 500 then base * 1.2 else base;
    Min1(bonus)
  }

  /** A bigger engagement never lowers the engagement score. */
  lemma EngagementScoreMonotone(e1: int, e2: int, length: nat)
    requires e1 <= e2
    ensures EngagementScore(e1, length) <= EngagementScore(e2, length)
  {
  }

  /** The length band never lowers the score of a non-negative engagement. */
  lemma LengthBonusHelps(engagement: int, length: nat)
    requires engagement >= 0 && 50 <= length <= 500
    ensures EngagementScore(engagement, length) >= EngagementScore(engagement, 0)
  {
  }

  /** `_calculate_influence_score`. The logarithmic ratio
      `log(e + 1) / log(100)` is supplied as `logRatio(e)`; the source calls
      `math.log` only for a positive engagement, and a negative one makes it
      raise, so the engagement is a `nat` here. */
  function InfluenceScore(engagement: nat, logRatio: nat -> real): (s: real)
    ensures s <= 1.0
    ensures engagement == 0 ==> s == 0.0
    ensures logRatio(engagement) >= 0.0 ==> s >= 0.0
    ensures engagement > 0 && logRatio(engagement) >= 1.0 ==> s == 1.0
    ensures engagement > 0 && logRatio(engagement) < 1.0 ==> s == logRatio(engagement)
  {
    if engagement == 0 then 0.0 else Min1(logRatio(engagement))
  }

  /** The length part of `_calculate_contribution_quality`. */
  function LengthScore(wordCount: nat): (s: real)
    ensures s == 0.3 <==> wordCount < 5
    ensures s == 1.0 <==> 5 <= wordCount <= 20
    ensures s == 0.8 <==> 20 < wordCount <= 50
    ensures s == 0.6 <==> wordCount > 50
  {
    if wordCount < 5 then 0.3
    else if wordCount <= 20 then 1.0
    else if wordCount <= 50 then 0.8
    else 0.6
  }

  /** Five to twenty words is the best length. */
  lemma LengthScorePeak(wordCount: nat)
    ensures 0.3 <= LengthScore(wordCount) <= LengthScore(10)
  {
  }

  /** `_calculate_contribution_quality`: the mean of the length score and the
      engagement per word (with ten words' slack), the latter capped at 1. */
  function ContributionQuality(wordCount: nat, engagement: int): (q: real)
    ensures q <= 1.0
    ensures engagement >= 0 ==> 0.15 <= q
    ensures engagement == 0 ==> q * 2.0 == LengthScore(wordCount)
    ensures engagement >= wordCount + 10 ==> q * 2.0 == LengthScore(wordCount) + 1.0
    ensures engagement < wordCount + 10 ==>
      q * 2.0 == LengthScore(wordCount) + engagement as real / (wordCount + 10) as real
  {
    var d := (wordCount + 10) as real;
    var ratio := Min1(engagement as real / d);
    DivAtLeast(engagement as real, d);
    (LengthScore(wordCount) + ratio) / 2.0
  }

  lemma DivAtLeast(a: real, d: real)
    requires d > 0.0
    ensures a >= d ==> a / d >= 1.0
    ensures a >= 0.0 ==> a / d >= 0.0
    ensures a < d ==> a / d < 1.0
  {
    DivMul(a, d);
  }

  /** `_classify_behavior`'s four outcomes. */
  datatype Behavior = Contributory | Casual | Substantial | Regular

  function BehaviorName(b: Behavior): string {
    match b
    case Contributory => "contributory"
    case Casual => "casual"
    case Substantial => "substantial"
    case Regular => "regular"
  }

  lemma BehaviorNameInjective(a: Behavior, b: Behavior)
    requires BehaviorName(a) == BehaviorName(b)
    ensures a == b
  {
  }

  predicate HighEngagement(likes: int, replies: int) { likes > 10 || replies > 5 }

  /** `_classify_behavior`: the first rule that applies wins. */
  function ClassifyBehavior(likes: int, replies: int, length: nat): (b: Behavior)
    ensures b == Contributory <==> HighEngagement(likes, replies)
    ensures b == Casual <==> !HighEngagement(likes, replies) && length < 30 && likes == 0
    ensures b == Substantial <==>
      (!HighEngagement(likes, replies) && !(length < 30 && likes == 0) && length > 200)
    ensures b == Regular <==>
      (!HighEngagement(likes, replies) && !(length < 30 && likes == 0) && length <= 200)
  {
    if HighEngagement(likes, replies) then Contributory
    else if length < 30 && likes == 0 then Casual
    else if length > 200 then Substantial
    else Regular
  }

  /** A text of at most 200 characters is never substantial, and a short
      one without likes is casual unless it has more than five replies. */
  lemma BehaviorByLength(likes: int, replies: int, length: nat)
    ensures length <= 200 ==> ClassifyBehavior(likes, replies, length) != Substantial
    ensures length < 30 && likes == 0 && replies <= 5 ==> ClassifyBehavior(likes, replies, length) == Casual
  {
  }

  /** The data of a successful `analyze`. */
  datatype Report = Report(engagementScore: real, influenceScore: real, contributionQuality: real,
                           behavior: Behavior, likes: int, replies: int, length: nat,
                           wordCount: nat, confidence: real)

  /** A valid comment whose engagement is negative makes `math.log` raise. */
  predicate Analysable(c: Comment) {
    AnalysisBase.ValidateComment(c) ==> Engagement(c) >= 0
  }

  /** `analyze`: None for the error result of an invalid comment; the
      confidence is the mean of the three scores. */
  function Analyze(logRatio: nat -> real, c: Comment): (r: Option<Report>)
    requires Analysable(c)
    ensures r.None? <==> !AnalysisBase.ValidateComment(c)
    ensures r.Some? ==> r.value.confidence <= 1.0
    ensures r.Some? && logRatio(Engagement(c)) >= 0.0 ==> r.value.confidence >= 0.05
    ensures r.Some? ==> (r.value.likes == c.likes && r.value.replies == c.repliesCount &&
      r.value.length == |c.text| && r.value.wordCount == WordCount(c.text) && r.value.wordCount > 0)
    ensures r.Some? ==> r.value.behavior == ClassifyBehavior(c.likes, c.repliesCount, |c.text|)
    ensures r.Some? ==> (r.value.behavior == Contributory <==> HighEngagement(c.likes, c.repliesCount))
    ensures r.Some? ==> (r.value.engagementScore == EngagementScore(Engagement(c), |c.text|) &&
      r.value.influenceScore == InfluenceScore(Engagement(c), logRatio) &&
      r.value.contributionQuality == ContributionQuality(WordCount(c.text), Engagement(c)))
    ensures r.Some? ==>
      r.value.confidence * 3.0 == r.value.engagementScore + r.value.influenceScore + r.value.contributionQuality
  {
    if !AnalysisBase.ValidateComment(c) then None
    else
      var e := Engagement(c);
      var wc := WordCount(c.text);
      SplitEmptyIffAllSpace(c.text);
      var es := EngagementScore(e, |c.text|);
      var inf := InfluenceScore(e, logRatio);
      var cq := ContributionQuality(wc, e);
      Some(Report(es, inf, cq, ClassifyBehavior(c.likes, c.repliesCount, |c.text|),
                  c.likes, c.repliesCount, |c.text|, wc, (es + inf + cq) / 3.0))
  }

  function AnalyzeBatch(logRatio: nat -> real, comments: seq<Comment>): (rs: seq<Option<Report>>)
    requires forall i :: 0 <= i < |comments| ==> Analysable(comments[i])
    ensures |rs| == |comments|
    ensures forall i :: 0 <= i < |rs| ==> rs[i] == Analyze(logRatio, comments[i])
  {
    seq(|comments|, i requires 0 <= i < |comments| => Analyze(logRatio, comments[i]))
  }

  // ---------------------------------------------------------------------
  // Engagement metrics

  datatype EngagementMetrics = EngagementMetrics(totalLikes: int, totalReplies: int, averageLikes: real,
                                                 averageReplies: real, engagementRate: real)

  function TotalLikes(cs: seq<Comment>): int {
    if |cs| == 0 then 0 else TotalLikes(cs[..|cs| - 1]) + cs[|cs| - 1].likes
  }

  function TotalReplies(cs: seq<Comment>): int {
    if |cs| == 0 then 0 else TotalReplies(cs[..|cs| - 1]) + cs[|cs| - 1].repliesCount
  }

  predicate Engaged(c: Comment) { c.likes > 0 || c.repliesCount > 0 }

  /** `_calculate_engagement_metrics`: empty for no comments. The rate is
      the share of comments with a like or a reply. */
  function EngagementMetricsOf(comments: seq<Comment>): (m: Option<EngagementMetrics>)
    ensures m.None? <==> comments == []
    ensures m.Some? ==> 0.0 <= m.value.engagementRate <= 1.0
    ensures m.Some? ==> (m.value.engagementRate == 0.0 <==> forall i :: 0 <= i < |comments| ==> !Engaged(comments[i]))
    ensures m.Some? ==> (m.value.engagementRate == 1.0 <==> forall i :: 0 <= i < |comments| ==> Engaged(comments[i]))
    ensures m.Some? ==> (m.value.totalLikes == TotalLikes(comments) && m.value.totalReplies == TotalReplies(comments))
    ensures m.Some? ==> MeanOf(m.value.averageLikes, m.value.totalLikes, |comments|)
    ensures m.Some? ==> MeanOf(m.value.averageReplies, m.value.totalReplies, |comments|)
  {
    if |comments| == 0 then None
    else
      var likes := TotalLikes(comments);
      var replies := TotalReplies(comments);
      Some(EngagementMetrics(likes, replies, Average(likes, |comments|), Average(replies, |comments|),
                             Ratio(CountWhere(comments, Engaged), |comments|)))
  }

  // ---------------------------------------------------------------------
  // Behaviour metrics

  datatype BehaviorMetrics = BehaviorMetrics(distribution: Registry<real>, dominant: string)

  /** The behaviour names of the successful results, in order. */
  function Behaviors(rs: seq<Option<Report>>): (bs: seq<string>)
    ensures |bs| <= |rs|
    ensures bs == [] <==> forall i :: 0 <= i < |rs| ==> rs[i].None?
    ensures forall b :: b in bs <==> exists i :: 0 <= i < |rs| && rs[i].Some? && BehaviorName(rs[i].value.behavior) == b
  {
    if |rs| == 0 then []
    else
      var pre := rs[..|rs| - 1];
      assert forall i :: 0 <= i < |pre| ==> pre[i] == rs[i];
      var last := rs[|rs| - 1];
      Behaviors(pre) + (if last.Some? then [BehaviorName(last.value.behavior)] else [])
  }

  /** `Counter(bs).most_common(1)[0][0]`. */
  function Dominant(bs: seq<string>): (d: string)
    requires bs != []
    ensures d in bs
  {
    TallySpec(bs);
    assert Has(Tally(bs), bs[0]);
    var top := MostCommon(Tally(bs), 1);
    MostCommonCounts(bs, 1, top[0]);
    top[0].0
  }

  /** No behaviour occurs more often than the dominant one. */
  lemma DominantWins(bs: seq<string>, b: string)
    requires b in bs
    ensures Count(bs, b) <= Count(bs, Dominant(bs))
  {
    var r := Tally(bs);
    var top := MostCommon(r, 1);
    var p := top[0];
    MostCommonCounts(bs, 1, p);
    if b != p.0 {
      TallySpec(bs);
      var q := (b, Count(bs, b));
      assert Get(r, b) == Some(Count(bs, b));
      assert q in r;
      assert q !in top;
      MostCommonDominates(r, 1, p, q);
    }
  }

  /** The share of a behaviour among all results (failures included). */
  lemma TalliedShares(bs: seq<string>, t: int)
    requires |bs| <= t && t > 0
    ensures forall i :: 0 <= i < |Normalize(Tally(bs), t)| ==> 0.0 < Normalize(Tally(bs), t)[i].1 <= 1.0
  {
    TallyTotal(bs);
    var d := Normalize(Tally(bs), t);
    forall i | 0 <= i < |d| ensures 0.0 < d[i].1 <= 1.0 {
      ShareBounds(Tally(bs)[i].1, t);
    }
  }

  /** Some result succeeded, or there are none: `most_common(1)[0]` raises
      `IndexError` on results that all failed. */
  predicate BehaviorDefined(rs: seq<Option<Report>>) {
    rs == [] || exists i :: 0 <= i < |rs| && rs[i].Some?
  }

  /** `_calculate_behavior_metrics`: empty for no results; each behaviour's
      count over the number of results, and the most common behaviour. */
  function BehaviorMetricsOf(rs: seq<Option<Report>>): (m: Option<BehaviorMetrics>)
    requires BehaviorDefined(rs)
    ensures m.None? <==> rs == []
    ensures m.Some? ==> UniqueKeys(m.value.distribution)
    ensures m.Some? ==> forall b :: Has(m.value.distribution, b) <==> b in Behaviors(rs)
    ensures m.Some? ==> forall i :: 0 <= i < |m.value.distribution| ==> 0.0 < m.value.distribution[i].1 <= 1.0
    ensures m.Some? ==> Mass(m.value.distribution) == |Behaviors(rs)| as real / |rs| as real
    ensures m.Some? ==> m.value.dominant in Behaviors(rs)
  {
    if |rs| == 0 then None
    else
      var bs := Behaviors(rs);
      var r := Tally(bs);
      TallySpec(bs);
      TallyTotal(bs);
      NormalizeKeys(r, |rs|);
      MassNormalize(r, |rs|);
      TalliedShares(bs, |rs|);
      Some(BehaviorMetrics(Normalize(r, |rs|), Dominant(bs)))
  }

  /** Each behaviour's share is the number of results with it over all results. */
  lemma BehaviorShare(rs: seq<Option<Report>>, b: string)
    requires BehaviorDefined(rs) && b in Behaviors(rs)
    ensures Get(BehaviorMetricsOf(rs).value.distribution, b) ==
      Some(Count(Behaviors(rs), b) as real / |rs| as real)
  {
    var bs := Behaviors(rs);
    TallySpec(bs);
    NormalizeGet(Tally(bs), |rs|, b);
  }

  // ---------------------------------------------------------------------
  // Quality metrics

  datatype QualityMetrics = QualityMetrics(averageLength: real, medianLength: nat, averageWordCount: real,
                                           shortComments: nat, longComments: nat)

  function Lengths(cs: seq<Comment>): (ls: seq<nat>)
    ensures |ls| == |cs|
    ensures forall i :: 0 <= i < |cs| ==> ls[i] == |cs[i].text|
  {
    seq(|cs|, i requires 0 <= i < |cs| => |cs[i].text|)
  }

  function SumNat(xs: seq<nat>): nat {
    if |xs| == 0 then 0 else SumNat(xs[..|xs| - 1]) + xs[|xs| - 1]
  }

  function TotalWords(cs: seq<Comment>): nat {
    if |cs| == 0 then 0 else TotalWords(cs[..|cs| - 1]) + WordCount(cs[|cs| - 1].text)
  }

  function Ascending(n: nat): real { -(n as real) }

  /** `sorted(ls)[len(ls) // 2]`: at most half the lengths lie below the
      median and more than half lie at or below it, which fixes its value. */
  function Median(ls: seq<nat>): (m: nat)
    requires ls != []
    ensures m in ls
    ensures CountWhere(ls, Below(m)) <= |ls| / 2 < CountWhere(ls, UpTo(m))
  {
    var s := SortDesc(ls, Ascending);
    var k := |s| / 2;
    assert s[k] in multiset(ls);
    CountWherePerm(ls, s, Below(s[k]));
    CountWherePerm(ls, s, UpTo(s[k]));
    SortedRankBelow(s, k);
    SortedRankUpTo(s, k);
    s[k]
  }

  /** Sorting by descending `-n` puts the lengths in ascending order, so the
      median is no larger than what follows it. */
  lemma MedianSplits(ls: seq<nat>, j: nat)
    requires ls != [] && |ls| / 2 <= j < |ls|
    ensures Median(ls) <= SortDesc(ls, Ascending)[j]
  {
    SortedAscending(SortDesc(ls, Ascending), |ls| / 2, j);
  }

  lemma SortedAscending(s: seq<nat>, i: nat, j: nat)
    requires SortedBy(s, Ascending) && i <= j < |s|
    ensures s[i] <= s[j]
  {
    if i < j {
      assert Ascending(s[i]) >= Ascending(s[j]);
    }
  }

  /** `x < m` and `x <= m`, as predicates for `CountWhere`. */
  function Below(m: nat): nat -> bool { (x: nat) => x < m }
  function UpTo(m: nat): nat -> bool { (x: nat) => x <= m }

  /** In ascending order, nothing from position `k` on lies below `s[k]`. */
  lemma SortedRankBelow(s: seq<nat>, k: nat)
    requires SortedBy(s, Ascending) && k < |s|
    ensures CountWhere(s, Below(s[k])) <= k
  {
    assert s == s[..k] + s[k..];
    CountWhereAppend(s[..k], s[k..], Below(s[k]));
    forall i | 0 <= i < |s[k..]| ensures !Below(s[k])(s[k..][i]) {
      assert s[k..][i] == s[k + i];
      SortedAscending(s, k, k + i);
    }
  }

  /** In ascending order, everything up to position `k` lies at or below `s[k]`. */
  lemma SortedRankUpTo(s: seq<nat>, k: nat)
    requires SortedBy(s, Ascending) && k < |s|
    ensures CountWhere(s, UpTo(s[k])) >= k + 1
  {
    assert s == s[..k + 1] + s[k + 1..];
    CountWhereAppend(s[..k + 1], s[k + 1..], UpTo(s[k]));
    var pre := s[..k + 1];
    forall i | 0 <= i < |pre| ensures UpTo(s[k])(pre[i]) {
      assert pre[i] == s[i];
      SortedAscending(s, i, k);
    }
  }

  lemma {:induction false} CountWhereAppend<T>(a: seq<T>, b: seq<T>, p: T -> bool)
    ensures CountWhere(a + b, p) == CountWhere(a, p) + CountWhere(b, p)
    decreases |b|
  {
    if |b| == 0 {
      assert a + b == a;
    } else {
      var b' := b[..|b| - 1];
      assert (a + b)[..|a + b| - 1] == a + b';
      CountWhereAppend(a, b', p);
    }
  }

  /** Counting ignores the order of the items. */
  lemma {:induction false} CountWherePerm<T>(a: seq<T>, b: seq<T>, p: T -> bool)
    requires multiset(a) == multiset(b)
    ensures CountWhere(a, p) == CountWhere(b, p)
    decreases |a|
  {
    if |a| == 0 {
      assert |b| == |multiset(b)| == 0;
    } else {
      var x := a[|a| - 1];
      var a' := a[..|a| - 1];
      assert a == a' + [x];
      assert x in multiset(b);
      var k :| 0 <= k < |b| && b[k] == x;
      var b' := b[..k] + b[k + 1..];
      RemoveAt(b, k);
      assert multiset(a) == multiset(a') + multiset{x};
      assert multiset(a') == multiset(a) - multiset{x};
      CountWherePerm(a', b', p);
      CountWhereAppend(b[..k] + [x], b[k + 1..], p);
      CountWhereAppend(b[..k], [x], p);
      CountWhereAppend(b[..k], b[k + 1..], p);
      assert CountWhere([x], p) == if p(x) then 1 else 0 by {
        assert [x][..0] == [];
      }
    }
  }

  /** Taking out the item at `k` takes one copy of it out of the multiset. */
  lemma RemoveAt<T>(b: seq<T>, k: nat)
    requires k < |b|
    ensures b == b[..k] + [b[k]] + b[k + 1..]
    ensures multiset(b[..k] + b[k + 1..]) == multiset(b) - multiset{b[k]}
  {
    assert b == b[..k] + [b[k]] + b[k + 1..];
    assert multiset(b) == multiset(b[..k]) + multiset{b[k]} + multiset(b[k + 1..]);
  }

  predicate IsShort(n: nat) { n < 50 }
  predicate IsLong(n: nat) { n > 200 }

  /** `_calculate_quality_metrics`: empty for no comments. */
  function QualityMetricsOf(comments: seq<Comment>): (m: Option<QualityMetrics>)
    ensures m.None? <==> comments == []
    ensures m.Some? ==> m.value.medianLength in Lengths(comments)
    ensures m.Some? ==> m.value.medianLength == Median(Lengths(comments))
    ensures m.Some? ==> m.value.shortComments == CountWhere(Lengths(comments), IsShort)
    ensures m.Some? ==> m.value.longComments == CountWhere(Lengths(comments), IsLong)
    ensures m.Some? ==> MeanOf(m.value.averageLength, SumNat(Lengths(comments)), |comments|)
    ensures m.Some? ==> MeanOf(m.value.averageWordCount, TotalWords(comments), |comments|)
    ensures m.Some? ==> m.value.shortComments + m.value.longComments <= |comments|
    ensures m.Some? ==> (m.value.shortComments == 0 <==> forall i :: 0 <= i < |comments| ==> |comments[i].text| >= 50)
    ensures m.Some? ==> (m.value.longComments == 0 <==> forall i :: 0 <= i < |comments| ==> |comments[i].text| <= 200)
  {
    if |comments| == 0 then None
    else
      var ls := Lengths(comments);
      var short := CountWhere(ls, IsShort);
      var long := CountWhere(ls, IsLong);
      ShortLongDisjoint(ls);
      ShortLongNone(comments);
      var avgLength := Average(SumNat(ls), |comments|);
      var avgWords := Average(TotalWords(comments), |comments|);
      Some(QualityMetrics(avgLength, Median(ls), avgWords, short, long))
  }

  /** No comment is short, or long, exactly when the count of such lengths is zero. */
  lemma ShortLongNone(comments: seq<Comment>)
    ensures CountWhere(Lengths(comments), IsShort) == 0 <==> forall i :: 0 <= i < |comments| ==> |comments[i].text| >= 50
    ensures CountWhere(Lengths(comments), IsLong) == 0 <==> forall i :: 0 <= i < |comments| ==> |comments[i].text| <= 200
  {
  }

  /** No length is both short and long. */
  lemma {:induction false} ShortLongDisjoint(ls: seq<nat>)
    ensures CountWhere(ls, IsShort) + CountWhere(ls, IsLong) <= |ls|
  {
    if |ls| > 0 {
      ShortLongDisjoint(ls[..|ls| - 1]);
    }
  }

  // ---------------------------------------------------------------------
  // Activity metrics

  datatype ActivityMetrics = ActivityMetrics(uniqueUsers: nat, averagePerUser: real,
                                             mostActive: seq<(string, int)>)

  function Authors(cs: seq<Comment>): (as_: seq<string>)
    ensures |as_| == |cs|
    ensures forall i :: 0 <= i < |cs| ==> as_[i] == cs[i].authorId
  {
    seq(|cs|, i requires 0 <= i < |cs| => cs[i].authorId)
  }

  /** `_calculate_activity_metrics` without its user distribution: empty for
      no comments; the number of distinct authors, the mean number of
      comments per author, and the five most active authors. */
  function ActivityMetricsOf(comments: seq<Comment>): (m: Option<ActivityMetrics>)
    ensures m.None? <==> comments == []
    ensures m.Some? ==> 1 <= m.value.uniqueUsers <= |comments|
    ensures m.Some? ==> MeanOf(m.value.averagePerUser, |comments|, m.value.uniqueUsers)
    ensures m.Some? ==> m.value.averagePerUser >= 1.0
    ensures m.Some? ==> |m.value.mostActive| <= 5 && SortedBy(m.value.mostActive, CountOf)
    ensures m.Some? ==> m.value.uniqueUsers == |Distinct(Authors(comments))|
    ensures m.Some? ==> |m.value.mostActive| == if m.value.uniqueUsers < 5 then m.value.uniqueUsers else 5
  {
    if |comments| == 0 then None
    else
      var authors := Authors(comments);
      var r := Tally(authors);
      TallyTotal(authors);
      UniqueCountBound(authors);
      TallySize(authors);
      Some(ActivityMetrics(|r|, Average(Total(r), |r|), MostCommon(r, 5)))
  }

  /** Every author in `most_active_users` is reported with their number of comments. */
  lemma MostActiveCounts(comments: seq<Comment>, p: (string, int))
    requires comments != [] && p in ActivityMetricsOf(comments).value.mostActive
    ensures p.0 in Authors(comments) && p.1 == Count(Authors(comments), p.0)
  {
    MostCommonCounts(Authors(comments), 5, p);
  }

  /** An author left out of `most_active_users` wrote no more comments than
      any author in it. */
  lemma MostActiveDominates(comments: seq<Comment>, p: (string, int), a: string)
    requires comments != [] && p in ActivityMetricsOf(comments).value.mostActive
    requires a in Authors(comments)
    requires forall q :: q in ActivityMetricsOf(comments).value.mostActive ==> q.0 != a
    ensures p.1 >= Count(Authors(comments), a)
  {
    TallyTopDominates(Authors(comments), 5, p, a);
  }

  /** Fewer distinct authors than comments. */
  lemma UniqueCountBound(xs: seq<string>)
    ensures |Tally(xs)| <= |xs|
  {
    TallyTotal(xs);
    TotalAtLeastSize(Tally(xs));
  }

  lemma {:induction false} TotalAtLeastSize(r: Registry<int>)
    requires forall i :: 0 <= i < |r| ==> r[i].1 >= 1
    ensures Total(r) >= |r|
  {
    if |r| > 0 {
      TotalAtLeastSize(r[..|r| - 1]);
    }
  }

  // ---------------------------------------------------------------------
  // Health score

  predicate RateInRange(m: EngagementMetrics) { 0.0 <= m.engagementRate <= 1.0 }

  predicate SharesInRange(m: BehaviorMetrics) {
    forall i :: 0 <= i < |m.distribution| ==> 0.0 < m.distribution[i].1 <= 1.0
  }

  /** The scores `_calculate_health_score` averages: the engagement rate, the
      long share of the short and long comments (when there are any), the
      share of contributory comments. */
  function HealthComponents(e: Option<EngagementMetrics>, b: Option<BehaviorMetrics>,
                            q: Option<QualityMetrics>): (scores: seq<real>)
    ensures |scores| <= 3
    ensures e.Some? ==> scores != []
    ensures e.None? && b.None? && (q.None? || q.value.shortComments + q.value.longComments == 0) ==> scores == []
    ensures (e.Some? ==> RateInRange(e.value)) && (b.Some? ==> SharesInRange(b.value)) ==>
      forall i :: 0 <= i < |scores| ==> 0.0 <= scores[i] <= 1.0
    ensures var total := if q.Some? then q.value.shortComments + q.value.longComments else 0;
      |scores| == (if e.Some? then 1 else 0) + (if total > 0 then 1 else 0) + (if b.Some? then 1 else 0) &&
      (e.Some? ==> scores[0] == e.value.engagementRate) &&
      (total > 0 ==> scores[if e.Some? then 1 else 0] == q.value.longComments as real / total as real) &&
      (b.Some? ==> scores[|scores| - 1] == Get(b.value.distribution, "contributory").GetOr(0.0))
  {
    var fromE := if e.Some? then [e.value.engagementRate] else [];
    var total := if q.Some? then q.value.shortComments + q.value.longComments else 0;
    var fromQ := if total > 0 then [q.value.longComments as real / total as real] else [];
    assert total > 0 ==> q.value.longComments as real / total as real <= 1.0;
    var fromB := if b.Some? then [Get(b.value.distribution, "contributory").GetOr(0.0)] else [];
    fromE + fromQ + fromB
  }

  /** `_calculate_health_score`: the mean of the components, or 0.5 without any. */
  function HealthScore(e: Option<EngagementMetrics>, b: Option<BehaviorMetrics>,
                       q: Option<QualityMetrics>): (h: real)
    ensures HealthComponents(e, b, q) == [] ==> h == 0.5
    ensures var scores := HealthComponents(e, b, q);
      scores != [] ==> h * |scores| as real == SumReal(scores)
    ensures (e.Some? ==> RateInRange(e.value)) && (b.Some? ==> SharesInRange(b.value)) ==> 0.0 <= h <= 1.0
  {
    var scores := HealthComponents(e, b, q);
    if |scores| == 0 then 0.5
    else
      var n := |scores| as real;
      ScoresMean(scores, (e.Some? ==> RateInRange(e.value)) && (b.Some? ==> SharesInRange(b.value)));
      SumReal(scores) / n
  }

  lemma ScoresMean(scores: seq<real>, inRange: bool)
    requires scores != []
    requires inRange ==> forall i :: 0 <= i < |scores| ==> 0.0 <= scores[i] <= 1.0
    ensures inRange ==> 0.0 <= SumReal(scores) / |scores| as real <= 1.0
  {
    if inRange {
      var n := |scores| as real;
      SumRealBounds(scores, 0.0, 1.0);
      var m := SumReal(scores) / n;
      assert m * n == SumReal(scores);
    }
  }

  // ---------------------------------------------------------------------
  // Community health

  datatype Health = Health(overall: real, engagement: Option<EngagementMetrics>,
                           behavior: Option<BehaviorMetrics>, quality: Option<QualityMetrics>,
                           activity: Option<ActivityMetrics>, totalComments: nat)

  /** A valid comment gives a successful result. */
  lemma SomeResult(logRatio: nat -> real, comments: seq<Comment>)
    requires forall i :: 0 <= i < |comments| ==> Analysable(comments[i])
    requires comments == [] || exists i :: 0 <= i < |comments| && AnalysisBase.ValidateComment(comments[i])
    ensures BehaviorDefined(AnalyzeBatch(logRatio, comments))
  {
    if comments != [] {
      var i :| 0 <= i < |comments| && AnalysisBase.ValidateComment(comments[i]);
      assert AnalyzeBatch(logRatio, comments)[i].Some?;
    }
  }

  /** `calculate_community_health` without its timestamp: empty for no
      comments. Besides `Analysable`, the source needs one valid comment
      for the dominant behaviour. */
  function CommunityHealth(logRatio: nat -> real, comments: seq<Comment>): (h: Option<Health>)
    requires forall i :: 0 <= i < |comments| ==> Analysable(comments[i])
    requires comments == [] || exists i :: 0 <= i < |comments| && AnalysisBase.ValidateComment(comments[i])
    ensures h.None? <==> comments == []
    ensures h.Some? ==> 0.0 <= h.value.overall <= 1.0
    ensures h.Some? ==> (h.value.totalComments == |comments| && h.value.engagement.Some? &&
      h.value.behavior.Some? && h.value.quality.Some? && h.value.activity.Some?)
    ensures h.Some? ==> h.value.overall == HealthScore(h.value.engagement, h.value.behavior, h.value.quality)
    ensures h.Some? ==> h.value.engagement == EngagementMetricsOf(comments)
    ensures h.Some? ==> h.value.behavior == BehaviorMetricsOf(AnalyzeBatch(logRatio, comments))
    ensures h.Some? ==> h.value.quality == QualityMetricsOf(comments)
    ensures h.Some? ==> h.value.activity == ActivityMetricsOf(comments)
  {
    if |comments| == 0 then None
    else
      var rs := AnalyzeBatch(logRatio, comments);
      SomeResult(logRatio, comments);
      var e := EngagementMetricsOf(comments);
      var b := BehaviorMetricsOf(rs);
      var q := QualityMetricsOf(comments);
      assert RateInRange(e.value) && SharesInRange(b.value);
      Some(Health(HealthScore(e, b, q), e, b, q, ActivityMetricsOf(comments), |comments|))
  }

  lemma {:induction false} SumZeros(xs: seq<real>)
    requires forall i :: 0 <= i < |xs| ==> xs[i] == 0.0
    ensures SumReal(xs) == 0.0
  {
    if |xs| > 0 {
      SumZeros(xs[..|xs| - 1]);
    }
  }

  lemma AbsentBehavior(rs: seq<Option<Report>>, name: string)
    requires BehaviorDefined(rs) && rs != [] && name !in Behaviors(rs)
    ensures !Has(BehaviorMetricsOf(rs).value.distribution, name)
  {
  }

  /** No engagement rate, no long comments and no contributory share
      make a health score of zero. */
  lemma ZeroHealth(e: Option<EngagementMetrics>, b: Option<BehaviorMetrics>, q: Option<QualityMetrics>)
    requires e.Some? && e.value.engagementRate == 0.0
    requires q.Some? ==> q.value.longComments == 0
    requires b.Some? ==> !Has(b.value.distribution, "contributory")
    ensures HealthScore(e, b, q) == 0.0
  {
    var scores := HealthComponents(e, b, q);
    assert forall i :: 0 <= i < |scores| ==> scores[i] == 0.0;
    SumZeros(scores);
  }

  /** Without likes or replies no comment is contributory. */
  lemma NoContributory(logRatio: nat -> real, comments: seq<Comment>)
    requires forall i :: 0 <= i < |comments| ==> Analysable(comments[i])
    requires forall i :: 0 <= i < |comments| ==> !Engaged(comments[i])
    ensures "contributory" !in Behaviors(AnalyzeBatch(logRatio, comments))
  {
    var rs := AnalyzeBatch(logRatio, comments);
    forall i | 0 <= i < |rs| && rs[i].Some?
      ensures BehaviorName(rs[i].value.behavior) != "contributory"
    {
      assert rs[i].value.behavior != Contributory;
    }
  }

  /** A community where no comment has a like or a reply and none is longer
      than 200 characters scores zero. */
  lemma QuietCommunityScoresZero(logRatio: nat -> real, comments: seq<Comment>)
    requires forall i :: 0 <= i < |comments| ==> Analysable(comments[i])
    requires exists i :: 0 <= i < |comments| && AnalysisBase.ValidateComment(comments[i])
    requires forall i :: 0 <= i < |comments| ==> !Engaged(comments[i]) && |comments[i].text| <= 200
    ensures CommunityHealth(logRatio, comments).value.overall == 0.0
  {
    var rs := AnalyzeBatch(logRatio, comments);
    SomeResult(logRatio, comments);
    NoContributory(logRatio, comments);
    var e := EngagementMetricsOf(comments);
    var b := BehaviorMetricsOf(rs);
    var q := QualityMetricsOf(comments);
    assert e.value.engagementRate == 0.0;
    assert q.value.longComments == 0;
    AbsentBehavior(rs, "contributory");
    ZeroHealth(e, b, q);
    assert CommunityHealth(logRatio, comments) == Some(Health(HealthScore(e, b, q), e, b, q, ActivityMetricsOf(comments), |comments|));
  }

  // ---------------------------------------------------------------------
  // Top contributors

  /** Each comment's (author, engagement). */
  function Interactions(cs: seq<Comment>): (items: seq<(string, int)>)
    ensures |items| == |cs|
    ensures forall i :: 0 <= i < |cs| ==> items[i] == (cs[i].authorId, Engagement(cs[i]))
  {
    seq(|cs|, i requires 0 <= i < |cs| => (cs[i].authorId, Engagement(cs[i])))
  }

  /** The engagement of an author's comments, added up. */
  function AuthorEngagement(cs: seq<Comment>, author: string): int {
    if |cs| == 0 then 0
    else
      var last := cs[|cs| - 1];
      AuthorEngagement(cs[..|cs| - 1], author) + (if last.authorId == author then Engagement(last) else 0)
  }

  lemma {:induction false} InteractionsSum(cs: seq<Comment>, author: string)
    ensures SumFor(Interactions(cs), author) == AuthorEngagement(cs, author)
  {
    if |cs| > 0 {
      assert Interactions(cs)[..|cs| - 1] == Interactions(cs[..|cs| - 1]);
      InteractionsSum(cs[..|cs| - 1], author);
    }
  }

  /** `get_top_contributors`: the per-author engagement totals, highest
      first (ties in order of first appearance), cut to `limit`. */
  function TopContributors(comments: seq<Comment>, limit: int): (top: seq<(string, int)>)
    ensures limit >= 0 ==> |top| <= limit
    ensures SortedBy(top, CountOf)
    ensures forall k :: 0 <= k < |top| ==> top[k].0 in Authors(comments)
    ensures forall k :: 0 <= k < |top| ==> top[k].1 == AuthorEngagement(comments, top[k].0)
    ensures var d := Distinct(Authors(comments));
      limit >= 0 ==> |top| == if limit < |d| then limit else |d|
  {
    var items := Interactions(comments);
    var r := Accumulate(items);
    var s := SortDesc(r, CountOf);
    var top := PyTake(s, limit);
    assert Keys(items) == Authors(comments);
    AccumulateSize(items);
    forall k | 0 <= k < |top|
      ensures top[k].0 in Authors(comments) && top[k].1 == AuthorEngagement(comments, top[k].0)
    {
      assert top[k] in multiset(s);
      assert top[k] in r by { assert top[k] in multiset(r); }
      AccumulateEntry(items, top[k]);
      InteractionsSum(comments, top[k].0);
    }
    top
  }

  /** An author left out of the top contributors has no more engagement
      than any author in it. */
  lemma TopContributorsDominate(comments: seq<Comment>, limit: int, p: (string, int), author: string)
    requires p in TopContributors(comments, limit)
    requires author in Authors(comments)
    requires forall k :: 0 <= k < |TopContributors(comments, limit)| ==> TopContributors(comments, limit)[k].0 != author
    ensures AuthorEngagement(comments, author) <= p.1
  {
    var items := Interactions(comments);
    var r := Accumulate(items);
    var s := SortDesc(r, CountOf);
    var top := TopContributors(comments, limit);
    AccumulateKeys(items);
    assert Keys(items) == Authors(comments);
    assert Has(r, author);
    AccumulateSum(items, author);
    InteractionsSum(comments, author);
    var q := (author, AuthorEngagement(comments, author));
    assert q in r;
    assert q in multiset(s);
    assert q !in top;
    TopOfSorted(s, |top|, CountOf, p, q);
  }
}

=== FILE: default_catalogue.dfy ===
/** How an engine built on the built-in catalogue treats two sample
    comments. Regular expressions stay abstract: each lemma states as a
    precondition only the match counts its argument needs. */
module DefaultCatalogue {
  import opened Wrappers
  import opened Text
  import opened Base
  import opened Standards
  import opened Engine
  import Registry

  /** Every built-in metric's threshold lies above 0.4. */
  lemma DefaultThresholdsAbove()
    ensures ThresholdsAbove(DefaultMetrics(), 0.4)
  {
  }

  const MildInsult := "You are stupid and idiot"
  const MildInsultLower := "you are stupid and idiot"

  lemma MildInsultLowered()
    ensures Lower(MildInsult) == MildInsultLower
  {
    assert forall i :: 0 <= i < |MildInsult| ==> LowerChar(MildInsult[i]) == MildInsultLower[i];
  }

  /** The third of the five lower-cased words is "stupid". */
  lemma MildInsultThirdWord()
    ensures |Split(Lower(MildInsult))| == 5 && Split(Lower(MildInsult))[2] == "stupid"
  {
    MildInsultLowered();
    MildInsultWords();
  }

  lemma MildInsultWords()
    ensures Split(MildInsultLower) == ["you", "are", "stupid", "and", "idiot"]
    ensures WordCount(MildInsultLower) == 5
  {
    InsultWordsAreWords();
    assert MildInsultLower == "you" + " " + ("are" + " " + ("stupid" + " " + ("and" + " " + "idiot")));
    SplitFive("you", "are", "stupid", "and", "idiot");
  }

  lemma InsultWordsAreWords()
    ensures IsWord("you") && IsWord("are") && IsWord("stupid") && IsWord("and") && IsWord("idiot")
  {
  }

  /** Five words joined by single spaces split back into those words. */
  lemma SplitFive(a: string, b: string, c: string, d: string, e: string)
    requires IsWord(a) && IsWord(b) && IsWord(c) && IsWord(d) && IsWord(e)
    ensures Split(a + " " + (b + " " + (c + " " + (d + " " + e)))) == [a, b, c, d, e]
  {
    SplitThree(c, d, e);
    SplitWordSpace(b, c + " " + (d + " " + e));
    SplitWordSpace(a, b + " " + (c + " " + (d + " " + e)));
  }

  lemma SplitThree(c: string, d: string, e: string)
    requires IsWord(c) && IsWord(d) && IsWord(e)
    ensures Split(c + " " + (d + " " + e)) == [c, d, e]
  {
    SplitWord(e);
    SplitWordSpace(d, e);
    SplitWordSpace(c, d + " " + e);
  }

  /** No pattern matches the lowered sample more than twice: a density of
      at most 0.4 over its five words. */
  lemma MildInsultSparse(comment: Comment, findall: Matcher)
    requires comment.text == MildInsult
    requires forall p :: findall(p, MildInsultLower).Some? ==> |findall(p, MildInsultLower).value| <= 2
    ensures Sparse(findall, comment.text, 0.4)
  {
    MildInsultLowered();
    MildInsultWords();
    assert MaxOne(WordCount(Lower(comment.text))) == 5;
  }

  /** Two insults in five words is a density of 0.4, below every built-in
      threshold (profanity 0.7 and harassment 0.6 included): the comment is
      approved, provided no pattern finds more than two matches in it. */
  lemma MildInsultApproved(comment: Comment, findall: Matcher, now: Instant, threshold: real, autoModerate: bool)
    requires comment.text == MildInsult
    requires forall p :: findall(p, MildInsultLower).Some? ==> |findall(p, MildInsultLower).value| <= 2
    ensures Moderate(NewEngine([], [], threshold, autoModerate), comment, findall, now).action == Approve
  {
    DefaultThresholdsAbove();
    MildInsultSparse(comment, findall);
    SparseMatchesApprove(NewEngine([], [], threshold, autoModerate), comment, findall, now, 0.4);
  }

  lemma RelevanceEntry()
    ensures DefaultMetrics()[6] == ("relevance", RelevanceMetric)
  {
  }

  lemma RelevanceFirst()
    ensures forall j :: 0 <= j < 6 ==> DefaultMetrics()[j].0 != "relevance"
  {
  }

  /** `relevance` is found in the built-in metrics: enabled, the catch-all
      pattern, threshold 0.7. */
  lemma RelevanceRegistered()
    ensures Registry.Get(DefaultMetrics(), "relevance") == Some(RelevanceMetric)
  {
    RelevanceEntry();
    RelevanceFirst();
    Registry.IndexOfUnique(DefaultMetrics(), "relevance", 6);
  }

  /** An enabled catch-all metric with a threshold of at most 1 fails on a
      text of at most one word that its pattern matches: the density is at
      least 1. */
  lemma CatchAllFails(metrics: Registry.Registry<Metric>, name: string, m: Metric, text: string, findall: Matcher)
    requires Registry.Get(metrics, name) == Some(m)
    requires m.enabled && m.checkPattern == AnyTextPattern && m.threshold <= 1.0
    requires WordCount(Lower(text)) <= 1
    requires findall(AnyTextPattern, Lower(text)).Some? && findall(AnyTextPattern, Lower(text)).value != []
    ensures MetricFails(metrics, text, name, findall)
  {
    var ms := findall(AnyTextPattern, Lower(text)).value;
    CheckMetricDensity(text, m, findall, ms);
    assert MaxOne(WordCount(Lower(text))) == 1;
  }

  /** On a text of at most one word that the catch-all pattern matches,
      `relevance` fails at density 1. */
  lemma RelevanceFails(text: string, findall: Matcher)
    requires WordCount(Lower(text)) <= 1
    requires findall(AnyTextPattern, Lower(text)).Some? && findall(AnyTextPattern, Lower(text)).value != []
    ensures MetricFails(DefaultMetrics(), text, "relevance", findall)
  {
    RelevanceRegistered();
    CatchAllFails(DefaultMetrics(), "relevance", RelevanceMetric, text, findall);
  }

  /** The quality standard is enabled, second in order, and lists `relevance`. */
  lemma QualityStandard()
    ensures |DefaultStandards()| == 5
    ensures DefaultStandards()[1].1.enabled && "relevance" in DefaultStandards()[1].1.metrics
  {
  }

  /** The engine's second standard is enabled and lists `name`, an enabled
      catch-all metric with a threshold in [0.7, 1]. */
  predicate CatchAllEngine(e: StandardsEngine, name: string, m: Metric)
  {
    && Registry.Get(e.metrics, name) == Some(m)
    && m.enabled && m.checkPattern == AnyTextPattern && 0.7 <= m.threshold <= 1.0
    && |e.standards| > 1 && e.standards[1].1.enabled && name in e.standards[1].1.metrics
  }

  /** The built-in engine is such an engine, through `relevance`. */
  lemma DefaultCatchAll(threshold: real, autoModerate: bool)
    ensures CatchAllEngine(NewEngine([], [], threshold, autoModerate), "relevance", RelevanceMetric)
  {
    RelevanceRegistered();
    QualityStandard();
  }

  /** Such an engine removes a comment of at most one word that the
      catch-all pattern matches: the metric fails at density 1, a HIGH
      violation of the standard. */
  lemma CatchAllRemoves(e: StandardsEngine, name: string, m: Metric, comment: Comment, findall: Matcher, now: Instant)
    requires CatchAllEngine(e, name, m)
    requires WordCount(Lower(comment.text)) <= 1
    requires findall(AnyTextPattern, Lower(comment.text)).Some?
    requires findall(AnyTextPattern, Lower(comment.text)).value != []
    ensures Moderate(e, comment, findall, now).action == Remove
  {
    CatchAllFails(e.metrics, name, m, comment.text, findall);
    HighThresholdFailureIsSevere(e.metrics, comment.text, e.standards[1].1, name, findall);
    SevereStandardRemoves(e, comment, findall, now, 1);
  }

  /** A comment of at most one word that the catch-all pattern matches is
      removed: the quality standard's violation is HIGH or above. */
  lemma OneWordRemoved(comment: Comment, findall: Matcher, now: Instant, threshold: real, autoModerate: bool)
    requires WordCount(Lower(comment.text)) <= 1
    requires findall(AnyTextPattern, Lower(comment.text)).Some?
    requires findall(AnyTextPattern, Lower(comment.text)).value != []
    ensures Moderate(NewEngine([], [], threshold, autoModerate), comment, findall, now).action == Remove
  {
    DefaultCatchAll(threshold, autoModerate);
    CatchAllRemoves(NewEngine([], [], threshold, autoModerate), "relevance", RelevanceMetric, comment, findall, now);
  }
}

=== FILE: engine.dfy ===
/** The standards engine: every enabled standard is checked against a
    comment's text, violations are scored and weighted, and an action,
    a confidence and a reasoning text are derived from them. */
module Engine {
  import opened Wrappers
  import opened Text
  import opened Base
  import opened Standards
  import Registry

  datatype StandardsEngine = StandardsEngine(
    standards: Registry.Registry<Standard>, metrics: Registry.Registry<Metric>,
    threshold: real, autoModerate: bool)

  /** The constructor: an empty (or absent) registry falls back to the
      built-in one, because `standards or DEFAULT_STANDARDS.copy()` treats
      an empty dict as false. */
  function NewEngine(standards: Registry.Registry<Standard>, metrics: Registry.Registry<Metric>,
                     threshold: real, autoModerate: bool): (e: StandardsEngine)
    ensures e.standards == if standards == [] then DefaultStandards() else standards
    ensures e.metrics == if metrics == [] then DefaultMetrics() else metrics
    ensures e.threshold == threshold && e.autoModerate == autoModerate
  {
    StandardsEngine(if standards == [] then DefaultStandards() else standards,
                    if metrics == [] then DefaultMetrics() else metrics,
                    threshold, autoModerate)
  }

  // ---------------------------------------------------------------------
  // One metric

  /** `(passed, score, reasoning)`. */
  datatype Check = Check(passed: bool, score: real, reasoning: string)

  function MaxOne(n: nat): nat { if n < 1 then 1 else n }

  /** `_check_metric`: the pattern's match count over the word count of the
      lower-cased text; it passes below the metric's threshold. No match, or
      a failing pattern, passes with score 0. */
  function CheckMetric(text: string, metric: Metric, findall: Matcher): (c: Check)
    ensures c.score >= 0.0
    ensures match findall(metric.checkPattern, Lower(text))
      case None => c == Check(true, 0.0, "Error checking " + metric.name)
      case Some(ms) =>
        (ms == [] ==> c == Check(true, 0.0, "No matches found for " + metric.name)) &&
        (ms != [] ==> c.reasoning == "Found " + NatToString(|ms|) + " matches for " + metric.name + " pattern")
  {
    var t := Lower(text);
    match findall(metric.checkPattern, t)
    case None => Check(true, 0.0, "Error checking " + metric.name)
    case Some(ms) =>
      if |ms| == 0 then Check(true, 0.0, "No matches found for " + metric.name)
      else
        var w := MaxOne(WordCount(t)) as real;
        var score := |ms| as real / w;
        Check(score < metric.threshold, score,
              "Found " + NatToString(|ms|) + " matches for " + metric.name + " pattern")
  }

  /** A metric with matches scores their density over the words of the text,
      and fails once that density reaches its threshold. */
  lemma CheckMetricDensity(text: string, metric: Metric, findall: Matcher, ms: seq<string>)
    requires findall(metric.checkPattern, Lower(text)) == Some(ms) && ms != []
    ensures CheckMetric(text, metric, findall).score == |ms| as real / MaxOne(WordCount(Lower(text))) as real
    ensures !CheckMetric(text, metric, findall).passed <==>
      |ms| as real / MaxOne(WordCount(Lower(text))) as real >= metric.threshold
  {
  }

  lemma DensityBelow(n: real, w: real, t: real)
    requires n >= 0.0 && w > 0.0
    ensures n / w >= 0.0
    ensures (n / w) * w == n
    ensures n / w < t <==> n < t * w
  {
  }

  // ---------------------------------------------------------------------
  // One standard

  /** The metric `name` is defined, enabled, and fails on `text`. */
  function MetricFails(metrics: Registry.Registry<Metric>, text: string, name: string, findall: Matcher): bool {
    match Registry.Get(metrics, name)
    case None => false
    case Some(m) => m.enabled && !CheckMetric(text, m, findall).passed
  }

  /** The loop of `_check_standard`: the named metrics that fail, in order;
      unknown and disabled names are skipped. */
  function ViolatedMetrics(metrics: Registry.Registry<Metric>, text: string, names: seq<string>, findall: Matcher): (vm: seq<string>)
    ensures |vm| <= |names|
  {
    if |names| == 0 then []
    else
      (if MetricFails(metrics, text, names[0], findall) then [names[0]] else []) +
      ViolatedMetrics(metrics, text, names[1..], findall)
  }

  /** A name is reported exactly when it is listed and its metric fails. */
  lemma {:induction false} ViolatedMetricsSpec(metrics: Registry.Registry<Metric>, text: string, names: seq<string>, findall: Matcher)
    ensures forall x :: x in ViolatedMetrics(metrics, text, names, findall) <==> x in names && MetricFails(metrics, text, x, findall)
  {
    if |names| > 0 {
      ViolatedMetricsSpec(metrics, text, names[1..], findall);
      assert forall x :: x in names <==> x == names[0] || x in names[1..];
    }
  }

  function ThresholdOf(metrics: Registry.Registry<Metric>, name: string): real {
    match Registry.Get(metrics, name)
    case None => 0.0
    case Some(m) => m.threshold
  }

  /** `max(metrics[m].threshold for m in names)`. */
  function MaxThreshold(metrics: Registry.Registry<Metric>, names: seq<string>): (t: real)
    requires |names| > 0
    ensures forall x :: x in names ==> ThresholdOf(metrics, x) <= t
    ensures exists x :: x in names && ThresholdOf(metrics, x) == t
  {
    if |names| == 1 then ThresholdOf(metrics, names[0])
    else
      var rest := MaxThreshold(metrics, names[1..]);
      var first := ThresholdOf(metrics, names[0]);
      assert forall x :: x in names <==> x == names[0] || x in names[1..];
      if first >= rest then first else rest
  }

  /** `_determine_severity`: fixed confidence bands; the standard plays no part. */
  function DetermineSeverity(confidence: real): (s: Severity)
    ensures s == Critical <==> confidence >= 0.9
    ensures SevereLevel(s) <==> confidence >= 0.7
    ensures s == Low <==> confidence < 0.5
  {
    if confidence >= 0.9 then Critical
    else if confidence >= 0.7 then High
    else if confidence >= 0.5 then Medium
    else Low
  }

  /** A higher confidence never yields a lower severity. */
  lemma SeverityMonotone(c1: real, c2: real)
    requires c1 <= c2
    ensures SeverityRank(DetermineSeverity(c1)) <= SeverityRank(DetermineSeverity(c2))
  {
  }

  /** `_check_standard`: at most one violation, for the standard itself,
      listing the failing metrics, its severity banded from its confidence. */
  function CheckStandard(metrics: Registry.Registry<Metric>, text: string, std: Standard, findall: Matcher): (vs: seq<Violation>)
    ensures |vs| <= 1
    ensures |vs| == 1 ==>
      vs[0].standard == std.name && vs[0].description == std.description &&
      vs[0].violatedMetrics == ViolatedMetrics(metrics, text, std.metrics, findall) && vs[0].position == None &&
      vs[0].severity == DetermineSeverity(vs[0].confidence)
  {
    var vm := ViolatedMetrics(metrics, text, std.metrics, findall);
    if |vm| == 0 then []
    else
      var confidence := MaxThreshold(metrics, vm);
      [Violation(std.name, std.description, DetermineSeverity(confidence), confidence, vm,
                 "Comment violates " + std.name + " standard based on metrics: " + Join(", ", vm),
                 None)]
  }

  // ---------------------------------------------------------------------
  // The whole comment

  /** Running totals of the loop in `moderate`. */
  datatype Totals = Totals(violations: seq<Violation>, score: real, weight: real)

  /** A confidence scaled by a standard's weight. */
  function Weighted(c: real, w: real): real { c * w }

  /** One pass of the loop of `moderate`: a disabled standard is skipped; an
      enabled one adds its weight, and its violation (if any) with its
      confidence times that weight. */
  function Step(metrics: Registry.Registry<Metric>, text: string, t: Totals, s: Standard, findall: Matcher): Totals {
    if !s.enabled then t else Add(t, CheckStandard(metrics, text, s, findall), s.weight)
  }

  /** An enabled standard's contribution: its weight always, its violation
      (if any) with that violation's confidence times the weight. */
  function Add(t: Totals, vs: seq<Violation>, w: real): Totals {
    if |vs| > 0 then Totals(t.violations + vs, t.score + Weighted(vs[0].confidence, w), t.weight + w)
    else Totals(t.violations, t.score, t.weight + w)
  }

  /** The loop of `moderate` over the standards, in registry order. */
  function Scan(metrics: Registry.Registry<Metric>, text: string, stds: Registry.Registry<Standard>, findall: Matcher): Totals {
    if |stds| == 0 then Totals([], 0.0, 0.0)
    else Step(metrics, text, Scan(metrics, text, stds[..|stds| - 1], findall), stds[|stds| - 1].1, findall)
  }

  /** Some metric the standard lists fails on the text. */
  predicate StandardFails(metrics: Registry.Registry<Metric>, text: string, std: Standard, findall: Matcher) {
    exists x :: x in std.metrics && MetricFails(metrics, text, x, findall)
  }

  function EnabledCount(stds: Registry.Registry<Standard>): nat {
    if |stds| == 0 then 0
    else EnabledCount(stds[..|stds| - 1]) + (if stds[|stds| - 1].1.enabled then 1 else 0)
  }

  function EnabledWeight(stds: Registry.Registry<Standard>): real {
    if |stds| == 0 then 0.0
    else EnabledWeight(stds[..|stds| - 1]) + (if stds[|stds| - 1].1.enabled then stds[|stds| - 1].1.weight else 0.0)
  }

  /** The numerator of `moderate`'s score, summed over the standards in
      order: an enabled standard with a failing metric contributes the
      largest threshold among its failing metrics times its weight; any
      other standard contributes nothing. */
  function WeightedSum(metrics: Registry.Registry<Metric>, text: string, stds: Registry.Registry<Standard>, findall: Matcher): real {
    if |stds| == 0 then 0.0
    else WeightedSum(metrics, text, stds[..|stds| - 1], findall) + Contribution(metrics, text, stds[|stds| - 1].1, findall)
  }

  function Contribution(metrics: Registry.Registry<Metric>, text: string, s: Standard, findall: Matcher): real {
    if s.enabled && StandardFails(metrics, text, s, findall) then
      FailingListed(metrics, text, s, findall);
      Weighted(MaxThreshold(metrics, ViolatedMetrics(metrics, text, s.metrics, findall)), s.weight)
    else 0.0
  }

  lemma FailingListed(metrics: Registry.Registry<Metric>, text: string, s: Standard, findall: Matcher)
    requires StandardFails(metrics, text, s, findall)
    ensures ViolatedMetrics(metrics, text, s.metrics, findall) != []
  {
    ViolatedMetricsSpec(metrics, text, s.metrics, findall);
    var x :| x in s.metrics && MetricFails(metrics, text, x, findall);
    assert x in ViolatedMetrics(metrics, text, s.metrics, findall);
  }

  /** The violations `moderate` collects: those of each enabled standard, in order. */
  function AllViolations(metrics: Registry.Registry<Metric>, text: string, stds: Registry.Registry<Standard>, findall: Matcher): seq<Violation> {
    if |stds| == 0 then []
    else if stds[|stds| - 1].1.enabled then
      AllViolations(metrics, text, stds[..|stds| - 1], findall) + CheckStandard(metrics, text, stds[|stds| - 1].1, findall)
    else AllViolations(metrics, text, stds[..|stds| - 1], findall)
  }

  /** The loop's totals are the collected violations, the weighted sum of
      the failing standards and the weight of every enabled standard. */
  lemma {:induction false} ScanTotals(metrics: Registry.Registry<Metric>, text: string, stds: Registry.Registry<Standard>, findall: Matcher)
    ensures Scan(metrics, text, stds, findall).violations == AllViolations(metrics, text, stds, findall)
    ensures Scan(metrics, text, stds, findall).score == WeightedSum(metrics, text, stds, findall)
    ensures Scan(metrics, text, stds, findall).weight == EnabledWeight(stds)
  {
    if |stds| > 0 {
      var pre, s := stds[..|stds| - 1], stds[|stds| - 1].1;
      ScanTotals(metrics, text, pre, findall);
      var t := Scan(metrics, text, pre, findall);
      var t' := Scan(metrics, text, stds, findall);
      assert t' == Step(metrics, text, t, s, findall);
      var vs := CheckStandard(metrics, text, s, findall);
      ContributionOf(metrics, text, s, findall);
      if s.enabled && |vs| > 0 {
        assert t'.score == t.score + Weighted(vs[0].confidence, s.weight);
      } else {
        assert t'.score == t.score;
      }
    }
  }

  /** A standard has a violation exactly when it fails, and then the
      violation's confidence is the largest threshold of its failing metrics. */
  lemma ContributionOf(metrics: Registry.Registry<Metric>, text: string, s: Standard, findall: Matcher)
    ensures var vs := CheckStandard(metrics, text, s, findall);
      (|vs| > 0 <==> StandardFails(metrics, text, s, findall)) &&
      (|vs| > 0 ==> vs[0].confidence == MaxThreshold(metrics, ViolatedMetrics(metrics, text, s.metrics, findall)))
  {
    CheckStandardSpec(metrics, text, s, findall);
  }

  lemma ScaleBelow(c: real, w: real)
    requires 0.0 <= c <= 1.0 && w >= 0.0
    ensures 0.0 <= c * w <= w
  {
  }

  lemma RatioInUnit(s: real, w: real)
    requires 0.0 <= s <= w && w > 0.0
    ensures 0.0 <= s / w <= 1.0
  {
  }

  /** Every configured threshold of an in-range metric registry lies in [0, 1]. */
  lemma ThresholdInRange(metrics: Registry.Registry<Metric>, x: string)
    requires MetricsInRange(metrics)
    ensures 0.0 <= ThresholdOf(metrics, x) <= 1.0
  {
    match Registry.Get(metrics, x)
    case None =>
    case Some(m) =>
      var i :| 0 <= i < |metrics| && metrics[i] == (x, m);
  }

  /** The violation is present exactly when some listed metric fails; its
      confidence is the largest configured threshold among the failing
      metrics, not a measured score. */
  lemma CheckStandardSpec(metrics: Registry.Registry<Metric>, text: string, std: Standard, findall: Matcher)
    ensures var vs := CheckStandard(metrics, text, std, findall);
      (|vs| == 1 <==> StandardFails(metrics, text, std, findall)) &&
      (|vs| == 1 ==>
        var vm := vs[0].violatedMetrics;
        (forall x :: x in vm ==> ThresholdOf(metrics, x) <= vs[0].confidence) &&
        (exists x :: x in vm && ThresholdOf(metrics, x) == vs[0].confidence))
  {
    ViolatedMetricsSpec(metrics, text, std.metrics, findall);
    var vm := ViolatedMetrics(metrics, text, std.metrics, findall);
    if StandardFails(metrics, text, std, findall) {
      var x :| x in std.metrics && MetricFails(metrics, text, x, findall);
      assert x in vm;
    }
  }

  /** With in-range metrics the one violation of a standard has an in-range confidence. */
  lemma CheckStandardInRange(metrics: Registry.Registry<Metric>, text: string, std: Standard, findall: Matcher)
    requires MetricsInRange(metrics)
    ensures ConfidencesInRange(CheckStandard(metrics, text, std, findall))
  {
    var vs := CheckStandard(metrics, text, std, findall);
    if |vs| == 1 {
      CheckStandardSpec(metrics, text, std, findall);
      var x :| x in vs[0].violatedMetrics && ThresholdOf(metrics, x) == vs[0].confidence;
      ThresholdInRange(metrics, x);
    }
  }

  /** One step keeps the totals' bounds and adds at most one violation. */
  lemma StepBounds(metrics: Registry.Registry<Metric>, text: string, t: Totals, s: Standard, findall: Matcher)
    requires MetricsInRange(metrics) && s.weight > 0.0
    requires 0.0 <= t.score <= t.weight && ConfidencesInRange(t.violations)
    ensures var t' := Step(metrics, text, t, s, findall);
      t'.weight == t.weight + (if s.enabled then s.weight else 0.0) && 0.0 <= t'.score <= t'.weight &&
      |t'.violations| <= |t.violations| + (if s.enabled then 1 else 0) && ConfidencesInRange(t'.violations)
  {
    if s.enabled {
      CheckStandardInRange(metrics, text, s, findall);
      AddBounds(t, CheckStandard(metrics, text, s, findall), s.weight);
    }
  }

  /** Adding at most one in-range violation at a positive weight keeps the
      score within [0, weight]. */
  lemma AddBounds(t: Totals, vs: seq<Violation>, w: real)
    requires w > 0.0 && |vs| <= 1 && ConfidencesInRange(vs)
    requires 0.0 <= t.score <= t.weight && ConfidencesInRange(t.violations)
    ensures var t' := Add(t, vs, w);
      t'.weight == t.weight + w && 0.0 <= t'.score <= t'.weight &&
      |t'.violations| <= |t.violations| + 1 && ConfidencesInRange(t'.violations)
  {
    if |vs| > 0 {
      ScaleBelow(vs[0].confidence, w);
      AppendInRange(t.violations, vs);
    }
  }

  lemma AppendInRange(a: seq<Violation>, b: seq<Violation>)
    requires ConfidencesInRange(a) && ConfidencesInRange(b)
    ensures ConfidencesInRange(a + b)
  {
    assert forall j :: 0 <= j < |a + b| ==> (a + b)[j] == if j < |a| then a[j] else b[j - |a|];
  }

  /** The totals of `moderate`: only enabled standards contribute, each at
      most one violation and exactly its weight; with in-range thresholds and
      positive weights the weighted score never exceeds the total weight. */
  lemma {:induction false} ScanBounds(metrics: Registry.Registry<Metric>, text: string, stds: Registry.Registry<Standard>, findall: Matcher)
    requires StandardsInRange(stds) && MetricsInRange(metrics)
    ensures var t := Scan(metrics, text, stds, findall);
      t.weight == EnabledWeight(stds) && 0.0 <= t.score <= t.weight &&
      |t.violations| <= EnabledCount(stds) && ConfidencesInRange(t.violations)
    ensures Scan(metrics, text, stds, findall).score == WeightedSum(metrics, text, stds, findall)
  {
    if |stds| > 0 {
      var pre := stds[..|stds| - 1];
      assert StandardsInRange(pre) by {
        forall i | 0 <= i < |pre| ensures pre[i] == stds[i] { }
      }
      ScanBounds(metrics, text, pre, findall);
      StepBounds(metrics, text, Scan(metrics, text, pre, findall), stds[|stds| - 1].1, findall);
    }
    ScanTotals(metrics, text, stds, findall);
  }

  /** No violation comes out of the scan exactly when no enabled standard
      has a failing metric. */
  lemma {:induction false} ScanEmptyIff(metrics: Registry.Registry<Metric>, text: string, stds: Registry.Registry<Standard>, findall: Matcher)
    ensures Scan(metrics, text, stds, findall).violations == [] <==>
      forall i :: 0 <= i < |stds| && stds[i].1.enabled ==> !StandardFails(metrics, text, stds[i].1, findall)
  {
    if |stds| > 0 {
      var pre := stds[..|stds| - 1];
      ScanEmptyIff(metrics, text, pre, findall);
      CheckStandardSpec(metrics, text, stds[|stds| - 1].1, findall);
      assert forall i :: 0 <= i < |pre| ==> pre[i] == stds[i];
    }
  }

  /** `v` was raised by an enabled standard of `stds`. */
  predicate RaisedBy(stds: Registry.Registry<Standard>, v: Violation) {
    exists i :: 0 <= i < |stds| && stds[i].1.enabled && stds[i].1.name == v.standard
  }

  /** Each violation names an enabled standard of the registry. */
  lemma {:induction false} ScanProvenance(metrics: Registry.Registry<Metric>, text: string, stds: Registry.Registry<Standard>, findall: Matcher)
    ensures forall v :: v in Scan(metrics, text, stds, findall).violations ==> RaisedBy(stds, v)
  {
    if |stds| > 0 {
      var n := |stds|;
      var pre := stds[..n - 1];
      ScanProvenance(metrics, text, pre, findall);
      var t := Scan(metrics, text, pre, findall);
      forall v | v in Scan(metrics, text, stds, findall).violations
        ensures RaisedBy(stds, v)
      {
        if v in t.violations {
          var i :| 0 <= i < |pre| && pre[i].1.enabled && pre[i].1.name == v.standard;
          assert stds[i] == pre[i];
        } else {
          assert stds[n - 1].1.enabled && stds[n - 1].1.name == v.standard;
        }
      }
    }
  }

  /** The violation an enabled standard raises is among the scan's violations. */
  lemma {:induction false} ScanIncludes(metrics: Registry.Registry<Metric>, text: string, stds: Registry.Registry<Standard>, i: nat, findall: Matcher)
    requires i < |stds| && stds[i].1.enabled
    ensures forall v :: v in CheckStandard(metrics, text, stds[i].1, findall) ==> v in Scan(metrics, text, stds, findall).violations
  {
    var n := |stds|;
    var pre := stds[..n - 1];
    StepKeeps(metrics, text, Scan(metrics, text, pre, findall), stds[n - 1].1, findall);
    if i < n - 1 {
      ScanIncludes(metrics, text, pre, i, findall);
      assert pre[i] == stds[i];
    }
  }

  /** A step keeps the violations so far and adds the enabled standard's own. */
  lemma StepKeeps(metrics: Registry.Registry<Metric>, text: string, t: Totals, s: Standard, findall: Matcher)
    ensures forall v :: v in t.violations ==> v in Step(metrics, text, t, s, findall).violations
    ensures s.enabled ==> forall v :: v in CheckStandard(metrics, text, s, findall) ==> v in Step(metrics, text, t, s, findall).violations
  {
  }

  /** A disabled standard may as well not be there. */
  lemma {:induction false} ScanIgnoresDisabled(metrics: Registry.Registry<Metric>, text: string, stds: Registry.Registry<Standard>, i: nat, findall: Matcher)
    requires i < |stds| && !stds[i].1.enabled
    ensures Scan(metrics, text, stds[..i] + stds[i + 1..], findall) == Scan(metrics, text, stds, findall)
  {
    var n := |stds|;
    var pre := stds[..n - 1];
    if i == n - 1 {
      assert stds[..i] + stds[i + 1..] == pre;
    } else {
      var s' := stds[..i] + stds[i + 1..];
      ScanIgnoresDisabled(metrics, text, pre, i, findall);
      assert s'[..|s'| - 1] == pre[..i] + pre[i + 1..];
      assert s'[|s'| - 1] == stds[n - 1];
    }
  }

  /** `_determine_action`: first match wins among no violations (APPROVE),
      a CRITICAL violation, a HIGH violation (both REMOVE), score at the
      threshold with auto-moderation on (HIDE), and FLAG. */
  function DetermineAction(e: StandardsEngine, score: real, vs: seq<Violation>): (a: Action)
    ensures a == Approve <==> vs == []
    ensures a == Remove <==> vs != [] && AnySevere(vs)
    ensures a == Hide <==> vs != [] && !AnySevere(vs) && score >= e.threshold && e.autoModerate
  {
    if vs == [] then Approve
    else if AnyWithSeverity(vs, Critical) then Remove
    else if AnyWithSeverity(vs, High) then Remove
    else if score >= e.threshold && e.autoModerate then Hide
    else Flag
  }

  function AnyWithSeverity(vs: seq<Violation>, s: Severity): (b: bool)
    ensures b <==> exists i :: 0 <= i < |vs| && vs[i].severity == s
  {
    if |vs| == 0 then false else vs[0].severity == s || AnyWithSeverity(vs[1..], s)
  }

  /** `max(v.confidence for v in vs)`. */
  function MaxConfidence(vs: seq<Violation>): (c: real)
    requires |vs| > 0
    ensures forall i :: 0 <= i < |vs| ==> vs[i].confidence <= c
    ensures exists i :: 0 <= i < |vs| && vs[i].confidence == c
  {
    if |vs| == 1 then vs[0].confidence
    else
      var rest := MaxConfidence(vs[1..]);
      assert forall i :: 1 <= i < |vs| ==> vs[i] == vs[1..][i - 1];
      if vs[0].confidence >= rest then vs[0].confidence else rest
  }

  predicate ConfidencesInRange(vs: seq<Violation>) {
    forall i :: 0 <= i < |vs| ==> 0.0 <= vs[i].confidence <= 1.0
  }

  /** `_calculate_confidence`: 1 with no violations; otherwise the mean of
      the largest violation confidence and min(n/5, 1). */
  function CalculateConfidence(vs: seq<Violation>): (c: real)
    ensures vs == [] ==> c == 1.0
    ensures vs != [] ==> 2.0 * c >= MaxConfidence(vs) + 0.2 && 2.0 * c <= MaxConfidence(vs) + 1.0
    ensures vs != [] ==> (|vs| >= 5 <==> 2.0 * c == MaxConfidence(vs) + 1.0)
    ensures vs != [] && |vs| < 5 ==> 2.0 * c == MaxConfidence(vs) + |vs| as real / 5.0
    ensures ConfidencesInRange(vs) ==> 0.0 <= c <= 1.0
  {
    if vs == [] then 1.0
    else
      var countFactor := if |vs| as real / 5.0 < 1.0 then |vs| as real / 5.0 else 1.0;
      (MaxConfidence(vs) + countFactor) / 2.0
  }

  const PassText := "Comment passes all standards. No violations detected."

  /** The lines `_generate_reasoning` joins with newlines. */
  function ReasonLines(e: StandardsEngine, vs: seq<Violation>, score: real): (lines: seq<string>)
    ensures |lines| == |vs| + 2
  {
    ["Found " + NatToString(|vs|) + " violation(s):"] +
    seq(|vs|, i requires 0 <= i < |vs| => "  - " + vs[i].standard + ": " + vs[i].reasoning) +
    ["Overall score: " + Fixed2(score) + " (threshold: " + ReprReal(e.threshold) + ")"]
  }

  /** `_generate_reasoning`: the fixed pass text, or the lines above joined
      with newlines. */
  function GenerateReasoning(e: StandardsEngine, vs: seq<Violation>, score: real): string {
    if vs == [] then PassText else Join("\n", ReasonLines(e, vs, score))
  }

  /** Splitting the reasoning at newlines recovers its lines: a header
      counting the violations, one line per violation in order, and the
      score line; this holds whenever no standard name or violation
      reasoning itself holds a line break. */
  lemma ReasoningLines(e: StandardsEngine, vs: seq<Violation>, score: real)
    requires vs != []
    requires forall i :: 0 <= i < |vs| ==> '\n' !in vs[i].standard && '\n' !in vs[i].reasoning
    ensures var lines := SplitSep(GenerateReasoning(e, vs, score), "\n");
      |lines| == |vs| + 2 &&
      lines[0] == "Found " + NatToString(|vs|) + " violation(s):" &&
      (forall i :: 0 <= i < |vs| ==> lines[i + 1] == "  - " + vs[i].standard + ": " + vs[i].reasoning) &&
      lines[|vs| + 1] == "Overall score: " + Fixed2(score) + " (threshold: " + ReprReal(e.threshold) + ")"
  {
    var lines := ReasonLines(e, vs, score);
    ReasonLinesUnbroken(e, vs, score);
    assert "\n" == ['\n'];
    SplitJoin(lines, '\n');
  }

  lemma ReasonLinesUnbroken(e: StandardsEngine, vs: seq<Violation>, score: real)
    requires forall i :: 0 <= i < |vs| ==> '\n' !in vs[i].standard && '\n' !in vs[i].reasoning
    ensures forall i :: 0 <= i < |ReasonLines(e, vs, score)| ==> '\n' !in ReasonLines(e, vs, score)[i]
  {
    var lines := ReasonLines(e, vs, score);
    var n := NatToString(|vs|);
    assert NumberChars(n);
    NumberUnbroken(n);
    NumberUnbroken(Fixed2(score));
    NumberUnbroken(ReprReal(e.threshold));
  }

  lemma NumberUnbroken(s: string)
    requires NumberChars(s)
    ensures '\n' !in s
  {
    assert forall k :: 0 <= k < |s| ==> s[k] != '\n';
  }

  /** `moderate`: the result for one comment, stamped with `now`. */
  function Moderate(e: StandardsEngine, comment: Comment, findall: Matcher, now: Instant): (r: ModerationResult)
    ensures r.comment == comment && r.timestamp == now && r.metadata == []
    ensures r.violations == AllViolations(e.metrics, comment.text, e.standards, findall)
    ensures var w := EnabledWeight(e.standards);
      r.score == if w > 0.0 then WeightedSum(e.metrics, comment.text, e.standards, findall) / w else 0.0
    ensures r.action == Approve <==> !HasViolations(r)
    ensures r.action == Remove <==> IsSevere(r)
    ensures r.action == Hide <==> HasViolations(r) && !IsSevere(r) && e.autoModerate && r.score >= e.threshold
    ensures !HasViolations(r) ==> r.confidence == 1.0 && r.reasoning == PassText
    ensures r.confidence == CalculateConfidence(r.violations)
    ensures r.reasoning == GenerateReasoning(e, r.violations, r.score)
  {
    var t := Scan(e.metrics, comment.text, e.standards, findall);
    var score := if t.weight > 0.0 then t.score / t.weight else 0.0;
    ScanTotals(e.metrics, comment.text, e.standards, findall);
    ModerationResult(comment, DetermineAction(e, score, t.violations), t.violations, score,
                     CalculateConfidence(t.violations), GenerateReasoning(e, t.violations, score), now, [])
  }

  /** `moderate_batch`: one result per comment, in order. */
  function ModerateBatch(e: StandardsEngine, comments: seq<Comment>, findall: Matcher, now: Instant): (rs: seq<ModerationResult>)
    ensures |rs| == |comments|
    ensures forall i :: 0 <= i < |comments| ==> rs[i] == Moderate(e, comments[i], findall, now)
  {
    seq(|comments|, i requires 0 <= i < |comments| => Moderate(e, comments[i], findall, now))
  }

  /** With in-range thresholds and positive weights, the score and the
      confidence of a result lie in [0, 1], and there is at most one
      violation per enabled standard. */
  lemma ModerateBounds(e: StandardsEngine, comment: Comment, findall: Matcher, now: Instant)
    requires StandardsInRange(e.standards) && MetricsInRange(e.metrics)
    ensures var r := Moderate(e, comment, findall, now);
      0.0 <= r.score <= 1.0 && 0.0 <= r.confidence <= 1.0 &&
      |r.violations| <= EnabledCount(e.standards)
  {
    var t := Scan(e.metrics, comment.text, e.standards, findall);
    ScanBounds(e.metrics, comment.text, e.standards, findall);
    if t.weight > 0.0 {
      RatioInUnit(t.score, t.weight);
    }
  }

  /** A comment is approved exactly when no enabled standard has a failing metric. */
  lemma ModerateApprovesIff(e: StandardsEngine, comment: Comment, findall: Matcher, now: Instant)
    ensures Moderate(e, comment, findall, now).action == Approve <==>
      forall i :: 0 <= i < |e.standards| && e.standards[i].1.enabled ==>
        !StandardFails(e.metrics, comment.text, e.standards[i].1, findall)
  {
    ScanEmptyIff(e.metrics, comment.text, e.standards, findall);
  }

  // ---------------------------------------------------------------------
  // Registry maintenance

  /** Registries of a Python dict never repeat a name. */
  predicate WellFormed(e: StandardsEngine) {
    Registry.UniqueKeys(e.standards) && Registry.UniqueKeys(e.metrics)
  }

  /** `add_standard`: insert, or overwrite in place, under the standard's name. */
  function AddStandard(e: StandardsEngine, s: Standard): (e': StandardsEngine)
    ensures Registry.Get(e'.standards, s.name) == Some(s)
    ensures forall k :: k != s.name ==> Registry.Get(e'.standards, k) == Registry.Get(e.standards, k)
    ensures e'.metrics == e.metrics && e'.threshold == e.threshold && e'.autoModerate == e.autoModerate
    ensures WellFormed(e) ==> WellFormed(e')
  {
    Registry.GetPutSame(e.standards, s.name, s);
    Registry.PutFrame(e.standards, s.name, s);
    if WellFormed(e) then Registry.PutKeepsUnique(e.standards, s.name, s); e.(standards := Registry.Put(e.standards, s.name, s))
    else e.(standards := Registry.Put(e.standards, s.name, s))
  }

  /** `remove_standard`: `false` and no change for an unknown name. */
  function RemoveStandard(e: StandardsEngine, name: string): (res: (StandardsEngine, bool))
    ensures res.1 <==> Registry.Has(e.standards, name)
    ensures !res.1 ==> res.0 == e
    ensures WellFormed(e) ==> WellFormed(res.0) && !Registry.Has(res.0.standards, name)
    ensures forall k :: k != name ==> Registry.Get(res.0.standards, k) == Registry.Get(e.standards, k)
    ensures res.0.metrics == e.metrics && res.0.threshold == e.threshold && res.0.autoModerate == e.autoModerate
  {
    Registry.RemoveFrame(e.standards, name);
    if WellFormed(e) then Registry.RemoveKeepsUnique(e.standards, name); RemoveStandardRaw(e, name)
    else RemoveStandardRaw(e, name)
  }

  function RemoveStandardRaw(e: StandardsEngine, name: string): (StandardsEngine, bool) {
    if Registry.Has(e.standards, name) then (e.(standards := Registry.Remove(e.standards, name)), true)
    else (e, false)
  }

  /** `enable_standard` / `disable_standard`: set the flag of the named
      standard in place; `false` and no change for an unknown name. */
  function SetStandardEnabled(e: StandardsEngine, name: string, flag: bool): (res: (StandardsEngine, bool))
    ensures res.1 <==> Registry.Has(e.standards, name)
    ensures !res.1 ==> res.0 == e
    ensures res.1 ==> Registry.Get(res.0.standards, name) == Some(Registry.Get(e.standards, name).value.(enabled := flag))
    ensures forall k :: k != name ==> Registry.Get(res.0.standards, k) == Registry.Get(e.standards, k)
    ensures Registry.Keys(res.0.standards) == Registry.Keys(e.standards)
    ensures res.0.metrics == e.metrics && res.0.threshold == e.threshold && res.0.autoModerate == e.autoModerate
  {
    match Registry.Get(e.standards, name)
    case None => (e, false)
    case Some(s) =>
      var s' := s.(enabled := flag);
      Registry.GetPutSame(e.standards, name, s');
      Registry.PutFrame(e.standards, name, s');
      (e.(standards := Registry.Put(e.standards, name, s')), true)
  }

  function EnableStandard(e: StandardsEngine, name: string): (StandardsEngine, bool) {
    SetStandardEnabled(e, name, true)
  }

  function DisableStandard(e: StandardsEngine, name: string): (StandardsEngine, bool) {
    SetStandardEnabled(e, name, false)
  }

  /** `add_metric`: insert, or overwrite in place, under the metric's name. */
  function AddMetric(e: StandardsEngine, m: Metric): (e': StandardsEngine)
    ensures Registry.Get(e'.metrics, m.name) == Some(m)
    ensures forall k :: k != m.name ==> Registry.Get(e'.metrics, k) == Registry.Get(e.metrics, k)
    ensures e'.standards == e.standards && e'.threshold == e.threshold && e'.autoModerate == e.autoModerate
    ensures WellFormed(e) ==> WellFormed(e')
  {
    Registry.GetPutSame(e.metrics, m.name, m);
    Registry.PutFrame(e.metrics, m.name, m);
    if WellFormed(e) then Registry.PutKeepsUnique(e.metrics, m.name, m); e.(metrics := Registry.Put(e.metrics, m.name, m))
    else e.(metrics := Registry.Put(e.metrics, m.name, m))
  }

  /** `remove_metric`: `false` and no change for an unknown name. */
  function RemoveMetric(e: StandardsEngine, name: string): (res: (StandardsEngine, bool))
    ensures res.1 <==> Registry.Has(e.metrics, name)
    ensures !res.1 ==> res.0 == e
    ensures WellFormed(e) ==> WellFormed(res.0) && !Registry.Has(res.0.metrics, name)
    ensures forall k :: k != name ==> Registry.Get(res.0.metrics, k) == Registry.Get(e.metrics, k)
    ensures res.0.standards == e.standards && res.0.threshold == e.threshold && res.0.autoModerate == e.autoModerate
  {
    Registry.RemoveFrame(e.metrics, name);
    if WellFormed(e) then Registry.RemoveKeepsUnique(e.metrics, name); RemoveMetricRaw(e, name)
    else RemoveMetricRaw(e, name)
  }

  function RemoveMetricRaw(e: StandardsEngine, name: string): (StandardsEngine, bool) {
    if Registry.Has(e.metrics, name) then (e.(metrics := Registry.Remove(e.metrics, name)), true)
    else (e, false)
  }

  /** Disabling a standard moderates every comment as removing it would. */
  lemma DisableIsRemove(e: StandardsEngine, name: string, comment: Comment, findall: Matcher, now: Instant)
    requires Registry.Has(e.standards, name)
    ensures Moderate(DisableStandard(e, name).0, comment, findall, now) ==
            Moderate(RemoveStandard(e, name).0, comment, findall, now)
  {
    var i, r' := DisabledAt(e, name);
    ScanIgnoresDisabled(e.metrics, comment.text, r', i, findall);
    SameScanSameResult(DisableStandard(e, name).0, RemoveStandard(e, name).0, comment, findall, now);
  }

  /** Disabling replaces the entry at one position by a disabled copy;
      removing drops that position. */
  lemma DisabledAt(e: StandardsEngine, name: string) returns (i: nat, r': Registry.Registry<Standard>)
    requires Registry.Has(e.standards, name)
    ensures i < |r'| && !r'[i].1.enabled
    ensures DisableStandard(e, name).0 == e.(standards := r')
    ensures RemoveStandard(e, name).0 == e.(standards := r'[..i] + r'[i + 1..])
  {
    var r := e.standards;
    i := Registry.IndexOf(r, name);
    var s := r[i].1;
    assert Registry.Get(r, name) == Some(s);
    r' := r[i := (name, s.(enabled := false))];
    assert r'[..i] + r'[i + 1..] == Registry.Remove(r, name);
  }

  /** Two engines alike but for standards whose scans agree moderate alike. */
  lemma SameScanSameResult(e1: StandardsEngine, e2: StandardsEngine, comment: Comment, findall: Matcher, now: Instant)
    requires e1.metrics == e2.metrics && e1.threshold == e2.threshold && e1.autoModerate == e2.autoModerate
    requires Scan(e1.metrics, comment.text, e1.standards, findall) == Scan(e2.metrics, comment.text, e2.standards, findall)
    ensures Moderate(e1, comment, findall, now) == Moderate(e2, comment, findall, now)
  {
  }

  lemma ScaleStrict(n: real, d: real, t: real, w: real)
    requires n <= d * w && d < t && w >= 1.0
    ensures n < t * w
  {
  }

  /** No pattern matches `text` more often than `d` per word. */
  ghost predicate Sparse(findall: Matcher, text: string, d: real) {
    forall p :: findall(p, Lower(text)).Some? ==>
      |findall(p, Lower(text)).value| as real <= d * MaxOne(WordCount(Lower(text))) as real
  }

  /** A metric whose threshold exceeds `d` passes on a text on which no
      pattern matches more often than `d` per word. */
  lemma SparseCheckPasses(text: string, m: Metric, findall: Matcher, d: real)
    requires m.threshold > d && Sparse(findall, text, d)
    ensures CheckMetric(text, m, findall).passed
  {
    var o := findall(m.checkPattern, Lower(text));
    if o.Some? && o.value != [] {
      var w := MaxOne(WordCount(Lower(text))) as real;
      assert |o.value| as real <= d * w;
      ScaleStrict(|o.value| as real, d, m.threshold, w);
      FewMatchesPass(text, m, findall, o.value);
    }
  }

  lemma FewMatchesPass(text: string, m: Metric, findall: Matcher, ms: seq<string>)
    requires findall(m.checkPattern, Lower(text)) == Some(ms) && ms != []
    requires |ms| as real < m.threshold * MaxOne(WordCount(Lower(text))) as real
    ensures CheckMetric(text, m, findall).passed
  {
    var n, w := |ms| as real, MaxOne(WordCount(Lower(text))) as real;
    assert !(n / w >= m.threshold) by { DensityPasses(n, w, m.threshold); }
    CheckMetricDensity(text, m, findall, ms);
  }

  lemma DensityPasses(n: real, w: real, t: real)
    requires n >= 0.0 && w > 0.0 && n < t * w
    ensures !(n / w >= t)
  {
    DensityBelow(n, w, t);
  }

  lemma SparseMetricPasses(metrics: Registry.Registry<Metric>, text: string, x: string, findall: Matcher, d: real)
    requires forall i :: 0 <= i < |metrics| ==> metrics[i].1.threshold > d
    requires Sparse(findall, text, d)
    ensures !MetricFails(metrics, text, x, findall)
  {
    match Registry.Get(metrics, x)
    case None =>
    case Some(m) =>
      var j :| 0 <= j < |metrics| && metrics[j] == (x, m);
      SparseCheckPasses(text, m, findall, d);
  }

  /** Every registered metric's threshold exceeds `d`. */
  predicate ThresholdsAbove(metrics: Registry.Registry<Metric>, d: real) {
    forall i :: 0 <= i < |metrics| ==> metrics[i].1.threshold > d
  }

  /** When every metric's threshold exceeds `d` and no pattern matches more
      often than `d` per word, the comment is approved. */
  lemma SparseMatchesApprove(e: StandardsEngine, comment: Comment, findall: Matcher, now: Instant, d: real)
    requires ThresholdsAbove(e.metrics, d)
    requires Sparse(findall, comment.text, d)
    ensures Moderate(e, comment, findall, now).action == Approve
  {
    forall i | 0 <= i < |e.standards| && e.standards[i].1.enabled
      ensures !StandardFails(e.metrics, comment.text, e.standards[i].1, findall)
    {
      forall x | x in e.standards[i].1.metrics ensures !MetricFails(e.metrics, comment.text, x, findall) {
        SparseMetricPasses(e.metrics, comment.text, x, findall, d);
      }
    }
    ModerateApprovesIff(e, comment, findall, now);
  }

  /** A failing metric whose threshold is at least 0.7 makes its standard's
      violation HIGH or CRITICAL. */
  lemma HighThresholdFailureIsSevere(metrics: Registry.Registry<Metric>, text: string, std: Standard, x: string, findall: Matcher)
    requires x in std.metrics && MetricFails(metrics, text, x, findall) && ThresholdOf(metrics, x) >= 0.7
    ensures var vs := CheckStandard(metrics, text, std, findall);
      |vs| == 1 && SevereLevel(vs[0].severity)
  {
    CheckStandardSpec(metrics, text, std, findall);
    ViolatedMetricsSpec(metrics, text, std.metrics, findall);
    var vs := CheckStandard(metrics, text, std, findall);
    assert x in vs[0].violatedMetrics;
  }

  /** One enabled standard raising a HIGH or CRITICAL violation is enough
      for REMOVE. */
  lemma SevereStandardRemoves(e: StandardsEngine, comment: Comment, findall: Matcher, now: Instant, i: nat)
    requires i < |e.standards| && e.standards[i].1.enabled
    requires var vs := CheckStandard(e.metrics, comment.text, e.standards[i].1, findall);
      |vs| == 1 && SevereLevel(vs[0].severity)
    ensures Moderate(e, comment, findall, now).action == Remove
  {
    var vs := CheckStandard(e.metrics, comment.text, e.standards[i].1, findall);
    ScanIncludes(e.metrics, comment.text, e.standards, i, findall);
    var r := Moderate(e, comment, findall, now);
    assert vs[0] in r.violations;
    var k :| 0 <= k < |r.violations| && r.violations[k] == vs[0];
    assert SevereLevel(r.violations[k].severity);
  }
}

=== FILE: faq.dfy ===
/** The FAQ extractor: question detection and classification, question
    parts and key terms, Jaccard grouping of similar questions, and the
    batch aggregates over comments. Pattern searches go through a
    caller-supplied `Searcher`. */
module Faq {
  import opened Wrappers
  import opened Text
  import opened Seqs
  import opened Registry
  import opened Base
  import opened Grouping
  import opened Lexicon
  import AnalysisBase

  const QuestionPatterns: seq<string> := [
    "\\?",
    "\\b(how|what|when|where|why|who|which|can|could|would|should|is|are|do|does)\\b",
    "\\b(could you|can you|would you|will you)\\b",
    "\\b(anyone|someone|somebody)\\s+(know|tell|explain|show)"]

  const QuestionStarters: seq<string> := [
    "how do i", "how can i", "how to", "what is", "what are", "what does",
    "when does", "when will", "when is", "where can i", "where do i",
    "why is", "why does", "why don't", "who can", "who should", "who is"]

  /** The words `_extract_key_terms` drops. */
  const StopWords: set<string> := {
    "how", "what", "when", "where", "why", "who", "which", "can", "could",
    "would", "should", "is", "are", "do", "does", "will", "did", "the", "a",
    "an", "to", "for", "of", "in"}

  /** The substrings that make a question yes/no. */
  const YesNoMarkers: seq<string> := ["is", "are", "do", "does", "can", "will", "should"]

  /** The characters `_extract_question_parts` cuts at. */
  const PartDelimiters: set<char> := {'.', '?', ';'}

  /** `min_occurrences` and `similarity_threshold`. */
  datatype Config = Config(minOccurrences: int, threshold: real)

  const DefaultConfig := Config(3, 0.7)

  // ---------------------------------------------------------------------
  // Questions

  /** `_is_question`: a question mark, a question starter at the front of
      the lower-cased text, or a question pattern found in it. */
  function IsQuestion(text: string, search: Searcher): (q: bool)
    ensures '?' in text ==> q
    ensures (exists st :: st in QuestionStarters && st <= Lower(text)) ==> q
    ensures !q ==> forall p :: p in QuestionPatterns ==> !search(p, Lower(text))
    ensures q ==> ('?' in text || (exists st :: st in QuestionStarters && st <= Lower(text)) ||
                   exists p :: p in QuestionPatterns && search(p, Lower(text)))
  {
    ContainsChar(text, '?');
    Contains(text, "?") || AnyPrefix(QuestionStarters, Lower(text))
      || AnySearch(QuestionPatterns, Lower(text), search)
  }

  /** Whether a text is a question does not depend on its letter case. */
  lemma IsQuestionIgnoresCase(text: string, search: Searcher)
    ensures IsQuestion(Lower(text), search) == IsQuestion(text, search)
  {
    LowerIdempotent(text);
    LowerKeepsSymbol(text, '?');
    ContainsChar(text, '?');
    ContainsChar(Lower(text), '?');
  }

  /** The shapes `_classify_question_type` tells apart. */
  datatype QuestionType = HowTo | What | Why | When | Where | Who | YesNo | MultipleChoice | OpenEnded

  function TypeName(t: QuestionType): (s: string) {
    match t
    case HowTo => "how_to"
    case What => "what"
    case Why => "why"
    case When => "when"
    case Where => "where"
    case Who => "who"
    case YesNo => "yes_no"
    case MultipleChoice => "multiple_choice"
    case OpenEnded => "open_ended"
  }

  /** Type names are distinct, so a name gives the type back. */
  lemma TypeNameInjective(a: QuestionType, b: QuestionType)
    ensures TypeName(a) == TypeName(b) <==> a == b
  {
  }

  /** Some marker occurs anywhere in `s` (a substring test, not a word test). */
  predicate HasMarker(s: string) {
    exists m :: m in YesNoMarkers && Contains(s, m)
  }

  /** The text opens with one of the six question words the classifier tests first. */
  predicate WhOpening(s: string) {
    "how" <= s || "what" <= s || "why" <= s || "when" <= s || "where" <= s || "who" <= s
  }

  /** `_classify_question_type`: the first matching rule in order how, what,
      why, when, where, who (prefixes of the lower-cased text), then yes/no
      (a marker substring), then multiple choice ("or" and a comma). The six
      openings exclude one another, so each type is characterised by its
      own test. */
  function ClassifyQuestionType(text: string): (t: QuestionType)
    ensures t == HowTo <==> "how" <= Lower(text)
    ensures t == What <==> "what" <= Lower(text)
    ensures t == Why <==> "why" <= Lower(text)
    ensures t == When <==> "when" <= Lower(text)
    ensures t == Where <==> "where" <= Lower(text)
    ensures t == Who <==> "who" <= Lower(text)
    ensures t == YesNo <==> !WhOpening(Lower(text)) && HasMarker(Lower(text))
    ensures t == MultipleChoice <==> (!WhOpening(Lower(text)) && !HasMarker(Lower(text)) &&
                                      Contains(Lower(text), "or") && Contains(Lower(text), ","))
    ensures t == OpenEnded <==> (!WhOpening(Lower(text)) && !HasMarker(Lower(text)) &&
                                 !(Contains(Lower(text), "or") && Contains(Lower(text), ",")))
  {
    WhOpeningsExclusive(Lower(text));
    var s := Lower(text);
    if "how" <= s then HowTo
    else if "what" <= s then What
    else if "why" <= s then Why
    else if "when" <= s then When
    else if "where" <= s then Where
    else if "who" <= s then Who
    else if exists m :: m in YesNoMarkers && Contains(s, m) then YesNo
    else if Contains(s, "or") && Contains(s, ",") then MultipleChoice
    else OpenEnded
  }

  /** At most one of the six openings holds. */
  lemma WhOpeningsExclusive(s: string)
    ensures "how" <= s ==> !("what" <= s || "why" <= s || "when" <= s || "where" <= s || "who" <= s)
    ensures "what" <= s ==> !("why" <= s || "when" <= s || "where" <= s || "who" <= s)
    ensures "why" <= s ==> !("when" <= s || "where" <= s || "who" <= s)
    ensures "when" <= s ==> !("where" <= s || "who" <= s)
    ensures "where" <= s ==> !("who" <= s)
  {
    if "how" <= s { assert s[0] == 'h'; }
    if "what" <= s { assert s[2] == 'a'; }
    if "why" <= s { assert s[2] == 'y'; }
    if "when" <= s { assert s[2] == 'e' && s[3] == 'n'; }
    if "where" <= s { assert s[2] == 'e' && s[3] == 'r'; }
  }

  /** The question type does not depend on letter case. */
  lemma ClassifyIgnoresCase(text: string)
    ensures ClassifyQuestionType(Lower(text)) == ClassifyQuestionType(text)
  {
    LowerIdempotent(text);
  }

  // ---------------------------------------------------------------------
  // Parts and key terms

  /** A part as `_extract_question_parts` keeps it: stripped, longer than
      three characters, free of the characters in `d`. */
  predicate CleanPart(c: string, d: set<char>) {
    KeptPiece(c, 4) && forall j :: 0 <= j < |c| ==> c[j] !in d
  }

  /** `_extract_question_parts`: the text cut at '.', '?' and ';', each piece
      stripped, those longer than three characters, the first five. */
  function QuestionParts(text: string): (ps: seq<string>)
    ensures |ps| <= 5
    ensures ps <= KeptStripped(SplitChars(text, PartDelimiters), 4)
    ensures |ps| == if |KeptStripped(SplitChars(text, PartDelimiters), 4)| < 5
      then |KeptStripped(SplitChars(text, PartDelimiters), 4)| else 5
    ensures forall i :: 0 <= i < |ps| ==> CleanPart(ps[i], PartDelimiters)
  {
    var parts := SplitChars(text, PartDelimiters);
    KeptStrippedSound(parts, 4);
    KeptStrippedAvoids(parts, PartDelimiters, 4);
    PyTake(KeptStripped(parts, 4), 5)
  }

  /** A text without delimiters is one part: itself stripped, if long enough. */
  lemma UndelimitedText(text: string)
    requires forall i :: 0 <= i < |text| ==> text[i] !in PartDelimiters
    ensures QuestionParts(text) == if |Strip(text)| > 3 then [Strip(text)] else []
  {
    assert FirstIn(text, PartDelimiters) == |text|;
    assert SplitChars(text, PartDelimiters) == [text];
    assert [text][..0] == [];
  }

  /** `_extract_key_terms`: the first ten key terms of the lower-cased words. */
  function KeyTerms(text: string): (ts: seq<string>)
    ensures |ts| <= 10
    ensures ts <= Filtered(Split(Lower(text)), StopWords, 2)
    ensures |ts| == if |Filtered(Split(Lower(text)), StopWords, 2)| < 10
      then |Filtered(Split(Lower(text)), StopWords, 2)| else 10
    ensures forall t :: t in ts ==> t !in StopWords && |t| > 2 && t in Split(Lower(text))
  {
    var ts := PyTake(Filtered(Split(Lower(text)), StopWords, 2), 10);
    assert forall t :: t in ts ==> t in Filtered(Split(Lower(text)), StopWords, 2);
    ts
  }

  // ---------------------------------------------------------------------
  // Similarity

  /** `_are_similar`: both word sets non-empty and their Jaccard index at
      least `threshold`. */
  function AreSimilar(t1: string, t2: string, threshold: real): (b: bool)
    ensures AllSpace(t1) || AllSpace(t2) ==> !b
    ensures b <==> (!AllSpace(t1) && !AllSpace(t2) &&
      |WordSet(t1) * WordSet(t2)| as real >= threshold * |WordSet(t1) + WordSet(t2)| as real)
  {
    var a := WordSet(t1);
    var b := WordSet(t2);
    if a == {} || b == {} then false
    else
      UnionNonEmpty(a, b);
      JaccardScale(|a * b|, |a + b|, threshold);
      |a * b| as real / |a + b| as real >= threshold
  }

  lemma UnionNonEmpty(a: set<string>, b: set<string>)
    requires a != {}
    ensures |a + b| > 0
  {
    var x :| x in a;
    assert x in a + b;
  }

  lemma JaccardScale(i: nat, u: nat, threshold: real)
    requires u > 0
    ensures i as real / u as real >= threshold <==> i as real >= threshold * u as real
  {
    var q := i as real / u as real;
    assert q * u as real == i as real;
    if q >= threshold {
      assert q * u as real >= threshold * u as real;
    } else {
      assert q * u as real < threshold * u as real;
    }
  }

  /** Similarity does not depend on the order of the two texts. */
  lemma SimilarSymmetric(t1: string, t2: string, threshold: real)
    ensures AreSimilar(t1, t2, threshold) == AreSimilar(t2, t1, threshold)
  {
    assert WordSet(t1) * WordSet(t2) == WordSet(t2) * WordSet(t1);
    assert WordSet(t1) + WordSet(t2) == WordSet(t2) + WordSet(t1);
  }

  /** A text with a word is similar to itself for any threshold up to 1. */
  lemma SimilarReflexive(t: string, threshold: real)
    requires !AllSpace(t) && threshold <= 1.0
    ensures AreSimilar(t, t, threshold)
  {
    var a := WordSet(t);
    assert a * a == a && a + a == a;
    assert |a| as real >= threshold * |a| as real;
  }

  // ---------------------------------------------------------------------
  // Grouping

  /** A question collected by `extract_faqs`. */
  datatype Question = Question(commentId: string, text: string, questionType: Option<QuestionType>, keyTerms: seq<string>)

  /** An FAQ: its leading question (whose text, type and key terms the FAQ
      reports), its frequency and its member questions (the examples). */
  type FaqGroup = Cluster<Question>

  /** The `examples` of an FAQ: the texts of its questions. */
  function Examples(g: FaqGroup): (es: seq<string>)
    ensures |es| == |g.members|
    ensures forall k :: 0 <= k < |es| ==> es[k] == g.members[k].text
  {
    seq(|g.members|, k requires 0 <= k < |g.members| => g.members[k].text)
  }

  function FrequencyOf(g: FaqGroup): real { g.frequency as real }

  /** `_are_similar` on the texts of two questions. */
  function QuestionsSimilar(threshold: real): (Question, Question) -> bool {
    (a: Question, b: Question) => AreSimilar(a.text, b.text, threshold)
  }

  /** `_group_similar_questions`: first-fit grouping by text similarity,
      then the groups of at least `min_occurrences` questions. */
  function GroupSimilar(cfg: Config, qs: seq<Question>): (gs: seq<FaqGroup>)
    ensures |gs| <= |qs|
    ensures forall g :: g in gs ==> (g.frequency >= cfg.minOccurrences && g.frequency == |Examples(g)| > 0 &&
      Examples(g)[0] == g.lead.text &&
      forall k :: 1 <= k < |g.members| ==> AreSimilar(Examples(g)[k], g.lead.text, cfg.threshold))
    ensures multiset(AllMembers(gs)) <= multiset(qs)
    ensures gs == Frequent(Group(qs, QuestionsSimilar(cfg.threshold)), cfg.minOccurrences)
  {
    var gs := GroupFrequent(qs, QuestionsSimilar(cfg.threshold), cfg.minOccurrences);
    FaqsWellFormed(gs, cfg.threshold);
    gs
  }

  lemma FaqsWellFormed(gs: seq<FaqGroup>, threshold: real)
    requires forall k :: 0 <= k < |gs| ==> WellFormed(gs[k], QuestionsSimilar(threshold))
    ensures forall g :: g in gs ==> (g.frequency == |Examples(g)| > 0 && Examples(g)[0] == g.lead.text &&
      forall k :: 1 <= k < |g.members| ==> AreSimilar(Examples(g)[k], g.lead.text, threshold))
  {
    forall g | g in gs
      ensures g.frequency == |Examples(g)| > 0 && Examples(g)[0] == g.lead.text &&
        forall k :: 1 <= k < |g.members| ==> AreSimilar(Examples(g)[k], g.lead.text, threshold)
    {
      var i :| 0 <= i < |gs| && gs[i] == g;
      assert WellFormed(g, QuestionsSimilar(threshold));
    }
  }

  /** The FAQs returned hold no more questions than were asked. */
  lemma GroupSimilarTotal(cfg: Config, qs: seq<Question>)
    ensures TotalFrequency(GroupSimilar(cfg, qs)) <= |qs|
  {
    GroupFrequentTotal(qs, QuestionsSimilar(cfg.threshold), cfg.minOccurrences);
  }

  /** Two questions with the same words are grouped together at any threshold up to 1. */
  lemma SameWordsGroup(q1: Question, q2: Question, threshold: real)
    requires !AllSpace(q1.text) && WordSet(q2.text) == WordSet(q1.text) && threshold <= 1.0
    ensures |Group([q1, q2], QuestionsSimilar(threshold))| == 1
  {
    SimilarReflexive(q1.text, threshold);
    SplitEmptyIffAllSpace(q2.text);
    assert !AllSpace(q2.text);
    SimilarPairGroups(q1, q2, QuestionsSimilar(threshold));
  }

  // ---------------------------------------------------------------------
  // The analysis

  /** The data `analyze` reports. */
  datatype FaqReport = FaqReport(
    isQuestion: bool, questionType: Option<QuestionType>, questionParts: seq<string>,
    keyTerms: seq<string>, length: nat, wordCount: nat, confidence: real)

  /** `analyze`: None for an invalid comment (the error result). */
  function Analyze(search: Searcher, c: Comment): (r: Option<FaqReport>)
    ensures r.None? <==> !AnalysisBase.ValidateComment(c)
    ensures r.Some? ==> r.value.isQuestion == IsQuestion(c.text, search)
    ensures r.Some? ==> (r.value.isQuestion <==> r.value.questionType.Some?)
    ensures r.Some? && r.value.isQuestion ==>
      r.value.confidence == 0.9 && r.value.questionType == Some(ClassifyQuestionType(c.text)) &&
      r.value.questionParts == QuestionParts(c.text)
    ensures r.Some? && !r.value.isQuestion ==> r.value.confidence == 0.1 && r.value.questionParts == []
    ensures r.Some? ==> r.value.keyTerms == KeyTerms(c.text) && r.value.length == |c.text|
    ensures r.Some? ==> r.value.wordCount == WordCount(c.text) && r.value.wordCount > 0
  {
    if !AnalysisBase.ValidateComment(c) then None
    else
      var q := IsQuestion(c.text, search);
      SplitEmptyIffAllSpace(c.text);
      Some(FaqReport(
        q, if q then Some(ClassifyQuestionType(c.text)) else None,
        if q then QuestionParts(c.text) else [],
        KeyTerms(c.text), |c.text|, |Split(c.text)|, if q then 0.9 else 0.1))
  }

  /** `analyze_batch`. */
  function AnalyzeBatch(search: Searcher, comments: seq<Comment>): (rs: seq<Option<FaqReport>>)
    ensures |rs| == |comments|
    ensures forall i :: 0 <= i < |rs| ==> rs[i] == Analyze(search, comments[i])
  {
    seq(|comments|, i requires 0 <= i < |comments| => Analyze(search, comments[i]))
  }

  /** The question collected from a comment and its result. */
  function AsQuestion(c: Comment, r: FaqReport): Question {
    Question(c.id, c.text, r.questionType, r.keyTerms)
  }

  /** The successful results that are questions, in comment order. */
  function Questions(comments: seq<Comment>, rs: seq<Option<FaqReport>>): (qs: seq<Question>)
    requires |rs| == |comments|
    ensures |qs| <= |comments|
    ensures forall i :: 0 <= i < |rs| && rs[i].Some? && rs[i].value.isQuestion ==>
      AsQuestion(comments[i], rs[i].value) in qs
    ensures forall q :: q in qs ==> exists i :: (0 <= i < |rs| && rs[i].Some? && rs[i].value.isQuestion &&
      q == AsQuestion(comments[i], rs[i].value))
  {
    if |rs| == 0 then []
    else
      var n := |rs| - 1;
      var rest := Questions(comments[..n], rs[..n]);
      assert forall i :: 0 <= i < n ==> comments[..n][i] == comments[i] && rs[..n][i] == rs[i];
      if rs[n].Some? && rs[n].value.isQuestion then rest + [AsQuestion(comments[n], rs[n].value)] else rest
  }

  /** `extract_faqs`: the groups of similar questions, most frequent first
      (ties in order of first appearance), at most `limit` of them. */
  function ExtractFaqs(cfg: Config, search: Searcher, comments: seq<Comment>, limit: int): (faqs: seq<FaqGroup>)
    ensures var gs := GroupSimilar(cfg, Questions(comments, AnalyzeBatch(search, comments)));
      limit >= 0 ==> |faqs| == if limit < |gs| then limit else |gs|
    ensures SortedBy(faqs, FrequencyOf)
    ensures forall g :: g in faqs ==> g in GroupSimilar(cfg, Questions(comments, AnalyzeBatch(search, comments)))
    ensures multiset(faqs) <= multiset(GroupSimilar(cfg, Questions(comments, AnalyzeBatch(search, comments))))
  {
    var qs := Questions(comments, AnalyzeBatch(search, comments));
    Rank(GroupSimilar(cfg, qs), FrequencyOf, limit)
  }

  /** An FAQ left out is no more frequent than any FAQ returned. */
  lemma ExtractFaqsDominates(cfg: Config, search: Searcher, comments: seq<Comment>, limit: int, f: FaqGroup, g: FaqGroup)
    requires f in ExtractFaqs(cfg, search, comments, limit)
    requires g in GroupSimilar(cfg, Questions(comments, AnalyzeBatch(search, comments)))
    requires g !in ExtractFaqs(cfg, search, comments, limit)
    ensures f.frequency >= g.frequency
  {
    var gs := GroupSimilar(cfg, Questions(comments, AnalyzeBatch(search, comments)));
    RankDominates(gs, FrequencyOf, limit, f, g);
  }

  /** The type names of the successful questions, in order. */
  function TypeNames(rs: seq<Option<FaqReport>>): (ns: seq<string>)
    ensures ns == [] <==> forall i :: 0 <= i < |rs| ==> rs[i].None? || rs[i].value.questionType.None?
    ensures forall n :: n in ns ==> exists i :: (0 <= i < |rs| && rs[i].Some? &&
      rs[i].value.questionType.Some? && n == TypeName(rs[i].value.questionType.value))
    ensures forall i :: 0 <= i < |rs| && rs[i].Some? && rs[i].value.questionType.Some? ==>
      TypeName(rs[i].value.questionType.value) in ns
  {
    if |rs| == 0 then []
    else
      var n := |rs| - 1;
      assert forall i :: 0 <= i < n ==> rs[..n][i] == rs[i];
      var rest := TypeNames(rs[..n]);
      if rs[n].Some? && rs[n].value.questionType.Some? then rest + [TypeName(rs[n].value.questionType.value)] else rest
  }

  /** `get_question_types_distribution`: each question type's share of the
      questions among the valid comments; empty when there is none. */
  function QuestionTypesDistribution(search: Searcher, comments: seq<Comment>): (d: Registry<real>)
    ensures d == [] <==> forall i :: 0 <= i < |comments| ==>
      !AnalysisBase.ValidateComment(comments[i]) || !IsQuestion(comments[i].text, search)
    ensures d != [] ==> Shares(d)
    ensures var ns := TypeNames(AnalyzeBatch(search, comments));
      d != [] ==> ((forall k :: Has(d, k) <==> k in ns) &&
        (forall k :: k in ns ==> Get(d, k) == Some(Count(ns, k) as real / |ns| as real)))
  {
    var rs := AnalyzeBatch(search, comments);
    var ns := TypeNames(rs);
    if ns == [] then []
    else
      FrequenciesShares(ns);
      FrequenciesAll(ns);
      Frequencies(ns)
  }

  /** Every key term of the successful results, in order. */
  function AllTerms(rs: seq<Option<FaqReport>>): (ts: seq<string>)
    ensures forall t :: t in ts ==> exists i :: 0 <= i < |rs| && rs[i].Some? && t in rs[i].value.keyTerms
    ensures forall i, t :: 0 <= i < |rs| && rs[i].Some? && t in rs[i].value.keyTerms ==> t in ts
  {
    if |rs| == 0 then []
    else
      var n := |rs| - 1;
      assert forall i :: 0 <= i < n ==> rs[..n][i] == rs[i];
      AllTerms(rs[..n]) + (if rs[n].Some? then rs[n].value.keyTerms else [])
  }

  /** `get_common_key_terms`: the `limit` most frequent key terms with their
      counts, most frequent first. */
  function CommonKeyTerms(search: Searcher, comments: seq<Comment>, limit: int): (top: seq<(string, int)>)
    ensures limit <= 0 ==> top == []
    ensures |top| <= if limit < 0 then 0 else limit
    ensures SortedBy(top, CountOf)
    ensures forall p :: p in top ==> (p.0 !in StopWords && |p.0| > 2 &&
      p.1 == Count(AllTerms(AnalyzeBatch(search, comments)), p.0))
    ensures var d := Distinct(AllTerms(AnalyzeBatch(search, comments)));
      limit > 0 ==> |top| == if limit < |d| then limit else |d|
  {
    var rs := AnalyzeBatch(search, comments);
    var ts := AllTerms(rs);
    var top := MostCommon(Tally(ts), limit);
    MostCommonTally(ts, limit);
    forall p | p in top ensures p.0 !in StopWords && |p.0| > 2 && p.1 == Count(ts, p.0) {
      MostCommonCounts(ts, limit, p);
      var i :| 0 <= i < |rs| && rs[i].Some? && p.0 in rs[i].value.keyTerms;
    }
    top
  }

  /** A key term that `get_common_key_terms` leaves out is no more frequent
      than any term it returns. */
  lemma CommonKeyTermsDominate(search: Searcher, comments: seq<Comment>, limit: int, p: (string, int), t: string)
    requires p in CommonKeyTerms(search, comments, limit)
    requires t in AllTerms(AnalyzeBatch(search, comments))
    requires forall q :: q in CommonKeyTerms(search, comments, limit) ==> q.0 != t
    ensures p.1 >= Count(AllTerms(AnalyzeBatch(search, comments)), t)
  {
    TallyTopDominates(AllTerms(AnalyzeBatch(search, comments)), limit, p, t);
  }
}

=== FILE: grouping.dfy ===
/** The first-fit grouping loop shared by the FAQ extractor and the content
    ideator: each item joins the first group whose leading item it is
    similar to, or opens a new group; groups below a minimum size are then
    dropped, and the rest ranked by a key. */
module Grouping {
  import opened Seqs

  /** A group: its leading item, its counter, and every item that joined it
      (the leading item first). Similarity tests `similar(x, lead)` take the
      new item first and a group's leading item second. */
  datatype Cluster<T> = Cluster(lead: T, frequency: int, members: seq<T>)

  /** A group counts its members, the first of which is its leading item,
      and every later member is similar to the leading item. */
  predicate WellFormed<T(==)>(g: Cluster<T>, similar: (T, T) -> bool) {
    g.frequency == |g.members| && |g.members| > 0 && g.members[0] == g.lead &&
    forall k :: 1 <= k < |g.members| ==> similar(g.members[k], g.lead)
  }

  /** Every group is well formed, and no leading item is similar to an earlier one. */
  predicate Grouped<T(==)>(gs: seq<Cluster<T>>, similar: (T, T) -> bool) {
    (forall i :: 0 <= i < |gs| ==> WellFormed(gs[i], similar)) &&
    forall i, j :: 0 <= i < j < |gs| ==> !similar(gs[j].lead, gs[i].lead)
  }

  /** The first group whose leading item `x` is similar to, or |gs|. */
  function FirstSimilar<T>(gs: seq<Cluster<T>>, x: T, similar: (T, T) -> bool): (i: nat)
    ensures i <= |gs|
    ensures i < |gs| ==> similar(x, gs[i].lead)
    ensures forall j :: 0 <= j < i ==> !similar(x, gs[j].lead)
  {
    if |gs| == 0 then 0
    else if similar(x, gs[0].lead) then 0
    else 1 + FirstSimilar(gs[1..], x, similar)
  }

  /** Every member of every group, group by group. */
  function AllMembers<T>(gs: seq<Cluster<T>>): seq<T> {
    if |gs| == 0 then [] else AllMembers(gs[..|gs| - 1]) + gs[|gs| - 1].members
  }

  /** Adding a member to one group adds it to the members overall. */
  lemma {:induction false} MembersUpdate<T>(gs: seq<Cluster<T>>, i: nat, g: Cluster<T>, x: T)
    requires i < |gs| && g.members == gs[i].members + [x]
    ensures multiset(AllMembers(gs[i := g])) == multiset(AllMembers(gs)) + multiset{x}
    decreases |gs|
  {
    var n := |gs|;
    var hs := gs[i := g];
    MembersLast(gs);
    MembersLast(hs);
    if i == n - 1 {
      assert hs[..n - 1] == gs[..n - 1];
      ShiftedByOne(multiset(AllMembers(gs[..n - 1])), multiset(gs[n - 1].members), multiset(g.members), x);
    } else {
      assert hs[..n - 1] == gs[..n - 1][i := g];
      MembersUpdate(gs[..n - 1], i, g, x);
      ShiftedByOne(multiset(gs[n - 1].members), multiset(AllMembers(gs[..n - 1])),
        multiset(AllMembers(hs[..n - 1])), x);
    }
  }

  lemma MembersLast<T>(gs: seq<Cluster<T>>)
    requires |gs| > 0
    ensures multiset(AllMembers(gs)) ==
      multiset(AllMembers(gs[..|gs| - 1])) + multiset(gs[|gs| - 1].members)
  {
  }

  lemma ShiftedByOne<T>(f: multiset<T>, a: multiset<T>, b: multiset<T>, x: T)
    requires b == a + multiset{x}
    ensures f + b == f + a + multiset{x}
    ensures b + f == a + f + multiset{x}
  {
  }

  lemma MembersAppend<T>(gs: seq<Cluster<T>>, g: Cluster<T>)
    ensures AllMembers(gs + [g]) == AllMembers(gs) + g.members
  {
    assert (gs + [g])[..|gs|] == gs;
  }

  /** One step of the loop: join the first similar group (counter and
      members grow by one), or open a new group of one. */
  function Place<T(==)>(gs: seq<Cluster<T>>, x: T, similar: (T, T) -> bool): (r: seq<Cluster<T>>)
    requires Grouped(gs, similar)
    ensures Grouped(r, similar)
    ensures |gs| <= |r| <= |gs| + 1
    ensures multiset(AllMembers(r)) == multiset(AllMembers(gs)) + multiset{x}
  {
    var i := FirstSimilar(gs, x, similar);
    if i == |gs| then
      var g := Cluster(x, 1, [x]);
      MembersAppend(gs, g);
      gs + [g]
    else
      var g := gs[i].(frequency := gs[i].frequency + 1, members := gs[i].members + [x]);
      assert WellFormed(g, similar) by {
        forall k | 1 <= k < |g.members| ensures similar(g.members[k], g.lead) {
          if k < |gs[i].members| { assert g.members[k] == gs[i].members[k]; }
        }
      }
      MembersUpdate(gs, i, g, x);
      gs[i := g]
  }

  /** The whole loop: every item lands in exactly one group. */
  function Group<T(==)>(xs: seq<T>, similar: (T, T) -> bool): (gs: seq<Cluster<T>>)
    ensures Grouped(gs, similar)
    ensures |gs| <= |xs|
    ensures multiset(AllMembers(gs)) == multiset(xs)
  {
    if |xs| == 0 then []
    else
      var pre := xs[..|xs| - 1];
      assert xs == pre + [xs[|xs| - 1]];
      Place(Group(pre, similar), xs[|xs| - 1], similar)
  }

  /** Two items, the second similar to the first, form one group of two. */
  lemma SimilarPairGroups<T>(a: T, b: T, similar: (T, T) -> bool)
    requires similar(b, a)
    ensures |Group([a, b], similar)| == 1
    ensures Group([a, b], similar)[0].frequency == 2
  {
    assert [a, b][..1] == [a];
    assert [a][..0] == [];
  }

  /** Two items that are not similar open two groups. */
  lemma DissimilarPairSplits<T>(a: T, b: T, similar: (T, T) -> bool)
    requires !similar(b, a)
    ensures |Group([a, b], similar)| == 2
  {
    assert [a, b][..1] == [a];
    assert [a][..0] == [];
  }

  /** The groups with a counter of at least `min`, in order. */
  function Frequent<T>(gs: seq<Cluster<T>>, min: int): (r: seq<Cluster<T>>)
    ensures |r| <= |gs|
    ensures forall k :: 0 <= k < |r| ==> r[k] in gs && r[k].frequency >= min
    ensures forall k :: 0 <= k < |gs| && gs[k].frequency >= min ==> gs[k] in r
    ensures multiset(AllMembers(r)) <= multiset(AllMembers(gs))
  {
    if |gs| == 0 then []
    else
      var pre := gs[..|gs| - 1];
      var last := gs[|gs| - 1];
      assert gs == pre + [last];
      assert forall k :: 0 <= k < |pre| ==> pre[k] == gs[k];
      var rest := Frequent(pre, min);
      MembersAppend(pre, last);
      if last.frequency >= min then
        MembersAppend(rest, last);
        rest + [last]
      else rest
  }

  lemma FrequentWellFormed<T>(gs: seq<Cluster<T>>, similar: (T, T) -> bool, min: int)
    requires forall i :: 0 <= i < |gs| ==> WellFormed(gs[i], similar)
    ensures forall k :: 0 <= k < |Frequent(gs, min)| ==> WellFormed(Frequent(gs, min)[k], similar)
  {
    var r := Frequent(gs, min);
    forall k | 0 <= k < |r| ensures WellFormed(r[k], similar) {
      var i :| 0 <= i < |gs| && gs[i] == r[k];
    }
  }

  /** Group, then drop the groups smaller than `min`. */
  function GroupFrequent<T(==)>(xs: seq<T>, similar: (T, T) -> bool, min: int): (gs: seq<Cluster<T>>)
    ensures |gs| <= |xs|
    ensures forall k :: 0 <= k < |gs| ==> gs[k].frequency >= min && WellFormed(gs[k], similar)
    ensures multiset(AllMembers(gs)) <= multiset(xs)
    ensures gs == Frequent(Group(xs, similar), min)
  {
    var all := Group(xs, similar);
    FrequentWellFormed(all, similar, min);
    Frequent(all, min)
  }

  /** A member of one group is among all the members. */
  lemma {:induction false} MemberInAll<T>(gs: seq<Cluster<T>>, k: nat, x: T)
    requires k < |gs| && x in gs[k].members
    ensures x in AllMembers(gs)
  {
    var n := |gs| - 1;
    if k < n {
      MemberInAll(gs[..n], k, x);
    }
  }

  /** Every member of a surviving group is one of the items grouped. */
  lemma GroupFrequentMembers<T>(xs: seq<T>, similar: (T, T) -> bool, min: int, k: nat, x: T)
    requires k < |GroupFrequent(xs, similar, min)| && x in GroupFrequent(xs, similar, min)[k].members
    ensures x in xs
  {
    var gs := GroupFrequent(xs, similar, min);
    MemberInAll(gs, k, x);
    assert x in multiset(AllMembers(gs));
  }

  /** The sum of the counters. */
  function TotalFrequency<T>(gs: seq<Cluster<T>>): int {
    if |gs| == 0 then 0 else TotalFrequency(gs[..|gs| - 1]) + gs[|gs| - 1].frequency
  }

  lemma {:induction false} TotalIsMembers<T>(gs: seq<Cluster<T>>, similar: (T, T) -> bool)
    requires forall k :: 0 <= k < |gs| ==> WellFormed(gs[k], similar)
    ensures TotalFrequency(gs) == |AllMembers(gs)|
  {
    if |gs| > 0 {
      var pre := gs[..|gs| - 1];
      assert forall k :: 0 <= k < |pre| ==> pre[k] == gs[k];
      TotalIsMembers(pre, similar);
    }
  }

  lemma SubMultisetSize<T>(a: multiset<T>, b: multiset<T>)
    requires a <= b
    ensures |a| <= |b|
  {
    assert b == a + (b - a);
  }

  /** The surviving groups hold no more items than were grouped. */
  lemma GroupFrequentTotal<T>(xs: seq<T>, similar: (T, T) -> bool, min: int)
    ensures TotalFrequency(GroupFrequent(xs, similar, min)) <= |xs|
  {
    var gs := GroupFrequent(xs, similar, min);
    TotalIsMembers(gs, similar);
    SubMultisetSize(multiset(AllMembers(gs)), multiset(xs));
  }

  /** `sorted(groups, key=key, reverse=True)[:limit]`. */
  function Rank<T(==)>(gs: seq<Cluster<T>>, key: Cluster<T> -> real, limit: int): (top: seq<Cluster<T>>)
    ensures limit >= 0 ==> |top| == if limit < |gs| then limit else |gs|
    ensures |top| <= |gs|
    ensures SortedBy(top, key)
    ensures multiset(top) <= multiset(gs)
    ensures forall k :: 0 <= k < |top| ==> top[k] in gs
  {
    var sorted := SortDesc(gs, key);
    SortTakeWithin(gs, key, limit);
    PyTake(sorted, limit)
  }

  /** A group left out of the ranking has no larger key than any group in it. */
  lemma RankDominates<T>(gs: seq<Cluster<T>>, key: Cluster<T> -> real, limit: int, f: Cluster<T>, g: Cluster<T>)
    requires f in Rank(gs, key, limit) && g in gs && g !in Rank(gs, key, limit)
    ensures key(f) >= key(g)
  {
    var sorted := SortDesc(gs, key);
    var top := Rank(gs, key, limit);
    assert top == sorted[..|top|];
    assert g in multiset(sorted);
    TopOfSorted(sorted, |top|, key, f, g);
  }
}

=== FILE: ideation.dfy ===
/** The content ideator: content requests, a first-match topic, themes, a
    content type, the ideation score, grouping of requests by topic, and the
    batch aggregates. Pattern searches go through a caller-supplied
    `Searcher`. */
module Ideation {
  import opened Wrappers
  import opened Text
  import opened Seqs
  import opened Registry
  import opened Base
  import opened Lexicon
  import opened Grouping
  import AnalysisBase

  const RequestPatterns: seq<string> := [
    "\\b(more|another|next|future)\\s+(content|video|post|article)",
    "\\b(wish|hope|want|need)\\s+(to see|would like)",
    "\\b(make|create|do)\\s+(a video|a tutorial|a guide)",
    "\\b(tutorial|guide|how to|explain)\\s+(please|can someone)"]

  const TutorialMarkers: seq<string> := ["tutorial", "guide", "how to", "learn", "explain"]
  const ProductReviewMarkers: seq<string> := ["review", "comparison", "vs", "versus", "rating"]
  const NewsMarkers: seq<string> := ["news", "update", "announcement", "breaking"]
  const EntertainmentMarkers: seq<string> := ["funny", "meme", "joke", "entertainment"]
  const DiscussionMarkers: seq<string> := ["discussion", "opinion", "thoughts", "take on"]
  const HelpMarkers: seq<string> := ["help", "question", "issue", "problem", "stuck"]
  const FeedbackMarkers: seq<string> := ["suggestion", "improvement", "feedback", "idea"]

  /** Topics with their indicator substrings, in declaration order. */
  const TopicIndicators: Table := [
    ("tutorial", TutorialMarkers),
    ("product_review", ProductReviewMarkers),
    ("news", NewsMarkers),
    ("entertainment", EntertainmentMarkers),
    ("discussion", DiscussionMarkers),
    ("help", HelpMarkers),
    ("feedback", FeedbackMarkers)]

  /** The words `_extract_themes` drops. */
  const ThemeStopWords: set<string> := {
    "the", "a", "an", "and", "or", "but", "is", "are", "was", "were", "be",
    "been", "being", "have", "has", "had", "do", "does", "did", "will",
    "would", "could"}

  const FeedbackWords: seq<string> := ["suggest", "improve", "better", "should", "add", "feature"]
  const ComplaintWords: seq<string> := ["problem", "issue", "broken", "not working", "bug"]
  const AppreciationWords: seq<string> := ["love", "great", "awesome", "thanks", "thank", "good"]

  /** `min_requests` and `min_score`. */
  datatype Config = Config(minRequests: int, minScore: real)

  const DefaultConfig := Config(5, 0.6)

  // ---------------------------------------------------------------------
  // One comment

  /** `_is_content_request`: a request pattern is found in the lower-cased text. */
  function IsContentRequest(text: string, search: Searcher): (b: bool)
    ensures b <==> exists p :: p in RequestPatterns && search(p, Lower(text))
  {
    AnySearch(RequestPatterns, Lower(text), search)
  }

  /** Some entry of `subs` occurs in `s`. */
  predicate Mentions(s: string, subs: seq<string>) {
    exists w :: w in subs && Contains(s, w)
  }

  /** The first category of `table` one of whose entries occurs in `s`, or |table|. */
  function FirstMentioned(table: Table, s: string): (i: nat)
    ensures i <= |table|
    ensures i < |table| ==> Mentions(s, table[i].1)
    ensures forall j :: 0 <= j < i ==> !Mentions(s, table[j].1)
  {
    if |table| == 0 then 0
    else if Mentions(s, table[0].1) then 0
    else 1 + FirstMentioned(table[1..], s)
  }

  /** `_extract_topic`: the first declared topic with an indicator in the
      lower-cased text, or None. */
  function ExtractTopic(text: string): (t: Option<string>)
    ensures t.None? <==> forall i :: 0 <= i < |TopicIndicators| ==> !Mentions(Lower(text), TopicIndicators[i].1)
    ensures t.Some? ==> exists i :: (0 <= i < |TopicIndicators| && TopicIndicators[i].0 == t.value &&
      Mentions(Lower(text), TopicIndicators[i].1) &&
      forall j :: 0 <= j < i ==> !Mentions(Lower(text), TopicIndicators[j].1))
  {
    var i := FirstMentioned(TopicIndicators, Lower(text));
    if i == |TopicIndicators| then None else Some(TopicIndicators[i].0)
  }

  /** A text asking for a tutorial is a tutorial idea, whatever else it mentions. */
  lemma TutorialFirst(text: string)
    requires Contains(Lower(text), "tutorial")
    ensures ExtractTopic(text) == Some("tutorial")
  {
    assert Mentions(Lower(text), TopicIndicators[0].1);
  }

  /** `_extract_themes`: the first ten lower-cased words longer than three
      characters that are not stop words. */
  function Themes(text: string): (ts: seq<string>)
    ensures |ts| <= 10
    ensures ts <= Filtered(Split(Lower(text)), ThemeStopWords, 3)
    ensures |ts| == if |Filtered(Split(Lower(text)), ThemeStopWords, 3)| < 10
      then |Filtered(Split(Lower(text)), ThemeStopWords, 3)| else 10
    ensures forall t :: t in ts ==> t !in ThemeStopWords && |t| > 3 && t in Split(Lower(text))
  {
    var ts := PyTake(Filtered(Split(Lower(text)), ThemeStopWords, 3), 10);
    assert forall t :: t in ts ==> t in Filtered(Split(Lower(text)), ThemeStopWords, 3);
    ts
  }

  /** The kinds `_classify_content_type` tells apart. */
  datatype ContentType = Question | Feedback | Complaint | Appreciation | General

  function ContentTypeName(t: ContentType): string {
    match t
    case Question => "question"
    case Feedback => "feedback"
    case Complaint => "complaint"
    case Appreciation => "appreciation"
    case General => "general"
  }

  /** `_classify_content_type`: a question mark decides first, then feedback,
      complaint and appreciation words (substrings of the lower-cased text). */
  function ClassifyContentType(text: string): (t: ContentType)
    ensures t == Question <==> '?' in text
    ensures t == Feedback <==> '?' !in text && Mentions(Lower(text), FeedbackWords)
    ensures t == Complaint <==> ('?' !in text && !Mentions(Lower(text), FeedbackWords) &&
      Mentions(Lower(text), ComplaintWords))
    ensures t == Appreciation <==> ('?' !in text && !Mentions(Lower(text), FeedbackWords) &&
      !Mentions(Lower(text), ComplaintWords) && Mentions(Lower(text), AppreciationWords))
  {
    ContainsChar(text, '?');
    var s := Lower(text);
    if Contains(text, "?") then Question
    else if Mentions(s, FeedbackWords) then Feedback
    else if Mentions(s, ComplaintWords) then Complaint
    else if Mentions(s, AppreciationWords) then Appreciation
    else General
  }

  /** Feedback words win over complaint words: "the bug should be fixed" is feedback. */
  lemma FeedbackBeforeComplaint(text: string)
    requires '?' !in text && Contains(Lower(text), "should") && Contains(Lower(text), "bug")
    ensures ClassifyContentType(text) == Feedback
  {
    assert "should" in FeedbackWords;
  }

  // ---------------------------------------------------------------------
  // The score

  /** `min(len(themes) * 0.05, 0.2)` for a non-empty theme list, else 0. */
  function ThemeBonus(n: nat): (b: real)
    ensures 0.0 <= b <= 0.2
    ensures n > 0 ==> b > 0.0
  {
    if n == 0 then 0.0
    else if n as real * 0.05 < 0.2 then n as real * 0.05 else 0.2
  }

  /** The sum of the four bonuses, before the cap at 1. */
  function RawScore(length: int, isRequest: bool, hasTopic: bool, themes: nat): real {
    (if isRequest then 0.4 else 0.0) + (if hasTopic then 0.3 else 0.0) + ThemeBonus(themes) +
    (if 50 <= length <= 300 then 0.1 else 0.0)
  }

  /** `_calculate_ideation_score`: the bonuses capped at 1. */
  function IdeationScore(length: int, isRequest: bool, hasTopic: bool, themes: nat): (s: real)
    ensures 0.0 <= s <= 1.0
  {
    var raw := RawScore(length, isRequest, hasTopic, themes);
    if raw < 1.0 then raw else 1.0
  }

  /** The bonuses add up to at most 1, so the cap never changes the score. */
  lemma CapNeverBinds(length: int, isRequest: bool, hasTopic: bool, themes: nat)
    ensures IdeationScore(length, isRequest, hasTopic, themes) == RawScore(length, isRequest, hasTopic, themes)
  {
  }

  /** A theme bonus stops growing at four themes. */
  lemma ThemeBonusSaturates(n: nat)
    ensures n >= 4 ==> ThemeBonus(n) == 0.2
    ensures 0 < n < 4 ==> ThemeBonus(n) == n as real * 0.05
  {
  }

  /** Each bonus only ever raises the score. */
  lemma ScoreMonotone(length: int, r1: bool, r2: bool, t1: bool, t2: bool, n1: nat, n2: nat)
    requires (r1 ==> r2) && (t1 ==> t2) && n1 <= n2
    ensures IdeationScore(length, r1, t1, n1) <= IdeationScore(length, r2, t2, n2)
  {
    assert ThemeBonus(n1) <= ThemeBonus(n2);
  }

  /** Without a request a comment scores at most 0.6, the default minimum. */
  lemma NonRequestCeiling(length: int, hasTopic: bool, themes: nat)
    ensures IdeationScore(length, false, hasTopic, themes) <= 0.6
  {
  }

  // ---------------------------------------------------------------------
  // The analysis

  /** The data `analyze` reports. */
  datatype IdeaReport = IdeaReport(
    isRequest: bool, contentType: ContentType, topic: Option<string>, themes: seq<string>,
    score: real, length: nat, wordCount: nat, confidence: real)

  /** `analyze`: None for an invalid comment (the error result). */
  function Analyze(search: Searcher, c: Comment): (r: Option<IdeaReport>)
    ensures r.None? <==> !AnalysisBase.ValidateComment(c)
    ensures r.Some? ==> (r.value.isRequest == IsContentRequest(c.text, search) &&
      r.value.topic == ExtractTopic(c.text) && r.value.themes == Themes(c.text) &&
      r.value.contentType == ClassifyContentType(c.text))
    ensures r.Some? ==> (0.0 <= r.value.score <= 1.0 && r.value.confidence == r.value.score &&
      r.value.score == IdeationScore(|c.text|, r.value.isRequest, r.value.topic.Some?, |r.value.themes|))
    ensures r.Some? ==> r.value.length == |c.text| && r.value.wordCount == WordCount(c.text)
    ensures r.Some? ==> r.value.wordCount > 0
  {
    if !AnalysisBase.ValidateComment(c) then None
    else
      var text := c.text;
      var req := IsContentRequest(text, search);
      var topic := ExtractTopic(text);
      var themes := Themes(text);
      var score := IdeationScore(|text|, req, topic.Some?, |themes|);
      SplitEmptyIffAllSpace(text);
      Some(IdeaReport(req, ClassifyContentType(text), topic, themes, score, |text|, |Split(text)|, score))
  }

  /** `analyze_batch`. */
  function AnalyzeBatch(search: Searcher, comments: seq<Comment>): (rs: seq<Option<IdeaReport>>)
    ensures |rs| == |comments|
    ensures forall i :: 0 <= i < |rs| ==> rs[i] == Analyze(search, comments[i])
  {
    seq(|comments|, i requires 0 <= i < |comments| => Analyze(search, comments[i]))
  }

  // ---------------------------------------------------------------------
  // Ideas

  /** A request collected by `suggest_content_ideas`. */
  datatype Idea = Idea(commentId: string, text: string, topic: Option<string>, themes: seq<string>,
                       score: real, contentType: ContentType)

  function AsIdea(c: Comment, r: IdeaReport): Idea {
    Idea(c.id, c.text, r.topic, r.themes, r.score, r.contentType)
  }

  /** A result `suggest_content_ideas` keeps: a request scoring at least `minScore`. */
  predicate Qualifies(r: Option<IdeaReport>, minScore: real) {
    r.Some? && r.value.isRequest && r.value.score >= minScore
  }

  /** The qualifying results as ideas, in comment order. */
  function Ideas(comments: seq<Comment>, rs: seq<Option<IdeaReport>>, minScore: real): (ideas: seq<Idea>)
    requires |rs| == |comments|
    ensures |ideas| <= |comments|
    ensures forall x :: x in ideas ==> x.score >= minScore
    ensures forall i :: 0 <= i < |rs| && Qualifies(rs[i], minScore) ==> AsIdea(comments[i], rs[i].value) in ideas
    ensures forall x :: x in ideas ==> exists i :: (0 <= i < |rs| && Qualifies(rs[i], minScore) &&
      x == AsIdea(comments[i], rs[i].value))
  {
    if |rs| == 0 then []
    else
      var n := |rs| - 1;
      var rest := Ideas(comments[..n], rs[..n], minScore);
      assert forall i :: 0 <= i < n ==> comments[..n][i] == comments[i] && rs[..n][i] == rs[i];
      if Qualifies(rs[n], minScore) then rest + [AsIdea(comments[n], rs[n].value)] else rest
  }

  /** `_are_topics_similar`: both topics present and equal. */
  function TopicsSimilar(t1: Option<string>, t2: Option<string>): (b: bool)
    ensures b <==> t1.Some? && t1 == t2
    ensures t1.None? || t2.None? ==> !b
  {
    if t1.None? || t2.None? then false else t1.value == t2.value
  }

  /** Topic similarity is an equivalence on present topics. */
  lemma TopicsSimilarSymmetric(t1: Option<string>, t2: Option<string>)
    ensures TopicsSimilar(t1, t2) == TopicsSimilar(t2, t1)
  {
  }

  function IdeasSimilar(): (Idea, Idea) -> bool {
    (a: Idea, b: Idea) => TopicsSimilar(a.topic, b.topic)
  }

  /** An idea group: its leading idea (whose text, topic, themes, score and
      content type the group reports), its frequency and its ideas. */
  type IdeaGroup = Cluster<Idea>

  /** Every later idea of a group shares the leading idea's topic, which is present. */
  predicate SameTopic(g: IdeaGroup) {
    forall k :: 1 <= k < |g.members| ==> g.members[k].topic.Some? && g.members[k].topic == g.lead.topic
  }

  /** A well-formed group shares its leading idea's topic. */
  lemma GroupTopical(g: IdeaGroup)
    requires WellFormed(g, IdeasSimilar())
    ensures SameTopic(g)
  {
    forall j | 1 <= j < |g.members|
      ensures g.members[j].topic.Some? && g.members[j].topic == g.lead.topic
    {
      assert IdeasSimilar()(g.members[j], g.lead);
      assert TopicsSimilar(g.members[j].topic, g.lead.topic);
    }
  }

  lemma IdeaGroupsTopical(gs: seq<IdeaGroup>)
    requires forall k :: 0 <= k < |gs| ==> WellFormed(gs[k], IdeasSimilar())
    ensures forall k :: 0 <= k < |gs| ==> gs[k].frequency == |gs[k].members| && SameTopic(gs[k])
  {
    forall k | 0 <= k < |gs| ensures SameTopic(gs[k]) {
      GroupTopical(gs[k]);
    }
  }

  /** `_group_similar_ideas`: first-fit grouping by topic, then the groups
      of at least `min_requests` ideas. */
  function GroupIdeas(cfg: Config, ideas: seq<Idea>): (gs: seq<IdeaGroup>)
    ensures |gs| <= |ideas|
    ensures forall k :: 0 <= k < |gs| ==> (gs[k].frequency >= cfg.minRequests &&
      gs[k].frequency == |gs[k].members| && SameTopic(gs[k]))
    ensures multiset(AllMembers(gs)) <= multiset(ideas)
    ensures gs == Frequent(Group(ideas, IdeasSimilar()), cfg.minRequests)
  {
    var gs := GroupFrequent(ideas, IdeasSimilar(), cfg.minRequests);
    IdeaGroupsTopical(gs);
    gs
  }

  /** Every group of qualifying ideas is led by a qualifying idea. */
  lemma LeadsQualify(cfg: Config, ideas: seq<Idea>)
    requires forall x :: x in ideas ==> x.score >= cfg.minScore
    ensures forall g :: g in GroupIdeas(cfg, ideas) ==> g.lead.score >= cfg.minScore
  {
    var gs := GroupIdeas(cfg, ideas);
    forall g | g in gs ensures g.lead.score >= cfg.minScore {
      var m :| 0 <= m < |gs| && gs[m] == g;
      assert WellFormed(gs[m], IdeasSimilar());
      GroupFrequentMembers(ideas, IdeasSimilar(), cfg.minRequests, m, gs[m].lead);
    }
  }

  /** Ideas without a topic never merge: each stays a group of one. */
  lemma UntopicalIdeasStayAlone(ideas: seq<Idea>, k: nat)
    requires k < |Group(ideas, IdeasSimilar())| && Group(ideas, IdeasSimilar())[k].lead.topic.None?
    ensures Group(ideas, IdeasSimilar())[k].frequency == 1
  {
    var g := Group(ideas, IdeasSimilar())[k];
    assert WellFormed(g, IdeasSimilar());
  }

  /** Before filtering, two groups never lead with the same present topic. */
  lemma LeadTopicsDistinct(ideas: seq<Idea>, i: nat, j: nat)
    requires i < j < |Group(ideas, IdeasSimilar())|
    requires Group(ideas, IdeasSimilar())[i].lead.topic.Some?
    ensures Group(ideas, IdeasSimilar())[j].lead.topic != Group(ideas, IdeasSimilar())[i].lead.topic
  {
    var gs := Group(ideas, IdeasSimilar());
    assert !IdeasSimilar()(gs[j].lead, gs[i].lead);
  }

  /** The ranking key: ten times the leading idea's score plus the frequency. */
  function IdeaKey(g: IdeaGroup): real {
    g.lead.score * 10.0 + g.frequency as real
  }

  /** `suggest_content_ideas`: the topic groups of qualifying requests,
      ranked by `10 * score + frequency`, at most `limit` of them. */
  function SuggestContentIdeas(cfg: Config, search: Searcher, comments: seq<Comment>, limit: int): (top: seq<IdeaGroup>)
    ensures var gs := GroupIdeas(cfg, Ideas(comments, AnalyzeBatch(search, comments), cfg.minScore));
      limit >= 0 ==> |top| == if limit < |gs| then limit else |gs|
    ensures multiset(top) <= multiset(GroupIdeas(cfg, Ideas(comments, AnalyzeBatch(search, comments), cfg.minScore)))
    ensures SortedBy(top, IdeaKey)
    ensures forall k :: 0 <= k < |top| ==> (top[k].frequency >= cfg.minRequests && SameTopic(top[k]) &&
      top[k].lead.score >= cfg.minScore)
  {
    var rs := AnalyzeBatch(search, comments);
    var ideas := Ideas(comments, rs, cfg.minScore);
    var gs := GroupIdeas(cfg, ideas);
    LeadsQualify(cfg, ideas);
    Rank(gs, IdeaKey, limit)
  }

  /** A group left out of the suggestions ranks no higher than any suggestion. */
  lemma SuggestionsDominate(cfg: Config, search: Searcher, comments: seq<Comment>, limit: int, f: IdeaGroup, g: IdeaGroup)
    requires f in SuggestContentIdeas(cfg, search, comments, limit)
    requires g in GroupIdeas(cfg, Ideas(comments, AnalyzeBatch(search, comments), cfg.minScore))
    requires g !in SuggestContentIdeas(cfg, search, comments, limit)
    ensures IdeaKey(f) >= IdeaKey(g)
  {
    var gs := GroupIdeas(cfg, Ideas(comments, AnalyzeBatch(search, comments), cfg.minScore));
    RankDominates(gs, IdeaKey, limit, f, g);
  }

  // ---------------------------------------------------------------------
  // Aggregates

  /** The topics of the successful results that have one, in order. */
  function TopicsOf(rs: seq<Option<IdeaReport>>): (ts: seq<string>)
    ensures ts == [] <==> forall i :: 0 <= i < |rs| ==> rs[i].None? || rs[i].value.topic.None?
    ensures forall t :: t in ts ==> exists i :: (0 <= i < |rs| && rs[i].Some? && rs[i].value.topic == Some(t))
    ensures forall i :: 0 <= i < |rs| && rs[i].Some? && rs[i].value.topic.Some? ==> rs[i].value.topic.value in ts
  {
    if |rs| == 0 then []
    else
      var n := |rs| - 1;
      assert forall i :: 0 <= i < n ==> rs[..n][i] == rs[i];
      var rest := TopicsOf(rs[..n]);
      if rs[n].Some? && rs[n].value.topic.Some? then rest + [rs[n].value.topic.value] else rest
  }

  /** `get_topic_distribution`: each topic's share of the valid comments
      that have a topic; empty when none has. */
  function TopicDistribution(search: Searcher, comments: seq<Comment>): (d: Registry<real>)
    ensures d == [] <==> forall i :: 0 <= i < |comments| ==>
      !AnalysisBase.ValidateComment(comments[i]) || ExtractTopic(comments[i].text).None?
    ensures d != [] ==> Shares(d)
    ensures var ts := TopicsOf(AnalyzeBatch(search, comments));
      d != [] ==> ((forall k :: Has(d, k) <==> k in ts) &&
        (forall k :: k in ts ==> Get(d, k) == Some(Count(ts, k) as real / |ts| as real)))
  {
    var ts := TopicsOf(AnalyzeBatch(search, comments));
    if ts == [] then []
    else
      FrequenciesShares(ts);
      FrequenciesAll(ts);
      Frequencies(ts)
  }

  /** Every theme of the successful results, in order. */
  function AllThemes(rs: seq<Option<IdeaReport>>): (ts: seq<string>)
    ensures forall t :: t in ts ==> exists i :: 0 <= i < |rs| && rs[i].Some? && t in rs[i].value.themes
    ensures forall i, t :: 0 <= i < |rs| && rs[i].Some? && t in rs[i].value.themes ==> t in ts
  {
    if |rs| == 0 then []
    else
      var n := |rs| - 1;
      assert forall i :: 0 <= i < n ==> rs[..n][i] == rs[i];
      AllThemes(rs[..n]) + (if rs[n].Some? then rs[n].value.themes else [])
  }

  /** `get_top_themes`: the `limit` most frequent themes with their counts,
      most frequent first. */
  function TopThemes(search: Searcher, comments: seq<Comment>, limit: int): (top: seq<(string, int)>)
    ensures limit <= 0 ==> top == []
    ensures |top| <= if limit < 0 then 0 else limit
    ensures SortedBy(top, CountOf)
    ensures forall p :: p in top ==> (p.0 !in ThemeStopWords && |p.0| > 3 &&
      p.1 == Count(AllThemes(AnalyzeBatch(search, comments)), p.0))
    ensures var d := Distinct(AllThemes(AnalyzeBatch(search, comments)));
      limit > 0 ==> |top| == if limit < |d| then limit else |d|
  {
    var rs := AnalyzeBatch(search, comments);
    var ts := AllThemes(rs);
    var top := MostCommon(Tally(ts), limit);
    MostCommonTally(ts, limit);
    forall p | p in top ensures p.0 !in ThemeStopWords && |p.0| > 3 && p.1 == Count(ts, p.0) {
      MostCommonCounts(ts, limit, p);
      var i :| 0 <= i < |rs| && rs[i].Some? && p.0 in rs[i].value.themes;
    }
    top
  }

  /** A theme that `get_top_themes` leaves out is no more frequent than any
      theme it returns. */
  lemma TopThemesDominate(search: Searcher, comments: seq<Comment>, limit: int, p: (string, int), t: string)
    requires p in TopThemes(search, comments, limit)
    requires t in AllThemes(AnalyzeBatch(search, comments))
    requires forall q :: q in TopThemes(search, comments, limit) ==> q.0 != t
    ensures p.1 >= Count(AllThemes(AnalyzeBatch(search, comments)), t)
  {
    TallyTopDominates(AllThemes(AnalyzeBatch(search, comments)), limit, p, t);
  }
}

=== FILE: lexicon.dfy ===
/** Keyword tables as the analyzers declare them: category names in
    declaration order, each with a list of words or phrases, and the two
    ways the analyzers match them — whole words against a list, and phrases
    as substrings of a text. */
module Lexicon {
  import opened Wrappers
  import opened Text
  import opened Seqs
  import opened Registry

  /** A keyword table: category names in declaration order, each with its words. */
  type Table = seq<(string, seq<string>)>

  /** `sum(1 for w in words if w in kws)`: how many of the words are listed. */
  function CountIn(words: seq<string>, kws: seq<string>): (m: nat)
    ensures m <= |words|
    ensures m == 0 <==> forall i :: 0 <= i < |words| ==> words[i] !in kws
    ensures m == |words| <==> forall i :: 0 <= i < |words| ==> words[i] in kws
  {
    if |words| == 0 then 0
    else
      var m := CountIn(words[..|words| - 1], kws);
      assert forall i :: 0 <= i < |words| - 1 ==> words[..|words| - 1][i] == words[i];
      m + (if words[|words| - 1] in kws then 1 else 0)
  }

  /** `[w for w in words if w not in stops and len(w) > minLen]`. */
  function Filtered(words: seq<string>, stops: set<string>, minLen: nat): (ts: seq<string>)
    ensures |ts| <= |words|
    ensures forall w :: w in ts <==> w in words && w !in stops && |w| > minLen
  {
    if |words| == 0 then []
    else
      var pre := words[..|words| - 1];
      var last := words[|words| - 1];
      assert words == pre + [last];
      var rest := Filtered(pre, stops, minLen);
      if last !in stops && |last| > minLen then rest + [last] else rest
  }

  /** Hits per category of `table`, in declaration order. */
  function WordScores(table: Table, words: seq<string>): (s: seq<int>)
    ensures |s| == |table|
    ensures forall j :: 0 <= j < |s| ==> s[j] == CountIn(words, table[j].1)
  {
    seq(|table|, j requires 0 <= j < |table| => CountIn(words, table[j].1))
  }

  /** How many of the words the category `name` lists. */
  function HitsOf(table: Table, words: seq<string>, name: string): nat {
    CountIn(words, Get(table, name).GetOr([]))
  }

  /** `sum(1 for s in subs if s in text)`: how many of the phrases occur in `text`. */
  function Present(text: string, subs: seq<string>): (m: nat)
    ensures m <= |subs|
    ensures m == 0 <==> forall i :: 0 <= i < |subs| ==> !Contains(text, subs[i])
  {
    if |subs| == 0 then 0
    else
      var m := Present(text, subs[..|subs| - 1]);
      assert forall i :: 0 <= i < |subs| - 1 ==> subs[..|subs| - 1][i] == subs[i];
      m + (if Contains(text, subs[|subs| - 1]) then 1 else 0)
  }

  /** `w` is one of the words some category of `table` lists. */
  predicate Listed(w: string, table: Table) {
    exists i :: 0 <= i < |table| && w in table[i].1
  }

  /** The categories of `table` listing `w`, in declaration order. */
  function Categories(w: string, table: Table): (cs: seq<string>)
    ensures cs == [] <==> !Listed(w, table)
    ensures forall c :: c in cs ==> exists i :: 0 <= i < |table| && table[i].0 == c && w in table[i].1
  {
    if |table| == 0 then []
    else
      var rest := Categories(w, table[1..]);
      assert forall i :: 1 <= i < |table| ==> table[1..][i - 1] == table[i];
      (if w in table[0].1 then [table[0].0] else []) + rest
  }

  // ---------------------------------------------------------------------
  // Scoring a table and picking its winner

  /** The ascending positions of `scores` holding at least `min`: the
      categories a dict comprehension over the table keeps. */
  function Kept(scores: seq<int>, min: int): (idx: seq<nat>)
    ensures forall i :: 0 <= i < |idx| ==> idx[i] < |scores| && scores[idx[i]] >= min
    ensures forall a, b :: 0 <= a < b < |idx| ==> idx[a] < idx[b]
    ensures forall j :: 0 <= j < |scores| && scores[j] >= min ==> j in idx
  {
    if |scores| == 0 then []
    else
      var n := |scores| - 1;
      var pre := Kept(scores[..n], min);
      assert forall i :: 0 <= i < |pre| ==> pre[i] < n && scores[pre[i]] == scores[..n][pre[i]];
      if scores[n] >= min then pre + [n] else pre
  }

  function ScoreAt(scores: seq<int>): nat -> real {
    (j: nat) => if j < |scores| then scores[j] as real else 0.0
  }

  /** The category `max(d.keys(), key=d.get)` picks from the kept ones: the
      earliest among those with the largest score; none when none is kept. */
  function Winner(scores: seq<int>, min: int): (k: Option<nat>)
    ensures k.None? <==> forall j :: 0 <= j < |scores| ==> scores[j] < min
    ensures k.Some? ==> k.value < |scores| && scores[k.value] >= min
    ensures k.Some? ==> forall j :: 0 <= j < |scores| && scores[j] >= min ==>
      scores[j] <= scores[k.value] && (j < k.value ==> scores[j] < scores[k.value])
  {
    var idx := Kept(scores, min);
    if |idx| == 0 then None
    else
      var i := FirstMax(idx, ScoreAt(scores));
      WinnerFacts(scores, min, idx, i);
      Some(idx[i])
  }

  lemma WinnerFacts(scores: seq<int>, min: int, idx: seq<nat>, i: nat)
    requires idx == Kept(scores, min) && i < |idx|
    requires forall j :: 0 <= j < |idx| ==> ScoreAt(scores)(idx[j]) <= ScoreAt(scores)(idx[i])
    requires forall j :: 0 <= j < i ==> ScoreAt(scores)(idx[j]) < ScoreAt(scores)(idx[i])
    ensures forall j :: 0 <= j < |scores| && scores[j] >= min ==>
      scores[j] <= scores[idx[i]] && (j < idx[i] ==> scores[j] < scores[idx[i]])
  {
    forall j | 0 <= j < |scores| && scores[j] >= min
      ensures scores[j] <= scores[idx[i]] && (j < idx[i] ==> scores[j] < scores[idx[i]])
    {
      var i' :| 0 <= i' < |idx| && idx[i'] == j;
      assert ScoreAt(scores)(idx[i']) == scores[j] as real;
      if j < idx[i] {
        assert i' < i;
      }
    }
  }

  /** `set(text.lower().split())`. */
  function WordSet(text: string): (ws: set<string>)
    ensures ws == {} <==> AllSpace(text)
  {
    WordSetEmpty(text);
    set w | w in Split(Lower(text))
  }

  lemma WordSetEmpty(text: string)
    ensures (set w | w in Split(Lower(text))) == {} <==> AllSpace(text)
  {
    var ws := set w | w in Split(Lower(text));
    SplitEmptyIffAllSpace(Lower(text));
    LowerAllSpace(text);
    if Split(Lower(text)) != [] {
      assert Split(Lower(text))[0] in ws;
    } else {
      assert forall w :: w !in ws;
    }
  }
}

=== FILE: metrics.dfy ===
/** The stand-alone metric validator: a registry of metrics, optional
    custom validators that take over the check of a metric by name, and a
    default pattern-density check that, unlike the engine's, caps its score
    at 1. */
module Metrics {
  import opened Wrappers
  import opened Text
  import opened Base
  import opened Standards
  import Registry
  import Engine

  /** A custom validator is code the model cannot see: it is named by an
      identifier and run through a caller-supplied `Runner`. */
  type ValidatorId = nat
  type Runner = (ValidatorId, Comment, Metric) -> Engine.Check

  datatype Validator = Validator(metrics: Registry.Registry<Metric>, custom: Registry.Registry<ValidatorId>)

  /** `MetricsValidator(metrics)`: no custom validators yet. */
  function NewValidator(metrics: Registry.Registry<Metric>): (v: Validator)
    ensures v.metrics == metrics && v.custom == []
  {
    Validator(metrics, [])
  }

  /** `_calculate_score`: the match density, capped at 1; a text with no
      words but some matches scores 1. */
  function CalculateScore(matchCount: nat, text: string): (s: real)
    ensures 0.0 <= s <= 1.0
    ensures matchCount == 0 ==> s == 0.0
    ensures matchCount > 0 && WordCount(text) == 0 ==> s == 1.0
    ensures WordCount(text) > 0 ==>
      (s == 1.0 <==> matchCount >= WordCount(text)) &&
      (s < 1.0 ==> s * WordCount(text) as real == matchCount as real)
  {
    if matchCount == 0 then 0.0
    else
      var w := WordCount(text);
      if w > 0 then
        Engine.DensityBelow(matchCount as real, w as real, 1.0);
        var r := matchCount as real / w as real;
        if r < 1.0 then r else 1.0
      else 1.0
  }

  /** The matches quoted in a reasoning: the first three, each cut to 20
      characters. */
  function Shown(ms: seq<string>): (r: seq<string>)
    ensures |r| == if |ms| < 3 then |ms| else 3
    ensures forall i :: 0 <= i < |r| ==> |r[i]| <= 20 && r[i] <= ms[i]
  {
    var n := if |ms| < 3 then |ms| else 3;
    seq(n, i requires 0 <= i < n => Prefix(ms[i], 20))
  }

  /** The quoted matches, with ` and N more` when more than three matched. */
  function MatchText(ms: seq<string>): (t: string)
    ensures Join(", ", Shown(ms)) <= t
    ensures |ms| <= 3 ==> t == Join(", ", Shown(ms))
    ensures |ms| > 3 ==> t[|Join(", ", Shown(ms))|..] == " and " + NatToString(|ms| - 3) + " more"
  {
    var shown := Join(", ", Shown(ms));
    if |ms| > 3 then
      var t := shown + " and " + NatToString(|ms| - 3) + " more";
      assert t[|shown|..] == " and " + NatToString(|ms| - 3) + " more";
      t
    else shown
  }

  /** `_generate_reasoning` of the validator. */
  function ValidatorReasoning(ms: seq<string>, m: Metric, score: real): string {
    if ms == [] then "No violations found for '" + m.name + "'"
    else
      "Found " + NatToString(|ms|) + " violation(s) for '" + m.name + "': " + MatchText(ms) +
      ". Score: " + Fixed2(score) + " (threshold: " + ReprReal(m.threshold) + ")"
  }

  /** `_default_validate`: lower-case the text, count the pattern's matches,
      and pass below the threshold; no match, or a failing pattern, passes
      with score 0. */
  function DefaultValidate(comment: Comment, m: Metric, findall: Matcher): (c: Engine.Check)
    ensures 0.0 <= c.score <= 1.0
    ensures match findall(m.checkPattern, Lower(comment.text))
      case None => c.passed && c.score == 0.0 && c.reasoning == "Error validating '" + m.name + "': "
      case Some(ms) =>
        (ms == [] ==> c == Engine.Check(true, 0.0, "No violations found for '" + m.name + "'")) &&
        (ms != [] ==> c.passed == (c.score < m.threshold) && c.score == CalculateScore(|ms|, Lower(comment.text)))
  {
    var text := Lower(comment.text);
    match findall(m.checkPattern, text)
    case None => Engine.Check(true, 0.0, "Error validating '" + m.name + "': ")
    case Some(ms) =>
      if ms == [] then Engine.Check(true, 0.0, "No violations found for '" + m.name + "'")
      else
        var score := CalculateScore(|ms|, text);
        Engine.Check(score < m.threshold, score, ValidatorReasoning(ms, m, score))
  }

  /** `validate`: an unknown metric passes with a fixed message before any
      custom validator is consulted; a custom validator registered for the
      metric decides alone; otherwise the default check runs. */
  function Validate(v: Validator, comment: Comment, name: string, findall: Matcher, run: Runner): (c: Engine.Check)
    ensures !Registry.Has(v.metrics, name) ==> c == Engine.Check(true, 0.0, "Metric '" + name + "' not found")
    ensures Registry.Has(v.metrics, name) && !Registry.Has(v.custom, name) ==>
      c == DefaultValidate(comment, Registry.Get(v.metrics, name).value, findall)
  {
    match Registry.Get(v.metrics, name)
    case None => Engine.Check(true, 0.0, "Metric '" + name + "' not found")
    case Some(m) =>
      match Registry.Get(v.custom, name)
      case Some(id) => run(id, comment, m)
      case None => DefaultValidate(comment, m, findall)
  }

  /** With a custom validator registered for a known metric, `validate`
      returns that validator's result unchanged. */
  lemma CustomOverrides(v: Validator, comment: Comment, name: string, findall: Matcher, run: Runner)
    requires Registry.Has(v.metrics, name) && Registry.Has(v.custom, name)
    ensures Validate(v, comment, name, findall, run) ==
      run(Registry.Get(v.custom, name).value, comment, Registry.Get(v.metrics, name).value)
  {
  }

  /** `validate_all`: one entry per distinct requested name, in order of
      first request, each holding that name's `validate` result. */
  function ValidateAll(v: Validator, comment: Comment, names: seq<string>, findall: Matcher, run: Runner): (r: Registry.Registry<Engine.Check>)
    ensures Registry.UniqueKeys(r)
    ensures forall k :: Registry.Has(r, k) <==> k in names
    ensures forall k :: k in names ==> Registry.Get(r, k) == Some(Validate(v, comment, k, findall, run))
  {
    if |names| == 0 then []
    else
      var pre := names[..|names| - 1];
      var k := names[|names| - 1];
      var rest := ValidateAll(v, comment, pre, findall, run);
      Registry.PutListed(rest, names, x => Validate(v, comment, x, findall, run));
      Registry.Put(rest, k, Validate(v, comment, k, findall, run))
  }

  /** The validator's default check and the engine's per-metric check agree:
      the validator's score is the engine's, capped at 1; and for a
      threshold of at most 1 both give the same verdict. */
  lemma DefaultAgreesWithEngine(comment: Comment, m: Metric, findall: Matcher)
    ensures var d := DefaultValidate(comment, m, findall);
      var e := Engine.CheckMetric(comment.text, m, findall);
      d.score == (if e.score < 1.0 then e.score else 1.0) &&
      (m.threshold <= 1.0 ==> d.passed == e.passed)
  {
    var text := Lower(comment.text);
    match findall(m.checkPattern, text)
    case None =>
    case Some(ms) =>
      if ms != [] {
        Engine.CheckMetricDensity(comment.text, m, findall, ms);
        var w := WordCount(text);
        var e := Engine.CheckMetric(comment.text, m, findall);
        if w > 0 {
          assert Engine.MaxOne(w) == w;
          Engine.DensityBelow(|ms| as real, w as real, 1.0);
        } else {
          assert Engine.MaxOne(w) == 1;
          assert e.score == |ms| as real;
        }
      }
  }

  // ---------------------------------------------------------------------
  // Registry maintenance

  /** `add_custom_validator`: register, or replace, the validator for a name. */
  function AddCustomValidator(v: Validator, name: string, id: ValidatorId): (v': Validator)
    ensures Registry.Get(v'.custom, name) == Some(id)
    ensures forall k :: k != name ==> Registry.Get(v'.custom, k) == Registry.Get(v.custom, k)
    ensures v'.metrics == v.metrics
  {
    Registry.GetPutSame(v.custom, name, id);
    Registry.PutFrame(v.custom, name, id);
    v.(custom := Registry.Put(v.custom, name, id))
  }

  /** `remove_custom_validator`: `false` and no change for an unknown name. */
  function RemoveCustomValidator(v: Validator, name: string): (res: (Validator, bool))
    ensures res.1 <==> Registry.Has(v.custom, name)
    ensures !res.1 ==> res.0 == v
    ensures Registry.UniqueKeys(v.custom) ==> !Registry.Has(res.0.custom, name)
    ensures forall k :: k != name ==> Registry.Get(res.0.custom, k) == Registry.Get(v.custom, k)
    ensures res.0.metrics == v.metrics
  {
    Registry.RemoveFrame(v.custom, name);
    if Registry.UniqueKeys(v.custom) then Registry.RemoveKeepsUnique(v.custom, name); RemoveCustomRaw(v, name)
    else RemoveCustomRaw(v, name)
  }

  function RemoveCustomRaw(v: Validator, name: string): (Validator, bool) {
    if Registry.Has(v.custom, name) then (v.(custom := Registry.Remove(v.custom, name)), true) else (v, false)
  }

  /** `add_metric`: insert, or overwrite in place, under the metric's name. */
  function AddMetric(v: Validator, m: Metric): (v': Validator)
    ensures Registry.Get(v'.metrics, m.name) == Some(m)
    ensures forall k :: k != m.name ==> Registry.Get(v'.metrics, k) == Registry.Get(v.metrics, k)
    ensures v'.custom == v.custom
  {
    Registry.GetPutSame(v.metrics, m.name, m);
    Registry.PutFrame(v.metrics, m.name, m);
    v.(metrics := Registry.Put(v.metrics, m.name, m))
  }

  /** `remove_metric`: `false` and no change for an unknown name. */
  function RemoveMetric(v: Validator, name: string): (res: (Validator, bool))
    ensures res.1 <==> Registry.Has(v.metrics, name)
    ensures !res.1 ==> res.0 == v
    ensures Registry.UniqueKeys(v.metrics) ==> !Registry.Has(res.0.metrics, name)
    ensures forall k :: k != name ==> Registry.Get(res.0.metrics, k) == Registry.Get(v.metrics, k)
    ensures res.0.custom == v.custom
  {
    Registry.RemoveFrame(v.metrics, name);
    if Registry.UniqueKeys(v.metrics) then Registry.RemoveKeepsUnique(v.metrics, name); RemoveMetricRaw(v, name)
    else RemoveMetricRaw(v, name)
  }

  function RemoveMetricRaw(v: Validator, name: string): (Validator, bool) {
    if Registry.Has(v.metrics, name) then (v.(metrics := Registry.Remove(v.metrics, name)), true) else (v, false)
  }

  /** Registering a custom validator for a known metric makes `validate`
      return exactly what that validator returns. */
  lemma AddedValidatorDecides(v: Validator, name: string, id: ValidatorId, comment: Comment, findall: Matcher, run: Runner)
    requires Registry.Has(v.metrics, name)
    ensures Validate(AddCustomValidator(v, name, id), comment, name, findall, run) ==
      run(id, comment, Registry.Get(v.metrics, name).value)
  {
  }

  /** Removing a metric's custom validator brings back the default check. */
  lemma RemovedValidatorRestoresDefault(v: Validator, name: string, comment: Comment, findall: Matcher, run: Runner)
    requires Registry.UniqueKeys(v.custom) && Registry.Has(v.metrics, name)
    ensures Validate(RemoveCustomValidator(v, name).0, comment, name, findall, run) ==
      DefaultValidate(comment, Registry.Get(v.metrics, name).value, findall)
  {
  }

  /** Removing a metric makes it unknown to `validate`, custom validator or not. */
  lemma RemovedMetricNotFound(v: Validator, name: string, comment: Comment, findall: Matcher, run: Runner)
    requires Registry.UniqueKeys(v.metrics)
    ensures Validate(RemoveMetric(v, name).0, comment, name, findall, run) ==
      Engine.Check(true, 0.0, "Metric '" + name + "' not found")
  {
  }
}

=== FILE: rate_limiter.dfy ===
/** The token-bucket rate limiter and its per-platform registry. A limiter
    holds two buckets, one refilled at the per-minute rate and one at the
    per-hour rate, both capped at the burst size. Time is the caller's
    clock, in seconds, passed to every operation that reads it. */
module RateLimiting {
  import opened Wrappers
  import opened Registry

  // ---------------------------------------------------------------------
  // One limiter

  /** `RateLimiter`: its three settings, its two bucket levels and the time
      of its last refill. */
  datatype Limiter = Limiter(perMinute: int, perHour: int, burst: int,
                             minute: real, hour: real, last: real)

  /** Both buckets hold the burst size. */
  predicate Full(l: Limiter) {
    l.minute == l.burst as real && l.hour == l.burst as real
  }

  /** The invariant the limiter keeps under non-negative requests: rates and
      burst size are not negative and both buckets lie in [0, burst]. */
  predicate Valid(l: Limiter) {
    l.perMinute >= 0 && l.perHour >= 0 && l.burst >= 0 &&
    0.0 <= l.minute <= l.burst as real && 0.0 <= l.hour <= l.burst as real
  }

  /** `RateLimiter(requests_per_minute, requests_per_hour, burst_size)`
      created at `now`: both buckets start full. */
  function NewLimiter(perMinute: int, perHour: int, burst: int, now: real): (l: Limiter)
    ensures Full(l) && l.last == now
    ensures l.perMinute == perMinute && l.perHour == perHour && l.burst == burst
    ensures perMinute >= 0 && perHour >= 0 && burst >= 0 ==> Valid(l)
  {
    Limiter(perMinute, perHour, burst, burst as real, burst as real, now)
  }

  /** `min(level + added, float(burst))`. */
  function Cap(x: real, burst: int): (c: real)
    ensures c <= burst as real && c <= x
    ensures c == x || c == burst as real
  {
    if x < burst as real then x else burst as real
  }

  lemma MulNonneg(a: real, b: real)
    requires a >= 0.0 && b >= 0.0
    ensures a * b >= 0.0
  {
  }

  /** At `rate` per `period` seconds, what `elapsed` seconds add. */
  function Added(rate: int, elapsed: real, period: real): (a: real)
    requires period > 0.0
    ensures rate >= 0 && elapsed >= 0.0 ==> a >= 0.0
  {
    if rate >= 0 && elapsed >= 0.0 then MulNonneg(rate as real, elapsed); rate as real * elapsed / period
    else rate as real * elapsed / period
  }

  /** `_refill` at time `now`: nothing happens unless the clock moved
      forward; otherwise each bucket gains its rate times the elapsed time,
      up to the burst size, and the refill time becomes `now`. */
  function Refill(l: Limiter, now: real): (r: Limiter)
    ensures now <= l.last ==> r == l
    ensures now > l.last ==> r.last == now
    ensures r.perMinute == l.perMinute && r.perHour == l.perHour && r.burst == l.burst
    ensures now > l.last ==> r.minute <= l.burst as real && r.hour <= l.burst as real
    ensures Valid(l) ==> Valid(r) && r.minute >= l.minute && r.hour >= l.hour
  {
    var elapsed := now - l.last;
    if elapsed <= 0.0 then l
    else
      l.(minute := Cap(l.minute + Added(l.perMinute, elapsed, 60.0), l.burst),
         hour := Cap(l.hour + Added(l.perHour, elapsed, 3600.0), l.burst),
         last := now)
  }

  /** A second refill at the same moment changes nothing. */
  lemma RefillIdempotent(l: Limiter, now: real)
    ensures Refill(Refill(l, now), now) == Refill(l, now)
  {
  }

  /** A full limiter stays full whatever the time. */
  lemma RefillKeepsFull(l: Limiter, now: real)
    requires Valid(l) && Full(l)
    ensures Full(Refill(l, now))
  {
  }

  /** After an hour per token of burst size with a positive per-minute and
      per-hour rate, both buckets are full again, however empty they were. */
  lemma RefillFillsAfterWait(l: Limiter, now: real)
    requires Valid(l) && l.perMinute >= 1 && l.perHour >= 1
    requires now - l.last >= 3600.0 * l.burst as real
    ensures Full(Refill(l, now))
  {
    var e := now - l.last;
    if l.burst > 0 {
      assert e > 0.0;
      AddedAtLeast(l.perMinute, e, 60.0, l.burst);
      AddedAtLeast(l.perHour, e, 3600.0, l.burst);
    }
  }

  lemma AddedAtLeast(rate: int, e: real, period: real, burst: int)
    requires rate >= 1 && 0.0 < period <= 3600.0 && e >= 3600.0 * burst as real && burst >= 0
    ensures Added(rate, e, period) >= burst as real
  {
    assert rate as real * e >= e by {
      MulNonneg(rate as real - 1.0, e);
    }
    assert e / period >= e / 3600.0;
  }

  /** `acquire(tokens)` at `now`: refill, then take `tokens` from both
      buckets if both hold that many, and report whether it did. */
  function Acquire(l: Limiter, tokens: int, now: real): (r: (Limiter, bool))
    ensures var m := Refill(l, now);
      r.1 <==> m.minute >= tokens as real && m.hour >= tokens as real
    ensures var m := Refill(l, now);
      r.1 ==> r.0.minute == m.minute - tokens as real && r.0.hour == m.hour - tokens as real
    ensures !r.1 ==> r.0 == Refill(l, now)
    ensures r.0.perMinute == l.perMinute && r.0.perHour == l.perHour && r.0.burst == l.burst
    ensures r.0.last == Refill(l, now).last
  {
    var m := Refill(l, now);
    if m.minute >= tokens as real && m.hour >= tokens as real then
      (m.(minute := m.minute - tokens as real, hour := m.hour - tokens as real), true)
    else (m, false)
  }

  /** Non-negative requests keep both buckets in [0, burst]. */
  lemma AcquireKeepsValid(l: Limiter, tokens: int, now: real)
    requires Valid(l) && tokens >= 0
    ensures Valid(Acquire(l, tokens, now).0)
  {
  }

  /** A request for more than the burst size never succeeds. */
  lemma OverBurstRefused(l: Limiter, tokens: int, now: real)
    requires Valid(l) && tokens > l.burst
    ensures !Acquire(l, tokens, now).1
  {
  }

  /** A negative request passes the check and raises both buckets above the
      burst size: the invariant needs non-negative requests. */
  lemma NegativeRequestOverfills()
    ensures var l := NewLimiter(60, 1000, 10, 0.0);
      Acquire(l, -5, 0.0).1 && Acquire(l, -5, 0.0).0.minute == 15.0
  {
  }

  /** `int(x)`: truncation toward zero. */
  function Trunc(x: real): (n: int)
    ensures x >= 0.0 ==> n >= 0 && n as real <= x < n as real + 1.0
    ensures x < 0.0 ==> n <= 0 && n as real - 1.0 < x <= n as real
  {
    if x >= 0.0 then x.Floor else -((-x).Floor)
  }

  /** `get_available_tokens` at `now`: refill, then the two levels truncated
      to whole tokens. */
  function Available(l: Limiter, now: real): (r: (Limiter, int, int))
    ensures r.0 == Refill(l, now)
    ensures Valid(l) ==> 0 <= r.1 <= l.burst && 0 <= r.2 <= l.burst
    ensures Valid(l) ==> r.1 as real <= r.0.minute < r.1 as real + 1.0
    ensures Valid(l) ==> r.2 as real <= r.0.hour < r.2 as real + 1.0
  {
    var m := Refill(l, now);
    (m, Trunc(m.minute), Trunc(m.hour))
  }

  /** `acquire(t)` succeeds exactly when `get_available_tokens` at the same
      moment reports at least `t` in both buckets. */
  lemma AvailablePredictsAcquire(l: Limiter, tokens: int, now: real)
    requires Valid(l)
    ensures var a := Available(l, now);
      Acquire(l, tokens, now).1 <==> a.1 >= tokens && a.2 >= tokens
  {
  }

  /** `reset` at `now`: both buckets full, refill time `now`. */
  function Reset(l: Limiter, now: real): (r: Limiter)
    ensures Full(r) && r.last == now
    ensures r.perMinute == l.perMinute && r.perHour == l.perHour && r.burst == l.burst
    ensures Valid(l) ==> Valid(r)
  {
    l.(minute := l.burst as real, hour := l.burst as real, last := now)
  }

  /** Right after a reset, a request succeeds exactly when it is no larger
      than the burst size. */
  lemma ResetThenAcquire(l: Limiter, tokens: int, now: real)
    ensures Acquire(Reset(l, now), tokens, now).1 <==> tokens <= l.burst
  {
  }

  /** The calls a client makes on one limiter. */
  datatype Call = AcquireCall(tokens: int, at: real) | AvailableCall(at: real) | ResetCall(at: real)

  /** The limiter after a sequence of calls. */
  function Run(l: Limiter, calls: seq<Call>): (r: Limiter)
    ensures r.perMinute == l.perMinute && r.perHour == l.perHour && r.burst == l.burst
    decreases |calls|
  {
    if |calls| == 0 then l
    else
      var c := calls[0];
      var next := match c
        case AcquireCall(t, at) => Acquire(l, t, at).0
        case AvailableCall(at) => Available(l, at).0
        case ResetCall(at) => Reset(l, at);
      Run(next, calls[1..])
  }

  /** No request is negative. */
  predicate NonNegativeRequests(calls: seq<Call>) {
    forall i :: 0 <= i < |calls| && calls[i].AcquireCall? ==> calls[i].tokens >= 0
  }

  /** From a valid start, any sequence of non-negative requests, queries and
      resets keeps both buckets in [0, burst]. */
  lemma {:induction false} RunKeepsValid(l: Limiter, calls: seq<Call>)
    requires Valid(l) && NonNegativeRequests(calls)
    ensures Valid(Run(l, calls))
    decreases |calls|
  {
    if |calls| > 0 {
      var c := calls[0];
      var next := match c
        case AcquireCall(t, at) => Acquire(l, t, at).0
        case AvailableCall(at) => Available(l, at).0
        case ResetCall(at) => Reset(l, at);
      if c.AcquireCall? {
        AcquireKeepsValid(l, c.tokens, c.at);
      }
      assert NonNegativeRequests(calls[1..]) by {
        forall i | 0 <= i < |calls[1..]| && calls[1..][i].AcquireCall?
          ensures calls[1..][i].tokens >= 0
        {
          assert calls[1..][i] == calls[i + 1];
        }
      }
      RunKeepsValid(next, calls[1..]);
    }
  }

  /** A limiter created with non-negative settings never grants a request
      for more than its burst size, whatever happened before. */
  lemma NeverAboveBurst(perMinute: nat, perHour: nat, burst: nat, created: real,
                        calls: seq<Call>, tokens: int, now: real)
    requires NonNegativeRequests(calls) && tokens > burst
    ensures !Acquire(Run(NewLimiter(perMinute, perHour, burst, created), calls), tokens, now).1
  {
    var l := NewLimiter(perMinute, perHour, burst, created);
    RunKeepsValid(l, calls);
    OverBurstRefused(Run(l, calls), tokens, now);
  }

  // ---------------------------------------------------------------------
  // The per-platform registry

  /** `PlatformRateLimiter`: one limiter per platform, and per platform the
      limiters of individual endpoints. */
  datatype Platforms = Platforms(limiters: Registry<Limiter>, endpoints: Registry<Registry<Limiter>>)

  /** The settings of the limiter made for a platform nobody configured. */
  const DefaultPerMinute := 60
  const DefaultPerHour := 1000
  const DefaultBurst := 10

  /** `_initialize_platform_limiters`, at time `now`. */
  function Initial(now: real): (p: Platforms)
    ensures p.endpoints == []
    ensures |p.limiters| == 6
    ensures forall i :: 0 <= i < |p.limiters| ==> Valid(p.limiters[i].1) && Full(p.limiters[i].1)
  {
    Platforms([("twitter", NewLimiter(180, 900, 10, now)),
               ("reddit", NewLimiter(60, 600, 5, now)),
               ("youtube", NewLimiter(300, 10000, 10, now)),
               ("instagram", NewLimiter(200, 4800, 10, now)),
               ("medium", NewLimiter(50, 1000, 5, now)),
               ("tiktok", NewLimiter(50, 1000, 5, now))], [])
  }

  /** Which limiter a call uses: an endpoint's, a platform's, or a fresh one
      that is thrown away afterwards. */
  datatype Slot = EndpointSlot(platform: string, endpoint: string) | PlatformSlot(platform: string) | FreshSlot

  /** The endpoint limiters of `platform`, none if it has none. */
  function EndpointsOf(p: Platforms, platform: string): (r: Registry<Limiter>)
    ensures !Has(p.endpoints, platform) ==> r == []
    ensures Has(p.endpoints, platform) ==> Some(r) == Get(p.endpoints, platform)
  {
    Get(p.endpoints, platform).GetOr([])
  }

  /** `_get_limiter(platform, endpoint)`: an endpoint limiter when a
      non-empty endpoint is named and registered, else the platform's, else
      a fresh one. An empty endpoint name counts as none. */
  function Locate(p: Platforms, platform: string, endpoint: Option<string>): (s: Slot)
    ensures s.EndpointSlot? <==>
      (endpoint.Some? && endpoint.value != "" && Has(EndpointsOf(p, platform), endpoint.value))
    ensures s.EndpointSlot? ==> s == EndpointSlot(platform, endpoint.value)
    ensures s.PlatformSlot? <==> !s.EndpointSlot? && Has(p.limiters, platform)
    ensures s.PlatformSlot? ==> s.platform == platform
  {
    if endpoint.Some? && endpoint.value != "" && Has(p.endpoints, platform) &&
       Has(EndpointsOf(p, platform), endpoint.value)
    then EndpointSlot(platform, endpoint.value)
    else if Has(p.limiters, platform) then PlatformSlot(platform)
    else FreshSlot
  }

  /** The limiter in a slot; a fresh slot holds a new default limiter made
      at `now`. */
  function LimiterAt(p: Platforms, s: Slot, now: real): (l: Limiter)
    ensures s.FreshSlot? ==> l == NewLimiter(DefaultPerMinute, DefaultPerHour, DefaultBurst, now)
    ensures s.PlatformSlot? && Has(p.limiters, s.platform) ==> Get(p.limiters, s.platform) == Some(l)
    ensures s.EndpointSlot? && Has(EndpointsOf(p, s.platform), s.endpoint) ==>
      Get(EndpointsOf(p, s.platform), s.endpoint) == Some(l)
  {
    match s
    case FreshSlot => NewLimiter(DefaultPerMinute, DefaultPerHour, DefaultBurst, now)
    case PlatformSlot(pl) =>
      Get(p.limiters, pl).GetOr(NewLimiter(DefaultPerMinute, DefaultPerHour, DefaultBurst, now))
    case EndpointSlot(pl, ep) =>
      Get(EndpointsOf(p, pl), ep).GetOr(NewLimiter(DefaultPerMinute, DefaultPerHour, DefaultBurst, now))
  }

  /** The registry with the limiter in slot `s` replaced by `l`; a fresh
      slot is not kept. */
  function Store(p: Platforms, s: Slot, l: Limiter): (r: Platforms)
    ensures s.FreshSlot? ==> r == p
    ensures s.PlatformSlot? ==> r.endpoints == p.endpoints && Get(r.limiters, s.platform) == Some(l)
    ensures s.EndpointSlot? ==>
      (r.limiters == p.limiters && Get(EndpointsOf(r, s.platform), s.endpoint) == Some(l))
  {
    match s
    case FreshSlot => p
    case PlatformSlot(pl) =>
      GetPutSame(p.limiters, pl, l);
      p.(limiters := Put(p.limiters, pl, l))
    case EndpointSlot(pl, ep) =>
      var inner := Put(EndpointsOf(p, pl), ep, l);
      GetPutSame(EndpointsOf(p, pl), ep, l);
      GetPutSame(p.endpoints, pl, inner);
      p.(endpoints := Put(p.endpoints, pl, inner))
  }

  /** Storing into a platform slot leaves every other platform's limiter alone. */
  lemma StoreFrame(p: Platforms, s: Slot, l: Limiter, other: string)
    requires s.PlatformSlot? && other != s.platform
    ensures Get(Store(p, s, l).limiters, other) == Get(p.limiters, other)
  {
    GetPutOther(p.limiters, s.platform, l, other);
  }

  /** `PlatformRateLimiter.acquire(platform, endpoint, tokens)` at `now`. */
  function PlatformAcquire(p: Platforms, platform: string, endpoint: Option<string>, tokens: int, now: real): (r: (Platforms, bool))
    ensures var s := Locate(p, platform, endpoint);
      r.1 == Acquire(LimiterAt(p, s, now), tokens, now).1 &&
      (!s.FreshSlot? ==> LimiterAt(r.0, s, now) == Acquire(LimiterAt(p, s, now), tokens, now).0)
  {
    var s := Locate(p, platform, endpoint);
    var (l, ok) := Acquire(LimiterAt(p, s, now), tokens, now);
    var p' := Store(p, s, l);
    (p', ok)
  }

  /** A platform nobody configured gets a fresh full default limiter on
      every call: the request succeeds exactly when it is at most the
      default burst, and nothing is remembered. */
  lemma UnknownPlatformForgets(p: Platforms, platform: string, endpoint: Option<string>, tokens: int, now: real)
    requires !Has(p.limiters, platform) && !Has(p.endpoints, platform)
    ensures PlatformAcquire(p, platform, endpoint, tokens, now).0 == p
    ensures PlatformAcquire(p, platform, endpoint, tokens, now).1 <==> tokens <= DefaultBurst
  {
  }

  /** A registered endpoint limiter is preferred over its platform's. */
  lemma EndpointPreferred(p: Platforms, platform: string, endpoint: string,
                          perMinute: int, perHour: int, burst: int, now: real)
    requires endpoint != ""
    ensures Locate(AddEndpointLimiter(p, platform, endpoint, perMinute, perHour, burst, now),
                   platform, Some(endpoint)) == EndpointSlot(platform, endpoint)
  {
  }

  /** `get_available_tokens(platform, endpoint)` at `now`. */
  function PlatformAvailable(p: Platforms, platform: string, endpoint: Option<string>, now: real): (r: (Platforms, int, int))
    ensures var s := Locate(p, platform, endpoint);
      var a := Available(LimiterAt(p, s, now), now);
      r.1 == a.1 && r.2 == a.2 && (!s.FreshSlot? ==> LimiterAt(r.0, s, now) == a.0)
  {
    var s := Locate(p, platform, endpoint);
    var a := Available(LimiterAt(p, s, now), now);
    (Store(p, s, a.0), a.1, a.2)
  }

  /** `add_platform_limiter`: set or replace a platform's limiter. */
  function AddPlatformLimiter(p: Platforms, platform: string, perMinute: int, perHour: int, burst: int, now: real): (r: Platforms)
    ensures Get(r.limiters, platform) == Some(NewLimiter(perMinute, perHour, burst, now))
    ensures r.endpoints == p.endpoints
    ensures forall other :: other != platform ==> Get(r.limiters, other) == Get(p.limiters, other)
  {
    var l := NewLimiter(perMinute, perHour, burst, now);
    GetPutSame(p.limiters, platform, l);
    PutFrame(p.limiters, platform, l);
    p.(limiters := Put(p.limiters, platform, l))
  }

  /** `add_endpoint_limiter`: set or replace one endpoint's limiter. */
  function AddEndpointLimiter(p: Platforms, platform: string, endpoint: string,
                              perMinute: int, perHour: int, burst: int, now: real): (r: Platforms)
    ensures Get(EndpointsOf(r, platform), endpoint) == Some(NewLimiter(perMinute, perHour, burst, now))
    ensures r.limiters == p.limiters
    ensures forall other :: other != endpoint ==>
      Get(EndpointsOf(r, platform), other) == Get(EndpointsOf(p, platform), other)
  {
    var l := NewLimiter(perMinute, perHour, burst, now);
    var inner := Put(EndpointsOf(p, platform), endpoint, l);
    GetPutSame(EndpointsOf(p, platform), endpoint, l);
    PutFrame(EndpointsOf(p, platform), endpoint, l);
    GetPutSame(p.endpoints, platform, inner);
    p.(endpoints := Put(p.endpoints, platform, inner))
  }

  /** Every limiter of a registry reset at `now`. */
  function ResetEach(r: Registry<Limiter>, now: real): (r': Registry<Limiter>)
    ensures |r'| == |r|
    ensures forall i :: 0 <= i < |r| ==> r'[i] == (r[i].0, Reset(r[i].1, now))
  {
    seq(|r|, i requires 0 <= i < |r| => (r[i].0, Reset(r[i].1, now)))
  }

  /** Every name keeps its place, and every limiter is found full. */
  lemma ResetEachGet(r: Registry<Limiter>, now: real, k: string)
    ensures Has(ResetEach(r, now), k) <==> Has(r, k)
    ensures Get(ResetEach(r, now), k).Some? ==> Full(Get(ResetEach(r, now), k).value)
  {
    var r' := ResetEach(r, now);
    assert Keys(r') == Keys(r);
    IndexOfUnchanged(r', r, k);
  }

  /** Every endpoint registry reset at `now`. */
  function ResetEachEndpoint(e: Registry<Registry<Limiter>>, now: real): (e': Registry<Registry<Limiter>>)
    ensures |e'| == |e|
    ensures forall i :: 0 <= i < |e| ==> e'[i] == (e[i].0, ResetEach(e[i].1, now))
  {
    seq(|e|, i requires 0 <= i < |e| => (e[i].0, ResetEach(e[i].1, now)))
  }

  /** `reset(platform, endpoint)` at `now`: with no platform, every limiter;
      with a platform and no endpoint, its limiter (if any) and all its
      endpoint limiters; otherwise the limiter `_get_limiter` picks. */
  function PlatformReset(p: Platforms, platform: Option<string>, endpoint: Option<string>, now: real): (r: Platforms)
    ensures platform.None? ==> |r.limiters| == |p.limiters| && |r.endpoints| == |p.endpoints|
    ensures platform.Some? && endpoint.None? ==>
      (forall other :: other != platform.value ==> Get(r.limiters, other) == Get(p.limiters, other)) &&
      (Has(p.limiters, platform.value) ==> Get(r.limiters, platform.value) == Some(Reset(Get(p.limiters, platform.value).value, now)))
    ensures platform.Some? && endpoint.Some? ==>
      var s := Locate(p, platform.value, endpoint);
      r == Store(p, s, Reset(LimiterAt(p, s, now), now))
  {
    if platform.None? then
      Platforms(ResetEach(p.limiters, now), ResetEachEndpoint(p.endpoints, now))
    else if endpoint.None? then
      var pl := platform.value;
      var limiters :=
        if Has(p.limiters, pl) then
          var l := Reset(Get(p.limiters, pl).value, now);
          GetPutSame(p.limiters, pl, l);
          PutFrame(p.limiters, pl, l);
          Put(p.limiters, pl, l)
        else p.limiters;
      var endpoints :=
        if Has(p.endpoints, pl) then Put(p.endpoints, pl, ResetEach(EndpointsOf(p, pl), now))
        else p.endpoints;
      Platforms(limiters, endpoints)
    else
      var s := Locate(p, platform.value, endpoint);
      Store(p, s, Reset(LimiterAt(p, s, now), now))
  }

  /** Each platform's endpoint registry is found reset. */
  lemma ResetEachEndpointGet(e: Registry<Registry<Limiter>>, now: real, k: string)
    ensures Has(ResetEachEndpoint(e, now), k) <==> Has(e, k)
    ensures Has(e, k) ==> Get(ResetEachEndpoint(e, now), k) == Some(ResetEach(Get(e, k).value, now))
  {
    var e' := ResetEachEndpoint(e, now);
    assert Keys(e') == Keys(e);
    IndexOfUnchanged(e', e, k);
  }

  /** `reset()` with no platform leaves every platform and endpoint
      limiter full and forgets none. */
  lemma ResetAllFull(p: Platforms, endpoint: Option<string>, now: real, platform: string, ep: string)
    ensures var r := PlatformReset(p, None, endpoint, now);
      (Has(r.limiters, platform) <==> Has(p.limiters, platform)) &&
      (Get(r.limiters, platform).Some? ==> Full(Get(r.limiters, platform).value)) &&
      (Has(EndpointsOf(r, platform), ep) <==> Has(EndpointsOf(p, platform), ep)) &&
      (Get(EndpointsOf(r, platform), ep).Some? ==> Full(Get(EndpointsOf(r, platform), ep).value))
  {
    ResetEachGet(p.limiters, now, platform);
    ResetEachEndpointGet(p.endpoints, now, platform);
    if Has(p.endpoints, platform) {
      ResetEachGet(EndpointsOf(p, platform), now, ep);
    }
  }

  /** `reset(platform)` leaves that platform's limiter and all its endpoint
      limiters full, and forgets none of them. */
  lemma ResetPlatformFull(p: Platforms, platform: string, now: real, ep: string)
    ensures var r := PlatformReset(p, Some(platform), None, now);
      (Has(r.limiters, platform) <==> Has(p.limiters, platform)) &&
      (Get(r.limiters, platform).Some? ==> Full(Get(r.limiters, platform).value)) &&
      (Has(EndpointsOf(r, platform), ep) <==> Has(EndpointsOf(p, platform), ep)) &&
      (Get(EndpointsOf(r, platform), ep).Some? ==> Full(Get(EndpointsOf(r, platform), ep).value))
  {
    var r := PlatformReset(p, Some(platform), None, now);
    if Has(p.endpoints, platform) {
      GetPutSame(p.endpoints, platform, ResetEach(EndpointsOf(p, platform), now));
      ResetEachGet(EndpointsOf(p, platform), now, ep);
    }
  }

  /** `reset(platform)` touches no other platform's endpoint limiters. */
  lemma ResetPlatformFrame(p: Platforms, platform: string, now: real, other: string)
    requires other != platform
    ensures EndpointsOf(PlatformReset(p, Some(platform), None, now), other) == EndpointsOf(p, other)
  {
    if Has(p.endpoints, platform) {
      GetPutOther(p.endpoints, platform, ResetEach(EndpointsOf(p, platform), now), other);
    }
  }

  /** An empty endpoint name is taken as no endpoint by the lookup but not
      by `reset`: `reset(platform, "")` resets only the platform limiter,
      leaving its endpoint limiters as they were. */
  lemma EmptyEndpointResetsPlatformOnly(p: Platforms, platform: string, now: real)
    requires Has(p.limiters, platform)
    ensures var r := PlatformReset(p, Some(platform), Some(""), now);
      r.endpoints == p.endpoints &&
      Get(r.limiters, platform) == Some(Reset(Get(p.limiters, platform).value, now))
  {
  }
}

=== FILE: registry.dfy ===
/** A Python `dict` keyed by strings, as an ordered list of (key, value)
    pairs: iteration follows insertion order, assigning to an existing key
    keeps its place, a new key goes to the end, and `del` closes the gap. */
module Registry {
  import opened Wrappers

  type Registry<V> = seq<(string, V)>

  function Keys<V>(r: Registry<V>): (ks: seq<string>)
    ensures |ks| == |r|
    ensures forall i :: 0 <= i < |r| ==> ks[i] == r[i].0
  {
    seq(|r|, i requires 0 <= i < |r| => r[i].0)
  }

  /** No key occurs twice, as in every Python dict. */
  predicate UniqueKeys<V>(r: Registry<V>) {
    forall i, j :: 0 <= i < j < |r| ==> r[i].0 != r[j].0
  }

  /** `k in d`. */
  predicate Has<V>(r: Registry<V>, k: string) {
    exists i :: 0 <= i < |r| && r[i].0 == k
  }

  /** Position of the first entry for `k`, or |r| when there is none. */
  function IndexOf<V>(r: Registry<V>, k: string): (i: nat)
    ensures i <= |r|
    ensures i < |r| ==> r[i].0 == k
    ensures forall j :: 0 <= j < i ==> r[j].0 != k
    ensures i == |r| <==> !Has(r, k)
    decreases |r|
  {
    if |r| == 0 then 0 else if r[0].0 == k then 0 else 1 + IndexOf(r[1..], k)
  }

  /** `d.get(k)`. */
  function Get<V>(r: Registry<V>, k: string): (o: Option<V>)
    ensures o.None? <==> !Has(r, k)
    ensures o.Some? ==> exists i :: 0 <= i < |r| && r[i] == (k, o.value)
  {
    var i := IndexOf(r, k);
    if i == |r| then None else Some(r[i].1)
  }

  /** `d[k] = v`: overwrite in place, or append a new key. */
  function Put<V>(r: Registry<V>, k: string, v: V): (r': Registry<V>)
    ensures Has(r, k) ==> |r'| == |r|
    ensures Has(r', k)
  {
    var i := IndexOf(r, k);
    if i == |r| then
      assert (r + [(k, v)])[|r|].0 == k;
      r + [(k, v)]
    else
      var r' := r[i := (k, v)];
      assert Keys(r') == Keys(r) && r'[i].0 == k;
      r'
  }

  /** `del d[k]` when `k in d`; nothing otherwise. */
  function Remove<V>(r: Registry<V>, k: string): (r': Registry<V>)
    ensures !Has(r, k) ==> r' == r
    ensures Has(r, k) ==> |r'| == |r| - 1
  {
    var i := IndexOf(r, k);
    if i == |r| then r else r[..i] + r[i + 1..]
  }

  lemma GetPutSame<V>(r: Registry<V>, k: string, v: V)
    ensures Get(Put(r, k, v), k) == Some(v)
  {
    var i := IndexOf(r, k);
    if i < |r| {
      assert IndexOf(Put(r, k, v), k) == i by { IndexOfUpdate(r, i, k, v); }
    } else {
      assert IndexOf(Put(r, k, v), k) == |r| by { IndexOfAppend(r, k, v); }
    }
  }

  lemma GetPutOther<V>(r: Registry<V>, k: string, v: V, k': string)
    requires k' != k
    ensures Get(Put(r, k, v), k') == Get(r, k')
  {
    var r' := Put(r, k, v);
    var i := IndexOf(r, k);
    if i < |r| {
      IndexOfUnchanged(r, r', k');
    } else {
      assert r' == r + [(k, v)];
      IndexOfExtend(r, (k, v), k');
    }
  }

  lemma IndexOfUpdate<V>(r: Registry<V>, i: nat, k: string, v: V)
    requires i == IndexOf(r, k) && i < |r|
    ensures IndexOf(r[i := (k, v)], k) == i
  {
    var r' := r[i := (k, v)];
    IndexOfUnique(r', k, i);
  }

  lemma IndexOfAppend<V>(r: Registry<V>, k: string, v: V)
    requires !Has(r, k)
    ensures IndexOf(r + [(k, v)], k) == |r|
  {
    IndexOfUnique(r + [(k, v)], k, |r|);
  }

  /** The first entry for `k` is the one IndexOf finds. */
  lemma IndexOfUnique<V>(r: Registry<V>, k: string, i: nat)
    requires i < |r| && r[i].0 == k
    requires forall j :: 0 <= j < i ==> r[j].0 != k
    ensures IndexOf(r, k) == i
  {
  }

  /** Two registries with the same keys find every key at the same place. */
  lemma IndexOfUnchanged<V>(r: Registry<V>, r': Registry<V>, k: string)
    requires Keys(r) == Keys(r')
    ensures IndexOf(r, k) == IndexOf(r', k)
  {
    var n := IndexOf(r, k);
    assert |r| == |r'|;
    forall j | 0 <= j < |r| ensures r[j].0 == r'[j].0 {
      assert Keys(r)[j] == Keys(r')[j];
    }
    if n < |r| {
      IndexOfUnique(r', k, n);
    } else {
      assert forall j :: 0 <= j < |r'| ==> r'[j].0 == r[j].0;
    }
  }

  lemma IndexOfExtend<V>(r: Registry<V>, e: (string, V), k: string)
    requires e.0 != k
    ensures Get(r + [e], k) == Get(r, k)
  {
    var n := IndexOf(r, k);
    var r' := r + [e];
    if n < |r| {
      IndexOfUnique(r', k, n);
    } else {
      assert forall j :: 0 <= j < |r| ==> r'[j] == r[j];
    }
  }

  /** `d[k] = d.get(k, 0) + w` on a dict of counts: the entry for `k`
      gains `w` in place, or `(k, w)` goes to the end. */
  function Bump(r: Registry<int>, k: string, w: int): Registry<int>
    decreases |r|
  {
    if |r| == 0 then [(k, w)]
    else if r[0].0 == k then [(k, r[0].1 + w)] + r[1..]
    else [r[0]] + Bump(r[1..], k, w)
  }

  /** After the bump `k0` reads `w` more than before (0 when it was
      absent), and every other key reads what it read before. */
  lemma BumpGet(r: Registry<int>, k0: string, w: int, k: string)
    ensures Get(Bump(r, k0, w), k) == if k0 == k then Some(Get(r, k).GetOr(0) + w) else Get(r, k)
  {
    if k0 == k { BumpGetSame(r, k, w); } else { BumpGetOther(r, k0, w, k); }
  }

  lemma {:induction false} BumpGetSame(r: Registry<int>, k: string, w: int)
    ensures Get(Bump(r, k, w), k) == Some(Get(r, k).GetOr(0) + w)
    decreases |r|
  {
    if |r| == 0 {
      GetCons((k, w), [], k);
      assert [(k, w)] + [] == [(k, w)];
    } else {
      GetFirst(r, k);
      if r[0].0 == k {
        GetCons((k, r[0].1 + w), r[1..], k);
      } else {
        BumpGetSame(r[1..], k, w);
        GetCons(r[0], Bump(r[1..], k, w), k);
      }
    }
  }

  lemma {:induction false} BumpGetOther(r: Registry<int>, k0: string, w: int, k: string)
    requires k0 != k
    ensures Get(Bump(r, k0, w), k) == Get(r, k)
    decreases |r|
  {
    if |r| == 0 {
      GetCons((k0, w), [], k);
      assert [(k0, w)] + [] == [(k0, w)];
    } else {
      GetFirst(r, k);
      if r[0].0 == k0 {
        GetCons((k0, r[0].1 + w), r[1..], k);
      } else {
        BumpGetOther(r[1..], k0, w, k);
        GetCons(r[0], Bump(r[1..], k0, w), k);
      }
    }
  }

  lemma GetFirst<V>(r: Registry<V>, k: string)
    requires |r| > 0
    ensures Get(r, k) == if r[0].0 == k then Some(r[0].1) else Get(r[1..], k)
  {
    assert r == [r[0]] + r[1..];
    GetCons(r[0], r[1..], k);
  }

  /** Looking up a key in a dict that starts with `x`. */
  lemma GetCons<V>(x: (string, V), s: Registry<V>, k: string)
    ensures Get([x] + s, k) == if x.0 == k then Some(x.1) else Get(s, k)
  {
    var t := [x] + s;
    if x.0 == k {
      IndexOfUnique(t, k, 0);
    } else {
      assert t[1..] == s;
      GetTail(t, k);
    }
  }

  /** The bump is the dict assignment `d[k] = d.get(k, 0) + w`. */
  lemma {:induction false} BumpIsPut(r: Registry<int>, k: string, w: int)
    ensures Bump(r, k, w) == Put(r, k, Get(r, k).GetOr(0) + w)
    decreases |r|
  {
    var v := Get(r, k).GetOr(0) + w;
    if |r| == 0 {
      PutEmpty(k, v);
    } else {
      GetFirst(r, k);
      if r[0].0 == k {
        PutHead(r, k, v);
      } else {
        var b := Bump(r[1..], k, w);
        assert b == Put(r[1..], k, v) by { BumpIsPut(r[1..], k, w); }
        calc {
          Bump(r, k, w);
          [r[0]] + b;
          [r[0]] + Put(r[1..], k, v);
          { PutTail(r, k, v); }
          Put(r, k, v);
        }
      }
    }
  }

  lemma PutEmpty<V>(k: string, v: V)
    ensures Put([], k, v) == [(k, v)]
  {
    assert [] + [(k, v)] == [(k, v)];
  }

  lemma PutHead<V>(r: Registry<V>, k: string, v: V)
    requires |r| > 0 && r[0].0 == k
    ensures Put(r, k, v) == [(k, v)] + r[1..]
  {
    IndexOfUnique(r, k, 0);
    assert r[0 := (k, v)] == [(k, v)] + r[1..];
  }

  lemma PutTail<V>(r: Registry<V>, k: string, v: V)
    requires |r| > 0 && r[0].0 != k
    ensures Put(r, k, v) == [r[0]] + Put(r[1..], k, v)
  {
    var i := IndexOf(r[1..], k);
    IndexOfTail(r, k);
    if i == |r| - 1 {
      assert r + [(k, v)] == [r[0]] + (r[1..] + [(k, v)]);
    } else {
      assert r[i + 1 := (k, v)] == [r[0]] + r[1..][i := (k, v)];
    }
  }

  lemma IndexOfTail<V>(r: Registry<V>, k: string)
    requires |r| > 0 && r[0].0 != k
    ensures IndexOf(r, k) == 1 + IndexOf(r[1..], k)
  {
  }

  /** Keys stay distinct under a bump. */
  lemma {:induction false} BumpUnique(r: Registry<int>, k: string, w: int)
    requires UniqueKeys(r)
    ensures UniqueKeys(Bump(r, k, w))
    decreases |r|
  {
    if |r| > 0 {
      UniqueTail(r);
      if r[0].0 == k {
        UniqueCons((k, r[0].1 + w), r[1..]);
      } else {
        BumpUnique(r[1..], k, w);
        BumpGet(r[1..], k, w, r[0].0);
        UniqueCons(r[0], Bump(r[1..], k, w));
      }
    }
  }

  /** The keys of a registry, as a set. */
  function KeySet<V>(r: Registry<V>): (ks: set<string>)
    ensures forall k :: k in ks <==> Has(r, k)
  {
    set i | 0 <= i < |r| :: r[i].0
  }

  /** Distinct keys: as many keys as entries. */
  lemma {:induction false} KeySetSize<V>(r: Registry<V>)
    requires UniqueKeys(r)
    ensures |KeySet(r)| == |r|
    decreases |r|
  {
    if |r| > 0 {
      var t := r[1..];
      UniqueTail(r);
      KeySetSize(t);
      forall k ensures k in KeySet(r) <==> k in {r[0].0} + KeySet(t) {
        if Has(r, k) && k != r[0].0 {
          var i :| 0 <= i < |r| && r[i].0 == k;
          assert t[i - 1] == r[i];
        }
        if Has(t, k) {
          var i :| 0 <= i < |t| && t[i].0 == k;
          assert r[i + 1] == t[i];
        }
      }
      assert KeySet(r) == {r[0].0} + KeySet(t);
    }
  }

  lemma UniqueTail<V>(r: Registry<V>)
    requires |r| > 0 && UniqueKeys(r)
    ensures UniqueKeys(r[1..]) && !Has(r[1..], r[0].0)
  {
    forall i | 0 <= i < |r[1..]| ensures r[1..][i].0 != r[0].0 {
      assert r[1..][i] == r[i + 1];
    }
  }

  lemma UniqueCons<V>(x: (string, V), s: Registry<V>)
    requires UniqueKeys(s) && !Has(s, x.0)
    ensures UniqueKeys([x] + s)
  {
    var t := [x] + s;
    forall i, j | 0 <= i < j < |t| ensures t[i].0 != t[j].0 {
      if i == 0 {
        assert t[j] == s[j - 1];
      } else {
        assert t[i] == s[i - 1] && t[j] == s[j - 1];
      }
    }
  }

  /** Building `{x: f(x) for x in names}` one name at a time: the last
      name joins the keys with its value, and the earlier ones keep theirs. */
  lemma PutListed<V>(rest: Registry<V>, names: seq<string>, f: string -> V)
    requires |names| > 0 && UniqueKeys(rest)
    requires forall x :: Has(rest, x) <==> x in names[..|names| - 1]
    requires forall x :: x in names[..|names| - 1] ==> Get(rest, x) == Some(f(x))
    ensures UniqueKeys(Put(rest, names[|names| - 1], f(names[|names| - 1])))
    ensures forall x :: Has(Put(rest, names[|names| - 1], f(names[|names| - 1])), x) <==> x in names
    ensures forall x :: x in names ==> Get(Put(rest, names[|names| - 1], f(names[|names| - 1])), x) == Some(f(x))
  {
    var k := names[|names| - 1];
    var r := Put(rest, k, f(k));
    PutKeepsUnique(rest, k, f(k));
    GetPutSame(rest, k, f(k));
    assert names == names[..|names| - 1] + [k];
    forall x | x != k ensures Get(r, x) == Get(rest, x) && (Has(r, x) <==> Has(rest, x)) {
      GetPutOther(rest, k, f(k), x);
    }
  }

  lemma PutKeepsUnique<V>(r: Registry<V>, k: string, v: V)
    requires UniqueKeys(r)
    ensures UniqueKeys(Put(r, k, v))
  {
    var r' := Put(r, k, v);
    if Has(r, k) {
      forall i, j | 0 <= i < j < |r'| ensures r'[i].0 != r'[j].0 {
        assert Keys(r')[i] == Keys(r)[i] && Keys(r')[j] == Keys(r)[j];
      }
    }
  }

  /** Removing a key shifts every later entry down by one place. */
  lemma RemoveShape<V>(r: Registry<V>, k: string)
    requires Has(r, k)
    ensures var i := IndexOf(r, k);
      |Remove(r, k)| == |r| - 1 &&
      (forall a :: 0 <= a < i ==> Remove(r, k)[a] == r[a]) &&
      (forall a :: i <= a < |r| - 1 ==> Remove(r, k)[a] == r[a + 1])
  {
    var i := IndexOf(r, k);
    var r' := r[..i] + r[i + 1..];
    assert Remove(r, k) == r';
    forall a | i <= a < |r| - 1 ensures r'[a] == r[a + 1] {
      assert r'[a] == r[i + 1..][a - i];
    }
  }

  lemma RemoveKeepsUnique<V>(r: Registry<V>, k: string)
    requires UniqueKeys(r)
    ensures UniqueKeys(Remove(r, k))
    ensures !Has(Remove(r, k), k)
  {
    if Has(r, k) {
      RemoveShape(r, k);
      var i := IndexOf(r, k);
      var r' := Remove(r, k);
      forall a | 0 <= a < |r'| ensures r'[a].0 != k {
        if a >= i { assert r'[a] == r[a + 1]; }
      }
      forall a, b | 0 <= a < b < |r'| ensures r'[a].0 != r'[b].0 {
        if a >= i { assert r'[a] == r[a + 1] && r'[b] == r[b + 1]; }
        else if b >= i { assert r'[b] == r[b + 1]; }
      }
    }
  }

  lemma GetRemoveOther<V>(r: Registry<V>, k: string, k': string)
    requires k' != k
    ensures Get(Remove(r, k), k') == Get(r, k')
  {
    if Has(r, k) {
      RemoveShape(r, k);
      var i := IndexOf(r, k);
      var r' := Remove(r, k);
      var n := IndexOf(r, k');
      if n < |r| {
        if n < i {
          IndexOfUnique(r', k', n);
        } else {
          assert r'[n - 1] == r[n];
          IndexOfUnique(r', k', n - 1);
        }
      } else {
        assert forall a :: 0 <= a < |r'| ==> r'[a].0 != k' by {
          forall a | 0 <= a < |r'| ensures r'[a].0 != k' {
            if a >= i { assert r'[a] == r[a + 1]; }
          }
        }
      }
    }
  }

  /** In a registry without repeated keys, every entry is what its key looks up. */
  lemma GetUnique<V>(r: Registry<V>)
    requires UniqueKeys(r)
    ensures forall i :: 0 <= i < |r| ==> Get(r, r[i].0) == Some(r[i].1)
  {
    forall i | 0 <= i < |r| ensures Get(r, r[i].0) == Some(r[i].1) {
      IndexOfUnique(r, r[i].0, i);
    }
  }

  /** `d[k] = v` leaves every other key's entry as it was. */
  lemma PutFrame<V>(r: Registry<V>, k: string, v: V)
    ensures forall k' :: k' != k ==> Get(Put(r, k, v), k') == Get(r, k')
  {
    forall k' | k' != k ensures Get(Put(r, k, v), k') == Get(r, k') {
      GetPutOther(r, k, v, k');
    }
  }

  /** `del d[k]` leaves every other key's entry as it was. */
  lemma RemoveFrame<V>(r: Registry<V>, k: string)
    ensures forall k' :: k' != k ==> Get(Remove(r, k), k') == Get(r, k')
  {
    forall k' | k' != k ensures Get(Remove(r, k), k') == Get(r, k') {
      GetRemoveOther(r, k, k');
    }
  }

  /** `a.update(b)`: every entry of `b` put into `a`, in order. */
  function Update<V>(a: Registry<V>, b: Registry<V>): Registry<V>
    decreases |b|
  {
    if |b| == 0 then a else Update(Put(a, b[0].0, b[0].1), b[1..])
  }

  lemma GetTail<V>(b: Registry<V>, k: string)
    requires |b| > 0 && b[0].0 != k
    ensures Get(b, k) == Get(b[1..], k)
    ensures Has(b, k) <==> Has(b[1..], k)
  {
    if Has(b, k) {
      var i :| 0 <= i < |b| && b[i].0 == k;
      assert b[1..][i - 1].0 == k;
    }
    if Has(b[1..], k) {
      var i :| 0 <= i < |b[1..]| && b[1..][i].0 == k;
      assert b[i + 1].0 == k;
    }
  }

  /** After `a.update(b)` a key of `b` holds `b`'s value and any other key
      holds `a`'s: later keys win. */
  lemma {:induction false} UpdateGet<V>(a: Registry<V>, b: Registry<V>, k: string)
    requires UniqueKeys(b)
    ensures Get(Update(a, b), k) == if Has(b, k) then Get(b, k) else Get(a, k)
    decreases |b|
  {
    if |b| > 0 {
      var a' := Put(a, b[0].0, b[0].1);
      UpdateGet(a', b[1..], k);
      if k == b[0].0 {
        assert forall i :: 0 <= i < |b[1..]| ==> b[1..][i] == b[i + 1];
        GetPutSame(a, k, b[0].1);
        IndexOfUnique(b, k, 0);
      } else {
        GetTail(b, k);
        GetPutOther(a, b[0].0, b[0].1, k);
      }
    }
  }

  lemma {:induction false} UpdateKeepsUnique<V>(a: Registry<V>, b: Registry<V>)
    requires UniqueKeys(a)
    ensures UniqueKeys(Update(a, b))
    decreases |b|
  {
    if |b| > 0 {
      PutKeepsUnique(a, b[0].0, b[0].1);
      UpdateKeepsUnique(Put(a, b[0].0, b[0].1), b[1..]);
    }
  }
}

=== FILE: sentiment.dfy ===
/** The rule-based sentiment analyzer: lexicon polarity, a three-way
    classification, keyword emotions and tones as normalised shares, a
    substring subjectivity score, and the batch aggregates built on them. */
module Sentiment {
  import opened Wrappers
  import opened Text
  import opened Seqs
  import opened Base
  import opened Registry
  import opened Lexicon
  import AnalysisBase

  const PositiveWords: set<string> := {
    "good", "great", "awesome", "excellent", "amazing", "wonderful", "fantastic",
    "love", "like", "enjoy", "happy", "pleased", "satisfied", "delighted", "excited",
    "positive", "helpful", "useful", "beneficial", "valuable", "informative",
    "interesting", "engaging", "thanks", "thank", "appreciate", "brilliant", "perfect",
    "outstanding", "superb", "magnificent", "marvelous", "best", "favorite",
    "recommend", "agree", "agreeing", "beautiful", "nice", "cool", "fun", "hilarious",
    "funny"}

  const NegativeWords: set<string> := {
    "bad", "terrible", "awful", "horrible", "worst", "hate", "dislike",
    "disappointed", "frustrated", "annoyed", "angry", "upset", "sad", "unhappy",
    "useless", "worthless", "boring", "dull", "stupid", "idiotic", "ridiculous",
    "pathetic", "disappointing", "unhelpful", "waste", "garbage", "trash", "crap",
    "shit", "sucks", "fail", "failure", "disgusting", "offensive", "rude", "mean",
    "harmful", "dangerous", "scary", "worried", "concerned", "negative", "poor",
    "weak", "broken", "wrong", "incorrect"}

  const JoyWords: seq<string> := ["happy", "joy", "excited", "delighted", "thrilled", "ecstatic"]
  const SadnessWords: seq<string> := ["sad", "depressed", "unhappy", "miserable", "heartbroken"]
  const AngerWords: seq<string> := ["angry", "furious", "irate", "outraged", "mad", "livid"]
  const FearWords: seq<string> := ["afraid", "scared", "terrified", "anxious", "worried",
                                   "nervous"]
  const SurpriseWords: seq<string> := ["surprised", "shocked", "amazed", "astonished", "stunned"]
  const DisgustWords: seq<string> := ["disgusted", "revolted", "repulsed", "sickened"]

  const EmotionKeywords: Table := [
    ("joy", JoyWords),
    ("sadness", SadnessWords),
    ("anger", AngerWords),
    ("fear", FearWords),
    ("surprise", SurpriseWords),
    ("disgust", DisgustWords)]

  const FormalMarkers: seq<string> := ["respectfully", "regarding", "concerning", "furthermore",
                                       "additionally"]
  const InformalMarkers: seq<string> := ["lol", "omg", "haha", "wow", "yeah", "cool", "awesome"]
  const SarcasticMarkers: seq<string> := ["totally", "sure", "whatever", "great", "just",
                                          "obviously"]
  const AggressiveMarkers: seq<string> := ["stupid", "idiot", "ridiculous", "pathetic",
                                           "shut up"]
  const RespectfulMarkers: seq<string> := ["please", "thank", "appreciate", "respect", "agree"]
  const QuestioningMarkers: seq<string> := ["why", "how", "what", "when", "where", "?"]

  /** Matched against single words, so "shut up" can never match. */
  const ToneIndicators: Table := [
    ("formal", FormalMarkers),
    ("informal", InformalMarkers),
    ("sarcastic", SarcasticMarkers),
    ("aggressive", AggressiveMarkers),
    ("respectful", RespectfulMarkers),
    ("questioning", QuestioningMarkers)]

  const SubjectiveIndicators: seq<string> := [
    "i think", "i believe", "i feel", "in my opinion", "seems like", "probably",
    "maybe", "possibly", "personally", "subjectively", "basically"]

  /** A word as the lexicons see it: lower-cased unless `case_sensitive`. */
  function Norm(w: string, caseSensitive: bool): string {
    if caseSensitive then w else Lower(w)
  }

  // ---------------------------------------------------------------------
  // Polarity and classification

  /** Positive and negative hits over the words, in the order they are
      counted: a word is tried against the positive lexicon first. */
  function Tallies(words: seq<string>, cs: bool): (t: (nat, nat))
    ensures t.0 + t.1 <= |words|
  {
    if |words| == 0 then (0, 0)
    else
      var (p, n) := Tallies(words[..|words| - 1], cs);
      var w := Norm(words[|words| - 1], cs);
      if w in PositiveWords then (p + 1, n)
      else if w in NegativeWords then (p, n + 1)
      else (p, n)
  }

  /** Positions of the words whose normal form lies in `lex`. */
  function Hits(words: seq<string>, cs: bool, lex: set<string>): set<int> {
    set i | 0 <= i < |words| && Norm(words[i], cs) in lex
  }

  lemma {:induction false} HitsStep(words: seq<string>, cs: bool, lex: set<string>)
    requires |words| > 0
    ensures var n := |words| - 1;
      Hits(words, cs, lex) == Hits(words[..n], cs, lex) + (if Norm(words[n], cs) in lex then {n} else {})
    ensures |words| - 1 !in Hits(words[..|words| - 1], cs, lex)
  {
    var n := |words| - 1;
    assert forall i :: 0 <= i < n ==> words[..n][i] == words[i];
  }

  /** The positive count is the number of positive-lexicon words; the
      negative count the number of words only in the negative lexicon, so a
      word in both lexicons counts as positive and never as negative. */
  lemma {:induction false} TalliesCount(words: seq<string>, cs: bool)
    ensures Tallies(words, cs).0 == |Hits(words, cs, PositiveWords)|
    ensures Tallies(words, cs).1 == |Hits(words, cs, NegativeWords - PositiveWords)|
  {
    if |words| > 0 {
      var pre := words[..|words| - 1];
      TalliesCount(pre, cs);
      HitsStep(words, cs, PositiveWords);
      HitsStep(words, cs, NegativeWords - PositiveWords);
    }
  }

  /** `r` is the polarity of `p` positive and `n` negative hits: it lies in
      [-1, 1], is 0 without hits, has the sign of `p - n` and times the
      number of hits gives `p - n`. */
  predicate PolarityFits(r: real, p: nat, n: nat) {
    -1.0 <= r <= 1.0 &&
    (p + n == 0 ==> r == 0.0) &&
    (r > 0.0 <==> p > n) && (r < 0.0 <==> n > p) &&
    r * (p + n) as real == (p - n) as real
  }

  /** `_calculate_polarity`: (pos - neg) / (pos + neg), and 0 without any
      lexicon word. */
  function Polarity(words: seq<string>, cs: bool): (r: real)
    ensures PolarityFits(r, Tallies(words, cs).0, Tallies(words, cs).1)
  {
    var t := Tallies(words, cs);
    PolarityOf(t.0, t.1)
  }

  /** The polarity of `p` positive and `n` negative hits. */
  function PolarityOf(p: nat, n: nat): (r: real)
    ensures PolarityFits(r, p, n)
  {
    if p + n == 0 then 0.0
    else
      var r := (p - n) as real / (p + n) as real;
      PolarityBounds(p, n, r);
      r
  }

  lemma {:induction false} PolarityBounds(p: nat, n: nat, r: real)
    requires p + n > 0 && r == (p - n) as real / (p + n) as real
    ensures -1.0 <= r <= 1.0 && r * (p + n) as real == (p - n) as real
    ensures r > 0.0 <==> p > n
    ensures r < 0.0 <==> n > p
  {
    var t := (p + n) as real;
    assert r * t == (p - n) as real;
    if r > 0.0 { assert r * t > 0.0; }
    if r < 0.0 { assert r * t < 0.0; }
    if p > n { assert r * t > 0.0; }
    if n > p { assert r * t < 0.0; }
  }

  /** A comment without any lexicon word has polarity 0. */
  lemma {:induction false} NoLexiconWordNeutral(words: seq<string>, cs: bool)
    requires forall i :: 0 <= i < |words| ==> Norm(words[i], cs) !in PositiveWords + NegativeWords
    ensures Polarity(words, cs) == 0.0
  {
    TalliesCount(words, cs);
    assert Hits(words, cs, PositiveWords) == {};
    assert Hits(words, cs, NegativeWords - PositiveWords) == {};
  }

  /** `_classify_sentiment`: never MIXED. */
  function Classify(polarity: real): (s: Sentiment)
    ensures s == Positive <==> polarity > 0.1
    ensures s == Negative <==> polarity < -0.1
    ensures s == Neutral <==> -0.1 <= polarity <= 0.1
  {
    if polarity > 0.1 then Positive
    else if polarity < -0.1 then Negative
    else Neutral
  }

  lemma {:induction false} DivCompare(x: real, t: real, c: real)
    requires t > 0.0
    ensures x / t > c <==> x > c * t
    ensures x / t < c <==> x < c * t
  {
    var q := x / t;
    assert q * t == x;
    if q > c { assert (q - c) * t > 0.0; }
    if q < c { assert (c - q) * t > 0.0; }
    if q == c { assert q * t == c * t; }
  }

  lemma {:induction false} MulDiv(r: real, x: real, t: real)
    requires t > 0.0 && r * t == x
    ensures r == x / t
  {
  }

  lemma {:induction false} TenthBands(m: real, p: int, n: int)
    requires m == (p - n) as real
    ensures m > 0.1 * (p + n) as real <==> 9 * p > 11 * n
    ensures m < -0.1 * (p + n) as real <==> 9 * n > 11 * p
  {
  }

  lemma {:induction false} CountsCompare(p: int, n: int, r: real)
    requires p + n > 0 && r * (p + n) as real == (p - n) as real
    ensures r > 0.1 <==> 9 * p > 11 * n
    ensures r < -0.1 <==> 9 * n > 11 * p
  {
    var t := (p + n) as real;
    var x := (p - n) as real;
    MulDiv(r, x, t);
    DivCompare(x, t, 0.1);
    DivCompare(x, t, -0.1);
    TenthBands(x, p, n);
  }

  /** In terms of the counts: POSITIVE exactly when 9 * pos > 11 * neg,
      NEGATIVE exactly when 9 * neg > 11 * pos. */
  lemma ClassifyByCounts(words: seq<string>, cs: bool)
    ensures Classify(Polarity(words, cs)) == Positive <==> 9 * Tallies(words, cs).0 > 11 * Tallies(words, cs).1
    ensures Classify(Polarity(words, cs)) == Negative <==> 9 * Tallies(words, cs).1 > 11 * Tallies(words, cs).0
  {
    ClassifyCounts(Tallies(words, cs).0, Tallies(words, cs).1);
  }

  lemma ClassifyCounts(p: nat, n: nat)
    ensures Classify(PolarityOf(p, n)) == Positive <==> 9 * p > 11 * n
    ensures Classify(PolarityOf(p, n)) == Negative <==> 9 * n > 11 * p
  {
    if p + n > 0 {
      CountsCompare(p, n, PolarityOf(p, n));
    }
  }

  /** The reported confidence: min(|polarity| + 0.5, 1). */
  function Confidence(polarity: real): (c: real)
    ensures 0.5 <= c <= 1.0
    ensures c == 1.0 <==> polarity >= 0.5 || polarity <= -0.5
  {
    var a := if polarity < 0.0 then -polarity else polarity;
    if a + 0.5 < 1.0 then a + 0.5 else 1.0
  }

  /** A stronger polarity never lowers the confidence. */
  lemma {:induction false} ConfidenceMonotone(p: real, q: real)
    requires 0.0 <= p <= q || q <= p <= 0.0
    ensures Confidence(p) <= Confidence(q)
  {
  }

  // ---------------------------------------------------------------------
  // Subjectivity

  /** `_calculate_subjectivity`: indicator phrases found in the lower-cased
      text, per hundred characters (at least one), capped at 1. */
  function Subjectivity(text: string): (s: real)
    ensures 0.0 <= s <= 1.0
    ensures s == 0.0 <==> forall i :: 0 <= i < |SubjectiveIndicators| ==> !Contains(Lower(text), SubjectiveIndicators[i])
    ensures |text| <= 100 ==> s == (if Present(Lower(text), SubjectiveIndicators) == 0 then 0.0 else 1.0)
  {
    var m := Present(Lower(text), SubjectiveIndicators);
    var per := |text| as real / 100.0;
    var d := if 1.0 < per then per else 1.0;
    var q := m as real / d;
    DensityFacts(m, d, q);
    if q < 1.0 then q else 1.0
  }

  lemma {:induction false} DensityFacts(m: nat, d: real, q: real)
    requires d >= 1.0 && q == m as real / d
    ensures q >= 0.0 && (q == 0.0 <==> m == 0)
    ensures d == 1.0 ==> q == m as real
  {
    assert q * d == m as real;
    if q == 0.0 { assert q * d == 0.0; }
  }

  // ---------------------------------------------------------------------
  // Emotions and tone

  /** One entry per (word, listing category) pair, words first: the
      increments the analyzer makes to its counts, in order. */
  function CategoryHits(words: seq<string>, cs: bool, table: Table): (hs: seq<string>)
    ensures hs == [] <==> NoneListed(words, cs, table)
  {
    if |words| == 0 then []
    else
      var pre := words[..|words| - 1];
      NoneListedSnoc(words, cs, table);
      var a, b := CategoryHits(pre, cs, table), Categories(Norm(words[|words| - 1], cs), table);
      assert a + b == [] <==> a == [] && b == [] by {
        if a != [] { assert (a + b)[0] == a[0]; }
        if b != [] { assert (a + b)[|a|] == b[0]; }
      }
      a + b
  }

  /** No word is listed exactly when none before the last is and the last is not. */
  predicate NoneListed(words: seq<string>, cs: bool, table: Table) {
    forall i :: 0 <= i < |words| ==> !Listed(Norm(words[i], cs), table)
  }

  lemma NoneListedSnoc(words: seq<string>, cs: bool, table: Table)
    requires |words| > 0
    ensures NoneListed(words, cs, table) <==>
      NoneListed(words[..|words| - 1], cs, table) && !Listed(Norm(words[|words| - 1], cs), table)
  {
    var pre := words[..|words| - 1];
    assert forall i :: 0 <= i < |words| - 1 ==> pre[i] == words[i];
  }

  /** Counts per category in order of first hit, divided by the number of
      hits; empty when nothing is listed. */
  function Distribution(words: seq<string>, cs: bool, table: Table): (d: Registry<real>)
    ensures d == [] <==> forall i :: 0 <= i < |words| ==> !Listed(Norm(words[i], cs), table)
  {
    Frequencies(CategoryHits(words, cs, table))
  }

  /** A non-empty distribution is a normalised one. */
  lemma {:induction false} DistributionShares(words: seq<string>, cs: bool, table: Table)
    requires Distribution(words, cs, table) != []
    ensures Shares(Distribution(words, cs, table))
  {
    FrequenciesShares(CategoryHits(words, cs, table));
  }

  /** Each category some word hits is present, with its number of hits over
      all hits; no other key is. */
  lemma {:induction false} DistributionValues(words: seq<string>, cs: bool, table: Table, k: string)
    requires Distribution(words, cs, table) != []
    ensures var hs := CategoryHits(words, cs, table);
      (Has(Distribution(words, cs, table), k) <==> k in hs) &&
      (k in hs ==> Get(Distribution(words, cs, table), k) == Some(Count(hs, k) as real / |hs| as real))
  {
    FrequenciesValues(CategoryHits(words, cs, table), k);
  }

  /** `_detect_emotions`. */
  function DetectEmotions(words: seq<string>, cs: bool): (d: Registry<real>)
    ensures d == [] <==> forall i :: 0 <= i < |words| ==> !Listed(Norm(words[i], cs), EmotionKeywords)
  {
    Distribution(words, cs, EmotionKeywords)
  }

  /** Emotions are empty when no keyword matches, and shares otherwise. */
  lemma {:induction false} EmotionsShares(words: seq<string>, cs: bool)
    ensures DetectEmotions(words, cs) == [] || Shares(DetectEmotions(words, cs))
  {
    if DetectEmotions(words, cs) != [] {
      DistributionShares(words, cs, EmotionKeywords);
    }
  }

  /** `_detect_tone`: `{"neutral": 1.0}` when no indicator word occurs. */
  function DetectTone(words: seq<string>, cs: bool): (d: Registry<real>)
    ensures (d == [("neutral", 1.0)]) <==> forall i :: 0 <= i < |words| ==> !Listed(Norm(words[i], cs), ToneIndicators)
  {
    var d := Distribution(words, cs, ToneIndicators);
    if d == [] then [("neutral", 1.0)]
    else
      assert d != [("neutral", 1.0)] by {
        DistributionValues(words, cs, ToneIndicators, "neutral");
        NoNeutralTone(words, cs);
        assert !Has(d, "neutral");
        assert [("neutral", 1.0)][0].0 == "neutral";
      }
      d
  }

  /** "neutral" is not one of the tone categories. */
  lemma NoNeutralTone(words: seq<string>, cs: bool)
    ensures "neutral" !in CategoryHits(words, cs, ToneIndicators)
  {
    assert forall i :: 0 <= i < |ToneIndicators| ==> ToneIndicators[i].0 != "neutral";
    NoHitsFor(words, cs, ToneIndicators, "neutral");
  }

  /** A name the table does not declare is never hit. */
  lemma {:induction false} NoHitsFor(words: seq<string>, cs: bool, table: Table, c: string)
    requires forall i :: 0 <= i < |table| ==> table[i].0 != c
    ensures c !in CategoryHits(words, cs, table)
  {
    if |words| > 0 {
      NoHitsFor(words[..|words| - 1], cs, table, c);
    }
  }

  /** The tone is always a dict of shares. */
  lemma {:induction false} ToneShares(words: seq<string>, cs: bool)
    ensures Shares(DetectTone(words, cs))
  {
    if Distribution(words, cs, ToneIndicators) != [] {
      DistributionShares(words, cs, ToneIndicators);
    }
  }

  /** `_get_dominant_emotion`: None for no emotions, else the first key with
      the largest share. */
  function DominantEmotion(d: Registry<real>): (e: Option<string>)
    ensures e.None? <==> d == []
    ensures e.Some? ==> Has(d, e.value)
    ensures e.Some? && UniqueKeys(d) ==> forall j :: 0 <= j < |d| ==> d[j].1 <= Get(d, e.value).value
  {
    if |d| == 0 then None
    else
      var i := FirstMax(d, ShareOf);
      if UniqueKeys(d) then IndexOfUnique(d, d[i].0, i); Some(d[i].0)
      else Some(d[i].0)
  }

  // ---------------------------------------------------------------------
  // The analysis

  datatype SentimentReport = SentimentReport(
    sentiment: Sentiment, polarity: real, subjectivity: real, confidence: real,
    emotions: Registry<real>, dominantEmotion: Option<string>, tone: Registry<real>,
    wordCount: nat)

  /** The report for the preprocessed text and its words. */
  function Report(text: string, words: seq<string>, cs: bool): (r: SentimentReport)
    ensures -1.0 <= r.polarity <= 1.0 && 0.0 <= r.subjectivity <= 1.0 && 0.5 <= r.confidence <= 1.0
    ensures r.sentiment == Classify(r.polarity) && r.confidence == Confidence(r.polarity)
    ensures r.emotions == [] || Shares(r.emotions)
    ensures Shares(r.tone)
    ensures r.dominantEmotion.None? <==> r.emotions == []
    ensures r.wordCount == |words|
    ensures r.polarity == Polarity(words, cs) && r.subjectivity == Subjectivity(text)
    ensures r.emotions == DetectEmotions(words, cs) && r.dominantEmotion == DominantEmotion(r.emotions)
    ensures r.tone == DetectTone(words, cs)
  {
    var p := Polarity(words, cs);
    var e := DetectEmotions(words, cs);
    EmotionsShares(words, cs);
    ToneShares(words, cs);
    SentimentReport(Classify(p), p, Subjectivity(text), Confidence(p), e, DominantEmotion(e),
      DetectTone(words, cs), |words|)
  }

  /** `analyze`: None stands for the "Invalid comment" error result. */
  function Analyze(cs: bool, c: Comment): (r: Option<SentimentReport>)
    ensures r.None? <==> !AnalysisBase.ValidateComment(c)
    ensures r.Some? ==> r.value.wordCount > 0
    ensures r.Some? ==> -1.0 <= r.value.polarity <= 1.0 && r.value.sentiment == Classify(r.value.polarity)
    ensures r.Some? ==> var text := AnalysisBase.Preprocess(c.text);
      r.value == Report(text, Split(text), cs)
  {
    if !AnalysisBase.ValidateComment(c) then None
    else
      var text := AnalysisBase.Preprocess(c.text);
      SplitEmptyIffAllSpace(text);
      Some(Report(text, Split(text), cs))
  }

  /** `analyze_batch`: one result per comment, in order. */
  function AnalyzeBatch(cs: bool, comments: seq<Comment>): (rs: seq<Option<SentimentReport>>)
    ensures |rs| == |comments|
    ensures forall i :: 0 <= i < |rs| ==> rs[i] == Analyze(cs, comments[i])
    ensures forall i :: 0 <= i < |rs| ==> (rs[i].None? <==> !AnalysisBase.ValidateComment(comments[i]))
    ensures forall i :: 0 <= i < |rs| && rs[i].Some? ==> -1.0 <= rs[i].value.polarity <= 1.0
  {
    seq(|comments|, i requires 0 <= i < |comments| => Analyze(cs, comments[i]))
  }

  /** The polarities of the successful results, in order. */
  function Polarities(rs: seq<Option<SentimentReport>>): (ps: seq<real>)
    ensures |ps| <= |rs|
    ensures ps == [] <==> forall j :: 0 <= j < |rs| ==> rs[j].None?
    ensures (forall j :: 0 <= j < |rs| && rs[j].Some? ==> -1.0 <= rs[j].value.polarity <= 1.0) ==>
      forall i :: 0 <= i < |ps| ==> -1.0 <= ps[i] <= 1.0
    ensures forall j :: 0 <= j < |rs| && rs[j].Some? ==> rs[j].value.polarity in ps
    ensures forall p :: p in ps ==> exists j :: 0 <= j < |rs| && rs[j].Some? && rs[j].value.polarity == p
  {
    if |rs| == 0 then []
    else
      var ps := Polarities(rs[..|rs| - 1]);
      assert forall j :: 0 <= j < |rs| - 1 ==> rs[..|rs| - 1][j] == rs[j];
      var a := rs[|rs| - 1];
      if a.None? then ps
      else
        assert forall i :: 0 <= i < |ps| ==> (ps + [a.value.polarity])[i] == ps[i];
        ps + [a.value.polarity]
  }

  /** `get_average_polarity`: the mean over successful analyses, 0 for none. */
  function AveragePolarity(cs: bool, comments: seq<Comment>): (a: real)
    ensures -1.0 <= a <= 1.0
    ensures (forall c :: c in comments ==> !AnalysisBase.ValidateComment(c)) ==> a == 0.0
    ensures var ps := Polarities(AnalyzeBatch(cs, comments));
      (ps == [] ==> a == 0.0) && (ps != [] ==> a == MeanReal(ps))
  {
    var rs := AnalyzeBatch(cs, comments);
    var ps := Polarities(rs);
    BatchPolarities(rs, comments);
    if |ps| == 0 then 0.0
    else
      MeanInRange(ps);
      MeanReal(ps)
  }

  /** The polarities of results in [-1, 1] lie in [-1, 1], and there are
      none when no comment is valid. */
  lemma BatchPolarities(rs: seq<Option<SentimentReport>>, comments: seq<Comment>)
    requires |rs| == |comments|
    requires forall i :: 0 <= i < |rs| ==> (rs[i].None? <==> !AnalysisBase.ValidateComment(comments[i]))
    requires forall i :: 0 <= i < |rs| && rs[i].Some? ==> -1.0 <= rs[i].value.polarity <= 1.0
    ensures var ps := Polarities(rs);
      (forall i :: 0 <= i < |ps| ==> -1.0 <= ps[i] <= 1.0) &&
      ((forall c :: c in comments ==> !AnalysisBase.ValidateComment(c)) ==> ps == [])
  {
    if forall c :: c in comments ==> !AnalysisBase.ValidateComment(c) {
      forall j | 0 <= j < |rs| ensures rs[j].None? {
        assert comments[j] in comments;
      }
    }
  }

  lemma {:induction false} MeanInRange(ps: seq<real>)
    requires |ps| > 0 && forall i :: 0 <= i < |ps| ==> -1.0 <= ps[i] <= 1.0
    ensures -1.0 <= MeanReal(ps) <= 1.0
  {
    SumRealBounds(ps, -1.0, 1.0);
    MeanWithin(SumReal(ps), |ps| as real, MeanReal(ps));
  }

  lemma {:induction false} MeanWithin(s: real, n: real, a: real)
    requires n > 0.0 && -n <= s <= n && a == s / n
    ensures -1.0 <= a <= 1.0
  {
    assert a * n == s;
  }

  /** The dominant emotions of the successful results that have one. */
  function Dominants(rs: seq<Option<SentimentReport>>): (es: seq<string>)
    ensures |es| <= |rs|
    ensures forall j :: 0 <= j < |rs| && HasDominant(rs[j]) ==> rs[j].value.dominantEmotion.value in es
  {
    if |rs| == 0 then []
    else
      assert forall j :: 0 <= j < |rs| - 1 ==> rs[..|rs| - 1][j] == rs[j];
      var es := Dominants(rs[..|rs| - 1]);
      var a := rs[|rs| - 1];
      if HasDominant(a) then es + [a.value.dominantEmotion.value]
      else es
  }

  /** Every dominant emotion collected is that of a successful result. */
  lemma {:induction false} DominantsFromResults(rs: seq<Option<SentimentReport>>, e: string)
    requires e in Dominants(rs)
    ensures exists j :: 0 <= j < |rs| && HasDominant(rs[j]) && rs[j].value.dominantEmotion.value == e
  {
    var n := |rs| - 1;
    var pre := rs[..n];
    if e in Dominants(pre) {
      DominantsFromResults(pre, e);
      var j :| 0 <= j < |pre| && HasDominant(pre[j]) && pre[j].value.dominantEmotion.value == e;
      assert rs[j] == pre[j];
    } else {
      assert HasDominant(rs[n]) && rs[n].value.dominantEmotion.value == e;
    }
  }

  /** A successful result whose dominant emotion is a non-empty name. */
  predicate HasDominant(r: Option<SentimentReport>) {
    r.Some? && r.value.dominantEmotion.Some? && r.value.dominantEmotion.value != ""
  }

  function ShareOf(p: (string, real)): real { p.1 }

  /** The `top_n` most common of `es`, each with its share of `es`. */
  function Trending(es: seq<string>, topN: int): (r: seq<(string, real)>)
    ensures es == [] ==> r == []
    ensures |r| <= if topN < 0 then 0 else topN
    ensures SortedBy(r, ShareOf)
    ensures forall i :: 0 <= i < |r| ==> 0.0 < r[i].1 <= 1.0 && r[i].0 in es
    ensures forall i :: 0 <= i < |r| ==> r[i].1 == Count(es, r[i].0) as real / |es| as real
    ensures es != [] && topN > 0 ==> |r| == if topN < |Distinct(es)| then topN else |Distinct(es)|
  {
    if |es| == 0 then []
    else
      var top := MostCommon(Tally(es), topN);
      var r := seq(|top|, i requires 0 <= i < |top| => (top[i].0, top[i].1 as real / |es| as real));
      TrendingFacts(es, top, r);
      MostCommonTally(es, topN);
      assert forall i :: 0 <= i < |r| ==> top[i] in top;
      r
  }

  /** An emotion left out of the trending list has no larger share than
      any emotion in it. */
  lemma TrendingDominates(es: seq<string>, topN: int, p: (string, real), e: string)
    requires p in Trending(es, topN) && e in es
    requires forall q :: q in Trending(es, topN) ==> q.0 != e
    ensures p.1 >= Count(es, e) as real / |es| as real
  {
    var top := MostCommon(Tally(es), topN);
    var r := Trending(es, topN);
    var i :| 0 <= i < |r| && r[i] == p;
    assert r[i] == (top[i].0, top[i].1 as real / |es| as real);
    forall q | q in top ensures q.0 != e {
      var j :| 0 <= j < |top| && top[j] == q;
      assert r[j].0 == q.0;
    }
    TallyTopDominates(es, topN, top[i], e);
    DivMonotone(Count(es, e), top[i].1, |es|);
  }

  /** `get_trending_emotions`: the `top_n` most common dominant emotions of
      the successful analyses, each with its share of all of them. */
  function TrendingEmotions(cs: bool, comments: seq<Comment>, topN: int): (r: seq<(string, real)>)
    ensures Dominants(AnalyzeBatch(cs, comments)) == [] ==> r == []
    ensures |r| <= if topN < 0 then 0 else topN
    ensures SortedBy(r, ShareOf)
    ensures forall i :: 0 <= i < |r| ==> 0.0 < r[i].1 <= 1.0 && r[i].0 in Dominants(AnalyzeBatch(cs, comments))
    ensures var es := Dominants(AnalyzeBatch(cs, comments));
      es != [] ==> forall i :: 0 <= i < |r| ==> r[i].1 == Count(es, r[i].0) as real / |es| as real
    ensures var es := Dominants(AnalyzeBatch(cs, comments));
      es != [] && topN > 0 ==> |r| == if topN < |Distinct(es)| then topN else |Distinct(es)|
  {
    Trending(Dominants(AnalyzeBatch(cs, comments)), topN)
  }

  lemma {:induction false} TrendingFacts(es: seq<string>, top: seq<(string, int)>, r: seq<(string, real)>)
    requires |es| > 0 && SortedBy(top, CountOf)
    requires forall p :: p in top ==> p in Tally(es)
    requires |r| == |top| && forall i :: 0 <= i < |top| ==> r[i] == (top[i].0, top[i].1 as real / |es| as real)
    ensures SortedBy(r, ShareOf)
    ensures forall i :: 0 <= i < |r| ==> 0.0 < r[i].1 <= 1.0 && r[i].0 in es
  {
    TallyTotal(es);
    TallySpec(es);
    forall i | 0 <= i < |r| ensures 0.0 < r[i].1 <= 1.0 && r[i].0 in es {
      assert top[i] in Tally(es);
      var j :| 0 <= j < |Tally(es)| && Tally(es)[j] == top[i];
      assert Has(Tally(es), top[i].0);
      ShareBounds(top[i].1, |es|);
    }
    forall i, j | 0 <= i < j < |r| ensures ShareOf(r[i]) >= ShareOf(r[j]) {
      assert CountOf(top[i]) >= CountOf(top[j]);
      DivMonotone(top[j].1, top[i].1, |es|);
    }
  }

  lemma {:induction false} DivMonotone(a: int, b: int, t: int)
    requires a <= b && t > 0
    ensures a as real / t as real <= b as real / t as real
  {
    var x := a as real / t as real;
    var y := b as real / t as real;
    assert x * t as real == a as real && y * t as real == b as real;
  }
}

=== FILE: seqs.dfy ===
/** List helpers with Python's meaning: slicing, `collections.Counter`,
    `sorted(..., reverse=True)` (stable), `most_common`, `sum`. */
module Seqs {
  import opened Wrappers
  import opened Registry

  /** Python's `xs[:n]`; a negative `n` drops that many items from the end. */
  function PyTake<T>(xs: seq<T>, n: int): (r: seq<T>)
    ensures n >= 0 ==> |r| == if n < |xs| then n else |xs|
    ensures n < 0 ==> |r| == if -n < |xs| then |xs| + n else 0
    ensures r == xs[..|r|]
  {
    if n >= 0 then (if n < |xs| then xs[..n] else xs)
    else if -n < |xs| then xs[..|xs| + n] else []
  }

  /** A prefix holds no item more often than the whole list. */
  lemma TakeWithin<T>(xs: seq<T>, n: int)
    ensures multiset(PyTake(xs, n)) <= multiset(xs)
  {
    var t := PyTake(xs, n);
    assert xs == t + xs[|t|..];
  }

  function Count<T(==)>(xs: seq<T>, x: T): (c: nat)
    ensures c <= |xs|
    ensures c == 0 <==> x !in xs
  {
    if |xs| == 0 then 0
    else
      assert xs == xs[..|xs| - 1] + [xs[|xs| - 1]];
      Count(xs[..|xs| - 1], x) + (if xs[|xs| - 1] == x then 1 else 0)
  }

  /** Counting over a list with one more item in front. */
  lemma {:induction false} CountCons<T>(x: T, s: seq<T>, y: T)
    ensures Count([x] + s, y) == (if x == y then 1 else 0) + Count(s, y)
    decreases |s|
  {
    var t := [x] + s;
    if |s| == 0 {
      assert t[..|t| - 1] == [];
    } else {
      assert t[..|t| - 1] == [x] + s[..|s| - 1];
      assert t[|t| - 1] == s[|s| - 1];
      CountCons(x, s[..|s| - 1], y);
    }
  }

  /** `a` is `b` with some items dropped: the order of what is kept is `b`'s. */
  predicate Subsequence<T(==)>(a: seq<T>, b: seq<T>)
    decreases |b|
  {
    if |a| == 0 then true
    else if |b| == 0 then false
    else if a[0] == b[0] then Subsequence(a[1..], b[1..])
    else Subsequence(a, b[1..])
  }

  function SumReal(xs: seq<real>): real {
    if |xs| == 0 then 0.0 else SumReal(xs[..|xs| - 1]) + xs[|xs| - 1]
  }

  /** `sum(xs) / len(xs)` for a non-empty list. */
  function MeanReal(xs: seq<real>): (m: real)
    requires xs != []
    ensures m * |xs| as real == SumReal(xs)
  {
    SumReal(xs) / |xs| as real
  }

  function SumInt(xs: seq<int>): int {
    if |xs| == 0 then 0 else SumInt(xs[..|xs| - 1]) + xs[|xs| - 1]
  }

  lemma {:induction false} SumRealBounds(xs: seq<real>, lo: real, hi: real)
    requires forall i :: 0 <= i < |xs| ==> lo <= xs[i] <= hi
    ensures |xs| as real * lo <= SumReal(xs) <= |xs| as real * hi
  {
    if |xs| > 0 {
      SumRealBounds(xs[..|xs| - 1], lo, hi);
    }
  }

  lemma {:induction false} SumRealNonNeg(xs: seq<real>)
    requires forall i :: 0 <= i < |xs| ==> xs[i] >= 0.0
    ensures SumReal(xs) >= 0.0
  {
    if |xs| > 0 {
      SumRealNonNeg(xs[..|xs| - 1]);
    }
  }

  /** Sum of the weights given to key `k` along `items`. */
  function SumFor(items: seq<(string, int)>, k: string): int {
    if |items| == 0 then 0
    else SumFor(items[..|items| - 1], k) + (if items[|items| - 1].0 == k then items[|items| - 1].1 else 0)
  }

  /** A `defaultdict(int)` (or `Counter`) after `d[k] += w` for each item in turn. */
  function Accumulate(items: seq<(string, int)>): Registry<int> {
    if |items| == 0 then []
    else
      Bump(Accumulate(items[..|items| - 1]), items[|items| - 1].0, items[|items| - 1].1)
  }

  /** Every key of the input appears once in the result. */
  lemma {:induction false} AccumulateKeys(items: seq<(string, int)>)
    ensures UniqueKeys(Accumulate(items))
    ensures forall k :: Has(Accumulate(items), k) <==> k in Keys(items)
  {
    if |items| > 0 {
      var pre := items[..|items| - 1];
      AccumulateKeys(pre);
      var r := Accumulate(pre);
      var k, w := items[|items| - 1].0, items[|items| - 1].1;
      BumpUnique(r, k, w);
      assert Keys(items) == Keys(pre) + [k];
      forall k' ensures Has(Accumulate(items), k') <==> Has(r, k') || k' == k {
        BumpGet(r, k, w, k');
      }
    }
  }

  /** One entry per distinct key of the input. */
  lemma AccumulateSize(items: seq<(string, int)>)
    ensures |Accumulate(items)| == |Distinct(Keys(items))|
  {
    AccumulateKeys(items);
    KeySetSize(Accumulate(items));
    assert KeySet(Accumulate(items)) == Distinct(Keys(items));
  }

  /** Each key carries the total of the weights given to it. */
  lemma AccumulateSum(items: seq<(string, int)>, k: string)
    requires Has(Accumulate(items), k)
    ensures Get(Accumulate(items), k) == Some(SumFor(items, k))
  {
    AccumulateReads(items, k);
  }

  /** `d.get(k, 0)` reads the total of the weights given to `k`. */
  lemma {:induction false} AccumulateReads(items: seq<(string, int)>, k: string)
    ensures Get(Accumulate(items), k).GetOr(0) == SumFor(items, k)
  {
    if |items| > 0 {
      var pre := items[..|items| - 1];
      AccumulateReads(pre, k);
      BumpGet(Accumulate(pre), items[|items| - 1].0, items[|items| - 1].1, k);
    }
  }


  /** Every entry of the result is an input key with its total. */
  lemma AccumulateEntry(items: seq<(string, int)>, e: (string, int))
    requires e in Accumulate(items)
    ensures e.0 in Keys(items) && e.1 == SumFor(items, e.0)
  {
    var r := Accumulate(items);
    var j :| 0 <= j < |r| && r[j] == e;
    assert Has(r, e.0);
    AccumulateKeys(items);
    AccumulateSum(items, e.0);
    GetUnique(r);
    assert Get(r, r[j].0) == Some(r[j].1);
  }

  lemma {:induction false} SumForAbsent(items: seq<(string, int)>, k: string)
    requires k !in Keys(items)
    ensures SumFor(items, k) == 0
  {
    if |items| > 0 {
      var pre := items[..|items| - 1];
      assert Keys(items) == Keys(pre) + [items[|items| - 1].0];
      SumForAbsent(pre, k);
    }
  }

  function Ones(xs: seq<string>): (items: seq<(string, int)>)
    ensures |items| == |xs|
    ensures Keys(items) == xs
  {
    var r := seq(|xs|, i requires 0 <= i < |xs| => (xs[i], 1));
    assert Keys(r) == xs;
    r
  }

  /** `Counter(xs)`: distinct items in order of first appearance, with counts. */
  function Tally(xs: seq<string>): Registry<int> {
    Accumulate(Ones(xs))
  }

  lemma {:induction false} SumForOnes(xs: seq<string>, k: string)
    ensures SumFor(Ones(xs), k) == Count(xs, k)
  {
    if |xs| > 0 {
      assert Ones(xs)[..|xs| - 1] == Ones(xs[..|xs| - 1]);
      SumForOnes(xs[..|xs| - 1], k);
    }
  }

  /** The tally holds each distinct item exactly once, with its number of occurrences. */
  lemma TallySpec(xs: seq<string>)
    ensures UniqueKeys(Tally(xs))
    ensures forall k :: Has(Tally(xs), k) <==> k in xs
    ensures forall k :: k in xs ==> Get(Tally(xs), k) == Some(Count(xs, k))
  {
    AccumulateKeys(Ones(xs));
    forall k | k in xs ensures Get(Tally(xs), k) == Some(Count(xs, k)) {
      AccumulateSum(Ones(xs), k);
      SumForOnes(xs, k);
    }
  }

  /** Non-increasing by `key`. */
  predicate SortedBy<T>(xs: seq<T>, key: T -> real) {
    forall i, j :: 0 <= i < j < |xs| ==> key(xs[i]) >= key(xs[j])
  }

  /** Place `x` after every element whose key is at least its own. */
  function Insert<T(==)>(x: T, s: seq<T>, key: T -> real): (r: seq<T>)
    ensures multiset(r) == multiset(s) + multiset{x}
    ensures |r| == |s| + 1
  {
    if |s| == 0 then [x]
    else if key(s[0]) >= key(x) then
      assert s == [s[0]] + s[1..];
      [s[0]] + Insert(x, s[1..], key)
    else [x] + s
  }

  lemma {:induction false} InsertSorted<T>(x: T, s: seq<T>, key: T -> real)
    requires SortedBy(s, key)
    ensures SortedBy(Insert(x, s, key), key)
  {
    if |s| > 0 && key(s[0]) >= key(x) {
      var t := Insert(x, s[1..], key);
      InsertSorted(x, s[1..], key);
      InsertBounded(x, s[1..], key, key(s[0]));
      var r := [s[0]] + t;
      forall i, j | 0 <= i < j < |r| ensures key(r[i]) >= key(r[j]) {
        if i > 0 { assert r[i] == t[i - 1] && r[j] == t[j - 1]; } else { assert r[j] == t[j - 1]; }
      }
    }
  }

  /** A bound on every key of `s` and on `x` bounds every key after the insertion. */
  lemma {:induction false} InsertBounded<T>(x: T, s: seq<T>, key: T -> real, b: real)
    requires key(x) <= b
    requires forall i :: 0 <= i < |s| ==> key(s[i]) <= b
    ensures forall j :: 0 <= j < |Insert(x, s, key)| ==> key(Insert(x, s, key)[j]) <= b
  {
    if |s| > 0 {
      var r := Insert(x, s, key);
      if key(s[0]) >= key(x) {
        var t := Insert(x, s[1..], key);
        InsertBounded(x, s[1..], key, b);
        forall j | 0 <= j < |r| ensures key(r[j]) <= b {
          if j > 0 { assert r[j] == t[j - 1]; }
        }
      } else {
        forall j | 0 <= j < |r| ensures key(r[j]) <= b {
          if j > 0 { assert r[j] == s[j - 1]; }
        }
      }
    }
  }

  /** `sorted(xs, key=key, reverse=True)`: a stable sort into non-increasing key order. */
  function SortDesc<T(==)>(xs: seq<T>, key: T -> real): (r: seq<T>)
    ensures SortedBy(r, key)
    ensures multiset(r) == multiset(xs)
    ensures |r| == |xs|
  {
    if |xs| == 0 then []
    else
      assert xs == xs[..|xs| - 1] + [xs[|xs| - 1]];
      var rest := SortDesc(xs[..|xs| - 1], key);
      InsertSorted(xs[|xs| - 1], rest, key);
      Insert(xs[|xs| - 1], rest, key)
  }

  /** `sorted(xs, key=key, reverse=True)[:n]` draws its items from `xs`
      without repeating any. */
  lemma SortTakeWithin<T>(xs: seq<T>, key: T -> real, n: int)
    ensures multiset(PyTake(SortDesc(xs, key), n)) <= multiset(xs)
    ensures forall k :: 0 <= k < |PyTake(SortDesc(xs, key), n)| ==> PyTake(SortDesc(xs, key), n)[k] in xs
  {
    var s := SortDesc(xs, key);
    var t := PyTake(s, n);
    TakeWithin(s, n);
    forall k | 0 <= k < |t| ensures t[k] in xs {
      assert t[k] in multiset(t);
    }
  }

  /** The elements of `xs` whose key is `c`, in their order in `xs`. */
  function WithKey<T>(xs: seq<T>, key: T -> real, c: real): seq<T> {
    if |xs| == 0 then []
    else if key(xs[0]) == c then [xs[0]] + WithKey(xs[1..], key, c)
    else WithKey(xs[1..], key, c)
  }

  lemma {:induction false} WithKeyAppend<T>(a: seq<T>, b: seq<T>, key: T -> real, c: real)
    ensures WithKey(a + b, key, c) == WithKey(a, key, c) + WithKey(b, key, c)
  {
    if |a| == 0 {
      assert a + b == b;
    } else {
      assert (a + b)[0] == a[0] && (a + b)[1..] == a[1..] + b;
      WithKeyAppend(a[1..], b, key, c);
    }
  }

  lemma {:induction false} WithKeyNone<T>(s: seq<T>, key: T -> real, c: real)
    requires forall i :: 0 <= i < |s| ==> key(s[i]) < c
    ensures WithKey(s, key, c) == []
  {
    if |s| > 0 {
      WithKeyNone(s[1..], key, c);
    }
  }

  /** The elements of key `c` in `[x] + t`. */
  function Own<T>(x: T, key: T -> real, c: real): seq<T> {
    if key(x) == c then [x] else []
  }

  lemma WithKeyCons<T>(x: T, t: seq<T>, key: T -> real, c: real)
    ensures WithKey([x] + t, key, c) == Own(x, key, c) + WithKey(t, key, c)
  {
    assert ([x] + t)[0] == x && ([x] + t)[1..] == t;
  }

  lemma SortedTail<T>(s: seq<T>, key: T -> real)
    requires |s| > 0 && SortedBy(s, key)
    ensures SortedBy(s[1..], key)
    ensures forall i :: 0 <= i < |s[1..]| ==> key(s[1..][i]) <= key(s[0])
  {
    assert forall i :: 0 <= i < |s[1..]| ==> s[1..][i] == s[i + 1];
  }

  /** Inserting `x` puts it after every element of its key. */
  lemma {:induction false} InsertWithKey<T>(x: T, s: seq<T>, key: T -> real, c: real)
    requires SortedBy(s, key)
    ensures WithKey(Insert(x, s, key), key, c) == WithKey(s, key, c) + Own(x, key, c)
    decreases |s|, 1
  {
    if |s| == 0 {
      WithKeyCons(x, [], key, c);
      assert [x] + [] == [x];
    } else if key(s[0]) >= key(x) {
      InsertAfterHead(x, s, key, c);
    } else {
      InsertBeforeAll(x, s, key, c);
    }
  }

  lemma {:induction false} InsertAfterHead<T>(x: T, s: seq<T>, key: T -> real, c: real)
    requires SortedBy(s, key) && |s| > 0 && key(s[0]) >= key(x)
    ensures WithKey(Insert(x, s, key), key, c) == WithKey(s, key, c) + Own(x, key, c)
    decreases |s|, 0
  {
    var t := Insert(x, s[1..], key);
    SortedTail(s, key);
    calc {
      WithKey(Insert(x, s, key), key, c);
      WithKey([s[0]] + t, key, c);
      { WithKeyCons(s[0], t, key, c); }
      Own(s[0], key, c) + WithKey(t, key, c);
      { InsertWithKey(x, s[1..], key, c); }
      Own(s[0], key, c) + (WithKey(s[1..], key, c) + Own(x, key, c));
      (Own(s[0], key, c) + WithKey(s[1..], key, c)) + Own(x, key, c);
      { WithKeyCons(s[0], s[1..], key, c); assert s == [s[0]] + s[1..]; }
      WithKey(s, key, c) + Own(x, key, c);
    }
  }

  lemma InsertBeforeAll<T>(x: T, s: seq<T>, key: T -> real, c: real)
    requires SortedBy(s, key) && |s| > 0 && key(s[0]) < key(x)
    ensures WithKey(Insert(x, s, key), key, c) == WithKey(s, key, c) + Own(x, key, c)
  {
    WithKeyCons(x, s, key, c);
    if key(x) == c {
      WithKeyNone(s, key, c);
    }
  }

  /** `sorted` is stable: elements with equal keys keep their order. */
  lemma {:induction false} SortDescStable<T>(xs: seq<T>, key: T -> real, c: real)
    ensures WithKey(SortDesc(xs, key), key, c) == WithKey(xs, key, c)
  {
    if |xs| > 0 {
      var pre, x := xs[..|xs| - 1], xs[|xs| - 1];
      var rest := SortDesc(pre, key);
      calc {
        WithKey(SortDesc(xs, key), key, c);
        WithKey(Insert(x, rest, key), key, c);
        { InsertWithKey(x, rest, key, c); }
        WithKey(rest, key, c) + Own(x, key, c);
        { SortDescStable(pre, key, c); }
        WithKey(pre, key, c) + Own(x, key, c);
        { WithKeyCons(x, [], key, c); assert [x] + [] == [x]; }
        WithKey(pre, key, c) + WithKey([x], key, c);
        { WithKeyAppend(pre, [x], key, c); }
        WithKey(pre + [x], key, c);
        { assert xs == pre + [x]; }
        WithKey(xs, key, c);
      }
    }
  }

  function CountOf(p: (string, int)): real { p.1 as real }

  /** What the first `m` places of a sorted list hold outranks everything after them. */
  lemma TopOfSorted<T>(s: seq<T>, m: nat, key: T -> real, p: T, q: T)
    requires SortedBy(s, key) && m <= |s|
    requires p in s[..m] && q in s && q !in s[..m]
    ensures key(p) >= key(q)
  {
    var i :| 0 <= i < m && s[..m][i] == p;
    var j :| 0 <= j < |s| && s[j] == q;
    assert forall k :: 0 <= k < m ==> s[k] in s[..m];
  }

  /** `Counter.most_common(n)`: the `n` highest counts, ties kept in first-seen order. */
  function MostCommon(r: Registry<int>, n: int): (top: seq<(string, int)>)
    ensures n <= 0 ==> top == []
    ensures n > 0 ==> |top| == if n < |r| then n else |r|
    ensures forall p :: p in top ==> p in r
    ensures SortedBy(top, CountOf)
  {
    if n <= 0 then []
    else
      var s := SortDesc(r, CountOf);
      var top := PyTake(s, n);
      assert forall p :: p in top ==> p in multiset(s);
      top
  }

  /** The distinct items of a list. */
  function Distinct(xs: seq<string>): set<string> {
    set x | x in xs
  }

  /** A tally has one entry per distinct item. */
  lemma TallySize(xs: seq<string>)
    ensures |Tally(xs)| == |Distinct(xs)|
  {
    TallySpec(xs);
    KeySetSize(Tally(xs));
    assert KeySet(Tally(xs)) == Distinct(xs);
  }

  /** `Counter(xs).most_common(n)` for positive `n`: min(n, distinct items)
      entries, each an item of `xs` with its true count. */
  lemma MostCommonTally(xs: seq<string>, n: int)
    ensures n > 0 ==> |MostCommon(Tally(xs), n)| == if n < |Distinct(xs)| then n else |Distinct(xs)|
    ensures forall p :: p in MostCommon(Tally(xs), n) ==> p.0 in xs && p.1 == Count(xs, p.0)
  {
    TallySize(xs);
    forall p | p in MostCommon(Tally(xs), n) ensures p.0 in xs && p.1 == Count(xs, p.0) {
      MostCommonCounts(xs, n, p);
    }
  }

  /** An item of `xs` that `Counter(xs).most_common(n)` leaves out occurs no
      more often than anything it returns. */
  lemma TallyTopDominates(xs: seq<string>, n: int, p: (string, int), x: string)
    requires p in MostCommon(Tally(xs), n) && x in xs
    requires forall q :: q in MostCommon(Tally(xs), n) ==> q.0 != x
    ensures p.1 >= Count(xs, x)
  {
    var r := Tally(xs);
    TallySpec(xs);
    GetUnique(r);
    var i := IndexOf(r, x);
    assert r[i] == (x, Count(xs, x));
    MostCommonDominates(r, n, p, r[i]);
  }

  /** Nothing left out of `most_common(n)` has a higher count than what it returns. */
  lemma MostCommonDominates(r: Registry<int>, n: int, p: (string, int), q: (string, int))
    requires p in MostCommon(r, n) && q in r && q !in MostCommon(r, n)
    ensures p.1 >= q.1
  {
    var s := SortDesc(r, CountOf);
    assert q in multiset(s);
    TopOfSorted(s, |MostCommon(r, n)|, CountOf, p, q);
  }

  /** `Counter(xs).most_common(n)` reports true counts of items of `xs`. */
  lemma MostCommonCounts(xs: seq<string>, n: int, p: (string, int))
    requires p in MostCommon(Tally(xs), n)
    ensures p.0 in xs && p.1 == Count(xs, p.0)
  {
    var r := Tally(xs);
    TallySpec(xs);
    GetUnique(r);
    var i :| 0 <= i < |r| && r[i] == p;
    assert Has(r, p.0);
  }

  // ---------------------------------------------------------------------
  // Totals of counters and their normalised shares

  /** `sum(d.values())` for a dict of counts. */
  function Total(r: Registry<int>): int {
    if |r| == 0 then 0 else Total(r[..|r| - 1]) + r[|r| - 1].1
  }

  /** `sum(d.values())` for a dict of shares. */
  function Mass(r: Registry<real>): real {
    if |r| == 0 then 0.0 else Mass(r[..|r| - 1]) + r[|r| - 1].1
  }

  /** Sum of the weights of a list of (key, weight) items. */
  function Weight(items: seq<(string, int)>): int {
    if |items| == 0 then 0 else Weight(items[..|items| - 1]) + items[|items| - 1].1
  }

  lemma {:induction false} TotalCons(x: (string, int), r: Registry<int>)
    ensures Total([x] + r) == x.1 + Total(r)
    decreases |r|
  {
    if |r| > 0 {
      assert ([x] + r)[..|r|] == [x] + r[..|r| - 1];
      TotalCons(x, r[..|r| - 1]);
    }
  }

  /** A bump by `w` adds `w` to the total. */
  lemma {:induction false} BumpTotal(r: Registry<int>, k: string, w: int)
    ensures Total(Bump(r, k, w)) == Total(r) + w
    decreases |r|
  {
    if |r| == 0 {
      assert Bump(r, k, w) == [] + [(k, w)];
    } else {
      TotalCons(r[0], r[1..]);
      assert r == [r[0]] + r[1..];
      if r[0].0 == k {
        TotalCons((k, r[0].1 + w), r[1..]);
      } else {
        BumpTotal(r[1..], k, w);
        TotalCons(r[0], Bump(r[1..], k, w));
      }
    }
  }

  lemma AccumulateStep(items: seq<(string, int)>)
    requires |items| > 0
    ensures Total(Accumulate(items)) == Total(Accumulate(items[..|items| - 1])) + items[|items| - 1].1
  {
    BumpTotal(Accumulate(items[..|items| - 1]), items[|items| - 1].0, items[|items| - 1].1);
  }

  lemma {:induction false} AccumulateTotal(items: seq<(string, int)>)
    ensures Total(Accumulate(items)) == Weight(items)
  {
    if |items| > 0 {
      AccumulateTotal(items[..|items| - 1]);
      AccumulateStep(items);
    }
  }

  lemma {:induction false} OnesWeight(xs: seq<string>)
    ensures Weight(Ones(xs)) == |xs|
  {
    if |xs| > 0 {
      assert Ones(xs)[..|xs| - 1] == Ones(xs[..|xs| - 1]);
      OnesWeight(xs[..|xs| - 1]);
    }
  }

  /** The counts of `Counter(xs)` add up to the length of `xs`, and each is
      at least 1. */
  lemma TallyTotal(xs: seq<string>)
    ensures Total(Tally(xs)) == |xs|
    ensures forall i :: 0 <= i < |Tally(xs)| ==> 1 <= Tally(xs)[i].1 <= |xs|
  {
    AccumulateTotal(Ones(xs));
    OnesWeight(xs);
    TallySpec(xs);
    var r := Tally(xs);
    GetUnique(r);
    forall i | 0 <= i < |r| ensures 1 <= r[i].1 <= |xs| {
      assert Has(r, r[i].0);
    }
  }

  /** `{k: c / t for k, c in d.items()}`. */
  function Normalize(r: Registry<int>, t: int): (d: Registry<real>)
    requires t > 0
    ensures |d| == |r|
    ensures forall i :: 0 <= i < |r| ==> d[i] == (r[i].0, r[i].1 as real / t as real)
  {
    seq(|r|, i requires 0 <= i < |r| => (r[i].0, r[i].1 as real / t as real))
  }

  lemma DivAdd(a: real, b: real, t: real)
    requires t > 0.0
    ensures a / t + b / t == (a + b) / t
  {
    var x := a / t;
    var y := b / t;
    assert x * t == a && y * t == b;
    assert (x + y) * t == a + b;
  }

  /** The shares add up to the total over `t`. */
  lemma {:induction false} MassNormalize(r: Registry<int>, t: int)
    requires t > 0
    ensures Mass(Normalize(r, t)) == Total(r) as real / t as real
  {
    if |r| > 0 {
      var n := |r|;
      assert Normalize(r, t)[..n - 1] == Normalize(r[..n - 1], t);
      MassNormalize(r[..n - 1], t);
      DivAdd(Total(r[..n - 1]) as real, r[n - 1].1 as real, t as real);
    }
  }

  /** Normalising keeps the keys where they were. */
  lemma NormalizeKeys(r: Registry<int>, t: int)
    requires t > 0
    ensures Keys(Normalize(r, t)) == Keys(r)
    ensures UniqueKeys(Normalize(r, t)) <==> UniqueKeys(r)
    ensures forall k :: Has(Normalize(r, t), k) <==> Has(r, k)
  {
    var d := Normalize(r, t);
    assert forall i :: 0 <= i < |r| ==> d[i].0 == r[i].0;
    forall k ensures Has(d, k) <==> Has(r, k) {
      if Has(r, k) {
        var i :| 0 <= i < |r| && r[i].0 == k;
        assert d[i].0 == k;
      }
    }
  }

  /** Looking a key up after normalising gives its count over `t`. */
  lemma NormalizeGet(r: Registry<int>, t: int, k: string)
    requires t > 0 && Has(r, k)
    ensures Get(Normalize(r, t), k) == Some(Get(r, k).value as real / t as real)
  {
    var i := IndexOf(r, k);
    var d := Normalize(r, t);
    assert forall j :: 0 <= j < |r| ==> d[j].0 == r[j].0;
    IndexOfUnique(d, k, i);
  }

  /** `{k: c / t for k, c in Counter(xs).items()}`: exactly the items of
      `xs` are keys, each holding its count over `t`. */
  lemma TallyShares(xs: seq<string>, t: int)
    requires t > 0
    ensures forall k :: Has(Normalize(Tally(xs), t), k) <==> k in xs
    ensures forall k :: k in xs ==> Get(Normalize(Tally(xs), t), k) == Some(Count(xs, k) as real / t as real)
  {
    TallySpec(xs);
    NormalizeKeys(Tally(xs), t);
    forall k | k in xs ensures Get(Normalize(Tally(xs), t), k) == Some(Count(xs, k) as real / t as real) {
      NormalizeGet(Tally(xs), t, k);
    }
  }

  /** A dict of shares: distinct keys, each share in (0, 1], all adding up to 1. */
  predicate Shares(d: Registry<real>) {
    UniqueKeys(d) && Mass(d) == 1.0 && forall i :: 0 <= i < |d| ==> 0.0 < d[i].1 <= 1.0
  }

  lemma {:induction false} ShareBounds(c: int, t: int)
    requires 1 <= c <= t
    ensures 0.0 < c as real / t as real <= 1.0
  {
    var q := c as real / t as real;
    assert q * t as real == c as real;
  }

  lemma {:induction false} DivSelf(t: int)
    requires t > 0
    ensures t as real / t as real == 1.0
  {
  }

  /** `{k: c / len(xs) for k, c in Counter(xs).items()}`, empty for no items:
      the share of each distinct item, in order of first occurrence. */
  function Frequencies(xs: seq<string>): (d: Registry<real>)
    ensures d == [] <==> xs == []
  {
    if |xs| == 0 then []
    else
      TallyTotal(xs);
      assert |Tally(xs)| > 0 by { TallySpec(xs); assert Has(Tally(xs), xs[0]); }
      Normalize(Tally(xs), |xs|)
  }

  /** Non-empty frequencies are shares. */
  lemma {:induction false} FrequenciesShares(xs: seq<string>)
    requires xs != []
    ensures Shares(Frequencies(xs))
  {
    var r := Tally(xs);
    var d := Frequencies(xs);
    assert d == Normalize(r, |xs|);
    TallyTotal(xs);
    TallySpec(xs);
    MassNormalize(r, |xs|);
    DivSelf(|xs|);
    NormalizeKeys(r, |xs|);
    forall i | 0 <= i < |d| ensures 0.0 < d[i].1 <= 1.0 {
      ShareBounds(r[i].1, |xs|);
    }
  }

  /** Exactly the items occurring are keys, each with its count over the number of items. */
  lemma {:induction false} FrequenciesValues(xs: seq<string>, k: string)
    requires xs != []
    ensures Has(Frequencies(xs), k) <==> k in xs
    ensures k in xs ==> Get(Frequencies(xs), k) == Some(Count(xs, k) as real / |xs| as real)
  {
    var r := Tally(xs);
    TallySpec(xs);
    NormalizeKeys(r, |xs|);
    if k in xs {
      NormalizeGet(r, |xs|, k);
    }
  }

  /** The same for every key at once. */
  lemma FrequenciesAll(xs: seq<string>)
    requires xs != []
    ensures forall k :: Has(Frequencies(xs), k) <==> k in xs
    ensures forall k :: k in xs ==> Get(Frequencies(xs), k) == Some(Count(xs, k) as real / |xs| as real)
  {
    TallyShares(xs, |xs|);
  }

  /** The first position holding the largest key, as `max(xs, key=key)` picks it. */
  function FirstMax<T>(xs: seq<T>, key: T -> real): (i: nat)
    requires |xs| > 0
    ensures i < |xs|
    ensures forall j :: 0 <= j < |xs| ==> key(xs[j]) <= key(xs[i])
    ensures forall j :: 0 <= j < i ==> key(xs[j]) < key(xs[i])
  {
    if |xs| == 1 then 0
    else
      var pre := xs[..|xs| - 1];
      var i := FirstMax(pre, key);
      assert forall j :: 0 <= j < |pre| ==> pre[j] == xs[j];
      if key(xs[|xs| - 1]) > key(xs[i]) then |xs| - 1 else i
  }

  /** Membership survives appending. */
  lemma InLeft<T>(x: T, a: seq<T>, b: seq<T>)
    requires x in a
    ensures x in a + b
  {
    var i :| 0 <= i < |a| && a[i] == x;
    assert (a + b)[i] == x;
  }

  lemma InRight<T>(x: T, a: seq<T>, b: seq<T>)
    requires x in b
    ensures x in a + b
  {
    var k :| 0 <= k < |b| && b[k] == x;
    assert (a + b)[|a| + k] == x;
  }
}

=== FILE: sharing.dfy ===
/** Object identity behind the engine's standards registry. An engine's
    dict binds names to references to `Standard` objects; an engine built
    without standards copies the class-level default dict with `dict.copy()`,
    which copies the references and not the objects, and enabling or
    disabling a standard mutates the object in place. This module models
    that sharing and contrasts it with engines that own their objects. */
module Sharing {
  import opened Wrappers
  import opened Standards
  import Registry

  /** The `Standard` objects alive in the process, addressed by index. */
  datatype Heap = Heap(objects: seq<Standard>)

  /** An engine's standards dict: names bound to object references. */
  type Refs = Registry.Registry<nat>

  /** Every reference points at an object of the heap. */
  predicate Valid(h: Heap, refs: Refs) {
    forall i :: 0 <= i < |refs| ==> refs[i].1 < |h.objects|
  }

  /** No object is reachable from both dicts. */
  predicate Disjoint(a: Refs, b: Refs) {
    forall i, j :: 0 <= i < |a| && 0 <= j < |b| ==> a[i].1 != b[j].1
  }

  /** The class attribute holding the built-in standards: objects 0 to 4. */
  const ClassRefs: Refs := [("safety", 0), ("quality", 1), ("spam", 2), ("policy", 3), ("engagement", 4)]

  /** The heap right after the class is defined. */
  function Boot(): (h: Heap)
    ensures |h.objects| == 5 && Valid(h, ClassRefs)
  {
    Heap(seq(5, i requires 0 <= i < 5 => DefaultStandards()[i].1))
  }

  /** The standards an engine sees through its references. */
  function View(h: Heap, refs: Refs): (r: Registry.Registry<Standard>)
    requires Valid(h, refs)
    ensures |r| == |refs|
    ensures forall i :: 0 <= i < |refs| ==> r[i] == (refs[i].0, h.objects[refs[i].1])
  {
    seq(|refs|, i requires 0 <= i < |refs| => (refs[i].0, h.objects[refs[i].1]))
  }

  /** `StandardsEngine()` as written: `DEFAULT_STANDARDS.copy()` shares the
      class-level objects. */
  function NewShallow(h: Heap): (refs: Refs)
    requires Valid(h, ClassRefs)
    ensures Valid(h, refs)
  {
    ClassRefs
  }

  /** An engine that owns copies of the class-level objects, as a deep copy
      would give it: the copies are appended to the heap. */
  function NewDeep(h: Heap): (res: (Heap, Refs))
    requires Valid(h, ClassRefs)
    ensures |res.0.objects| == |h.objects| + 5
    ensures res.0.objects[..|h.objects|] == h.objects
    ensures Valid(res.0, res.1)
    ensures forall i :: 0 <= i < |res.1| ==> res.1[i].1 >= |h.objects|
    ensures View(res.0, res.1) == View(h, ClassRefs)
  {
    var n := |h.objects|;
    var copies := seq(5, i requires 0 <= i < 5 => h.objects[ClassRefs[i].1]);
    var refs := seq(5, i requires 0 <= i < 5 => (ClassRefs[i].0, n + i));
    var h' := Heap(h.objects + copies);
    assert Valid(h', refs);
    assert View(h', refs) == View(h, ClassRefs);
    (h', refs)
  }

  /** `enable_standard` / `disable_standard`: the flag is set on the object
      the name refers to; `false` and no change for an unknown name. */
  function SetEnabled(h: Heap, refs: Refs, name: string, flag: bool): (res: (Heap, bool))
    requires Valid(h, refs)
    ensures res.1 <==> Registry.Has(refs, name)
    ensures !res.1 ==> res.0 == h
    ensures |res.0.objects| == |h.objects|
  {
    match Registry.Get(refs, name)
    case None => (h, false)
    case Some(r) =>
      var i :| 0 <= i < |refs| && refs[i] == (name, r);
      (Heap(h.objects[r := h.objects[r].(enabled := flag)]), true)
  }

  /** Through its own references, an engine sees exactly the value-level
      update: the named standard's flag changes and nothing else. */
  lemma SetEnabledOwnView(h: Heap, refs: Refs, name: string, flag: bool)
    requires Valid(h, refs) && Registry.Has(refs, name)
    ensures var h' := SetEnabled(h, refs, name, flag).0;
      var r := Registry.Get(refs, name).value;
      forall i :: 0 <= i < |refs| ==>
        View(h', refs)[i] == (refs[i].0, if refs[i].1 == r then h.objects[r].(enabled := flag) else h.objects[refs[i].1])
  {
  }

  /** Changing a flag through one engine leaves every engine whose objects
      are not shared with it untouched. */
  lemma DisjointIsolates(h: Heap, a: Refs, b: Refs, name: string, flag: bool)
    requires Valid(h, a) && Valid(h, b) && Disjoint(a, b)
    ensures Valid(SetEnabled(h, a, name, flag).0, b)
    ensures View(SetEnabled(h, a, name, flag).0, b) == View(h, b)
  {
    var h' := SetEnabled(h, a, name, flag).0;
    if Registry.Has(a, name) {
      var r := Registry.Get(a, name).value;
      var i :| 0 <= i < |a| && a[i] == (name, r);
      forall j | 0 <= j < |b| ensures h'.objects[b[j].1] == h.objects[b[j].1] {
        assert a[i].1 != b[j].1;
      }
    }
  }

  /** As written: disabling `safety` on one default engine disables it on
      every default engine, including engines created afterwards. */
  lemma ShallowCopyLeaks()
    ensures var h0 := Boot();
      var a := NewShallow(h0);
      var h1 := SetEnabled(h0, a, "safety", false).0;
      var b := NewShallow(h1);
      Registry.Get(View(h0, b), "safety").value.enabled &&
      !Registry.Get(View(h1, b), "safety").value.enabled
  {
    var h0 := Boot();
    Registry.IndexOfUnique(ClassRefs, "safety", 0);
    var h1 := SetEnabled(h0, ClassRefs, "safety", false).0;
    assert h1.objects[0].enabled == false;
    assert View(h1, ClassRefs)[0] == ("safety", h1.objects[0]);
    assert View(h0, ClassRefs)[0] == ("safety", h0.objects[0]);
    Registry.IndexOfUnique(View(h0, ClassRefs), "safety", 0);
    Registry.IndexOfUnique(View(h1, ClassRefs), "safety", 0);
  }

  /** Corrected: engines that own their objects keep the built-in standards
      whatever another engine disables. */
  lemma DeepCopyIsolates(name: string, flag: bool)
    ensures var h0 := Boot();
      var (h1, a) := NewDeep(h0);
      var h2 := SetEnabled(h1, a, name, flag).0;
      var (h3, b) := NewDeep(h2);
      View(h3, b) == DefaultStandards()
  {
    DeepCopyKeepsClass(Boot(), name, flag);
    BootView();
  }

  /** The class-level objects are the built-in standards. */
  lemma BootView()
    ensures View(Boot(), ClassRefs) == DefaultStandards()
  {
  }

  /** A flag set through an owning engine leaves the class-level objects,
      and so the next owning engine's view, as they were. */
  lemma DeepCopyKeepsClass(h0: Heap, name: string, flag: bool)
    requires Valid(h0, ClassRefs) && |h0.objects| == 5
    ensures var (h1, a) := NewDeep(h0);
      var h2 := SetEnabled(h1, a, name, flag).0;
      var (h3, b) := NewDeep(h2);
      View(h3, b) == View(h0, ClassRefs)
  {
    var (h1, a) := NewDeep(h0);
    assert Valid(h1, ClassRefs);
    assert Disjoint(a, ClassRefs);
    DisjointIsolates(h1, a, ClassRefs, name, flag);
    assert View(h1, ClassRefs) == View(h0, ClassRefs) by {
      assert h1.objects[..5] == h0.objects;
    }
  }
}

=== FILE: standards.dfy ===
/** Moderation standards and the metrics they are measured by: the two
    records, their dictionary codecs, and the built-in catalogue. */
module Standards {
  import opened Wrappers
  import opened Values
  import opened Base
  import Registry

  /** A named group of metrics; a violated standard adds `weight` to the score. */
  datatype Standard = Standard(
    name: string, description: string, metrics: seq<string>, enabled: bool,
    weight: real, severityThreshold: real, metadata: Data)

  /** A regular-expression check; its `severity` is carried but never consulted. */
  datatype Metric = Metric(
    name: string, description: string, checkPattern: string, severity: Severity,
    threshold: real, enabled: bool, metadata: Data)

  /** `Standard(name, description, metrics)` with the declared defaults. */
  function MkStandard(name: string, description: string, metrics: seq<string>,
                      weight: real, severityThreshold: real): Standard
  {
    Standard(name, description, metrics, true, weight, severityThreshold, [])
  }

  /** `Metric(name, description, pattern, severity, threshold)`, enabled. */
  function MkMetric(name: string, description: string, pattern: string,
                    severity: Severity, threshold: real): Metric
  {
    Metric(name, description, pattern, severity, threshold, true, [])
  }

  // ---------------------------------------------------------------------
  // Codecs

  const StandardKeys: set<string> := {"name", "description", "metrics", "enabled", "weight",
    "severity_threshold", "metadata"}
  const StandardKeyOrder: seq<string> :=
    ["name", "description", "metrics", "enabled", "weight", "severity_threshold", "metadata"]

  function StandardToDict(s: Standard): (d: Data)
    ensures OnlyKeys(d, StandardKeys) && |d| == 7 && Registry.UniqueKeys(d)
    ensures Registry.Keys(d) == StandardKeyOrder
  {
    [("name", Str(s.name)), ("description", Str(s.description)),
     ("metrics", List(StrValues(s.metrics))), ("enabled", Bool(s.enabled)),
     ("weight", Num(s.weight)), ("severity_threshold", Num(s.severityThreshold)),
     ("metadata", Dict(s.metadata))]
  }

  /** `Standard.from_dict`, i.e. `cls(**data)`. */
  function StandardFromDict(data: Data): (o: Option<Standard>)
    ensures o.Some? ==> OnlyKeys(data, StandardKeys)
    ensures o.Some? ==>
      ReqStr(data, "name") == Some(o.value.name) &&
      ReqStr(data, "description") == Some(o.value.description) &&
      ReqStrList(data, "metrics") == Some(o.value.metrics)
    ensures o.Some? && Lookup(data, "enabled").None? ==> o.value.enabled
    ensures o.Some? && Lookup(data, "weight").None? ==> o.value.weight == 1.0
    ensures o.Some? && Lookup(data, "severity_threshold").None? ==> o.value.severityThreshold == 0.7
    ensures o.Some? && Lookup(data, "metadata").None? ==> o.value.metadata == []
    ensures o.Some? && Lookup(data, "enabled").Some? ==> Lookup(data, "enabled") == Some(Bool(o.value.enabled))
    ensures o.Some? && Lookup(data, "weight").Some? ==> Lookup(data, "weight") == Some(Num(o.value.weight))
    ensures o.Some? && Lookup(data, "severity_threshold").Some? ==>
      Lookup(data, "severity_threshold") == Some(Num(o.value.severityThreshold))
    ensures o.Some? && Lookup(data, "metadata").Some? ==> Lookup(data, "metadata") == Some(Dict(o.value.metadata))
  {
    if !OnlyKeys(data, StandardKeys) then None
    else
      var name :- ReqStr(data, "name");
      var description :- ReqStr(data, "description");
      var metrics :- ReqStrList(data, "metrics");
      var enabled :- OptBool(data, "enabled", true);
      var weight :- OptNum(data, "weight", 1.0);
      var threshold :- OptNum(data, "severity_threshold", 0.7);
      var metadata :- OptDict(data, "metadata");
      Some(Standard(name, description, metrics, enabled, weight, threshold, metadata))
  }

  lemma StandardFields(s: Standard)
    ensures var d := StandardToDict(s);
      ReqStr(d, "name") == Some(s.name) && ReqStr(d, "description") == Some(s.description) &&
      ReqStrList(d, "metrics") == StrList(StrValues(s.metrics)) &&
      OptBool(d, "enabled", true) == Some(s.enabled) && OptNum(d, "weight", 1.0) == Some(s.weight) &&
      OptNum(d, "severity_threshold", 0.7) == Some(s.severityThreshold) &&
      OptDict(d, "metadata") == Some(s.metadata)
  {
    var d := StandardToDict(s);
    LookupAt(d, 0, "name");
    LookupAt(d, 1, "description");
    LookupAt(d, 2, "metrics");
    LookupAt(d, 3, "enabled");
    LookupAt(d, 4, "weight");
    LookupAt(d, 5, "severity_threshold");
    LookupAt(d, 6, "metadata");
  }

  /** `Standard.from_dict(s.to_dict()) == s`. */
  lemma StandardRoundTrip(s: Standard)
    ensures StandardFromDict(StandardToDict(s)) == Some(s)
  {
    StandardFields(s);
    StrListRoundTrip(s.metrics);
  }

  const MetricKeys: set<string> := {"name", "description", "check_pattern", "severity",
    "threshold", "enabled", "metadata"}
  const MetricKeyOrder: seq<string> :=
    ["name", "description", "check_pattern", "severity", "threshold", "enabled", "metadata"]

  function MetricToDict(m: Metric): (d: Data)
    ensures OnlyKeys(d, MetricKeys) && |d| == 7 && Registry.UniqueKeys(d)
    ensures Registry.Keys(d) == MetricKeyOrder
  {
    [("name", Str(m.name)), ("description", Str(m.description)),
     ("check_pattern", Str(m.checkPattern)), ("severity", Str(SeverityValue(m.severity))),
     ("threshold", Num(m.threshold)), ("enabled", Bool(m.enabled)),
     ("metadata", Dict(m.metadata))]
  }

  /** `Metric.from_dict`: a string severity is looked up by value first. */
  function MetricFromDict(data: Data): (o: Option<Metric>)
    ensures o.Some? ==> OnlyKeys(data, MetricKeys)
    ensures o.Some? ==>
      ReqStr(data, "name") == Some(o.value.name) &&
      ReqStr(data, "description") == Some(o.value.description) &&
      ReqStr(data, "check_pattern") == Some(o.value.checkPattern) &&
      ReqStr(data, "severity") == Some(SeverityValue(o.value.severity)) &&
      ReqNum(data, "threshold") == Some(o.value.threshold)
    ensures o.Some? && Lookup(data, "enabled").None? ==> o.value.enabled
    ensures o.Some? && Lookup(data, "metadata").None? ==> o.value.metadata == []
    ensures o.Some? && Lookup(data, "enabled").Some? ==> Lookup(data, "enabled") == Some(Bool(o.value.enabled))
    ensures o.Some? && Lookup(data, "metadata").Some? ==> Lookup(data, "metadata") == Some(Dict(o.value.metadata))
  {
    if !OnlyKeys(data, MetricKeys) then None
    else
      var name :- ReqStr(data, "name");
      var description :- ReqStr(data, "description");
      var pattern :- ReqStr(data, "check_pattern");
      var sev :- ReqStr(data, "severity");
      var severity :- SeverityFromValue(sev);
      var threshold :- ReqNum(data, "threshold");
      var enabled :- OptBool(data, "enabled", true);
      var metadata :- OptDict(data, "metadata");
      Some(Metric(name, description, pattern, severity, threshold, enabled, metadata))
  }

  lemma MetricFields(m: Metric)
    ensures var d := MetricToDict(m);
      ReqStr(d, "name") == Some(m.name) && ReqStr(d, "description") == Some(m.description) &&
      ReqStr(d, "check_pattern") == Some(m.checkPattern) &&
      ReqStr(d, "severity") == Some(SeverityValue(m.severity)) &&
      ReqNum(d, "threshold") == Some(m.threshold) &&
      OptBool(d, "enabled", true) == Some(m.enabled) && OptDict(d, "metadata") == Some(m.metadata)
  {
    var d := MetricToDict(m);
    LookupAt(d, 0, "name");
    LookupAt(d, 1, "description");
    LookupAt(d, 2, "check_pattern");
    LookupAt(d, 3, "severity");
    LookupAt(d, 4, "threshold");
    LookupAt(d, 5, "enabled");
    LookupAt(d, 6, "metadata");
  }

  /** `Metric.from_dict(m.to_dict()) == m`, with the severity written as its value. */
  lemma MetricRoundTrip(m: Metric)
    ensures MetricFromDict(MetricToDict(m)) == Some(m)
  {
    MetricFields(m);
    SeverityValueRoundTrip(m.severity);
  }

  // ---------------------------------------------------------------------
  // The built-in catalogue

  function DefaultStandards(): Registry.Registry<Standard> {
    [("safety", MkStandard("safety", "Protect users from harmful, dangerous, or illegal content",
        ["profanity", "threats", "self_harm", "illegal_content"], 1.5, 0.6)),
     ("quality", MkStandard("quality", "Maintain high-quality, constructive discussion",
        ["length", "substance", "relevance", "coherence"], 1.0, 0.7)),
     ("spam", MkStandard("spam", "Prevent spam and promotional content",
        ["repetition", "links", "keywords", "patterns"], 1.2, 0.6)),
     ("policy", MkStandard("policy", "Enforce platform-specific policies",
        ["harassment", "hate_speech", "misinformation", "violence"], 1.5, 0.5)),
     ("engagement", MkStandard("engagement", "Encourage meaningful engagement",
        ["tone", "constructiveness", "civility", "helpfulness"], 0.8, 0.7))]
  }

  const ProfanityPattern := "\\b(?:shit|fuck|damn|ass|bitch|crap|bastard|idiot|stupid)\\b"
  const HarassmentPattern := "(?:stupid|idiot|loser|pathetic|shut up|you're awful)"
  const AnyTextPattern := ".+"
  const WholeLinePattern := "^.+$"

  const ThreatsPattern := "(?:kill|destroy|hurt|harm|attack|assault|murder|rape)"
  const SelfHarmPattern := "(?:suicide|kill myself|end it|hurt myself)"
  const IllegalContentPattern := "(?:drugs|weapons|piracy|illegal|black market)"
  const SubstancePattern := "(?:agree|disagree|good|bad|nice|cool|awesome|great)"
  const RepetitionPattern := "(.)\\1{3,}"
  const LinksPattern := "https?://\\S+"
  const KeywordsPattern := "(?:subscribe|follow|like|check this|visit my)"
  const PatternsPattern := "(?:\\d{3,}|\\$[0-9,]+|free.*money)"
  const HateSpeechPattern := "(?:hate|discriminate|racist|sexist|homophobic)"
  const MisinformationPattern := "(?:fake news|conspiracy|false|not true)"
  const ViolencePattern := "(?:beat|punch|kick|hit|violent|bloody|kill)"
  const ConstructivenessPattern := "(?:improve|suggest|recommend|maybe|could|should)"
  const HelpfulnessPattern := "(?:help|useful|thanks|thank|appreciate)"

  const ProfanityMetric := MkMetric("profanity", "Detect profane language", ProfanityPattern, Medium, 0.7)
  const ThreatsMetric := MkMetric("threats", "Detect threatening language", ThreatsPattern, Critical, 0.5)
  const SelfHarmMetric := MkMetric("self_harm", "Detect self-harm language", SelfHarmPattern, Critical, 0.5)
  const IllegalContentMetric := MkMetric("illegal_content", "Detect illegal content references", IllegalContentPattern, High, 0.7)
  const LengthMetric := MkMetric("length", "Check if comment is too short", WholeLinePattern, Low, 0.6)
  const SubstanceMetric := MkMetric("substance", "Check if comment has meaningful content", SubstancePattern, Low, 0.8)
  const RelevanceMetric := MkMetric("relevance", "Check comment relevance to post", AnyTextPattern, Medium, 0.7)
  const CoherenceMetric := MkMetric("coherence", "Check if comment is coherent", AnyTextPattern, Medium, 0.7)
  const RepetitionMetric := MkMetric("repetition", "Detect repetitive content", RepetitionPattern, Medium, 0.7)
  const LinksMetric := MkMetric("links", "Detect promotional links", LinksPattern, Medium, 0.8)
  const KeywordsMetric := MkMetric("keywords", "Detect spam keywords", KeywordsPattern, Medium, 0.7)
  const PatternsMetric := MkMetric("patterns", "Detect spam patterns", PatternsPattern, Medium, 0.7)
  const HarassmentMetric := MkMetric("harassment", "Detect harassment", HarassmentPattern, High, 0.6)
  const HateSpeechMetric := MkMetric("hate_speech", "Detect hate speech", HateSpeechPattern, Critical, 0.5)
  const MisinformationMetric := MkMetric("misinformation", "Detect potential misinformation", MisinformationPattern, High, 0.7)
  const ViolenceMetric := MkMetric("violence", "Detect violent language", ViolencePattern, High, 0.6)
  const ToneMetric := MkMetric("tone", "Assess comment tone", AnyTextPattern, Low, 0.7)
  const ConstructivenessMetric := MkMetric("constructiveness", "Check if comment is constructive", ConstructivenessPattern, Low, 0.7)
  const CivilityMetric := MkMetric("civility", "Check comment civility", AnyTextPattern, Medium, 0.7)
  const HelpfulnessMetric := MkMetric("helpfulness", "Check if comment is helpful", HelpfulnessPattern, Low, 0.7)

  function DefaultMetrics(): Registry.Registry<Metric> {
    [("profanity", ProfanityMetric),
     ("threats", ThreatsMetric),
     ("self_harm", SelfHarmMetric),
     ("illegal_content", IllegalContentMetric),
     ("length", LengthMetric),
     ("substance", SubstanceMetric),
     ("relevance", RelevanceMetric),
     ("coherence", CoherenceMetric),
     ("repetition", RepetitionMetric),
     ("links", LinksMetric),
     ("keywords", KeywordsMetric),
     ("patterns", PatternsMetric),
     ("harassment", HarassmentMetric),
     ("hate_speech", HateSpeechMetric),
     ("misinformation", MisinformationMetric),
     ("violence", ViolenceMetric),
     ("tone", ToneMetric),
     ("constructiveness", ConstructivenessMetric),
     ("civility", CivilityMetric),
     ("helpfulness", HelpfulnessMetric)]
  }

  /** Every entry is filed under its own name. */
  predicate NamedByKey<V>(r: Registry.Registry<V>, name: V -> string) {
    forall i :: 0 <= i < |r| ==> name(r[i].1) == r[i].0
  }

  function StandardName(s: Standard): string { s.name }
  function MetricName(m: Metric): string { m.name }

  /** Weights are positive and thresholds lie in [0, 1]. */
  predicate StandardsInRange(r: Registry.Registry<Standard>) {
    forall i :: 0 <= i < |r| ==> r[i].1.weight > 0.0 && 0.0 <= r[i].1.severityThreshold <= 1.0
  }

  predicate MetricsInRange(r: Registry.Registry<Metric>) {
    forall i :: 0 <= i < |r| ==> 0.0 <= r[i].1.threshold <= 1.0
  }

  /** The five built-in standards: distinct names, each filed under its own
      name, positive weights, thresholds within [0, 1], four metrics each. */
  lemma DefaultStandardsWellFormed()
    ensures |DefaultStandards()| == 5
    ensures Registry.UniqueKeys(DefaultStandards())
    ensures NamedByKey(DefaultStandards(), StandardName)
    ensures StandardsInRange(DefaultStandards())
    ensures forall i :: 0 <= i < 5 ==> |DefaultStandards()[i].1.metrics| == 4
  {
    DefaultStandardKeys();
    DefaultStandardsInRange();
  }

  lemma DefaultStandardKeys()
    ensures |DefaultStandards()| == 5
    ensures Registry.UniqueKeys(DefaultStandards())
    ensures NamedByKey(DefaultStandards(), StandardName)
  {
  }

  lemma DefaultStandardsInRange()
    ensures StandardsInRange(DefaultStandards())
    ensures forall i :: 0 <= i < |DefaultStandards()| ==> |DefaultStandards()[i].1.metrics| == 4
  {
  }

  const DefaultMetricNames: seq<string> := ["profanity", "threats", "self_harm", "illegal_content",
    "length", "substance", "relevance", "coherence", "repetition", "links", "keywords",
    "patterns", "harassment", "hate_speech", "misinformation", "violence", "tone",
    "constructiveness", "civility", "helpfulness"]

  /** The twenty built-in metrics, filed under their own names, thresholds within [0, 1]. */
  lemma DefaultMetricsWellFormed()
    ensures Registry.Keys(DefaultMetrics()) == DefaultMetricNames
    ensures NamedByKey(DefaultMetrics(), MetricName)
    ensures MetricsInRange(DefaultMetrics())
  {
    DefaultMetricKeys();
    DefaultMetricsNamed();
    DefaultMetricsInRange();
  }

  lemma DefaultMetricKeys()
    ensures Registry.Keys(DefaultMetrics()) == DefaultMetricNames
  {
  }

  lemma DefaultMetricsNamed()
    ensures NamedByKey(DefaultMetrics(), MetricName)
  {
  }

  lemma DefaultMetricsInRange()
    ensures MetricsInRange(DefaultMetrics())
  {
  }

  /** Every metric a built-in standard names is a built-in metric. */
  lemma DefaultReferencesResolve()
    ensures forall i, j :: 0 <= i < |DefaultStandards()| && 0 <= j < |DefaultStandards()[i].1.metrics| ==>
      Registry.Has(DefaultMetrics(), DefaultStandards()[i].1.metrics[j])
  {
    var ss, ms := DefaultStandards(), DefaultMetrics();
    DefaultMetricsWellFormed();
    forall i, j | 0 <= i < |ss| && 0 <= j < |ss[i].1.metrics|
      ensures Registry.Has(ms, ss[i].1.metrics[j])
    {
      var k := ss[i].1.metrics[j];
      assert k in DefaultMetricNames;
      var n :| 0 <= n < |ms| && Registry.Keys(ms)[n] == k;
      assert ms[n].0 == k;
    }
  }
}

=== FILE: summarizer.dfy ===
/** Extractive summarisation: a comment's sentences are scored by how common
    their words are in the comment, the best few joined into a summary;
    key phrases are the most frequent two- and three-word sequences; a batch
    summary joins the comments' summaries under a length limit. */
module Summarizer {
  import opened Wrappers
  import opened Text
  import opened Registry
  import opened Seqs
  import opened Base
  import opened Lexicon
  import AnalysisBase

  /** `max_sentences` and `min_sentence_length`. */
  datatype Config = Config(maxSentences: int, minSentenceLength: int)

  function DefaultConfig(): Config { Config(3, 5) }

  /** The sentence ends of `re.split(r"[.!?]+", text)`. */
  const SentenceEnds: set<char> := {'.', '!', '?'}

  // ---------------------------------------------------------------------
  // Sentences

  /** A sentence as `_extract_sentences` keeps it: stripped, at least
      `minLen` characters, no sentence end inside. */
  predicate KeptSentence(s: string, d: set<char>, minLen: int) {
    KeptPiece(s, minLen) && forall j :: 0 <= j < |s| ==> s[j] !in d
  }

  /** `_extract_sentences`: the text cut at every run of '.', '!' and '?',
      each piece stripped, those of at least the minimum length. */
  function ExtractSentences(cfg: Config, text: string): (ss: seq<string>)
    ensures forall k :: 0 <= k < |ss| ==> KeptSentence(ss[k], SentenceEnds, cfg.minSentenceLength)
    ensures ss == KeptStripped(SplitRuns(text, SentenceEnds), cfg.minSentenceLength)
  {
    var parts := SplitRuns(text, SentenceEnds);
    KeptStrippedSound(parts, cfg.minSentenceLength);
    KeptStrippedAvoids(parts, SentenceEnds, cfg.minSentenceLength);
    KeptStripped(parts, cfg.minSentenceLength)
  }

  /** A text without sentence ends is one sentence: itself stripped, if long enough. */
  lemma UnpunctuatedText(cfg: Config, text: string)
    requires forall i :: 0 <= i < |text| ==> text[i] !in SentenceEnds
    ensures ExtractSentences(cfg, text) == if |Strip(text)| >= cfg.minSentenceLength then [Strip(text)] else []
  {
    assert FirstIn(text, SentenceEnds) == |text|;
    assert SplitRuns(text, SentenceEnds) == [text];
    assert [text][..0] == [];
  }

  // ---------------------------------------------------------------------
  // Sentence scores

  /** `word_freq.get(w, 0)`. */
  function FreqOf(freq: Registry<int>, w: string): int { Get(freq, w).GetOr(0) }

  function FreqSum(freq: Registry<int>, ws: seq<string>): int {
    if |ws| == 0 then 0 else FreqSum(freq, ws[..|ws| - 1]) + FreqOf(freq, ws[|ws| - 1])
  }

  /** The word frequencies of a text lie between 1 and its number of words
      for its own words, and are 0 for any other word. */
  lemma FreqOfText(words: seq<string>, w: string)
    ensures w in words ==> 1 <= FreqOf(Tally(words), w) <= |words|
    ensures w !in words ==> FreqOf(Tally(words), w) == 0
  {
    TallySpec(words);
  }

  /** The sum over a sentence's words lies between 0 and `hi` per word,
      and is 0 exactly when every word has frequency 0. */
  lemma {:induction false} FreqSumBounds(words: seq<string>, ws: seq<string>)
    ensures 0 <= FreqSum(Tally(words), ws) <= |ws| * |words|
    ensures FreqSum(Tally(words), ws) == 0 <==> forall i :: 0 <= i < |ws| ==> ws[i] !in words
  {
    if |ws| > 0 {
      var pre := ws[..|ws| - 1];
      FreqSumBounds(words, pre);
      FreqOfText(words, ws[|ws| - 1]);
      MulSucc(|pre|, |words|);
      assert forall i :: 0 <= i < |pre| ==> pre[i] == ws[i];
    }
  }

  lemma MulSucc(a: nat, b: nat)
    ensures (a + 1) * b == a * b + b
  {
  }

  /** The length boost: 20% for more than ten words, 10% for more than five. */
  function Boost(n: nat): (b: real)
    ensures 1.0 <= b <= 1.2
  {
    if n > 10 then 1.2 else if n > 5 then 1.1 else 1.0
  }

  /** The mean frequency of a sentence's words over the text's word count,
      before the boost. */
  function BaseScore(sum: int, n: nat, total: nat): (s: real)
    requires n > 0 && 0 <= sum <= n * total
    ensures 0.0 <= s <= 1.0
    ensures s == 0.0 <==> sum == 0
  {
    var avg := sum as real / n as real;
    assert avg * n as real == sum as real;
    MeanAtMost(sum, n, total);
    var d := if total > 1 then total as real else 1.0;
    var s := avg / d;
    assert s * d == avg;
    s
  }

  lemma MeanAtMost(sum: int, n: nat, total: nat)
    requires n > 0 && sum <= n * total
    ensures sum as real / n as real <= total as real
  {
    var avg := sum as real / n as real;
    assert avg * n as real == sum as real;
    if avg > total as real {
      assert avg * n as real > total as real * n as real;
    }
  }

  /** `_score_sentences` for one sentence of `text`. */
  function SentenceScore(text: string, sentence: string): (s: real)
    ensures 0.0 <= s <= 1.2
  {
    ScoreWords(Split(Lower(text)), Split(Lower(sentence)))
  }

  /** The score of a sentence with words `ws` in a text with words `words`:
      0 for no words, else the mean frequency of its words over the text's
      word count, boosted for long sentences. It is 0 exactly when none of
      its words occurs in the text. */
  function ScoreWords(words: seq<string>, ws: seq<string>): (s: real)
    ensures 0.0 <= s <= 1.2
    ensures s == 0.0 <==> forall w :: w in ws ==> w !in words
  {
    if |ws| == 0 then 0.0
    else
      var b := WordsScore(words, ws);
      BoostBounds(b, |ws|);
      b * Boost(|ws|)
  }

  lemma BoostBounds(b: real, n: nat)
    requires 0.0 <= b <= 1.0
    ensures 0.0 <= b * Boost(n) <= 1.2
    ensures b * Boost(n) == 0.0 <==> b == 0.0
  {
    if n > 10 {
      assert b * Boost(n) == b * 1.2;
    } else if n > 5 {
      assert b * Boost(n) == b * 1.1;
    }
  }

  /** The unboosted score of a sentence's words `ws` against the text's words. */
  function WordsScore(words: seq<string>, ws: seq<string>): (s: real)
    requires |ws| > 0
    ensures 0.0 <= s <= 1.0
    ensures s == 0.0 <==> forall w :: w in ws ==> w !in words
  {
    var freq := Tally(words);
    TallyTotal(words);
    FreqSumBounds(words, ws);
    BaseScore(FreqSum(freq, ws), |ws|, Total(freq))
  }

  /** `_score_sentences`: each sentence paired with its score. */
  function ScoreSentences(sentences: seq<string>, text: string): (scored: seq<(string, real)>)
    ensures |scored| == |sentences|
    ensures forall i :: 0 <= i < |scored| ==> scored[i] == (sentences[i], SentenceScore(text, sentences[i]))
  {
    seq(|sentences|, i requires 0 <= i < |sentences| => (sentences[i], SentenceScore(text, sentences[i])))
  }

  function ScoreOf(p: (string, real)): real { p.1 }

  /** `sorted(scored, key=score, reverse=True)[:max_sentences]`. */
  function SelectTop(scored: seq<(string, real)>, maxSentences: int): (top: seq<(string, real)>)
    ensures maxSentences >= 0 ==> |top| == if maxSentences < |scored| then maxSentences else |scored|
    ensures |top| <= |scored|
    ensures multiset(top) <= multiset(scored)
    ensures maxSentences >= |scored| ==> multiset(top) == multiset(scored)
    ensures SortedBy(top, ScoreOf)
    ensures forall k :: 0 <= k < |top| ==> top[k] in scored
  {
    var sorted := SortDesc(scored, ScoreOf);
    SortTakeWithin(scored, ScoreOf, maxSentences);
    PyTake(sorted, maxSentences)
  }

  /** A sentence left out of the summary scores no higher than any sentence in it. */
  lemma SelectTopDominates(scored: seq<(string, real)>, maxSentences: int, p: (string, real), q: (string, real))
    requires p in SelectTop(scored, maxSentences) && q in scored && q !in SelectTop(scored, maxSentences)
    ensures p.1 >= q.1
  {
    var sorted := SortDesc(scored, ScoreOf);
    assert q in multiset(sorted);
    TopOfSorted(sorted, |SelectTop(scored, maxSentences)|, ScoreOf, p, q);
  }

  function Firsts(ps: seq<(string, real)>): (ss: seq<string>)
    ensures |ss| == |ps|
    ensures forall i :: 0 <= i < |ps| ==> ss[i] == ps[i].0
  {
    seq(|ps|, i requires 0 <= i < |ps| => ps[i].0)
  }

  /** `_build_summary`: the selected sentences joined by single spaces, in
      the order of selection. */
  function BuildSummary(top: seq<(string, real)>): (summary: string)
    ensures |summary| == SumLengths(Firsts(top)) + (if |top| == 0 then 0 else |top| - 1)
    ensures top == [] ==> summary == ""
    ensures forall i :: 0 <= i < |top| ==> var o := SumLengths(Firsts(top)[..i]) + i;
      o + |top[i].0| <= |summary| && summary[o..o + |top[i].0|] == top[i].0 &&
      (i + 1 < |top| ==> o + |top[i].0| < |summary| && summary[o + |top[i].0|] == ' ')
  {
    JoinLength(" ", Firsts(top));
    SummaryPieces(top);
    Join(" ", Firsts(top))
  }

  /** Where each selected sentence sits in the space-joined summary. */
  lemma SummaryPieces(top: seq<(string, real)>)
    ensures forall i :: 0 <= i < |top| ==> var o := SumLengths(Firsts(top)[..i]) + i;
      o + |top[i].0| <= |Join(" ", Firsts(top))| && Join(" ", Firsts(top))[o..o + |top[i].0|] == top[i].0 &&
      (i + 1 < |top| ==> o + |top[i].0| < |Join(" ", Firsts(top))| && Join(" ", Firsts(top))[o + |top[i].0|] == ' ')
  {
    var fs := Firsts(top);
    assert " " == [' '];
    forall i | 0 <= i < |top|
      ensures var o := SumLengths(fs[..i]) + i;
        o + |fs[i]| <= |Join([' '], fs)| && Join([' '], fs)[o..o + |fs[i]|] == fs[i] &&
        (i + 1 < |fs| ==> o + |fs[i]| < |Join([' '], fs)| && Join([' '], fs)[o + |fs[i]|] == ' ')
    {
      JoinPieces(' ', fs, i);
    }
  }

  /** Non-empty sentences give an empty summary only when none is selected. */
  lemma SummaryEmpty(top: seq<(string, real)>)
    requires forall i :: 0 <= i < |top| ==> |top[i].0| > 0
    ensures BuildSummary(top) == "" <==> top == []
  {
    if |top| > 0 {
      assert SumLengths(Firsts(top)) >= |Firsts(top)[0]|;
    }
  }

  // ---------------------------------------------------------------------
  // Key phrases

  function Bigram(words: seq<string>, i: nat): string
    requires i + 1 < |words|
  {
    words[i] + " " + words[i + 1]
  }

  function Trigram(words: seq<string>, i: nat): string
    requires i + 2 < |words|
  {
    words[i] + " " + words[i + 1] + " " + words[i + 2]
  }

  /** The phrases that split into exactly `n` words, in order. */
  function WithWords(ps: seq<string>, n: nat): (r: seq<string>)
    ensures |r| <= |ps|
    ensures forall p :: p in r <==> p in ps && WordCount(p) == n
  {
    if |ps| == 0 then []
    else
      var rest := WithWords(ps[..|ps| - 1], n);
      assert ps == ps[..|ps| - 1] + [ps[|ps| - 1]];
      if WordCount(ps[|ps| - 1]) == n then rest + [ps[|ps| - 1]] else rest
  }

  function Bigrams(words: seq<string>): (ps: seq<string>)
    ensures |ps| == if |words| < 2 then 0 else |words| - 1
  {
    if |words| < 2 then []
    else seq(|words| - 1, i requires 0 <= i < |words| - 1 => Bigram(words, i))
  }

  function Trigrams(words: seq<string>): (ps: seq<string>)
    ensures |ps| == if |words| < 3 then 0 else |words| - 2
  {
    if |words| < 3 then []
    else seq(|words| - 2, i requires 0 <= i < |words| - 2 => Trigram(words, i))
  }

  /** The n-grams of `_extract_key_phrases`, after its word-count check. */
  function NGrams(words: seq<string>): seq<string> {
    WithWords(Bigrams(words), 2) + WithWords(Trigrams(words), 3)
  }

  lemma BigramWords(words: seq<string>, i: nat)
    requires i + 1 < |words| && IsWord(words[i]) && IsWord(words[i + 1])
    ensures WordCount(Bigram(words, i)) == 2
  {
    var ws := [words[i], words[i + 1]];
    SplitJoinSpace(ws);
    assert Join(" ", ws) == Bigram(words, i);
  }

  lemma TrigramWords(words: seq<string>, i: nat)
    requires i + 2 < |words| && IsWord(words[i]) && IsWord(words[i + 1]) && IsWord(words[i + 2])
    ensures WordCount(Trigram(words, i)) == 3
  {
    var ws := [words[i], words[i + 1], words[i + 2]];
    SplitJoinSpace(ws);
    assert ws[1..] == [words[i + 1], words[i + 2]];
    assert Join(" ", ws[1..]) == words[i + 1] + " " + words[i + 2];
    assert Join(" ", ws) == words[i] + " " + (words[i + 1] + " " + words[i + 2]);
    assert Join(" ", ws) == Trigram(words, i);
  }

  /** The word-count check of `_extract_key_phrases` never drops an n-gram
      of `str.split()` words. */
  lemma NGramsUnfiltered(words: seq<string>)
    requires forall i :: 0 <= i < |words| ==> IsWord(words[i])
    ensures forall p :: p in Bigrams(words) ==> p in NGrams(words)
    ensures forall p :: p in Trigrams(words) ==> p in NGrams(words)
  {
    var bs := Bigrams(words);
    var ts := Trigrams(words);
    forall p | p in bs ensures p in WithWords(bs, 2) {
      var i :| 0 <= i < |bs| && bs[i] == p;
      BigramWords(words, i);
    }
    forall p | p in ts ensures p in WithWords(ts, 3) {
      var i :| 0 <= i < |ts| && ts[i] == p;
      TrigramWords(words, i);
    }
  }

  function Names(ps: seq<(string, int)>): (ns: seq<string>)
    ensures |ns| == |ps|
    ensures forall i :: 0 <= i < |ps| ==> ns[i] == ps[i].0
  {
    seq(|ps|, i requires 0 <= i < |ps| => ps[i].0)
  }

  /** `_extract_key_phrases`: the five most frequent n-grams of the
      lower-cased words, most frequent first. */
  function KeyPhrases(text: string): (ks: seq<string>)
    ensures var d := Distinct(NGrams(Split(Lower(text))));
      |ks| == if 5 < |d| then 5 else |d|
    ensures forall k :: k in ks ==> k in NGrams(Split(Lower(text)))
  {
    var grams := NGrams(Split(Lower(text)));
    var top := MostCommon(Tally(grams), 5);
    MostCommonTally(grams, 5);
    forall k | k in Names(top) ensures k in grams {
      var i :| 0 <= i < |top| && Names(top)[i] == k;
      MostCommonCounts(grams, 5, top[i]);
    }
    Names(top)
  }

  /** A phrase of the text left out of the key phrases occurs no more often
      than any key phrase. */
  lemma KeyPhrasesDominate(text: string, k: string, other: string)
    requires k in KeyPhrases(text)
    requires other in NGrams(Split(Lower(text))) && other !in KeyPhrases(text)
    ensures Count(NGrams(Split(Lower(text))), other) <= Count(NGrams(Split(Lower(text))), k)
  {
    var grams := NGrams(Split(Lower(text)));
    var r := Tally(grams);
    var top := MostCommon(r, 5);
    var i :| 0 <= i < |top| && top[i].0 == k;
    MostCommonCounts(grams, 5, top[i]);
    TallySpec(grams);
    var q := (other, Count(grams, other));
    assert Get(r, other) == Some(Count(grams, other));
    assert q in r;
    assert forall j :: 0 <= j < |top| ==> top[j].0 != other;
    MostCommonDominates(r, 5, top[i], q);
  }

  // ---------------------------------------------------------------------
  // Statistics and confidence

  /** `(before - after) / max(1, before)`. */
  function Reduction(before: nat, after: nat): (r: real)
    ensures r <= 1.0
    ensures after <= before ==> 0.0 <= r
    ensures r == 0.0 <==> after == before
    ensures before > 0 ==> (r == 1.0 <==> after == 0)
  {
    var d := if before > 1 then before else 1;
    var r := (before - after) as real / d as real;
    assert r * d as real == (before - after) as real;
    r
  }

  datatype Stats = Stats(originalWords: nat, summaryWords: nat, wordReduction: real, charReduction: real)

  /** `_get_summary_stats`. */
  function SummaryStats(original: string, summary: string): (st: Stats)
    ensures st.originalWords == WordCount(original) && st.summaryWords == WordCount(summary)
    ensures st.wordReduction == Reduction(WordCount(original), WordCount(summary))
    ensures st.charReduction == Reduction(|original|, |summary|)
  {
    Stats(WordCount(original), WordCount(summary), Reduction(WordCount(original), WordCount(summary)),
          Reduction(|original|, |summary|))
  }

  /** `_calculate_confidence`: the share of the original's distinct words
      that the summary uses, 0 for an empty summary. */
  function Confidence(original: string, summary: string): (c: real)
    ensures 0.0 <= c <= 1.0
    ensures summary == "" ==> c == 0.0
    ensures summary != "" && !AllSpace(original) ==> (c == 1.0 <==> WordSet(original) <= WordSet(summary))
    ensures summary != "" && !AllSpace(original) ==> (c == 0.0 <==> WordSet(original) * WordSet(summary) == {})
  {
    if summary == "" then 0.0 else Coverage(WordSet(original), WordSet(summary))
  }

  /** `min(len(a & b) / max(1, len(a)), 1.0)`. */
  function Coverage(a: set<string>, b: set<string>): (c: real)
    ensures 0.0 <= c <= 1.0
    ensures a != {} ==> (c == 1.0 <==> a <= b)
    ensures c == 0.0 <==> a * b == {}
  {
    var overlap := |a * b|;
    var d := if |a| > 1 then |a| else 1;
    OverlapFull(a, b);
    var cov := overlap as real / d as real;
    assert cov * d as real == overlap as real;
    Min1(cov)
  }

  function Min1(x: real): real { if x < 1.0 then x else 1.0 }

  /** The overlap is as large as the first set exactly when it contains it. */
  lemma OverlapFull(a: set<string>, b: set<string>)
    ensures |a * b| <= |a|
    ensures |a * b| == |a| <==> a <= b
  {
    assert a == (a * b) + (a - b);
    assert (a * b) * (a - b) == {};
    if !(a <= b) {
      var x :| x in a && x !in b;
      assert x in a - b;
    }
  }

  // ---------------------------------------------------------------------
  // One comment

  datatype Report = Report(summary: string, originalLength: nat, summaryLength: nat, compressionRatio: real,
                           keyPhrases: seq<string>, sentenceCount: nat, selectedSentences: nat,
                           stats: Stats, confidence: real)

  /** `analyze`: None for the error result of an invalid comment. */
  function Analyze(cfg: Config, c: Comment): (r: Option<Report>)
    ensures r.None? <==> !AnalysisBase.ValidateComment(c)
    ensures r.Some? ==> (r.value.originalLength == |c.text| && r.value.summaryLength == |r.value.summary| &&
      r.value.sentenceCount == |ExtractSentences(cfg, c.text)|)
    ensures r.Some? ==> r.value.selectedSentences <= r.value.sentenceCount
    ensures r.Some? && cfg.maxSentences >= 0 ==> r.value.selectedSentences <= cfg.maxSentences
    ensures r.Some? && cfg.minSentenceLength >= 1 ==> (r.value.summary == "" <==> r.value.selectedSentences == 0)
    ensures r.Some? ==> '.' !in r.value.summary
    ensures r.Some? ==> |r.value.keyPhrases| <= 5 && 0.0 <= r.value.confidence <= 1.0
    ensures r.Some? ==> r.value.keyPhrases == KeyPhrases(c.text)
    ensures r.Some? ==> r.value.confidence == Confidence(c.text, r.value.summary)
    ensures r.Some? ==> var top := SelectTop(ScoreSentences(ExtractSentences(cfg, c.text), c.text), cfg.maxSentences);
      r.value.summary == BuildSummary(top) && r.value.selectedSentences == |top|
    ensures r.Some? ==> r.value.compressionRatio == CompressionRatio(|r.value.summary|, |c.text|)
    ensures r.Some? ==> r.value.stats == SummaryStats(c.text, r.value.summary)
  {
    if !AnalysisBase.ValidateComment(c) then None
    else
      var text := c.text;
      var sentences := ExtractSentences(cfg, text);
      var top := SelectTop(ScoreSentences(sentences, text), cfg.maxSentences);
      SelectionKept(sentences, text, cfg.maxSentences, cfg.minSentenceLength);
      SelectionFacts(top, cfg.minSentenceLength);
      var summary := BuildSummary(top);
      var ratio := CompressionRatio(|summary|, |text|);
      Some(Report(summary, |text|, |summary|, ratio, KeyPhrases(text), |sentences|, |top|,
                  SummaryStats(text, summary), Confidence(text, summary)))
  }

  /** `len(summary) / max(1, len(text))`. */
  function CompressionRatio(summaryLength: nat, textLength: nat): (r: real)
    ensures r * (if textLength > 1 then textLength else 1) as real == summaryLength as real
    ensures summaryLength <= textLength ==> 0.0 <= r <= 1.0
  {
    var d := if textLength > 1 then textLength else 1;
    var r := summaryLength as real / d as real;
    assert r * d as real == summaryLength as real;
    r
  }

  /** Every sentence the selection keeps is itself a kept sentence: stripped,
      long enough and free of sentence ends. */
  lemma SelectionKept(sentences: seq<string>, text: string, maxSentences: int, minLen: int)
    requires forall k :: 0 <= k < |sentences| ==> KeptSentence(sentences[k], SentenceEnds, minLen)
    ensures var top := SelectTop(ScoreSentences(sentences, text), maxSentences);
      forall i :: 0 <= i < |top| ==> KeptSentence(top[i].0, SentenceEnds, minLen)
  {
    var scored := ScoreSentences(sentences, text);
    var top := SelectTop(scored, maxSentences);
    forall i | 0 <= i < |top| ensures KeptSentence(top[i].0, SentenceEnds, minLen) {
      var j :| 0 <= j < |scored| && scored[j] == top[i];
      assert top[i].0 == sentences[j];
    }
  }

  /** Kept sentences hold no full stop, and so neither does their summary. */
  lemma SelectionFacts(top: seq<(string, real)>, minLen: int)
    requires forall i :: 0 <= i < |top| ==> KeptSentence(top[i].0, SentenceEnds, minLen)
    ensures '.' !in BuildSummary(top)
    ensures minLen >= 1 ==> (BuildSummary(top) == "" <==> top == [])
  {
    var fs := Firsts(top);
    forall i | 0 <= i < |fs| ensures '.' !in fs[i] {
      assert '.' in SentenceEnds;
      assert KeptSentence(top[i].0, SentenceEnds, minLen);
    }
    JoinAvoids(" ", fs, '.');
    if minLen >= 1 {
      SummaryEmpty(top);
    }
  }

  function AnalyzeBatch(cfg: Config, comments: seq<Comment>): (rs: seq<Option<Report>>)
    ensures |rs| == |comments|
    ensures forall i :: 0 <= i < |rs| ==> rs[i] == Analyze(cfg, comments[i])
  {
    seq(|comments|, i requires 0 <= i < |comments| => Analyze(cfg, comments[i]))
  }

  // ---------------------------------------------------------------------
  // Batches

  /** The summaries of the successful results, in order. */
  function Summaries(rs: seq<Option<Report>>): (ss: seq<string>)
    ensures |ss| <= |rs|
    ensures forall s :: s in ss ==> exists i :: 0 <= i < |rs| && rs[i].Some? && rs[i].value.summary == s
    ensures forall i :: 0 <= i < |rs| && rs[i].Some? ==> rs[i].value.summary in ss
  {
    if |rs| == 0 then []
    else
      var pre := rs[..|rs| - 1];
      assert forall i :: 0 <= i < |pre| ==> pre[i] == rs[i];
      var last := rs[|rs| - 1];
      Summaries(pre) + (if last.Some? then [last.value.summary] else [])
  }

  /** Every piece of `summary.split(". ")` for each summary, in order. */
  function KeyPoints(summaries: seq<string>): seq<string> {
    if |summaries| == 0 then []
    else KeyPoints(summaries[..|summaries| - 1]) + SplitSep(summaries[|summaries| - 1], ". ")
  }

  /** A summary never holds a '.', so splitting at ". " leaves each whole. */
  lemma {:induction false} KeyPointsAreSummaries(summaries: seq<string>)
    requires forall i :: 0 <= i < |summaries| ==> '.' !in summaries[i]
    ensures KeyPoints(summaries) == summaries
  {
    if |summaries| > 0 {
      var last := summaries[|summaries| - 1];
      KeyPointsAreSummaries(summaries[..|summaries| - 1]);
      FindSepMissing(last, ". ");
    }
  }

  /** The truncation of `summarize_batch`: cut to `limit - 3` characters
      (a Python slice, so a negative bound counts from the end) and mark
      with "...". */
  function Truncate(s: string, limit: int): (r: string)
    ensures |s| <= limit ==> r == s
    ensures |s| > limit && limit >= 3 ==> |r| == limit && r[..limit - 3] == s[..limit - 3]
    ensures limit >= 3 ==> |r| <= limit
  {
    if |s| > limit then Prefix(s, limit - 3) + "..." else s
  }

  /** Below a limit of 3 the truncation marker alone overshoots it. */
  lemma TinyLimitOvershoots(s: string, limit: int)
    requires limit < 3 && |s| > limit
    ensures |Truncate(s, limit)| > limit
  {
  }

  /** `summarize_batch`: the first ten key points of the successful
      summaries joined by ". ", truncated to the limit. */
  function SummarizeBatch(cfg: Config, comments: seq<Comment>, limit: int): (r: string)
    ensures limit >= 3 ==> |r| <= limit
    ensures r == Truncate(Join(". ", PyTake(Summaries(AnalyzeBatch(cfg, comments)), 10)), limit)
  {
    var rs := AnalyzeBatch(cfg, comments);
    var summaries := Summaries(rs);
    SummariesAvoidPeriod(rs);
    KeyPointsAreSummaries(summaries);
    Truncate(Join(". ", PyTake(KeyPoints(summaries), 10)), limit)
  }

  lemma SummariesAvoidPeriod(rs: seq<Option<Report>>)
    requires forall i :: 0 <= i < |rs| && rs[i].Some? ==> '.' !in rs[i].value.summary
    ensures forall i :: 0 <= i < |Summaries(rs)| ==> '.' !in Summaries(rs)[i]
  {
    var ss := Summaries(rs);
    forall i | 0 <= i < |ss| ensures '.' !in ss[i] {
      assert ss[i] in ss;
    }
  }

  /** All key phrases of the successful results, in order. */
  function AllPhrases(rs: seq<Option<Report>>): (ps: seq<string>)
    ensures forall p :: p in ps ==> exists i :: 0 <= i < |rs| && rs[i].Some? && p in rs[i].value.keyPhrases
    ensures forall i, p :: 0 <= i < |rs| && rs[i].Some? && p in rs[i].value.keyPhrases ==> p in ps
  {
    if |rs| == 0 then []
    else
      var pre := rs[..|rs| - 1];
      assert forall i :: 0 <= i < |pre| ==> pre[i] == rs[i];
      var last := rs[|rs| - 1];
      AllPhrases(pre) + (if last.Some? then last.value.keyPhrases else [])
  }

  /** `get_top_key_phrases`: the `limit` most common key phrases across the
      comments, with their counts. */
  function TopKeyPhrases(cfg: Config, comments: seq<Comment>, limit: int): (top: seq<(string, int)>)
    ensures limit <= 0 ==> top == []
    ensures limit >= 0 ==> |top| <= limit
    ensures SortedBy(top, CountOf)
    ensures forall p :: p in top ==>
      p.0 in AllPhrases(AnalyzeBatch(cfg, comments)) && p.1 == Count(AllPhrases(AnalyzeBatch(cfg, comments)), p.0)
    ensures var d := Distinct(AllPhrases(AnalyzeBatch(cfg, comments)));
      limit > 0 ==> |top| == if limit < |d| then limit else |d|
  {
    var all := AllPhrases(AnalyzeBatch(cfg, comments));
    var top := MostCommon(Tally(all), limit);
    MostCommonTally(all, limit);
    forall p | p in top ensures p.0 in all && p.1 == Count(all, p.0) {
      MostCommonCounts(all, limit, p);
    }
    top
  }

  /** A key phrase that `get_top_key_phrases` leaves out is no more common
      than any phrase it returns. */
  lemma TopKeyPhrasesDominate(cfg: Config, comments: seq<Comment>, limit: int, p: (string, int), k: string)
    requires p in TopKeyPhrases(cfg, comments, limit)
    requires k in AllPhrases(AnalyzeBatch(cfg, comments))
    requires forall q :: q in TopKeyPhrases(cfg, comments, limit) ==> q.0 != k
    ensures p.1 >= Count(AllPhrases(AnalyzeBatch(cfg, comments)), k)
  {
    TallyTopDominates(AllPhrases(AnalyzeBatch(cfg, comments)), limit, p, k);
  }
}

=== FILE: text.dfy ===
/** Python string behaviour the analyzers rely on: whitespace splitting,
    stripping, ASCII case folding, substring tests, joins, the `re.split`
    shapes the source uses, and decimal rendering of numbers. */
module Text {
  import opened Wrappers
  import opened Seqs

  /** Regular expressions are not modelled. `m(p, t)` stands for
      `re.compile(p, re.IGNORECASE).findall(t)`: the list of matches, or
      None when compiling or matching raises. */
  type Matcher = (string, string) -> Option<seq<string>>

  /** `s(p, t)` stands for `re.search(p, t, re.IGNORECASE) is not None` on a
      pattern that compiles (every pattern the analyzers search is a constant). */
  type Searcher = (string, string) -> bool

  // ---------------------------------------------------------------------
  // Characters

  /** Python's `str.isspace`, the separator set of `str.split()` and `str.strip()`. */
  predicate IsSpace(c: char) {
    var n := c as int;
    n == 0x20 || (0x09 <= n <= 0x0D) || (0x1C <= n <= 0x1F) || n == 0x85 || n == 0xA0
    || n == 0x1680 || (0x2000 <= n <= 0x200A) || n == 0x2028 || n == 0x2029
    || n == 0x202F || n == 0x205F || n == 0x3000
  }

  predicate IsUpper(c: char) { 'A' <= c <= 'Z' }
  predicate IsLowerLetter(c: char) { 'a' <= c <= 'z' }
  predicate IsAlpha(c: char) { IsUpper(c) || IsLowerLetter(c) }
  predicate IsDigit(c: char) { '0' <= c <= '9' }
  predicate IsAlnum(c: char) { IsAlpha(c) || IsDigit(c) }

  function LowerChar(c: char): (r: char)
    ensures !IsUpper(r)
    ensures IsSpace(r) <==> IsSpace(c)
    ensures !IsUpper(c) ==> r == c
  {
    if IsUpper(c) then (c as int + 32) as char else c
  }

  /** `str.lower()` on the ASCII letters. */
  function Lower(s: string): (r: string)
    ensures |r| == |s|
    ensures forall i :: 0 <= i < |s| ==> r[i] == LowerChar(s[i])
  {
    seq(|s|, i requires 0 <= i < |s| => LowerChar(s[i]))
  }

  predicate AllSpace(s: string) {
    forall i :: 0 <= i < |s| ==> IsSpace(s[i])
  }

  /** Lower-casing twice is lower-casing once. */
  lemma LowerIdempotent(s: string)
    ensures Lower(Lower(s)) == Lower(s)
  {
    forall i | 0 <= i < |s| ensures Lower(Lower(s))[i] == Lower(s)[i] {
      assert !IsUpper(Lower(s)[i]);
    }
  }

  /** Lower-casing neither adds nor removes a character that is not a letter. */
  lemma LowerKeepsSymbol(s: string, c: char)
    requires !IsAlpha(c)
    ensures c in Lower(s) <==> c in s
  {
    if c in s {
      var i :| 0 <= i < |s| && s[i] == c;
      assert Lower(s)[i] == c;
    }
    if c in Lower(s) {
      var i :| 0 <= i < |s| && Lower(s)[i] == c;
      assert s[i] == c;
    }
  }

  /** Lower-casing keeps whitespace where it was. */
  lemma LowerAllSpace(s: string)
    ensures AllSpace(Lower(s)) <==> AllSpace(s)
  {
    assert forall i :: 0 <= i < |s| ==> (IsSpace(Lower(s)[i]) <==> IsSpace(s[i]));
  }

  /** A token of `str.split()`: non-empty and free of whitespace. */
  predicate IsWord(w: string) {
    |w| > 0 && forall i :: 0 <= i < |w| ==> !IsSpace(w[i])
  }

  // ---------------------------------------------------------------------
  // str.split()

  /** Length of the whitespace-free run at the start of `s`. */
  function RunLen(s: string): (n: nat)
    requires |s| > 0 && !IsSpace(s[0])
    ensures 1 <= n <= |s|
    ensures forall i :: 0 <= i < n ==> !IsSpace(s[i])
    ensures n < |s| ==> IsSpace(s[n])
  {
    if |s| == 1 || IsSpace(s[1]) then 1 else 1 + RunLen(s[1..])
  }

  /** `s.split()`: the maximal whitespace-free runs of `s`, in order. */
  function Split(s: string): (ws: seq<string>)
    ensures forall i :: 0 <= i < |ws| ==> IsWord(ws[i])
    ensures |ws| <= |s|
    decreases |s|
  {
    if |s| == 0 then []
    else if IsSpace(s[0]) then Split(s[1..])
    else
      var n := RunLen(s);
      [s[..n]] + Split(s[n..])
  }

  /** `len(s.split())`. */
  function WordCount(s: string): nat {
    |Split(s)|
  }

  lemma {:induction false} SplitEmptyIffAllSpace(s: string)
    ensures Split(s) == [] <==> AllSpace(s)
    decreases |s|
  {
    if |s| == 0 {
    } else if IsSpace(s[0]) {
      SplitEmptyIffAllSpace(s[1..]);
      if AllSpace(s[1..]) {
        forall i | 0 <= i < |s| ensures IsSpace(s[i]) {
          if i > 0 { assert s[i] == s[1..][i - 1]; }
        }
      }
    } else {
      assert !AllSpace(s);
    }
  }

  /** Every token of `s.split()` occurs in `s`, so a token's characters are characters of `s`. */
  lemma {:induction false} SplitCharsFromText(s: string, i: int, j: int)
    requires 0 <= i < |Split(s)| && 0 <= j < |Split(s)[i]|
    ensures Split(s)[i][j] in s
    decreases |s|
  {
    if IsSpace(s[0]) {
      SplitCharsFromText(s[1..], i, j);
    } else {
      var n := RunLen(s);
      if i == 0 {
        assert Split(s)[0] == s[..n];
      } else {
        assert Split(s)[i] == Split(s[n..])[i - 1];
        SplitCharsFromText(s[n..], i - 1, j);
      }
    }
  }

  // ---------------------------------------------------------------------
  // str.strip()

  function StripLeft(s: string): (r: string)
    ensures |r| <= |s|
    ensures |r| > 0 ==> !IsSpace(r[0])
    decreases |s|
  {
    if |s| > 0 && IsSpace(s[0]) then StripLeft(s[1..]) else s
  }

  /** `StripLeft` cuts a run of whitespace off the front. */
  lemma {:induction false} StripLeftCuts(s: string)
    ensures |StripLeft(s)| <= |s| && StripLeft(s) == s[|s| - |StripLeft(s)|..]
    ensures AllSpace(s[..|s| - |StripLeft(s)|])
    decreases |s|
  {
    if |s| > 0 && IsSpace(s[0]) {
      var t := s[1..];
      var r := StripLeft(t);
      StripLeftCuts(t);
      assert s[|s| - |r|..] == t[|t| - |r|..];
      var cut := t[..|t| - |r|];
      var w := [s[0]] + cut;
      assert s[..|s| - |r|] == w;
      forall i | 0 <= i < |w| ensures IsSpace(w[i]) {
        if i > 0 { assert w[i] == cut[i - 1]; }
      }
    }
  }

  function StripRight(s: string): (r: string)
    ensures |r| <= |s|
    ensures |r| > 0 ==> !IsSpace(r[|r| - 1])
    decreases |s|
  {
    if |s| > 0 && IsSpace(s[|s| - 1]) then StripRight(s[..|s| - 1]) else s
  }

  /** `StripRight` cuts a run of whitespace off the back. */
  lemma {:induction false} StripRightCuts(s: string)
    ensures |StripRight(s)| <= |s| && StripRight(s) == s[..|StripRight(s)|]
    ensures AllSpace(s[|StripRight(s)|..])
    decreases |s|
  {
    if |s| > 0 && IsSpace(s[|s| - 1]) {
      var t := s[..|s| - 1];
      var r := StripRight(t);
      StripRightCuts(t);
      assert s[..|r|] == t[..|r|];
      var cut := t[|r|..];
      var w := cut + [s[|s| - 1]];
      assert s[|r|..] == w;
      forall i | 0 <= i < |w| ensures IsSpace(w[i]) {
        if i < |cut| { assert w[i] == cut[i]; }
      }
    }
  }

  /** `s.strip()`: `s` without leading and trailing whitespace. */
  function Strip(s: string): (r: string)
    ensures |r| <= |s|
    ensures |r| > 0 ==> !IsSpace(r[0]) && !IsSpace(r[|r| - 1])
    ensures r == [] <==> AllSpace(s)
  {
    StripEmptyIffAllSpace(s);
    StripRightCuts(StripLeft(s));
    StripRight(StripLeft(s))
  }

  /** The stripped text is a slice of the original. */
  lemma StripInside(s: string) returns (k: nat)
    ensures k + |Strip(s)| <= |s| && Strip(s) == s[k..k + |Strip(s)|]
  {
    var l := StripLeft(s);
    StripLeftCuts(s);
    k := |s| - |l|;
    var r := StripRight(l);
    StripRightCuts(l);
    assert r == l[..|r|];
  }

  lemma StripEmptyIffAllSpace(s: string)
    ensures StripRight(StripLeft(s)) == [] <==> AllSpace(s)
  {
    var l := StripLeft(s);
    StripLeftCuts(s);
    StripRightCuts(l);
    if StripRight(l) == [] {
      assert AllSpace(l[0..]);
      assert s[..|s|] == s;
    }
  }

  // ---------------------------------------------------------------------
  // Substrings, prefixes, joins, slices

  /** Python's `sub in s`. */
  predicate Contains(s: string, sub: string)
    decreases |s|
  {
    sub <= s || (|s| > 0 && Contains(s[1..], sub))
  }

  /** `sub` occurs in `s` starting at index `i`. */
  predicate OccursAt(s: string, sub: string, i: int) {
    0 <= i <= |s| - |sub| && s[i..i + |sub|] == sub
  }

  lemma {:induction false} ContainsAt(s: string, sub: string)
    ensures Contains(s, sub) <==> exists i :: OccursAt(s, sub, i)
  {
    if Contains(s, sub) {
      var i := ContainsWitness(s, sub);
    }
    if exists i :: OccursAt(s, sub, i) {
      var i :| OccursAt(s, sub, i);
      OccursContains(s, sub, i);
    }
  }

  lemma {:induction false} ContainsWitness(s: string, sub: string) returns (i: nat)
    requires Contains(s, sub)
    ensures OccursAt(s, sub, i)
    decreases |s|
  {
    if sub <= s {
      i := 0;
      assert s[0..|sub|] == sub;
    } else {
      var j := ContainsWitness(s[1..], sub);
      i := j + 1;
      assert s[i..i + |sub|] == s[1..][j..j + |sub|];
    }
  }

  lemma {:induction false} OccursContains(s: string, sub: string, i: int)
    requires OccursAt(s, sub, i)
    ensures Contains(s, sub)
    decreases i
  {
    if i == 0 {
      assert sub == s[..|sub|];
    } else {
      assert s[1..][i - 1..i - 1 + |sub|] == s[i..i + |sub|];
      OccursContains(s[1..], sub, i - 1);
    }
  }

  /** A one-character substring test is a membership test. */
  lemma ContainsChar(s: string, c: char)
    ensures Contains(s, [c]) <==> c in s
  {
    ContainsAt(s, [c]);
    if c in s {
      var i :| 0 <= i < |s| && s[i] == c;
      assert OccursAt(s, [c], i);
    }
    if Contains(s, [c]) {
      var i :| OccursAt(s, [c], i);
      assert s[i] == s[i..i + 1][0];
    }
  }

  /** Some entry of `ps` is a prefix of `s`. */
  function AnyPrefix(ps: seq<string>, s: string): (b: bool)
    ensures b <==> exists p :: p in ps && p <= s
  {
    if |ps| == 0 then false
    else if ps[0] <= s then assert ps[0] in ps; true
    else
      assert forall p :: p in ps[1..] ==> p in ps;
      assert forall p :: p in ps && p != ps[0] ==> p in ps[1..];
      AnyPrefix(ps[1..], s)
  }

  /** Some pattern of `ps` is found in `s`. */
  function AnySearch(ps: seq<string>, s: string, search: Searcher): (b: bool)
    ensures b <==> exists p :: p in ps && search(p, s)
  {
    if |ps| == 0 then false
    else if search(ps[0], s) then assert ps[0] in ps; true
    else
      assert forall p :: p in ps && p != ps[0] ==> p in ps[1..];
      AnySearch(ps[1..], s, search)
  }

  /** `sep.join(xs)`. */
  function Join(sep: string, xs: seq<string>): string
    decreases |xs|
  {
    if |xs| == 0 then ""
    else if |xs| == 1 then xs[0]
    else xs[0] + sep + Join(sep, xs[1..])
  }

  /** The joined string is at least as long as the pieces together. */
  lemma {:induction false} JoinLength(sep: string, xs: seq<string>)
    ensures |Join(sep, xs)| == SumLengths(xs) + (if |xs| == 0 then 0 else (|xs| - 1) * |sep|)
    decreases |xs|
  {
    if |xs| > 1 {
      JoinLength(sep, xs[1..]);
    }
  }

  /** Piece `i` of `sep.join(xs)`, for a one-character `sep`, starts after
      the pieces before it and one separator each, and a separator follows
      it unless it is the last. */
  lemma {:induction false} JoinPieces(sep: char, xs: seq<string>, i: nat)
    requires i < |xs|
    ensures var o := SumLengths(xs[..i]) + i;
      o + |xs[i]| <= |Join([sep], xs)| && Join([sep], xs)[o..o + |xs[i]|] == xs[i] &&
      (i + 1 < |xs| ==> o + |xs[i]| < |Join([sep], xs)| && Join([sep], xs)[o + |xs[i]|] == sep)
    decreases |xs|
  {
    if i == 0 {
      JoinFirstPiece(sep, xs);
    } else {
      var head, rest := xs[0] + [sep], Join([sep], xs[1..]);
      assert Join([sep], xs) == head + rest;
      JoinPieces(sep, xs[1..], i - 1);
      assert xs[..i][1..] == xs[1..][..i - 1];
      var o' := SumLengths(xs[1..][..i - 1]) + (i - 1);
      assert SumLengths(xs[..i]) + i == |head| + o';
      SliceAfter(head, rest, o', o' + |xs[i]|);
    }
  }

  /** The first piece opens the joined string and, unless alone, is followed
      by the separator. */
  lemma JoinFirstPiece(sep: char, xs: seq<string>)
    requires |xs| > 0
    ensures |xs[0]| <= |Join([sep], xs)| && Join([sep], xs)[..|xs[0]|] == xs[0]
    ensures |xs| > 1 ==> |xs[0]| < |Join([sep], xs)| && Join([sep], xs)[|xs[0]|] == sep
  {
    if |xs| > 1 {
      assert Join([sep], xs) == xs[0] + [sep] + Join([sep], xs[1..]);
    }
  }

  /** A slice of the tail of `a + b`, shifted past `a`, is a slice of `b`. */
  lemma SliceAfter(a: string, b: string, x: nat, y: nat)
    requires x <= y <= |b|
    ensures (a + b)[|a| + x..|a| + y] == b[x..y]
  {
  }

  function SumLengths(xs: seq<string>): nat
    decreases |xs|
  {
    if |xs| == 0 then 0 else |xs[0]| + SumLengths(xs[1..])
  }

  /** Python's `s[:n]` for a string. */
  function Prefix(s: string, n: int): (r: string)
    ensures n >= 0 ==> |r| == if n < |s| then n else |s|
    ensures n < 0 ==> |r| == if |s| + n > 0 then |s| + n else 0
    ensures r <= s
  {
    if n >= 0 then (if n < |s| then s[..n] else s)
    else (if |s| + n > 0 then s[..|s| + n] else "")
  }

  // ---------------------------------------------------------------------
  // The re.split / str.split(sep) shapes

  /** Index of the first character of `s` in `d`, or |s| when there is none. */
  function FirstIn(s: string, d: set<char>): (k: nat)
    ensures k <= |s|
    ensures k < |s| ==> s[k] in d
    ensures forall i :: 0 <= i < k ==> s[i] !in d
    decreases |s|
  {
    if |s| == 0 then 0 else if s[0] in d then 0 else 1 + FirstIn(s[1..], d)
  }

  /** Length of the run of characters in `d` at the start of `s`. */
  function RunIn(s: string, d: set<char>): (n: nat)
    ensures n <= |s|
    ensures forall i :: 0 <= i < n ==> s[i] in d
    ensures n < |s| ==> s[n] !in d
    decreases |s|
  {
    if |s| > 0 && s[0] in d then 1 + RunIn(s[1..], d) else 0
  }

  /** What is left of `s` once its first run of characters of `d` is cut off. */
  function AfterRun(s: string, d: set<char>): (t: string)
    requires FirstIn(s, d) < |s|
    ensures |t| < |s|
  {
    var k := FirstIn(s, d);
    var n := RunIn(s[k..], d);
    assert n >= 1 by { assert s[k..][0] == s[k]; }
    s[k + n..]
  }

  /** `re.split("[...]", s)` for a one-character class `d`: cut at every delimiter. */
  function SplitChars(s: string, d: set<char>): (parts: seq<string>)
    ensures |parts| >= 1
    ensures forall i, j :: 0 <= i < |parts| && 0 <= j < |parts[i]| ==> parts[i][j] !in d
    decreases |s|
  {
    var k := FirstIn(s, d);
    if k == |s| then [s] else [s[..k]] + SplitChars(s[k + 1..], d)
  }

  /** `re.split("[...]+", s)`: cut at every maximal run of delimiters. */
  function SplitRuns(s: string, d: set<char>): (parts: seq<string>)
    ensures |parts| >= 1
    ensures forall i, j :: 0 <= i < |parts| && 0 <= j < |parts[i]| ==> parts[i][j] !in d
    decreases |s|
  {
    var k := FirstIn(s, d);
    if k == |s| then [s]
    else [s[..k]] + SplitRuns(AfterRun(s, d), d)
  }

  /** Index of the first occurrence of `sep` in `s`, or |s| when there is none. */
  function FindSep(s: string, sep: string): (k: nat)
    requires |sep| > 0
    ensures k <= |s|
    ensures k < |s| ==> k + |sep| <= |s| && s[k..k + |sep|] == sep
    decreases |s|
  {
    if |s| < |sep| then |s|
    else if sep <= s then 0
    else 1 + FindSep(s[1..], sep)
  }

  /** `s.split(sep)` for a non-empty separator. */
  function SplitSep(s: string, sep: string): (parts: seq<string>)
    requires |sep| > 0
    ensures |parts| >= 1
    decreases |s|
  {
    var k := FindSep(s, sep);
    if k == |s| then [s] else [s[..k]] + SplitSep(s[k + |sep|..], sep)
  }

  // ---------------------------------------------------------------------
  // Numbers as text

  function DigitChar(d: nat): char
    requires d < 10
  {
    ('0' as int + d) as char
  }

  /** `str(n)` for a natural number. */
  function NatToString(n: nat): (s: string)
    ensures |s| > 0
    ensures forall i :: 0 <= i < |s| ==> IsDigit(s[i])
  {
    if n < 10 then [DigitChar(n)] else NatToString(n / 10) + [DigitChar(n % 10)]
  }

  /** `str(i)` for an integer. */
  function IntToString(i: int): string {
    if i < 0 then "-" + NatToString(-i) else NatToString(i)
  }

  function Pow10(k: nat): (p: nat)
    ensures p >= 1
  {
    if k == 0 then 1 else 10 * Pow10(k - 1)
  }

  /** `"%0*d" % (w, n)`: `n` in exactly `w` digits, zero-padded on the left. */
  function PadNat(n: nat, w: nat): (s: string)
    requires n < Pow10(w)
    ensures |s| == w
    ensures forall i :: 0 <= i < |s| ==> IsDigit(s[i])
  {
    if w == 0 then "" else PadNat(n / 10, w - 1) + [DigitChar(n % 10)]
  }

  /** The number a string of decimal digits denotes. */
  function ParseNat(s: string): nat
    requires forall i :: 0 <= i < |s| ==> IsDigit(s[i])
  {
    if |s| == 0 then 0
    else
      assert IsDigit(s[|s| - 1]);
      10 * ParseNat(s[..|s| - 1]) + (s[|s| - 1] as int - '0' as int)
  }

  lemma {:induction false} ParsePadNat(n: nat, w: nat)
    requires n < Pow10(w)
    ensures ParseNat(PadNat(n, w)) == n
  {
    if w > 0 {
      var s := PadNat(n, w);
      assert s[..|s| - 1] == PadNat(n / 10, w - 1);
      ParsePadNat(n / 10, w - 1);
    }
  }

  /** Python's `round` on an exact value: to the nearest integer, ties to even. */
  function RoundHalfEven(q: real): (n: int)
    ensures q - 1.0 < n as real < q + 1.0
  {
    var f := q.Floor;
    var frac := q - f as real;
    if frac < 0.5 then f
    else if frac > 0.5 then f + 1
    else if f % 2 == 0 then f else f + 1
  }

  /** Only digits, signs and decimal points. */
  predicate NumberChars(s: string) {
    forall i :: 0 <= i < |s| ==> IsDigit(s[i]) || s[i] == '-' || s[i] == '.'
  }

  lemma NumberCharsConcat(a: string, b: string)
    requires NumberChars(a) && NumberChars(b)
    ensures NumberChars(a + b)
  {
    assert forall i :: 0 <= i < |a + b| ==> (a + b)[i] == if i < |a| then a[i] else b[i - |a|];
  }

  predicate AllDigits(s: string) {
    forall i :: 0 <= i < |s| ==> IsDigit(s[i])
  }

  lemma NumberParts(neg: bool, a: string, b: string)
    requires AllDigits(a) && AllDigits(b)
    ensures NumberChars((if neg then "-" else "") + a + "." + b)
    ensures NumberChars((if neg then "-" else "") + a)
  {
    var sign := if neg then "-" else "";
    assert NumberChars(sign) && NumberChars(a) && NumberChars(b) && NumberChars(".");
    NumberCharsConcat(sign, a);
    NumberCharsConcat(sign + a, ".");
    NumberCharsConcat(sign + a + ".", b);
  }

  lemma DivModBounds(n: nat, p: int)
    requires p >= 1
    ensures n / p >= 0 && 0 <= n % p < p
  {
  }

  /** The text of a magnitude `mag` scaled by `10^k`, with a sign when `neg`. */
  function DecimalDigits(neg: bool, mag: nat, k: nat): (s: string)
    ensures NumberChars(s)
  {
    var p := Pow10(k);
    DivModBounds(mag, p);
    var a := NatToString(mag / p);
    if k == 0 then
      NumberParts(neg, a, "");
      (if neg then "-" else "") + a
    else
      var b := PadNat(mag % p, k);
      NumberParts(neg, a, b);
      (if neg then "-" else "") + a + "." + b
  }

  /** `r` rendered with exactly `k` fractional digits, as `f"{r:.{k}f}"` renders
      the exact value `r` (the sign is kept for negative values rounding to zero). */
  function Decimal(r: real, k: nat): (s: string)
    ensures NumberChars(s)
  {
    var m := RoundHalfEven((if r < 0.0 then -r else r) * Pow10(k) as real);
    DecimalDigits(r < 0.0, if m < 0 then 0 else m, k)
  }

  /** `f"{r:.2f}"`. */
  function Fixed2(r: real): string {
    Decimal(r, 2)
  }

  /** Fewest fractional digits (at least one, at most 17) that render `r` exactly. */
  function ReprDigits(r: real, k: nat): (d: nat)
    requires 1 <= k <= 17
    ensures k <= d <= 17
    decreases 17 - k
  {
    var scaled := r * Pow10(k) as real;
    if scaled == scaled.Floor as real || k == 17 then k else ReprDigits(r, k + 1)
  }

  /** Python's `repr` of a float, for values with at most 17 fractional digits. */
  function ReprReal(r: real): string {
    Decimal(r, ReprDigits(r, 1))
  }

  /** No piece holds a character of `d`. */
  predicate Avoids(parts: seq<string>, d: set<char>) {
    forall n, j :: 0 <= n < |parts| && 0 <= j < |parts[n]| ==> parts[n][j] !in d
  }

  lemma AvoidsPrefix(parts: seq<string>, d: set<char>, m: nat)
    requires Avoids(parts, d) && m <= |parts|
    ensures Avoids(parts[..m], d)
  {
    assert forall n :: 0 <= n < m ==> parts[..m][n] == parts[n];
  }

  /** Stripping keeps a text free of the characters in `d`. */
  lemma StripAvoids(p: string, d: set<char>)
    requires forall j :: 0 <= j < |p| ==> p[j] !in d
    ensures forall j :: 0 <= j < |Strip(p)| ==> Strip(p)[j] !in d
  {
    var k := StripInside(p);
    assert forall j :: 0 <= j < |Strip(p)| ==> Strip(p)[j] == p[k + j];
  }

  // ---------------------------------------------------------------------
  // Kept pieces

  /** A piece as the extractors keep it: stripped and at least `minLen`
      characters long. */
  predicate KeptPiece(c: string, minLen: int) {
    |c| >= minLen && (|c| > 0 ==> !IsSpace(c[0]) && !IsSpace(c[|c| - 1]))
  }

  /** `c` is one of the parts, stripped. */
  ghost predicate StrippedFrom(c: string, parts: seq<string>) {
    exists n :: 0 <= n < |parts| && c == Strip(parts[n])
  }

  /** Every piece of `cs` is kept and stripped from one of the parts. */
  ghost predicate AllKept(cs: seq<string>, parts: seq<string>, minLen: int) {
    forall k :: 0 <= k < |cs| ==> KeptPiece(cs[k], minLen) && StrippedFrom(cs[k], parts)
  }

  lemma AllKeptTail(cs: seq<string>, parts: seq<string>, minLen: int)
    requires |parts| > 0 && AllKept(cs, parts[1..], minLen)
    ensures AllKept(cs, parts, minLen)
  {
    forall k | 0 <= k < |cs| ensures StrippedFrom(cs[k], parts) {
      var n :| 0 <= n < |parts| - 1 && cs[k] == Strip(parts[1..][n]);
      assert parts[1..][n] == parts[n + 1];
    }
  }

  lemma AllKeptCons(c: string, cs: seq<string>, parts: seq<string>, minLen: int)
    requires AllKept(cs, parts, minLen) && KeptPiece(c, minLen) && StrippedFrom(c, parts)
    ensures AllKept([c] + cs, parts, minLen)
  {
    forall k | 0 <= k < |cs| + 1
      ensures KeptPiece(([c] + cs)[k], minLen) && StrippedFrom(([c] + cs)[k], parts)
    {
      if k == 0 { assert ([c] + cs)[k] == c; } else { assert ([c] + cs)[k] == cs[k - 1]; }
    }
  }

  /** The parts, stripped, that are at least `minLen` long, in order. */
  function KeptStripped(parts: seq<string>, minLen: int): (cs: seq<string>)
    ensures |cs| <= |parts|
  {
    if |parts| == 0 then []
    else
      var first := Strip(parts[0]);
      (if |first| >= minLen then [first] else []) + KeptStripped(parts[1..], minLen)
  }

  /** Every piece kept is stripped, long enough and one of the parts stripped. */
  lemma {:induction false} KeptStrippedSound(parts: seq<string>, minLen: int)
    ensures AllKept(KeptStripped(parts, minLen), parts, minLen)
  {
    if |parts| > 0 {
      var rest := KeptStripped(parts[1..], minLen);
      KeptStrippedSound(parts[1..], minLen);
      AllKeptTail(rest, parts, minLen);
      var first := Strip(parts[0]);
      if |first| >= minLen {
        assert StrippedFrom(first, parts);
        AllKeptCons(first, rest, parts, minLen);
      } else {
        assert KeptStripped(parts, minLen) == rest;
      }
    }
  }

  /** Pieces stripped from parts free of `d` are free of `d`. */
  lemma KeptStrippedAvoids(parts: seq<string>, d: set<char>, minLen: int)
    requires Avoids(parts, d)
    ensures Avoids(KeptStripped(parts, minLen), d)
  {
    var cs := KeptStripped(parts, minLen);
    KeptStrippedSound(parts, minLen);
    forall k | 0 <= k < |cs| ensures forall j :: 0 <= j < |cs[k]| ==> cs[k][j] !in d {
      assert StrippedFrom(cs[k], parts);
      var n :| 0 <= n < |parts| && cs[k] == Strip(parts[n]);
      StripAvoids(parts[n], d);
    }
  }

  /** No part long enough once stripped is dropped. */
  lemma {:induction false} KeptStrippedComplete(parts: seq<string>, minLen: int, n: nat)
    requires n < |parts| && |Strip(parts[n])| >= minLen
    ensures Strip(parts[n]) in KeptStripped(parts, minLen)
  {
    var rest := KeptStripped(parts[1..], minLen);
    var first := Strip(parts[0]);
    var x := Strip(parts[n]);
    if n == 0 {
      InLeft(x, [x], rest);
    } else {
      assert x in rest by {
        assert parts[1..][n - 1] == parts[n];
        KeptStrippedComplete(parts[1..], minLen, n - 1);
      }
      InRight(x, if |first| >= minLen then [first] else [], rest);
    }
  }

  /** A text without the first character of `sep` does not hold `sep`. */
  lemma {:induction false} FindSepMissing(a: string, sep: string)
    requires |sep| > 0 && sep[0] !in a
    ensures FindSep(a, sep) == |a|
    decreases |a|
  {
    if |a| >= |sep| {
      assert a[0] != sep[0];
      FindSepMissing(a[1..], sep);
    }
  }

  /** Joining texts that avoid `c` with a separator that avoids `c` gives a text that avoids `c`. */
  lemma {:induction false} JoinAvoids(sep: string, xs: seq<string>, c: char)
    requires c !in sep && forall i :: 0 <= i < |xs| ==> c !in xs[i]
    ensures c !in Join(sep, xs)
    decreases |xs|
  {
    if |xs| > 1 {
      JoinAvoids(sep, xs[1..], c);
    }
  }

  /** `c` does not occur before the end of `a`. */
  lemma {:induction false} FindSepAbsent(a: string, c: char)
    requires c !in a
    ensures FindSep(a, [c]) == |a|
    decreases |a|
  {
    if |a| >= 1 {
      assert a[0] != c;
      FindSepAbsent(a[1..], c);
    }
  }

  /** The first `c` in `a + [c] + b` is the one after `a`. */
  lemma {:induction false} FindSepFirst(a: string, c: char, b: string)
    requires c !in a
    ensures FindSep(a + [c] + b, [c]) == |a|
    decreases |a|
  {
    var s := a + [c] + b;
    if |a| == 0 {
      assert [c] <= s;
    } else {
      assert s[0] == a[0] != c;
      assert s[1..] == a[1..] + [c] + b;
      FindSepFirst(a[1..], c, b);
    }
  }

  /** Splitting a join on a one-character separator that no part contains
      gives back the parts. */
  lemma {:induction false} SplitJoin(xs: seq<string>, c: char)
    requires |xs| >= 1
    requires forall i :: 0 <= i < |xs| ==> c !in xs[i]
    ensures SplitSep(Join([c], xs), [c]) == xs
    decreases |xs|
  {
    if |xs| == 1 {
      FindSepAbsent(xs[0], c);
    } else {
      var rest := Join([c], xs[1..]);
      var s := xs[0] + [c] + rest;
      assert Join([c], xs) == s;
      FindSepFirst(xs[0], c, rest);
      assert s[..|xs[0]|] == xs[0];
      assert s[|xs[0]| + 1..] == rest;
      assert SplitSep(s, [c]) == [xs[0]] + SplitSep(rest, [c]);
      SplitJoin(xs[1..], c);
      assert xs == [xs[0]] + xs[1..];
    }
  }

  /** A word followed by whitespace (or by nothing) is one run. */
  lemma {:induction false} RunLenWord(w: string, t: string)
    requires IsWord(w) && (t == [] || IsSpace(t[0]))
    ensures RunLen(w + t) == |w|
    decreases |w|
  {
    var s := w + t;
    if |w| > 1 {
      assert s[1..] == w[1..] + t;
      RunLenWord(w[1..], t);
    }
  }

  /** `str.split()` of a word, a space and more text. */
  lemma SplitWordSpace(w: string, t: string)
    requires IsWord(w)
    ensures Split(w + " " + t) == [w] + Split(t)
  {
    var s := w + " " + t;
    assert s == w + (" " + t);
    RunLenWord(w, " " + t);
    assert s[..|w|] == w;
    assert s[|w|..] == " " + t;
    assert (" " + t)[1..] == t;
  }

  /** `str.split()` of a single word. */
  lemma SplitWord(w: string)
    requires IsWord(w)
    ensures Split(w) == [w]
  {
    RunLenWord(w, "");
    assert w + "" == w;
    assert w[..|w|] == w && w[|w|..] == "";
  }

  /** Splitting words joined by single spaces gives the words back. */
  lemma {:induction false} SplitJoinSpace(ws: seq<string>)
    requires forall i :: 0 <= i < |ws| ==> IsWord(ws[i])
    ensures Split(Join(" ", ws)) == ws
    decreases |ws|
  {
    if |ws| == 1 {
      SplitWord(ws[0]);
    } else if |ws| > 1 {
      SplitJoinSpace(ws[1..]);
      SplitWordSpace(ws[0], Join(" ", ws[1..]));
      assert ws == [ws[0]] + ws[1..];
    }
  }
}

=== FILE: text_analyzer.dfy ===
/** The `TextAnalyzer` helpers: word and sentence counts, capital-letter
    checks, repetition, readability bands, a profanity word list and keyword
    frequencies. Letters and case are ASCII. */
module TextAnalyzer {
  import opened Wrappers
  import opened Text
  import opened Seqs
  import Registry
  import DefaultCatalogue

  // ---------------------------------------------------------------------
  // Words and sentences

  /** `count_words`: the number of whitespace-separated tokens. */
  function CountWords(text: string): nat {
    WordCount(text)
  }

  /** Words joined by single spaces are counted one by one. */
  lemma CountWordsJoin(ws: seq<string>)
    requires forall i :: 0 <= i < |ws| ==> IsWord(ws[i])
    ensures CountWords(Join(" ", ws)) == |ws|
  {
    SplitJoinSpace(ws);
  }

  const SentenceEnds: set<char> := {'.', '!', '?'}

  /** The number of maximal runs of characters of `d` in `s`: what
      `len(re.findall("[...]+", s))` counts. */
  function CountRuns(s: string, d: set<char>): nat
    decreases |s|
  {
    if FirstIn(s, d) == |s| then 0 else 1 + CountRuns(AfterRun(s, d), d)
  }

  /** Counting the runs agrees with cutting at them: `findall` finds one
      run fewer than `re.split` returns pieces. */
  lemma {:induction false} CountRunsSplit(s: string, d: set<char>)
    ensures CountRuns(s, d) + 1 == |SplitRuns(s, d)|
    decreases |s|
  {
    if FirstIn(s, d) < |s| {
      CountRunsSplit(AfterRun(s, d), d);
    }
  }

  /** There are no runs exactly when no character belongs to `d`. */
  lemma CountRunsZero(s: string, d: set<char>)
    ensures CountRuns(s, d) == 0 <==> forall i :: 0 <= i < |s| ==> s[i] !in d
  {
  }

  /** `count_sentences`: maximal runs of `.`, `!` and `?`. */
  function CountSentences(text: string): nat {
    CountRuns(text, SentenceEnds)
  }

  // ---------------------------------------------------------------------
  // Capital letters

  function Letters(s: string): (n: nat)
    ensures n <= |s|
  {
    if |s| == 0 then 0 else (if IsAlpha(s[0]) then 1 else 0) + Letters(s[1..])
  }

  function Capitals(s: string): (n: nat)
    ensures n <= |s|
  {
    if |s| == 0 then 0 else (if IsUpper(s[0]) then 1 else 0) + Capitals(s[1..])
  }

  predicate HasLetter(s: string) {
    exists i :: 0 <= i < |s| && IsAlpha(s[i])
  }

  predicate LettersUpper(s: string) {
    forall i :: 0 <= i < |s| && IsAlpha(s[i]) ==> IsUpper(s[i])
  }

  /** Every capital is a letter; the counts agree exactly when every letter
      is a capital; there is a letter exactly when the count is positive. */
  lemma {:induction false} LetterCounts(s: string)
    ensures Capitals(s) <= Letters(s)
    ensures Capitals(s) == Letters(s) <==> LettersUpper(s)
    ensures Letters(s) > 0 <==> HasLetter(s)
    decreases |s|
  {
    if |s| > 0 {
      LetterCounts(s[1..]);
      assert forall i :: 1 <= i < |s| ==> s[i] == s[1..][i - 1];
      if HasLetter(s) && !IsAlpha(s[0]) {
        var i :| 0 <= i < |s| && IsAlpha(s[i]);
        assert i != 0;
        assert IsAlpha(s[1..][i - 1]);
      }
      if !LettersUpper(s) && LettersUpper(s[1..]) {
        var i :| 0 <= i < |s| && IsAlpha(s[i]) && !IsUpper(s[i]);
        assert i == 0;
      }
    }
  }

  /** `detect_caps_abuse`: the share of capitals among letters reaches the
      threshold; text without letters is never abusive. */
  function DetectCapsAbuse(text: string, threshold: real): bool {
    if |text| == 0 then false
    else
      var a := Letters(text);
      if a == 0 then false
      else Capitals(text) as real / a as real >= threshold
  }

  lemma RatioAtLeast(c: real, a: real, t: real)
    requires a > 0.0
    ensures c / a >= t <==> c >= t * a
  {
  }

  /** The ratio test in multiplicative form; text without letters is never
      abusive. */
  lemma CapsAbuseSpec(text: string, threshold: real)
    ensures DetectCapsAbuse(text, threshold) <==>
      Letters(text) > 0 && Capitals(text) as real >= threshold * Letters(text) as real
    ensures DetectCapsAbuse(text, threshold) ==> HasLetter(text)
  {
    CapsRatio(text, threshold);
    LetterCounts(text);
  }

  lemma CapsRatio(text: string, threshold: real)
    ensures DetectCapsAbuse(text, threshold) <==>
      Letters(text) > 0 && Capitals(text) as real >= threshold * Letters(text) as real
  {
    var a := Letters(text);
    if a > 0 {
      assert |text| > 0;
      RatioAtLeast(Capitals(text) as real, a as real, threshold);
    }
  }

  /** `detect_all_caps`: every letter is a capital and there is one. */
  function DetectAllCaps(text: string): bool {
    if |text| == 0 then false
    else
      var a := Letters(text);
      if a == 0 then false else Capitals(text) == a
  }

  lemma AllCapsSpec(text: string)
    ensures DetectAllCaps(text) <==> HasLetter(text) && LettersUpper(text)
  {
    LetterCounts(text);
  }

  /** All-caps text is caps abuse for every threshold up to 1. */
  lemma AllCapsIsAbuse(text: string, threshold: real)
    requires DetectAllCaps(text) && threshold <= 1.0
    ensures DetectCapsAbuse(text, threshold)
  {
    assert |text| > 0;
    var a := Letters(text);
    assert a > 0 && Capitals(text) == a;
    ScaleAtMost(threshold, a as real);
    CapsRatio(text, threshold);
  }

  lemma ScaleAtMost(t: real, x: real)
    requires t <= 1.0 && x >= 0.0
    ensures t * x <= x
  {
  }

  // ---------------------------------------------------------------------
  // Repetition

  /** `n` copies of one character other than a newline start at `i`: what
      `(.)\1{n-1,}` finds there. */
  predicate RepeatAt(s: string, i: int, n: nat) {
    n >= 1 && 0 <= i && i + n <= |s| && s[i] != '\n' && forall j :: i <= j < i + n ==> s[j] == s[i]
  }

  /** `re.search("(.)\1{n-1,}", s)` finds a match. */
  ghost predicate HasRun(s: string, n: nat) {
    exists i :: RepeatAt(s, i, n)
  }

  /** The length of the run of `s[0]` at the start of `s`. */
  function SameRun(s: string): (k: nat)
    requires |s| > 0
    ensures 1 <= k <= |s|
    ensures forall j :: 0 <= j < k ==> s[j] == s[0]
    ensures k < |s| ==> s[k] != s[0]
  {
    if |s| == 1 || s[1] != s[0] then 1
    else
      var k := 1 + SameRun(s[1..]);
      assert forall j :: 1 <= j < k ==> s[j] == s[1..][j - 1];
      k
  }

  /** Scans the maximal runs of equal characters for one of length `n`. */
  function HasRepeat(s: string, n: nat): bool
    requires n >= 1
    decreases |s|
  {
    if |s| == 0 then false
    else
      var k := SameRun(s);
      (s[0] != '\n' && k >= n) || HasRepeat(s[k..], n)
  }

  lemma {:induction false} HasRepeatIff(s: string, n: nat)
    requires n >= 1
    ensures HasRepeat(s, n) <==> HasRun(s, n)
    decreases |s|
  {
    if |s| > 0 {
      var k := SameRun(s);
      HasRepeatIff(s[k..], n);
      if s[0] != '\n' && k >= n {
        assert RepeatAt(s, 0, n);
      } else if HasRepeat(s[k..], n) {
        var i :| RepeatAt(s[k..], i, n);
        RepeatShift(s, k, i, n);
      }
      if i :| RepeatAt(s, i, n) {
        if i < k {
          assert s[0] == s[i];
        } else {
          RepeatShift(s, k, i - k, n);
        }
      }
    }
  }

  /** A run found in a suffix of `s` is a run of `s`, shifted, and back. */
  lemma RepeatShift(s: string, k: nat, i: nat, n: nat)
    requires k <= |s|
    ensures RepeatAt(s[k..], i, n) <==> RepeatAt(s, k + i, n)
  {
    if RepeatAt(s[k..], i, n) {
      assert forall j :: i <= j < i + n ==> s[k..][j] == s[k + j];
    }
    if RepeatAt(s, k + i, n) {
      assert forall j :: i <= j < i + n ==> s[k..][j] == s[k + j];
    }
  }

  /** Some word occurs at least `m` times. */
  predicate WordRepeated(ws: seq<string>, m: nat) {
    exists i :: 0 <= i < |ws| && Count(ws, ws[i]) >= m
  }

  /** `detect_repetition`: a character repeated more than `minRepeats` times
      in a row, or a lower-cased word occurring `minRepeats` times. */
  function DetectRepetition(text: string, minRepeats: nat): bool {
    HasRepeat(text, minRepeats + 1) ||
    (var ws := Split(Lower(text)); |ws| >= minRepeats && WordRepeated(ws, minRepeats))
  }

  lemma RepetitionSpec(text: string, minRepeats: nat)
    ensures DetectRepetition(text, minRepeats) <==>
      HasRun(text, minRepeats + 1) ||
      (exists w :: w in Split(Lower(text)) && Count(Split(Lower(text)), w) >= minRepeats)
  {
    HasRepeatIff(text, minRepeats + 1);
    var ws := Split(Lower(text));
    if w :| w in ws && Count(ws, w) >= minRepeats {
      var i :| 0 <= i < |ws| && ws[i] == w;
      assert Count(ws, ws[i]) >= minRepeats;
    }
  }

  /** Lowering the bar keeps a repetition a repetition. */
  lemma RepetitionMonotone(text: string, m: nat, m': nat)
    requires m' <= m && DetectRepetition(text, m)
    ensures DetectRepetition(text, m')
  {
    RepetitionSpec(text, m);
    RepetitionSpec(text, m');
    if HasRun(text, m + 1) {
      var i :| RepeatAt(text, i, m + 1);
      assert RepeatAt(text, i, m' + 1);
    }
  }

  // ---------------------------------------------------------------------
  // Readability

  /** `calculate_readability`: 0, 0.3, 0.6 or 1 by average sentence length. */
  function Readability(text: string): (r: real)
    ensures r == 0.0 || r == 0.3 || r == 0.6 || r == 1.0
  {
    var w := CountWords(text);
    var s := CountSentences(text);
    if s == 0 then 0.0
    else
      var avg := w as real / s as real;
      if avg <= 10.0 then 0.0
      else if avg <= 20.0 then 0.3
      else if avg <= 30.0 then 0.6
      else 1.0
  }

  lemma RatioAtMost(w: real, s: real, c: real)
    requires s > 0.0
    ensures w / s <= c <==> w <= c * s
  {
  }

  /** The bands in whole numbers: at most 10, 20 or 30 words per sentence. */
  lemma ReadabilityBands(text: string)
    ensures var w := CountWords(text); var s := CountSentences(text); var r := Readability(text);
      (r == 0.0 <==> s == 0 || w <= 10 * s) &&
      (r == 0.3 <==> s > 0 && 10 * s < w <= 20 * s) &&
      (r == 0.6 <==> s > 0 && 20 * s < w <= 30 * s) &&
      (r == 1.0 <==> s > 0 && 30 * s < w)
  {
    var w := CountWords(text);
    var s := CountSentences(text);
    if s > 0 {
      RatioAtMost(w as real, s as real, 10.0);
      RatioAtMost(w as real, s as real, 20.0);
      RatioAtMost(w as real, s as real, 30.0);
    }
  }

  // ---------------------------------------------------------------------
  // Profanity

  const DefaultProfanity: seq<string> :=
    ["shit", "fuck", "damn", "ass", "bitch", "crap", "bastard", "idiot", "stupid", "dumb", "moron"]

  /** A word with everything but letters and digits removed. */
  function Clean(w: string): (r: string)
    ensures |r| <= |w|
    ensures forall i :: 0 <= i < |r| ==> IsAlnum(r[i])
  {
    if |w| == 0 then ""
    else (if IsAlnum(w[0]) then [w[0]] else "") + Clean(w[1..])
  }

  /** Cleaning a clean word changes nothing. */
  lemma {:induction false} CleanIdempotent(w: string)
    ensures Clean(Clean(w)) == Clean(w)
    decreases |w|
  {
    if |w| > 0 {
      CleanIdempotent(w[1..]);
      var c := Clean(w[1..]);
      if IsAlnum(w[0]) {
        assert ([w[0]] + c)[1..] == c;
      } else {
        assert "" + c == c;
      }
    }
  }

  function AnyListed(ws: seq<string>, list: seq<string>): bool {
    if |ws| == 0 then false else Clean(ws[0]) in list || AnyListed(ws[1..], list)
  }

  /** `contains_profanity`: some lower-cased word, cleaned, is on the list
      (the built-in list when none is given). */
  function ContainsProfanity(text: string, list: Option<seq<string>>): bool {
    var l := if list.None? then DefaultProfanity else list.value;
    AnyListed(Split(Lower(text)), l)
  }

  /** Some word of `ws`, cleaned, is on `list`. */
  predicate HasListedWord(ws: seq<string>, list: seq<string>) {
    exists i :: 0 <= i < |ws| && Clean(ws[i]) in list
  }

  lemma {:induction false} AnyListedIff(ws: seq<string>, list: seq<string>)
    ensures AnyListed(ws, list) <==> HasListedWord(ws, list)
  {
    if |ws| > 0 {
      AnyListedIff(ws[1..], list);
      assert forall i :: 1 <= i < |ws| ==> ws[i] == ws[1..][i - 1];
    }
  }

  lemma ProfanitySpec(text: string, list: Option<seq<string>>)
    ensures ContainsProfanity(text, list) <==>
      HasListedWord(Split(Lower(text)), if list.None? then DefaultProfanity else list.value)
  {
    AnyListedIff(Split(Lower(text)), if list.None? then DefaultProfanity else list.value);
  }

  /** An explicit empty list finds nothing; it does not fall back to the
      built-in list. */
  lemma EmptyListFindsNothing(text: string)
    ensures !ContainsProfanity(text, Some([]))
  {
    ProfanitySpec(text, Some([]));
  }

  /** A word of letters and digits only is left as it is by `Clean`. */
  lemma {:induction false} CleanKeepsAlnum(w: string)
    requires forall i :: 0 <= i < |w| ==> IsAlnum(w[i])
    ensures Clean(w) == w
  {
    if |w| > 0 {
      CleanKeepsAlnum(w[1..]);
      assert w == [w[0]] + w[1..];
    }
  }

  /** A text is profane by the built-in list as soon as one of its words,
      cleaned, is on it. */
  lemma ProfaneWordAt(text: string, ws: seq<string>, i: int)
    requires Split(Lower(text)) == ws && 0 <= i < |ws| && Clean(ws[i]) in DefaultProfanity
    ensures ContainsProfanity(text, None)
  {
    AnyListedIff(ws, DefaultProfanity);
  }

  lemma StupidListed()
    ensures Clean("stupid") in DefaultProfanity
  {
    CleanKeepsAlnum("stupid");
  }

  /** The comment the built-in engine approves is profane by the word list. */
  lemma MildInsultProfane()
    ensures ContainsProfanity(DefaultCatalogue.MildInsult, None)
  {
    DefaultCatalogue.MildInsultThirdWord();
    StupidListed();
    ProfaneWordAt(DefaultCatalogue.MildInsult, Split(Lower(DefaultCatalogue.MildInsult)), 2);
  }

  // ---------------------------------------------------------------------
  // Keywords

  const StopWords: set<string> := {
    "the", "a", "an", "and", "or", "but", "in", "on", "at", "to", "for", "of", "with", "by",
    "from", "as", "is", "was", "are", "were", "be", "been", "being", "have", "has", "had",
    "do", "does", "did", "will", "would", "should", "could", "may", "might", "must", "i",
    "you", "he", "she", "it", "we", "they", "this", "that", "these", "those", "my", "your",
    "his", "her", "its", "our", "their"
  }

  /** Words longer than two characters that are not stop words, cleaned. The
      stop-word test sees the word before cleaning. */
  function Candidates(ws: seq<string>): (r: seq<string>)
    ensures |r| <= |ws|
    ensures forall i :: 0 <= i < |r| ==> forall j :: 0 <= j < |r[i]| ==> IsAlnum(r[i][j])
  {
    if |ws| == 0 then []
    else
      var rest := Candidates(ws[1..]);
      if ws[0] !in StopWords && |ws[0]| > 2 then [Clean(ws[0])] + rest else rest
  }

  function KeywordCandidates(text: string): seq<string> {
    Candidates(Split(Lower(text)))
  }

  /** `extract_keywords`: the `topN` most frequent candidates with their counts. */
  function ExtractKeywords(text: string, topN: int): (r: seq<(string, int)>)
    ensures topN <= 0 ==> r == []
    ensures topN > 0 ==> |r| <= topN
    ensures var d := Distinct(KeywordCandidates(text));
      topN >= 0 ==> |r| == if topN < |d| then topN else |d|
    ensures SortedBy(r, CountOf)
  {
    MostCommonTally(KeywordCandidates(text), topN);
    MostCommon(Tally(KeywordCandidates(text)), topN)
  }

  /** Every reported keyword is a candidate, reported with its true count,
      and no distinct keyword is reported twice. */
  lemma KeywordsCounted(text: string, topN: int, p: (string, int))
    requires p in ExtractKeywords(text, topN)
    ensures p.0 in KeywordCandidates(text)
    ensures p.1 == Count(KeywordCandidates(text), p.0) && p.1 >= 1
  {
    var xs := KeywordCandidates(text);
    TallySpec(xs);
    var r := Tally(xs);
    var i :| 0 <= i < |r| && r[i] == p;
    Registry.IndexOfUnique(r, p.0, i);
  }

  /** A candidate left out is no more frequent than any keyword reported. */
  lemma KeywordsDominate(text: string, topN: int, p: (string, int), k: string)
    requires p in ExtractKeywords(text, topN)
    requires k in KeywordCandidates(text)
    requires (k, Count(KeywordCandidates(text), k)) !in ExtractKeywords(text, topN)
    ensures p.1 >= Count(KeywordCandidates(text), k)
  {
    var xs := KeywordCandidates(text);
    TallySpec(xs);
    var r := Tally(xs);
    var q := (k, Count(xs, k));
    var i := Registry.IndexOf(r, k);
    assert r[i] == q;
    MostCommonDominates(r, topN, p, q);
  }
}

=== FILE: values.dfy ===
/** Dynamic values as they appear in the `to_dict` payloads, and naive
    `datetime` values with their ISO 8601 text form. */
module Values {
  import opened Wrappers
  import opened Text

  /** A JSON-like Python value: what a `Dict[str, Any]` payload holds. */
  datatype Value =
    | Null
    | Bool(b: bool)
    | Int(i: int)
    | Num(r: real)
    | Str(s: string)
    | List(items: seq<Value>)
    | Dict(entries: seq<(string, Value)>)

  /** A naive `datetime.datetime` (no time zone). */
  datatype DateTime = DateTime(year: int, month: int, day: int,
                               hour: int, minute: int, second: int, micro: int)

  predicate LeapYear(y: int) {
    y % 4 == 0 && (y % 100 != 0 || y % 400 == 0)
  }

  function DaysIn(y: int, m: int): int {
    if m == 2 then (if LeapYear(y) then 29 else 28)
    else if m == 4 || m == 6 || m == 9 || m == 11 then 30
    else 31
  }

  /** The field ranges `datetime` enforces on construction. */
  predicate Valid(d: DateTime) {
    1 <= d.year <= 9999 && 1 <= d.month <= 12 && 1 <= d.day <= DaysIn(d.year, d.month) &&
    0 <= d.hour < 24 && 0 <= d.minute < 60 && 0 <= d.second < 60 && 0 <= d.micro < 1000000
  }

  /** `YYYY-MM-DD` and the `T` separator. */
  function DatePart(d: DateTime): (s: string)
    requires Valid(d)
    ensures |s| == 11
    ensures s[0..4] == PadNat(d.year, 4) && s[4] == '-' && s[5..7] == PadNat(d.month, 2)
    ensures s[7] == '-' && s[8..10] == PadNat(d.day, 2)
  {
    PadNat(d.year, 4) + "-" + PadNat(d.month, 2) + "-" + PadNat(d.day, 2) + "T"
  }

  /** `HH:MM:SS`. */
  function TimePart(d: DateTime): (s: string)
    requires Valid(d)
    ensures |s| == 8
    ensures s[0..2] == PadNat(d.hour, 2) && s[2] == ':' && s[3..5] == PadNat(d.minute, 2)
    ensures s[5] == ':' && s[6..8] == PadNat(d.second, 2)
  {
    PadNat(d.hour, 2) + ":" + PadNat(d.minute, 2) + ":" + PadNat(d.second, 2)
  }

  /** `d.isoformat()`: `YYYY-MM-DDTHH:MM:SS`, followed by `.ffffff` only when
      the microsecond is not zero. */
  function IsoFormat(d: DateTime): (s: string)
    requires Valid(d)
    ensures |s| == if d.micro == 0 then 19 else 26
  {
    DatePart(d) + TimePart(d) + (if d.micro == 0 then "" else "." + PadNat(d.micro, 6))
  }

  predicate DigitsAt(s: string, i: nat, w: nat) {
    i + w <= |s| && forall k :: i <= k < i + w ==> IsDigit(s[k])
  }

  function FieldAt(s: string, i: nat, w: nat): nat
    requires DigitsAt(s, i, w)
  {
    ParseNat(s[i..i + w])
  }

  /** The fixed punctuation and digit positions of the two isoformat layouts;
      any single character may separate the date from the time. */
  predicate IsoShape(s: string) {
    (|s| == 19 || (|s| == 26 && s[19] == '.' && DigitsAt(s, 20, 6))) &&
    DigitsAt(s, 0, 4) && s[4] == '-' && DigitsAt(s, 5, 2) && s[7] == '-' && DigitsAt(s, 8, 2) &&
    DigitsAt(s, 11, 2) && s[13] == ':' && DigitsAt(s, 14, 2) && s[16] == ':' && DigitsAt(s, 17, 2)
  }

  /** `datetime.fromisoformat(s)` restricted to the two layouts `isoformat`
      produces; `None` stands for the `ValueError` raised on an invalid date
      in those layouts, and for every other layout, including the date-only,
      offset and short-fraction forms Python also accepts. */
  function FromIsoFormat(s: string): (o: Option<DateTime>)
    ensures o.Some? ==> Valid(o.value)
  {
    if !IsoShape(s) then None
    else
      var d := DateTime(FieldAt(s, 0, 4), FieldAt(s, 5, 2), FieldAt(s, 8, 2),
                        FieldAt(s, 11, 2), FieldAt(s, 14, 2), FieldAt(s, 17, 2),
                        if |s| == 26 then FieldAt(s, 20, 6) else 0);
      if Valid(d) then Some(d) else None
  }

  /** Each field of the text sits at its fixed position. */
  lemma IsoFields(d: DateTime)
    requires Valid(d)
    ensures var s := IsoFormat(d);
      s[0..4] == PadNat(d.year, 4) && s[4] == '-' && s[5..7] == PadNat(d.month, 2) &&
      s[7] == '-' && s[8..10] == PadNat(d.day, 2) &&
      s[11..13] == PadNat(d.hour, 2) && s[13] == ':' && s[14..16] == PadNat(d.minute, 2) &&
      s[16] == ':' && s[17..19] == PadNat(d.second, 2) &&
      (d.micro != 0 ==> s[19] == '.' && s[20..26] == PadNat(d.micro, 6))
  {
    var s := IsoFormat(d);
    var a, b := DatePart(d), TimePart(d);
    var t := if d.micro == 0 then "" else "." + PadNat(d.micro, 6);
    assert s[..11] == a && s[11..19] == b && s[19..] == t;
    assert s[0..4] == a[0..4] && s[5..7] == a[5..7] && s[8..10] == a[8..10];
    assert s[11..13] == b[0..2] && s[14..16] == b[3..5] && s[17..19] == b[6..8];
    if d.micro != 0 {
      assert s[20..26] == t[1..];
    }
  }

  /** A zero-padded field reads back as its number. */
  lemma FieldRead(s: string, i: nat, w: nat, n: nat)
    requires n < Pow10(w) && i + w <= |s| && s[i..i + w] == PadNat(n, w)
    ensures DigitsAt(s, i, w) && FieldAt(s, i, w) == n
  {
    ParsePadNat(n, w);
    forall k | i <= k < i + w ensures IsDigit(s[k]) {
      assert s[k] == s[i..i + w][k - i];
    }
  }

  /** Parsing the text `isoformat` produces gives back the same datetime. */
  lemma IsoRoundTrip(d: DateTime)
    requires Valid(d)
    ensures FromIsoFormat(IsoFormat(d)) == Some(d)
  {
    var s := IsoFormat(d);
    IsoFields(d);
    FieldRead(s, 0, 4, d.year);
    FieldRead(s, 5, 2, d.month);
    FieldRead(s, 8, 2, d.day);
    FieldRead(s, 11, 2, d.hour);
    FieldRead(s, 14, 2, d.minute);
    FieldRead(s, 17, 2, d.second);
    if d.micro != 0 {
      FieldRead(s, 20, 6, d.micro);
    }
    assert IsoShape(s);
  }
}

=== FILE: wrappers.dfy ===
/** Optional values, standing in for Python's `None`-or-value results and for
    operations that raise: `None` is the exception. */
module Wrappers {

  datatype Option<+T> = None | Some(value: T) {

    /** The value, or `default` when there is none. */
    function GetOr(default: T): T {
      match this
      case Some(v) => v
      case None => default
    }

    predicate IsFailure() {
      None?
    }

    function PropagateFailure<U>(): Option<U>
      requires None?
    {
      None
    }

    function Extract(): T
      requires Some?
    {
      value
    }
  }
}
